=== FILE: README.md ===
# fusion-data, modelled in Dafny

This project models the sequential core of the `zer0g.fusion.data` Java
library. The library holds typed, schema-described data and moves it
through a three-state lifecycle (INIT, then WRITE, then READ). The model
covers:

- **Lifecycle.** The INIT → WRITE → READ state machine that objects,
  lists, maps, blobs and `IwrList` share. It includes the pre-transition
  hook that may veto a step, and `clone` into a wanted state (`Iwr`).
- **Schemas.** Field schemas with their flag bits and the rule that a key
  field is readonly and never nullable (`Fields`). Object schemas with
  dense re-indexing, case-blind name uniqueness and the key-field sublist
  (`Schemas`).
- **Values.** The fifteen value kinds and the tagged `FusionValue` with
  its unique NULL (`Values`, `FusionValues`). Equality, ordering and
  hashing (`ValueOps`). The integer widening and exact narrowing between
  byte, short, int, long and big integers (`Convert`).
- **Kinds, domains and coercion.** Range compilation and validation
  (`Ranges`). Domains and their item domains (`Domains`). The conversion
  every value goes through, `from` (`Coerce`). Per-kind zero values
  (`Zeros`). Qualified types and string subtypes (`Types`). Validation
  reporting (`Validation`).
- **Objects.** Field setting under the lifecycle, key-instance, readonly
  and nullable rules; bulk checks before a state change; `reset`; the
  `asMap` view; paths; equality, ordering and hashing (`ObjectCore`,
  `Objects`). Schema derivation from accessors and key instances
  (`ObjectTypes`). Record-backed objects (`Records`). The type registry
  (`Fusion`).
- **Containers.** `FusionList` (`Lists`) and `FusionMap` (`Maps`), whose
  keys are kept in case-insensitive order (`NoCaseMaps`, over
  `NoCase`). The lifecycle-gated `IwrList` (`IwrLists`).
- **JSON.**
  - The reader's lexer over a text and a position, following sections 6
    and 7 of RFC 8259 (`JsonLex`).
  - The kind-directed reader (`JsonRead`) and the writer (`JsonWrite`).
  - A proof that every plain value written with the escaping encoder
    reads back as itself (`JsonRoundTrip`). The encoder as written does
    not escape a quote, so a string holding one does not read back (see
    "Findings").
- **Blobs and identifiers.**
  - The blob byte buffer, with its single writer slot and self-closing
    stream cursors (`Blobs`).
  - The `"<hash>.<size>"` blob reference (`BlobRefs`).
  - Dotted case-insensitive identifiers (`Idents`).
  - Java number text (`NumText`).

Every exception the library throws is an `Err` of a `Result`. The error
carries the exception's class and message (`Wrappers`), so each error path
is something a contract can state. The EOFException the reader and the
blob streams raise has no message; its message is empty in the model and
prints as "null" where Java concatenates it (`Wrappers.MessageText`).
Where the library's code departs from its evident intent, the model keeps
both versions: the code as written and a corrected definition. A lemma
exhibits the difference, and the intended property is proved of the
corrected definition (see "Findings"). The rest of the model calls the
corrected definitions, not the as-written ones: `Coerce.From` freezes the
list or map it copies, `Ranges.CompileRange` keeps `BigDecimal` bounds,
and `Ranges.DomainValidate` checks the length of every string subtype. So
the list and map wrappers, the object setters and every JSON reader follow
the intended behaviour, and each of those members has a line under
"## Left out".

Source paths below are relative to the library's repository root.

## Model

| member | source | states |
|---|---|---|
| Iwr.RequireWritable | src/main/java/zer0g/fusion/data/InitWriteReadStateData.java:20-31 | passes exactly when the state is not READ; otherwise fails with "Not writable!" |
| Iwr.RequireWrite | src/main/java/zer0g/fusion/data/InitWriteReadStateData.java:33-41 | passes exactly in WRITE; otherwise fails with "Not write!" |
| Iwr.RequireReadonly | src/main/java/zer0g/fusion/data/InitWriteReadStateData.java:43-47 | passes exactly in READ; otherwise fails with "Not readonly!" |
| Iwr.RequireInit | src/main/java/zer0g/fusion/data/InitWriteReadStateData.java:49-60 | passes exactly in INIT; otherwise fails with an IllegalState error |
| Iwr.Trans | src/main/java/zer0g/fusion/data/InitWriteReadStateData.java:128-131 | the hook runs before the state changes: the new state is reached exactly when the hook passes, and a vetoed transition reports the hook's own error |
| Iwr.DoneInit | src/main/java/zer0g/fusion/data/InitWriteReadStateData.java:69-75 | succeeds exactly from INIT with a passing hook and ends in WRITE; from WRITE or READ it fails with "Already done-init!"; a hook veto is reported as is |
| Iwr.DoneWrite | src/main/java/zer0g/fusion/data/InitWriteReadStateData.java:88-94 | succeeds exactly from INIT or WRITE with a passing hook and ends in READ; from READ it fails with "Not writable!" |
| Iwr.EnsureReadonly | src/main/java/zer0g/fusion/data/InitWriteReadStateData.java:143-148 | always ends in READ when it succeeds; an entity already READ is returned without consulting the hook; it fails only on a hook veto from INIT or WRITE |
| Iwr.Clone | src/main/java/zer0g/fusion/data/InitWriteReadStateData.java:96-126 | a successful clone is always in the wanted state; the receiver itself is returned exactly when both are READ; it fails exactly when it must move forward and the hook vetoes |
| Iwr.CloneForWrite | src/main/java/zer0g/fusion/data/InitWriteReadStateData.java:159-161 | a successful result is a copy in WRITE |
| Iwr.CloneForRead | src/main/java/zer0g/fusion/data/InitWriteReadStateData.java:173-175 | a successful result is in READ, and a READ receiver is returned itself |
| Iwr.CloneForInit | src/main/java/zer0g/fusion/data/InitWriteReadStateData.java:165-171 | never fails, and yields a copy in INIT |
| Iwr.TransitionsMoveForward | src/main/java/zer0g/fusion/data/InitWriteReadStateData.java:69-94 | doneInit moves exactly one step forward, doneWrite and ensureReadonly never move backward |
| Iwr.ReadIsFinal | src/main/java/zer0g/fusion/data/InitWriteReadStateData.java:20-24 | from READ neither transition succeeds, writes are refused, and ensureReadonly stays in READ |
| Iwr.CloneBackwardAlwaysSucceeds | src/main/java/zer0g/fusion/data/InitWriteReadStateData.java:110-118 | cloning to the same or an earlier state succeeds whatever the hook says, and its result does not depend on the hook |
| Fields.SetFlag | src/main/java/zer0g/fusion/data/FusionFieldSchema.java:22-24 | the flag's bits are set and every other bit is kept |
| Fields.UnsetFlag | src/main/java/zer0g/fusion/data/FusionFieldSchema.java:26-31 | the flag's bits are cleared and every other bit is kept, whether or not the flag was set before |
| Fields.SetUnsetInverse | src/main/java/zer0g/fusion/data/FusionFieldSchema.java:22-31 | clearing a flag just set gives back flags in which it was clear |
| Fields.MakeField | src/main/java/zer0g/fusion/data/FusionFieldSchema.java:41-58 | the field is built exactly when the key rule holds and a non-null default matches the domain's kind and class; a nullable key is refused before a non-readonly key, and a default of the wrong kind names that kind |
| Fields.DefaultValue | src/main/java/zer0g/fusion/data/FusionFieldSchema.java:90-92 | NULL when the field has no default, the default otherwise |
| Fields.WithIndex | src/main/java/zer0g/fusion/data/FusionFieldSchema.java:86-88 | name, domain, flags and default are kept and only the index is replaced |
| Fields.WithIndexRevalidates | src/main/java/zer0g/fusion/data/FusionFieldSchema.java:86-88 | re-running the constructor's checks on a field it built never fails, so re-indexing always succeeds |
| Fields.KeyFieldIsReadonly | src/main/java/zer0g/fusion/data/FusionFieldSchema.java:42-49 | every key field the constructor accepts is readonly and not nullable |
| Schemas.Reindex | src/main/java/zer0g/fusion/data/FusionObjectSchema.java:68-72 | same length, field i is the index copy of input field i with index i |
| Schemas.KeyFields | src/main/java/zer0g/fusion/data/FusionObjectSchema.java:82 | every kept field is a key field of the input and there are no more than the input has |
| Schemas.KeyFieldsComplete | src/main/java/zer0g/fusion/data/FusionObjectSchema.java:82 | every key field of the input is kept |
| Schemas.KeyFieldsAppend | src/main/java/zer0g/fusion/data/FusionObjectSchema.java:82 | the filter keeps relative order: the key fields of a concatenation are those of each part in turn |
| Schemas.FirstRepeat | src/main/java/zer0g/fusion/data/FusionObjectSchema.java:73-80 | none exactly when all names differ ignoring case; otherwise the first position whose name repeats an earlier one, with all names before it distinct |
| Schemas.RepeatKept | src/main/java/zer0g/fusion/data/FusionObjectSchema.java:73-80 | a repeat among the earlier fields stays the first repeat when a field is appended |
| Schemas.LastRepeats | src/main/java/zer0g/fusion/data/FusionObjectSchema.java:73-80 | with unique earlier names, an appended field that repeats one of them is the first repeat |
| Schemas.MakeSchema | src/main/java/zer0g/fusion/data/FusionObjectSchema.java:54-84 | a null id or field list and a supplied field map or key list are refused, in that order; otherwise it succeeds exactly when names are unique ignoring case, with fields re-indexed densely, key fields filtered in order, and an empty list giving empty results |
| Schemas.MadeSchemaIsIndexed | src/main/java/zer0g/fusion/data/FusionObjectSchema.java:68-82 | a built schema has field i at index i, unique names, and key fields drawn from its fields |
| Schemas.FindField | src/main/java/zer0g/fusion/data/FusionObjectSchema.java:94-96 | finds a field exactly when one has the name ignoring case, and what it finds has that name |
| Schemas.FindInUnique | src/main/java/zer0g/fusion/data/FusionObjectSchema.java:73-96 | with unique names the lookup finds each field under any spelling of its name that differs only in case |
| Schemas.FieldNamed | src/main/java/zer0g/fusion/data/FusionObjectSchema.java:86-92 | the field found by findField, or "No such field" when there is none |
| Schemas.FieldNamedIndex | src/main/java/zer0g/fusion/data/FusionObjectSchema.java:68-96 | in a built schema the field found under a name sits at its own index |
| Values.KindFromName | src/main/java/zer0g/fusion/data/FusionValueType.java:658-665 | the kind found under a name carries exactly that name; an unknown name is an IllegalArgument error |
| Values.KindNameRoundTrip | src/main/java/zer0g/fusion/data/FusionValueType.java:656-678 | every kind is found again under its own name |
| Values.KindOf | src/main/java/zer0g/fusion/data/FusionValue.java:106-112 | the kind is ANY exactly for NULL, and temporal exactly for the temporal payloads |
| Values.ClassType | src/main/java/zer0g/fusion/data/FusionValueType.java:767-793 | a registered payload class maps to a kind other than ANY; only the bare FusionObject interface, whose type is never registered, is refused |
| Values.TypeOfPayload | src/main/java/zer0g/fusion/data/FusionValueType.java:759-765 | the qualified type of a payload has the payload's own kind |
| Values.Lookup | src/main/java/zer0g/fusion/data/FusionMap.java:95-98 | finds a value exactly when some entry's key equals the key ignoring case, and the value found belongs to such an entry |
| FusionValues.New | src/main/java/zer0g/fusion/data/FusionValue.java:101-104 | refuses a null kind or payload with a NullPointer error; what it builds is the payload, never NULL |
| FusionValues.Clone | src/main/java/zer0g/fusion/data/FusionValue.java:204-215 | the clone of NULL is NULL, and every clone keeps its value's kind |
| FusionValues.ConvertTo | src/main/java/zer0g/fusion/data/FusionValue.java:125-134 | NULL converts to null; a payload the desired class can hold is returned unchanged; any successful conversion keeps the kind and is assignable to the desired class |
| FusionValues.LookupOwnKey | src/main/java/zer0g/fusion/data/FusionMap.java:95-98 | in a sorted map each entry is found under its own key |
| FusionValues.EqualReflexive | src/main/java/zer0g/fusion/data/FusionValue.java:187-202 | every well-formed value equals itself |
| FusionValues.CloneEquals | src/main/java/zer0g/fusion/data/FusionValue.java:204-215 | a clone equals its original |
| FusionValues.WidthsDistinguish | src/test/java/zer0g/fusion/data/FusionValueTest.java:28 | a short 5 does not equal an int 5 |
| ValueOps.IntHash | src/main/java/zer0g/fusion/data/FusionValue.java:182-185 | the Java integer hash fits 32 bits and is the value itself for the classes up to int |
| ValueOps.Equal | src/main/java/zer0g/fusion/data/FusionValue.java:187-202 | equal values are of one kind, and NULL equals exactly NULL |
| ValueOps.Hash | src/main/java/zer0g/fusion/data/FusionValue.java:182-185 | a hash is a 32-bit value, and a list or map hashes exactly when it is readonly |
| ValueOps.Compare | src/main/java/zer0g/fusion/data/FusionValue.java:165-180 | the corrected order: NULL equals NULL and comes before every other value; non-null values of different kinds are a ClassCast error; lists, maps and blobs do not compare |
| ValueOps.CompareObjects | src/main/java/zer0g/fusion/data/FusionObject.java:107-117 | objects compare only when of one type and schema with key fields, and a schema without key fields is refused as unsupported |
| ValueOps.CompareOn | src/main/java/zer0g/fusion/data/FusionObject.java:119-125 | 0 exactly when every key field compares 0, in order; otherwise the result of the first key field that does not compare 0; key field values compare with the corrected NULL-first order, not the as-written `compareTo` (see "Findings") |
| ValueOps.StrCompare | src/main/java/zer0g/fusion/data/FusionValueType.java:1027-1029 | strings compare only within one subtype or between the two identifier classes, never as URLs; the case-blind classes compare equal exactly when the lower-cased texts agree, the others exactly when the texts agree |
| ValueOps.CompareAsWritten | src/main/java/zer0g/fusion/data/FusionValue.java:165-180 | the kind check comes first, so values of different kinds, NULL against a non-null value among them, are a ClassCast error; two values holding the same payload object compare as 0; otherwise the result is that of the NULL-first order |
| ValueOps.SameObjectComparesEqual | src/main/java/zer0g/fusion/data/FusionValue.java:169-171 | an object of a keyless type compared with itself is 0 as written, through the identity shortcut, while comparing its contents is refused as unsupported |
| ValueOps.CompareAsWrittenRejectsNull | src/main/java/zer0g/fusion/data/FusionValue.java:165-180 | comparing NULL with an int zero fails with ClassCast, where the NULL-first order gives -1 |
| ValueOps.KeyFieldNullOrders | src/main/java/zer0g/fusion/data/FusionObject.java:119-125 | objects whose one key field is NULL in one and 0 in the other compare as -1 with the corrected order, while the as-written `compareTo` of the two field values is a ClassCast error |
| ValueOps.CompareAntisymmetric | src/main/java/zer0g/fusion/data/FusionValue.java:165-180 | swapping the operands succeeds or fails alike and negates the result |
| ValueOps.StrCompareAntisymmetric | src/main/java/zer0g/fusion/data/FusionValue.java:165-180 | two string payloads compare in either order alike, and the results are negatives |
| ValueOps.DecCompareAntisymmetric | src/main/java/zer0g/fusion/data/FusionValue.java:165-180 | two decimal payloads at any scales compare to negated results when swapped |
| ValueOps.CompareObjectsAntisymmetric | src/main/java/zer0g/fusion/data/FusionObject.java:107-125 | comparing objects is antisymmetric in the same sense |
| ValueOps.CompareOnAntisymmetric | src/main/java/zer0g/fusion/data/FusionObject.java:119-125 | the key-field comparison is antisymmetric in the same sense |
| ValueOps.EqualSameHash | src/main/java/zer0g/fusion/data/FusionValue.java:182-202 | equal values hash alike whenever both hash |
| NoCase.LowerStr | src/main/java/zer0g/fusion/data/NoCaseString.java:52-55 | lower-casing keeps the length and maps every character to its lower case |
| NoCase.CompareIgnoreCaseIsLowerCompare | src/main/java/zer0g/fusion/data/NoCaseString.java:27-30 | comparing ignoring case is comparing the lower-cased strings character by character |
| NoCase.JavaCompareZeroIff | src/main/java/zer0g/fusion/data/NoCaseString.java:27-30 | the character order says 0 exactly for equal strings |
| NoCase.JavaCompareAntisymmetric | src/main/java/zer0g/fusion/data/NoCaseString.java:27-30 | swapping the strings negates the character comparison |
| NoCase.JavaCompareTransitive | src/main/java/zer0g/fusion/data/NoCaseString.java:27-30 | the character order is transitive |
| NoCase.CompareIgnoreCaseZeroIff | src/main/java/zer0g/fusion/data/NoCaseString.java:27-63 | two strings compare 0 ignoring case exactly when their lower cases are equal |
| NoCase.CompareIgnoreCaseOrder | src/main/java/zer0g/fusion/data/NoCaseString.java:27-30 | the case-insensitive order is antisymmetric and transitive |
| NoCase.JavaHash | src/main/java/zer0g/fusion/data/NoCaseString.java:52-55 | the string hash is a 32-bit value |
| NoCase.JavaHashStep | src/main/java/zer0g/fusion/data/NoCaseString.java:52-55 | the hash of the empty string is 0, and appending a character gives 31 times the hash plus the character, wrapped to 32 bits, which is how `String.hashCode` computes it |
| NoCase.Compare | src/main/java/zer0g/fusion/data/NoCaseString.java:27-30 | 0 exactly when the lower-cased strings are equal, and swapping the operands negates the result |
| NoCase.Equals | src/main/java/zer0g/fusion/data/NoCaseString.java:57-63 | equal exactly when equal ignoring case, and equal strings hash alike |
| NoCase.Hash | src/main/java/zer0g/fusion/data/NoCaseString.java:52-55 | the hash of the lower-cased text is a 32-bit value |
| NoCase.Length | src/main/java/zer0g/fusion/data/NoCaseString.java:32-35 | `charAt` accepts exactly the indices below the length, and the subsequence from 0 to the length is the string itself |
| NoCase.CharAt | src/main/java/zer0g/fusion/data/NoCaseString.java:37-40 | the character of the original string at an index within bounds; any other index is an IndexOutOfBounds error |
| NoCase.SubSequence | src/main/java/zer0g/fusion/data/NoCaseString.java:42-45 | succeeds exactly for 0 <= start <= end <= length, giving the original's characters from start to end; otherwise an IndexOutOfBounds error |
| NoCase.NoCaseEqualsHash | src/main/java/zer0g/fusion/data/NoCaseString.java:52-63 | equality is equality of the lower-cased text, it is symmetric, and equal strings hash alike |
| NoCaseMaps.SameOrder | src/main/java/zer0g/fusion/data/FusionMap.java:11 | keys equal ignoring case sit at the same place in the map's order |
| NoCaseMaps.PutEntry | src/main/java/zer0g/fusion/data/FusionMap.java:100-105 | put reports the value previously found under the key, and adds an entry exactly when there was none |
| NoCaseMaps.PutKeepsSorted | src/main/java/zer0g/fusion/data/FusionMap.java:100-105 | put keeps the keys in case-insensitive order |
| NoCaseMaps.PutThenLookup | src/main/java/zer0g/fusion/data/FusionMap.java:100-105 | after put the key finds the new value and every other key finds what it found before |
| NoCaseMaps.PutAll | src/main/java/zer0g/fusion/data/FusionMap.java:14-19 | the copy constructor's puts leave the keys sorted |
| NoCaseMaps.PutAllHasKeys | src/main/java/zer0g/fusion/data/FusionMap.java:14-19 | every key of the source map is present in the copy |
| NoCaseMaps.PutAllKeeps | src/main/java/zer0g/fusion/data/FusionMap.java:14-19 | a key already present stays present through further puts |
| NoCaseMaps.PutAllSize | src/main/java/zer0g/fusion/data/FusionMap.java:14-19 | putting new keys, distinct ignoring case, adds one entry per key |
| NoCaseMaps.Spelling | src/main/java/zer0g/fusion/data/FusionMap.java:100-105 | a key is stored under a spelling equal to it ignoring case |
| NoCaseMaps.PutMembers | src/main/java/zer0g/fusion/data/FusionMap.java:100-105 | after put the entries are the old entries under other keys plus the new value under the key's stored spelling |
| NoCaseMaps.SpellingAfterPut | src/main/java/zer0g/fusion/data/FusionMap.java:100-105 | put under one key leaves the spelling of every other key alone |
| NoCaseMaps.SortedUnique | src/main/java/zer0g/fusion/data/FusionMap.java:125-128 | two sorted maps with the same entries are the same sequence, so iteration order depends on the contents alone |
| NoCaseMaps.PutCommutes | src/main/java/zer0g/fusion/data/FusionMap.java:100-105 | puts under keys that differ ignoring case commute, so insertion order does not change the map |
| Types.FirstDot | src/main/java/zer0g/fusion/data/FusionValueType.java:659 | the position of a '.' with none before it, or -1 when the text has none |
| Types.QtFromString | src/main/java/zer0g/fusion/data/FusionValueType.java:658-666 | whatever it reads, written back by toString, is the input text; an unknown kind name is an IllegalArgument error |
| Types.QtRoundTrip | src/main/java/zer0g/fusion/data/FusionValueType.java:656-678 | fromString reads back every qualified type toString writes, whatever dots its qualifier holds |
| Types.KindNameHasNoDot | src/main/java/zer0g/fusion/data/FusionValueType.java:659-665 | no kind name holds a '.', so the first dot of a qualified type's text ends its kind |
| Types.FirstDotAfter | src/main/java/zer0g/fusion/data/FusionValueType.java:659 | the first dot of a text is found after a prefix that has none |
| Types.RegisterClass | src/main/java/zer0g/fusion/data/FusionValueType.java:724-736 | a class is mapped to one qualified type only: a new class is added with nothing else changed, and a second mapping is an IllegalArgument error |
| Types.RegisterStringSubtype | src/main/java/zer0g/fusion/data/FusionValueType.java:681-717 | registration succeeds exactly when the name and the class are both new; it then adds the subtype and maps its class to STRING qualified by the name; a repeated name is refused naming it |
| Types.RegisterSubtypeTwice | src/main/java/zer0g/fusion/data/FusionValueType.java:684-689 | registering the same subtype a second time is refused |
| Types.BadQualifier | src/main/java/zer0g/fusion/data/FusionValueType.java:826-828 | the error is an IllegalArgument |
| Types.DefaultClass | src/main/java/zer0g/fusion/data/FusionValueType.java:896-952 | every kind but ANY has a payload class |
| Types.JavaDataClass | src/main/java/zer0g/fusion/data/FusionValueType.java:96-105 | no qualifier gives the kind's own class; a class it gives is registered under the same kind, and only OBJECT gives the FusionObject interface; every other kind but ANY gives some class; a refusal is an IllegalArgument error |
| Types.DefaultClassType | src/main/java/zer0g/fusion/data/FusionValueType.java:614-621 | the unqualified class of each kind is registered under that kind |
| Types.QualifiedClass | src/main/java/zer0g/fusion/data/FusionValueType.java:96-105 | a qualifier is accepted only with a class registered under the same kind; LIST and MAP accept any qualifier |
| Types.ScalarClass | src/main/java/zer0g/fusion/data/FusionValueType.java:96-105 | INTEGER, DECIMAL and STRING accept only qualifiers naming classes registered under themselves |
| Types.ContainerClass | src/main/java/zer0g/fusion/data/FusionValueType.java:394-396 | OBJECT and ENUM accept qualifiers naming registered classes, LIST and MAP accept any, every other kind none |
| Types.SubtypeClass | src/main/java/zer0g/fusion/data/FusionValueType.java:224-238 | a STRING qualifier is accepted exactly when it names a registered subtype, whose class it then gives |
| Types.IntQualifier | src/main/java/zer0g/fusion/data/FusionValueType.java:96-105 | the INTEGER qualifiers name widths other than int, and anything else is refused as a bad qualifier |
| Types.DecQualifier | src/main/java/zer0g/fusion/data/FusionValueType.java:175-182 | the DECIMAL qualifiers name float or double, and anything else is refused as a bad qualifier |
| Types.SubtypeParse | src/main/java/zer0g/fusion/data/FusionValueType.java:629-649 | the corrected parser, which the rest of the model uses: a parsed value carries its subtype; char accepts exactly texts of at most one character and yields one; dotident accepts exactly valid identifiers and ident exactly single-part ones; path, uri and url accept exactly the text their JDK parser accepts and otherwise fail with that parser's error; nocase accepts any text; every accepted text but char's is kept |
| Types.SubtypeParseAsWritten | src/main/java/zer0g/fusion/data/FusionValueType.java:629-649 | the parser the source runs: ident accepts exactly the valid identifiers, dotted ones included, keeping the text; every other subtype, path, uri and url with their JDK parser's verdict among them, parses as the corrected parser does |
| Types.IdentSubtypeAcceptsDots | src/main/java/zer0g/fusion/data/Ident.java:22 | as written the ident subtype accepts `a.b`, which the corrected parser refuses |
| Types.SubtypeParseIdempotent | src/main/java/zer0g/fusion/data/FusionValueType.java:629-649 | with the corrected parser, parsing the text of a parsed subtype value gives the same value |
| Types.SubtypeZero | src/main/java/zer0g/fusion/data/FusionValueType.java:704-707 | the zero is NULL exactly when the subtype has no zero payload, and otherwise that payload |
| Types.SubtypeZeroParses | src/main/java/zer0g/fusion/data/FusionValueType.java:629-649 | each built-in zero is a value its own parser accepts |
| Convert.FitsWider | src/main/java/zer0g/fusion/data/FusionValueType.java:127-141 | a number that fits a class fits every wider one |
| Convert.ConvertInteger | src/main/java/zer0g/fusion/data/FusionValueType.java:116-161 | conversion succeeds exactly for an integer that fits the target class, and keeps its number; a decimal payload is an IllegalArgument error, a non-number a ClassCast error, and a number too wide an Arithmetic error |
| Convert.WideningSucceeds | src/main/java/zer0g/fusion/data/FusionValueType.java:127-141 | widening always succeeds and keeps the number |
| Convert.ConvertIntegerRoundTrip | src/main/java/zer0g/fusion/data/FusionValueType.java:116-161 | converting to another class and back gives the original payload |
| Convert.Int64 | src/main/java/zer0g/fusion/data/FusionValueType.java:147 | Java long arithmetic: the result fits 64 bits and is the number itself when it already fits |
| Convert.ConvertDecimal | src/main/java/zer0g/fusion/data/FusionValueType.java:199-220 | every number converts to a decimal of the target class and a non-number is refused, as a ClassCast error for float and double; an integer keeps its value exactly, with scale 0; a decimal converted to float or double, or a float or double converted to BigDecimal, keeps its unscaled value and scale; a BigDecimal converted to BigDecimal becomes its `longValue()` with scale 0 |
| Convert.LongValue | src/main/java/zer0g/fusion/data/FusionValueType.java:216 | `longValue()` lies in the 64-bit range; an integer that fits is kept; a decimal whose integer part fits becomes that integer part, rounded toward zero |
| Convert.TruncDiv | src/main/java/zer0g/fusion/data/FusionValueType.java:216 | the quotient rounded toward zero: the largest multiple of the divisor not beyond the dividend, seen from zero |
| Convert.ConvertDecimalDropsFraction | src/main/java/zer0g/fusion/data/FusionValueType.java:209-217 | on the branch the entry assertion excludes, a BigDecimal taken through longValue() loses its fraction: 1.5 becomes 1 and -1.5 becomes -1 |
| Domains.ItemRange | src/main/java/zer0g/fusion/data/FusionValueDomain.java:70-76 | the item range is the third item of a range list of at least three items, and NULL otherwise |
| Domains.MakeDomain | src/main/java/zer0g/fusion/data/FusionValueDomain.java:49-80 | a built domain keeps kind, qualifier and range, has a compiled range exactly when the range is not NULL, looks up an OBJECT qualifier as a registered type and every other kind's class, and has an item domain exactly for LIST and MAP: ANY without a qualifier, otherwise the qualified type read from the qualifier with the item range; a LIST or MAP item kind is refused |
| Domains.Canonical | src/main/java/zer0g/fusion/data/FusionValueDomain.java:34-48 | a null kind or range is a NullPointer error, and a supplied compiled range, item domain, object type or data class is refused in that order with its own message; otherwise the derived parts are built |
| Domains.BuiltItem | src/main/java/zer0g/fusion/data/FusionValueDomain.java:60-78 | the item domain of a built collection domain is itself built and is not a collection |
| Domains.AnyDomainsBuilt | src/main/java/zer0g/fusion/data/FusionValueDomain.java:15-63 | ANY is a built domain, and LIST and MAP without a qualifier get item domain ANY |
| Domains.NestedListRefused | src/main/java/zer0g/fusion/data/FusionValueDomain.java:65-69 | a LIST of LIST is refused whatever its range |
| Ranges.RangeItems | src/main/java/zer0g/fusion/data/FusionValueType.java:833-861 | a range's items are read only from a list |
| Ranges.NumberPair | src/main/java/zer0g/fusion/data/FusionValueType.java:861-863 | the bounds are the first item and the second when there is one, and each must be null or a number |
| Ranges.ConvertBoundAsWritten | src/main/java/zer0g/fusion/data/FusionValueType.java:864-869 | each bound goes through the kind's convert, even one already of the class |
| Ranges.ConvertBound | src/main/java/zer0g/fusion/data/FusionValueType.java:992-999 | a bound already of the class is kept as it is; any other goes through convert |
| Ranges.CompileNumberRangeAsWritten | src/main/java/zer0g/fusion/data/FusionValueType.java:858-871 | a compiled range has a minimum exactly when the first item is not null, and a maximum exactly when a second item is present and not null |
| Ranges.CompileNumberRange | src/main/java/zer0g/fusion/data/FusionValueType.java:858-871 | bounds already of the class compile to themselves |
| Ranges.IntegerRangesAgree | src/main/java/zer0g/fusion/data/FusionValueType.java:858-871 | for the integer classes convert keeps a bound of the right class, so the as-written and corrected compilations agree |
| Ranges.DecimalRangeTruncated | src/main/java/zer0g/fusion/data/FusionValueType.java:209-217 | as written, a BigDecimal range from 1.5 to 2.5 compiles to 1 to 2; the corrected compilation keeps 1.5 to 2.5 |
| Ranges.CompileLengthRange | src/main/java/zer0g/fusion/data/FusionValueType.java:844-856 | succeeds exactly when the Integer range compiles with min >= 0, max > 0 and max >= min when both are present, yielding that range; a bound check failure is an IllegalArgument error |
| Ranges.TextBound | src/main/java/zer0g/fusion/data/FusionValueType.java:834-835 | a bound of a lexical range is a plain string or null |
| Ranges.ParseBound | src/main/java/zer0g/fusion/data/FusionValueType.java:836-837 | an absent bound stays absent and a parsed one is a value of the kind |
| Ranges.CompileLexical | src/main/java/zer0g/fusion/data/FusionValueType.java:830-842 | a compiled lexical range has a bound exactly where the list has a non-null text, each of the kind, and the maximum never precedes the minimum |
| Ranges.CompileRange | src/main/java/zer0g/fusion/data/FusionValueType.java:922-924 | STRING, LIST, MAP and BLOB compile a length range; ANY, BOOL, OBJECT and ENUM refuse any range; an INTEGER range compiles only under a valid qualifier |
| Ranges.CheckBounds | src/main/java/zer0g/fusion/data/FusionValueType.java:886-894 | passes exactly when the value is within both present bounds; below the minimum it reports "less than" with the minimum, otherwise above the maximum "greater than" with the maximum |
| Ranges.CheckLength | src/main/java/zer0g/fusion/data/FusionValueType.java:882-884 | for a length range a length passes exactly when it lies within the present bounds, and a failure is a validation error |
| Ranges.Length | src/main/java/zer0g/fusion/data/FusionValueType.java:246-248 | exactly strings, lists, maps and blobs have a length |
| Ranges.ValidateRangeAsWritten | src/main/java/zer0g/fusion/data/FusionValueType.java:245-248 | a STRING range cannot check a subtype payload, which fails with ClassCast; every other check is the corrected one |
| Ranges.ValidateRange | src/main/java/zer0g/fusion/data/FusionValueType.java:246-248 | the length-ranged kinds check the payload's length and the other kinds the payload itself |
| Ranges.SubtypeLengthRejected | src/main/java/zer0g/fusion/data/FusionValueType.java:245-248 | the nocase string "ab" fails the length range 1 to 5 as written and passes the corrected check |
| Ranges.DomainValidate | src/main/java/zer0g/fusion/data/FusionValueDomain.java:95-99 | without a compiled range nothing is checked, otherwise the kind's check decides |
| Ranges.CollectIgnored | src/main/java/zer0g/fusion/data/FusionValueDomain.java:95-99 | the outcome does not depend on the collection list |
| Validation.ExceptionMessage | src/main/java/zer0g/fusion/data/FusionDataType.java:61-64 | the message is the sole error when there is one, otherwise the count followed by " validation errors!" |
| Validation.Exception | src/main/java/zer0g/fusion/data/FusionDataType.java:49-59 | a validation exception is an IllegalArgumentException |
| Validation.Failed | src/main/java/zer0g/fusion/data/FusionDataType.java:13-86 | with a collection list the error is appended after the existing ones and nothing is thrown; without one it is thrown |
| Validation.FailedThrowsItsMessage | src/main/java/zer0g/fusion/data/FusionDataType.java:53-86 | a thrown single failure reports exactly its own message |
| Validation.FailedMsg | src/main/java/zer0g/fusion/data/FusionDataType.java:23-25 | the message is the validator's name and ": ", then the error or "failed" |
| NumText.DigitChar | src/main/java/zer0g/fusion/data/JsonWriter.java:40-42 | the character written for a digit is a decimal digit whose value is that digit |
| NumText.NatText | src/main/java/zer0g/fusion/data/JsonWriter.java:40-42 | the text of a natural number is a non-empty run of digits with no leading zero |
| NumText.IntText | src/main/java/zer0g/fusion/data/JsonWriter.java:40-42 | an integer's text is non-empty and starts with '-' exactly when the integer is negative |
| NumText.NatTextValue | src/main/java/zer0g/fusion/data/JsonWriter.java:40-42 | the digits written for a natural number read back as that number |
| NumText.DigitsValueAppend | src/main/java/zer0g/fusion/data/JsonReader.java:325-326 | appending a digit multiplies the value read so far by ten and adds the digit |
| NumText.ParseLong | src/main/java/zer0g/fusion/data/BlobRef.java:19 | a parsed long lies in the 64-bit range, and a text that is not one is an IllegalArgument (NumberFormat) error |
| NumText.LongTextRoundTrip | src/main/java/zer0g/fusion/data/BlobRef.java:19 | parsing the text of any 64-bit integer gives that integer back |
| NumText.DecimalText | src/main/java/zer0g/fusion/data/JsonWriter.java:48-50 | a decimal's text is non-empty and starts with '-' exactly when the unscaled value is negative; what it writes reads back as the same unscaled value and scale (JsonLex.DecimalReadsBack) |
| Zeros.ItemMinAsWritten | src/main/java/zer0g/fusion/data/FusionValueType.java:427-493 | with no item range the count is 0; with one it succeeds exactly when the range has an Integer minimum, and that minimum is the count |
| Zeros.LengthMin | src/main/java/zer0g/fusion/data/FusionValueType.java:423-437 | the least length the collection's own length range accepts: it passes the length check and every shorter length fails it |
| Zeros.ZeroWith | src/main/java/zer0g/fusion/data/FusionValueType.java:83-93 | ANY has no zero (an assertion error); every other zero is a scalar of the domain's kind, except the source's blob zero; only a qualified STRING whose subtype has no zero gives NULL; an OBJECT zero is a fresh object of the qualifier's registered type, an ENUM zero is the first constant, and LIST and MAP zeros are filled as the collection zero describes |
| Zeros.ZeroAssignable | src/main/java/zer0g/fusion/data/FusionValueType.java:423-437 | every zero except an object's and the source's blob zero is of the domain's Java data class, so the casts applied to it succeed |
| Zeros.CollectionZero | src/main/java/zer0g/fusion/data/FusionValueType.java:423-498 | without an item domain it is a NullPointer error; a zero is a readonly collection of the kind; a list holds the count of item zeros and a map holds them under key0, key1, ... |
| Zeros.Count | src/main/java/zer0g/fusion/data/FusionValueType.java:427-493 | as written the count is the item range's minimum; as intended it is the least length the collection's own range accepts |
| Zeros.Fill | src/main/java/zer0g/fusion/data/FusionValueType.java:433-496 | n items, each the item domain's zero, and none when n is not positive |
| Zeros.ItemZero | src/main/java/zer0g/fusion/data/FusionValueType.java:434-495 | a non-null item zero is of the item domain's kind unless that is ANY |
| Zeros.ZeroEntries | src/main/java/zer0g/fusion/data/FusionValueType.java:494-496 | the entries put into the map zero stay sorted by key ignoring case |
| Zeros.KeyedEntries | src/main/java/zer0g/fusion/data/FusionValueType.java:494-496 | item i is paired with the key "key" followed by i |
| Zeros.ZeroAsWritten | src/main/java/zer0g/fusion/data/FusionValueType.java:423-437 | the zero in the source's flavour: item range minimum for the count, BYTE_ZERO for a blob |
| Zeros.Zero | src/main/java/zer0g/fusion/data/FusionValueType.java:423-437 | the intended zero: the collection's own minimum length for the count, an empty readonly blob for a blob |
| Zeros.ZeroKeyLower | src/main/java/zer0g/fusion/data/FusionValueType.java:495 | the keys of a map zero are lower case already |
| Zeros.ZeroKeysDistinct | src/main/java/zer0g/fusion/data/FusionValueType.java:495 | keys at different positions differ even ignoring case |
| Zeros.ZeroEntriesCount | src/main/java/zer0g/fusion/data/FusionValueType.java:494-496 | a map zero has one entry per item, found under key0, key1, ... |
| Zeros.ZeroWithinLength | src/main/java/zer0g/fusion/data/FusionValueType.java:423-498 | the intended collection zero is exactly as long as its own length range's minimum and passes that range |
| Zeros.ShortZeroAsWritten | src/main/java/zer0g/fusion/data/FusionValueType.java:427-436 | the source's zero for a list with length range 2.. and unranged int items is empty |
| Zeros.ShortEmptyRefused | src/main/java/zer0g/fusion/data/FusionValueType.java:473-475 | LIST's from refuses an empty list for that domain |
| Zeros.ShortEmptyOutOfRange | src/main/java/zer0g/fusion/data/FusionValueType.java:473-475 | an empty list is outside the length range 2.. |
| Zeros.ListZeroTooShort | src/main/java/zer0g/fusion/data/FusionValueType.java:427-436 | the source's list zero is empty and from refuses it for the list's own domain |
| Zeros.ShortZeroFilled | src/main/java/zer0g/fusion/data/FusionValueType.java:423-437 | the intended zero of that list holds two int zeros |
| Zeros.ShortItemZero | src/main/java/zer0g/fusion/data/FusionValueType.java:83-86 | the item zero of an unqualified INTEGER domain is the int zero |
| Zeros.ShortFill | src/main/java/zer0g/fusion/data/FusionValueType.java:433-435 | two item zeros fill that list |
| Zeros.ListZeroFilled | src/main/java/zer0g/fusion/data/FusionValueType.java:423-437 | the intended list zero holds as many zeros as the list's own minimum length, and from accepts it unchanged |
| Zeros.ShortZeroPasses | src/main/java/zer0g/fusion/data/FusionValueType.java:423-437 | the filled list zero needs nothing more from `_from` and lies within its own length range |
| Zeros.BlobZeroIsAnInteger | src/main/java/zer0g/fusion/data/FusionValueType.java:576-579 | the source's blob zero is the INTEGER BYTE_ZERO, and from refuses it for a blob |
| Zeros.BlobZeroIsEmptyBlob | src/main/java/zer0g/fusion/data/FusionValueType.java:576-579 | the corrected blob zero is an empty readonly blob, and from hands it back unchanged |
| Coerce.Desired | src/main/java/zer0g/fusion/data/FusionValueType.java:992-993 | without a domain the wanted class is the kind's default class; with one it is the qualifier's class, and an unknown qualifier is an error |
| Coerce.Validated | src/main/java/zer0g/fusion/data/FusionValueType.java:986-988 | a value passes unchanged exactly when it lies within the domain's range, or there is no range to check |
| Coerce.StrConvert | src/main/java/zer0g/fusion/data/FusionValueType.java:258-277 | to String, any string-kind payload converts to its text and nothing else does; to a subtype class, only a plain String converts, through that subtype's parser; the result is of the wanted class |
| Coerce.ConvertPayload | src/main/java/zer0g/fusion/data/FusionValueType.java:117-277 | INTEGER, DECIMAL and STRING convert to a payload of the kind that the wanted class can hold; every other kind refuses with a convert error |
| Coerce.FromValue | src/main/java/zer0g/fusion/data/FusionValueType.java:967-990 | NULL gives NULL; ANY hands back a fusion value unchanged; a fusion value of another kind cannot be assigned; otherwise the result is of the kind, non-null, within the range, and needs nothing more once copies are frozen |
| Coerce.FromPayload | src/main/java/zer0g/fusion/data/FusionValueType.java:991-999 | ANY takes the payload's own kind; every other kind goes through the typed path, and the result is of the kind |
| Coerce.FromTyped | src/main/java/zer0g/fusion/data/FusionValueType.java:991-999 | BOOL succeeds exactly on a boolean and keeps it; the other kinds give a payload of the kind |
| Coerce.AssignableKind | src/main/java/zer0g/fusion/data/FusionValueType.java:994-995 | a payload the wanted class can hold is already of the wanted kind |
| Coerce.AssignableSameKind | src/main/java/zer0g/fusion/data/FusionValueType.java:994-995 | a class a payload's class can be assigned to is registered under the same kind, and the FusionObject interface only takes object classes |
| Coerce.FromTypedFixed | src/main/java/zer0g/fusion/data/FusionValueType.java:991-999 | what the typed path returns, once copies are frozen, needs nothing more |
| Coerce.ConvertedIsFixed | src/main/java/zer0g/fusion/data/FusionValueType.java:997 | a converted scalar of the wanted class needs nothing more |
| Coerce.Immutable | src/main/java/zer0g/fusion/data/FusionValueType.java:1012-1022 | the kind and class are kept; a key object is refused; any other object not yet READ is moved there with its own checks, and one already READ stays as it is; once copies are frozen, the result needs nothing more |
| Coerce.CopyItems | src/main/java/zer0g/fusion/data/FusionList.java:22-37 | the copy holds each payload coerced by the item domain, in order; a failure means some item fails |
| Coerce.FromInput | src/main/java/zer0g/fusion/data/FusionValueType.java:967-990 | a fusion value or a payload goes through from; a plain list or map becomes a LIST or MAP, under ANY too, within the domain's range |
| Coerce.FromCollection | src/main/java/zer0g/fusion/data/FusionValueType.java:38-43 | ANY makes a LIST of a plain list and a MAP of a plain map; LIST and MAP copy it, frozen when copies are frozen |
| Coerce.CopyCollection | src/main/java/zer0g/fusion/data/FusionList.java:22-25 | a copied list has the domain and as many items as the input, each the input item coerced by the item domain; a copied map is sorted ignoring case and holds every input key |
| Coerce.CopyInputs | src/main/java/zer0g/fusion/data/FusionList.java:22-25 | each item coerced by the item domain, in order; a failure means some item fails |
| Coerce.CopyEntries | src/main/java/zer0g/fusion/data/FusionMap.java:14-19 | each value coerced by the item domain with its key kept, in iteration order |
| Coerce.From | src/main/java/zer0g/fusion/data/FusionValueType.java:967-990 | NULL gives NULL; ANY hands back a fusion value unchanged; another kind's fusion value cannot be assigned; a non-null result is of the kind, needs nothing more, and lies within the range |
| Coerce.FromAsWritten | src/main/java/zer0g/fusion/data/FusionValueType.java:967-990 | NULL gives NULL and a non-null result lies within the range, as in the intended from |
| Coerce.FixedPassesUnchanged | src/main/java/zer0g/fusion/data/FusionValueType.java:991-1022 | a value that needs nothing more passes the typed path unchanged |
| Coerce.FromIdempotent | src/main/java/zer0g/fusion/data/FusionValueType.java:967-1011 | from is idempotent: its result, given back with the same domain, comes back unchanged |
| Coerce.CopyLeftWritable | src/main/java/zer0g/fusion/data/FusionValueType.java:439-453 | the source's copy of an empty plain list is left in INIT, so a second from changes it to READ; the documented copy is READ at once |
| Coerce.EmptyCopyAsWritten | src/main/java/zer0g/fusion/data/FusionValueType.java:452 | the source's copy of an empty plain list is an INIT list |
| Coerce.EmptyCopyFrozenLater | src/main/java/zer0g/fusion/data/FusionValueType.java:446-450 | giving that INIT list back to from moves it to READ |
| Coerce.EmptyCopyDocumented | src/main/java/zer0g/fusion/data/FusionValueType.java:1005-1011 | the documented copy of an empty plain list is READ |
| Lists.New | src/main/java/zer0g/fusion/data/FusionList.java:27-33 | only a LIST domain makes a list, which starts INIT and empty; any other kind is an IllegalArgument error naming it |
| Lists.Wrap | src/main/java/zer0g/fusion/data/FusionList.java:35-45 | an item is the item domain's from of the input, of the item kind unless that is ANY |
| Lists.WrapStable | src/main/java/zer0g/fusion/data/FusionList.java:35-37 | what wrap returns comes back unchanged when wrapped again |
| Lists.FromItems | src/main/java/zer0g/fusion/data/FusionList.java:22-25 | the copy holds each input wrapped, in order, in a new INIT list of the domain, and its items are coerced |
| Lists.WrapAll | src/main/java/zer0g/fusion/data/FusionList.java:150-152 | every input wrapped, in order; a failure means some input fails to wrap |
| Lists.Get | src/main/java/zer0g/fusion/data/FusionList.java:184-187 | the payload at an index within the list, and an index-out-of-bounds error otherwise |
| Lists.IndexOf | src/main/java/zer0g/fusion/data/FusionList.java:208-219 | the value is wrapped first; the result is the first position holding an equal item, or -1 |
| Lists.LastIndexOf | src/main/java/zer0g/fusion/data/FusionList.java:221-232 | the value is wrapped first; the result is the last position holding an equal item, or -1 |
| Lists.Contains | src/main/java/zer0g/fusion/data/FusionList.java:109-113 | true exactly when some item equals the wrapped value |
| Lists.Find | src/main/java/zer0g/fusion/data/FusionList.java:210-218 | the forward walk finds the first equal item |
| Lists.FindLast | src/main/java/zer0g/fusion/data/FusionList.java:223-231 | the backward walk finds the last equal item |
| Lists.IndexOfBeforeLast | src/main/java/zer0g/fusion/data/FusionList.java:208-232 | the first match never follows the last, both are -1 together, and contains agrees with indexOf |
| Lists.Add | src/main/java/zer0g/fusion/data/FusionList.java:130-136 | refused on a READ list; otherwise appends the wrapped value |
| Lists.Insert | src/main/java/zer0g/fusion/data/FusionList.java:196-200 | refused on a READ list; the value is wrapped and goes in before the item at the index, which must be within 0..size |
| Lists.Set | src/main/java/zer0g/fusion/data/FusionList.java:189-194 | refused on a READ list; replaces the item at an index within the list and hands back the old payload |
| Lists.RemoveAt | src/main/java/zer0g/fusion/data/FusionList.java:202-206 | refused on a READ list; takes out the item at an index within the list and hands back its payload |
| Lists.Clear | src/main/java/zer0g/fusion/data/FusionList.java:178-182 | refused on a READ list; otherwise leaves it empty |
| Lists.AddAll | src/main/java/zer0g/fusion/data/FusionList.java:149-153 | an empty collection is accepted even by a READ list and reports false; a non-empty one is refused by a READ list and reports true |
| Lists.AddAllWraps | src/main/java/zer0g/fusion/data/FusionList.java:149-153 | addAll succeeds exactly when the collection is empty or the list is writable and every element wraps, and then appends the wrapped elements in order |
| Lists.AddAllStep | src/main/java/zer0g/fusion/data/FusionList.java:151 | addAll adds the first element, then the rest |
| Lists.WrapAllStep | src/main/java/zer0g/fusion/data/FusionList.java:151 | wrapping a sequence wraps its head, then its tail |
| Lists.InsertAll | src/main/java/zer0g/fusion/data/FusionList.java:155-161 | the wrapped elements go in, in order, before the item at the index; an empty collection is accepted as it is |
| Lists.SpliceShift | src/main/java/zer0g/fusion/data/FusionList.java:157-159 | inserting one element at i and the rest at i + 1 inserts them all at i |
| Lists.WrapPrefix | src/main/java/zer0g/fusion/data/FusionList.java:150-152 | the number of leading inputs that wrap: each before it wraps, and the one at it, if any, does not |
| Lists.WrapPrefixSameDomain | src/main/java/zer0g/fusion/data/FusionList.java:35-37 | that number depends only on the list's domain |
| Lists.WrapPrefixWraps | src/main/java/zer0g/fusion/data/FusionList.java:150-152 | the inputs before the first failing one wrap together |
| Lists.Gained | src/main/java/zer0g/fusion/data/FusionList.java:150-161 | a READ list gains nothing; a writable one gains the wrapped inputs before the first that fails |
| Lists.GainedNone | src/main/java/zer0g/fusion/data/FusionList.java:150-161 | a list that cannot take the first input gains nothing |
| Lists.GainedStep | src/main/java/zer0g/fusion/data/FusionList.java:150-161 | a writable list that takes the first input gains it, then what the rest gives |
| Lists.AddAllLeaves | src/main/java/zer0g/fusion/data/FusionList.java:149-153 | the list addAll leaves, even when it throws, keeps its domain and state |
| Lists.AddAllLeavesStep | src/main/java/zer0g/fusion/data/FusionList.java:151 | a failing add ends the loop and leaves the list as it was; a successful one goes on with the rest |
| Lists.AddAllLeavesGained | src/main/java/zer0g/fusion/data/FusionList.java:149-153 | after addAll, returning or throwing, the list holds its old items followed by the wrapped inputs before the first that fails |
| Lists.AddAllLeavesAgrees | src/main/java/zer0g/fusion/data/FusionList.java:149-153 | when addAll returns, the list it leaves is the one it returns; when it throws, fewer items went in than the collection holds |
| Lists.InsertAllLeaves | src/main/java/zer0g/fusion/data/FusionList.java:155-161 | the list addAll at an index leaves, even when it throws, keeps its domain and state |
| Lists.InsertAllLeavesGained | src/main/java/zer0g/fusion/data/FusionList.java:155-161 | with the index out of range the list is unchanged; otherwise the wrapped inputs before the first that fails sit, in order, before the item that was at the index |
| Lists.InsertAllLeavesAgrees | src/main/java/zer0g/fusion/data/FusionList.java:155-161 | when addAll at an index returns, the list it leaves is the one it returns; when it throws, fewer items went in than the collection holds |
| Lists.ContainsAll | src/main/java/zer0g/fusion/data/FusionList.java:144-147 | true exactly when the list contains every element |
| Lists.WrapAllSameDomain | src/main/java/zer0g/fusion/data/FusionList.java:35-37 | wrapping depends only on the list's domain |
| Lists.Refused | src/main/java/zer0g/fusion/data/FusionList.java:139-176 | remove(Object), removeAll, retainAll, removeIf, sort and the iterator's changes are unsupported; only sort says "TODO" |
| Lists.SubList | src/main/java/zer0g/fusion/data/FusionList.java:244-247 | a sub-list exists only for 0 <= from <= to <= size; for a coerced list it is a new INIT list holding those items |
| Lists.AddKeepsCoerced | src/main/java/zer0g/fusion/data/FusionList.java:130-136 | add keeps every item coerced by the item domain |
| Lists.InsertKeepsCoerced | src/main/java/zer0g/fusion/data/FusionList.java:196-200 | add at an index keeps every item coerced |
| Lists.SetKeepsCoerced | src/main/java/zer0g/fusion/data/FusionList.java:189-194 | set keeps every item coerced |
| Lists.RemoveKeepsCoerced | src/main/java/zer0g/fusion/data/FusionList.java:202-206 | remove at an index keeps every item coerced |
| Lists.AddAllKeepsCoerced | src/main/java/zer0g/fusion/data/FusionList.java:149-153 | addAll keeps every item coerced |
| Lists.InsertThenRemove | src/main/java/zer0g/fusion/data/FusionList.java:196-206 | inserting and then removing at the same index gives back the list and the wrapped value |
| Lists.SetThenGet | src/main/java/zer0g/fusion/data/FusionList.java:184-194 | after set, get at that index sees the wrapped value and every other index is unchanged; setting the old payload back restores a coerced list |
| Lists.Hash | src/main/java/zer0g/fusion/data/FusionList.java:72-76 | a hash exists exactly for a READ list, and it is the value hash of the list |
| Lists.EqualListsHashAlike | src/main/java/zer0g/fusion/data/FusionList.java:72-96 | READ lists that equals considers equal hash alike |
| IwrLists.New | src/main/java/zer0g/fusion/data/IwrList.java:13-25 | a new list is empty and in WRITE, because doneInit has already run with an empty hook |
| IwrLists.DoneWrite | src/main/java/zer0g/fusion/data/IwrList.java:23-25 | fails only in READ, and moves any other list to READ with its items unchanged |
| IwrLists.Get | src/main/java/zer0g/fusion/data/IwrList.java:123-126 | the item at an index within the list, and an index-out-of-bounds error otherwise |
| IwrLists.IndexOf | src/main/java/zer0g/fusion/data/IwrList.java:146-149 | the first index holding the item, -1 exactly when there is none |
| IwrLists.LastIndexOf | src/main/java/zer0g/fusion/data/IwrList.java:151-154 | the last index holding the item, -1 exactly when there is none |
| IwrLists.Contains | src/main/java/zer0g/fusion/data/IwrList.java:37-40 | true exactly when indexOf finds the item |
| IwrLists.Add | src/main/java/zer0g/fusion/data/IwrList.java:76-80 | refused in READ; otherwise appends the item |
| IwrLists.Remove | src/main/java/zer0g/fusion/data/IwrList.java:82-86 | refused in READ; otherwise takes out the first occurrence, reports whether there was one, and leaves the list unchanged when there was none |
| IwrLists.AddAll | src/main/java/zer0g/fusion/data/IwrList.java:93-97 | refused in READ; otherwise appends the collection and reports whether it was non-empty |
| IwrLists.InsertAll | src/main/java/zer0g/fusion/data/IwrList.java:99-103 | refused in READ; otherwise inserts the collection before the item at an index within 0..size |
| IwrLists.Filter | src/main/java/zer0g/fusion/data/IwrList.java:105-115 | the items passing the test as a subsequence of the list, in their order, holding every occurrence of an item that passes and none of one that fails; a test every item passes keeps the list whole |
| IwrLists.RemoveAll | src/main/java/zer0g/fusion/data/IwrList.java:105-109 | refused in READ; otherwise the list keeps its state and becomes the subsequence of its items the collection lacks, each with its full multiplicity, and the flag reports whether the list shrank |
| IwrLists.RetainAll | src/main/java/zer0g/fusion/data/IwrList.java:111-115 | refused in READ; otherwise the list keeps its state and becomes the subsequence of its items the collection holds, each with its full multiplicity, and the flag reports whether the list shrank |
| IwrLists.FilterSplits | src/main/java/zer0g/fusion/data/IwrList.java:105-115 | together removeAll and retainAll of the same collection hold every item of the list with its multiplicity |
| IwrLists.FilterComplement | src/main/java/zer0g/fusion/data/IwrList.java:105-115 | filtering by a test and by its negation splits the items between the two results |
| IwrLists.FilterStep | src/main/java/zer0g/fusion/data/IwrList.java:105-115 | a filter looks at the first item, then filters the rest |
| IwrLists.Clear | src/main/java/zer0g/fusion/data/IwrList.java:117-121 | refused in READ; otherwise leaves the list empty |
| IwrLists.Set | src/main/java/zer0g/fusion/data/IwrList.java:128-132 | refused in READ; replaces the item at an index within the list and hands back the old one |
| IwrLists.Insert | src/main/java/zer0g/fusion/data/IwrList.java:134-138 | refused in READ; inserts before the item at an index within 0..size |
| IwrLists.RemoveAt | src/main/java/zer0g/fusion/data/IwrList.java:140-144 | refused in READ; takes out the item at an index within the list and hands it back |
| IwrLists.InsertThenRemove | src/main/java/zer0g/fusion/data/IwrList.java:134-144 | inserting and removing at the same index gives back the list and the item |
| IwrLists.ReadRefusesMutators | src/main/java/zer0g/fusion/data/IwrList.java:76-144 | once doneWrite has run, every mutator is refused |
| IwrLists.SubList | src/main/java/zer0g/fusion/data/IwrList.java:166-169 | a view exists exactly for 0 <= from <= to <= size and holds those items; a negative start is reported as ArrayList reports it |
| IwrLists.ViewChange | src/main/java/zer0g/fusion/data/IwrList.java:168 | any change through the view is unsupported |
| IwrLists.ListIterator | src/main/java/zer0g/fusion/data/IwrList.java:156-164 | listIterator fails with "todo" |
| IwrLists.Next | src/main/java/zer0g/fusion/data/IwrList.java:53-56 | next hands back the item at the cursor and moves the cursor on by one |
| IwrLists.IteratorRemoveAsWritten | src/main/java/zer0g/fusion/data/IwrList.java:58-62 | the source's iterator remove takes out the item at the cursor, after the one next returned, and leaves the cursor there |
| IwrLists.IteratorRemove | src/main/java/zer0g/fusion/data/IwrList.java:58-62 | the intended iterator remove takes out the item next returned and steps the cursor back |
| IwrLists.NextThenRemove | src/main/java/zer0g/fusion/data/IwrList.java:53-62 | after next, the intended remove takes out that very item, and the following next sees the item after it |
| IwrLists.IteratorRemovesTheWrongItem | src/main/java/zer0g/fusion/data/IwrList.java:58-62 | on the list [1, 2], next returns 1 and the source's remove then takes out 2; on [1] it fails although 1 was just returned |
| Maps.New | src/main/java/zer0g/fusion/data/FusionMap.java:21-27 | only a MAP domain makes a map, which starts INIT and empty; any other kind is an IllegalArgument error naming it |
| Maps.Wrap | src/main/java/zer0g/fusion/data/FusionMap.java:151-153 | a value going in is the item domain's from of it |
| Maps.WrapStable | src/main/java/zer0g/fusion/data/FusionMap.java:151-153 | what wrap returns comes back unchanged when wrapped again |
| Maps.ContainsKey | src/main/java/zer0g/fusion/data/FusionMap.java:79-82 | true exactly when some key equals the given one ignoring case |
| Maps.Get | src/main/java/zer0g/fusion/data/FusionMap.java:95-98 | succeeds exactly when the key is present ignoring case, with the payload held under it; an absent key is a NullPointer error |
| Maps.AnyEqual | src/main/java/zer0g/fusion/data/FusionMap.java:87-92 | true exactly when some value from the start position on equals the given one |
| Maps.ContainsValue | src/main/java/zer0g/fusion/data/FusionMap.java:84-93 | the value is converted by the item kind's from with no domain; the answer is whether some held value equals it |
| Maps.Keys | src/main/java/zer0g/fusion/data/FusionMap.java:125-128 | the keys in the map's iteration order |
| Maps.KeysAscend | src/main/java/zer0g/fusion/data/FusionMap.java:125-128 | the keys of a valid map come out in strictly ascending order ignoring case |
| Maps.PutValue | src/main/java/zer0g/fusion/data/FusionMap.java:100-105 | refused in READ; otherwise the wrapped value goes under the key, replacing the value of a key equal to it ignoring case, and the old value is handed back; the map stays sorted |
| Maps.Clear | src/main/java/zer0g/fusion/data/FusionMap.java:119-123 | refused in READ; otherwise leaves the map empty |
| Maps.Todo | src/main/java/zer0g/fusion/data/FusionMap.java:64-138 | remove and putAll check the state and then fail with "todo"; values, entrySet and clone fail with "todo" in any state |
| Maps.PutSources | src/main/java/zer0g/fusion/data/FusionMap.java:14-19 | the copy loop keeps the map valid and succeeds exactly when every source value wraps |
| Maps.PutSourcesContain | src/main/java/zer0g/fusion/data/FusionMap.java:14-19 | every source key is in the copy |
| Maps.PutSourcesStep | src/main/java/zer0g/fusion/data/FusionMap.java:16-18 | the copy loop puts the first source entry, then copies the rest |
| Maps.PutSourcesKeeps | src/main/java/zer0g/fusion/data/FusionMap.java:16-18 | a key present before the copy loop is present after it |
| Maps.FromSources | src/main/java/zer0g/fusion/data/FusionMap.java:14-27 | only a MAP domain; the copy is a valid INIT map of the domain holding every source key |
| Maps.PutKeepsValid | src/main/java/zer0g/fusion/data/FusionMap.java:100-105 | put keeps a map valid |
| Maps.MutatorsKeepValid | src/main/java/zer0g/fusion/data/FusionMap.java:100-123 | put and clear keep a valid map valid |
| Maps.PutOrderIrrelevant | src/main/java/zer0g/fusion/data/FusionMap.java:100-105 | putting two keys that differ ignoring case in either order gives the same map |
| Maps.PutThenGet | src/main/java/zer0g/fusion/data/FusionMap.java:95-105 | after put, get under the key in any spelling sees the wrapped value, and every other key sees what it saw before |
| Maps.Hash | src/main/java/zer0g/fusion/data/FusionMap.java:37-41 | a hash exists exactly for a READ map, and it is the value hash of the map |
| Maps.EqualMeansSameKeys | src/main/java/zer0g/fusion/data/FusionMap.java:43-62 | equal maps have the same size and item kind, and every key of one is in the other with an equal value |
| ObjectCore.CheckedFields | src/main/java/zer0g/fusion/data/FusionObjectBase.java:76 | a key instance checks its key fields and any other object all its fields |
| ObjectCore.CheckFields | src/main/java/zer0g/fusion/data/FusionObjectBase.java:71-89 | passes exactly when every checked field is non-null or nullable and lies within its domain's range; otherwise the first failing field's exception is raised |
| ObjectCore.Hook | src/main/java/zer0g/fusion/data/FusionObjectBase.java:71-89 | the check is the same whatever the next state |
| ObjectCore.DoneInit | src/main/java/zer0g/fusion/data/InitWriteReadStateData.java:69-75 | succeeds exactly for an INIT object whose fields pass the check, and moves it to WRITE with its values unchanged |
| ObjectCore.DoneWrite | src/main/java/zer0g/fusion/data/InitWriteReadStateData.java:88-94 | succeeds exactly for an object not yet READ whose fields pass the check, and moves it to READ; otherwise the check's exception is raised |
| ObjectCore.Clone | src/main/java/zer0g/fusion/data/InitWriteReadStateData.java:96-126 | a clone holds the same values in the wanted state; a clone to the same or an earlier state always succeeds, and one to a later state succeeds exactly when the fields pass the check |
| ObjectCore.Make | src/main/java/zer0g/fusion/data/FusionObjectBase.java:51-58 | a new object of the type is INIT, not a key instance, and holds each field's default in schema order |
| ObjectCore.MakeKey | src/main/java/zer0g/fusion/data/FusionObjectTypeBase.java:167-175 | refused with "Fob-type has no key fields" exactly when the type has no key fields; otherwise a new object flagged as a key instance |
| ObjectCore.KeyInstanceChecksKeysOnly | src/main/java/zer0g/fusion/data/FusionObjectBase.java:74-76 | a key instance passes the check or fails it whatever its non-key fields hold |
| ObjectCore.MadeObjectValid | src/main/java/zer0g/fusion/data/FusionObjectBase.java:51-89 | a new object passes the check exactly when every field without a default is nullable and every default lies within its field's range |
| Objects.Rewrapped | src/main/java/zer0g/fusion/data/FusionObjectBase.java:118-122 | an IllegalArgument failure of from comes back as "Invalid value for field" with the field's name; any other passes through |
| Objects.SetGate | src/main/java/zer0g/fusion/data/FusionObjectBase.java:101-117 | READ refuses; a key instance takes key fields only; in WRITE a readonly field is refused, and Java's null goes only into a nullable field |
| Objects.SetAt | src/main/java/zer0g/fusion/data/FusionObjectBase.java:101-123 | succeeds exactly when the index is a field, the gate passes and the field domain's from accepts the value; the object then holds the converted value at that index and nothing else changes; an index outside the schema raises the list's "Index i out of bounds for length n" |
| Objects.IndexOf | src/main/java/zer0g/fusion/data/FusionObjectBase.java:125-128 | the index of the field named so ignoring case, and an error when there is none |
| Objects.Set | src/main/java/zer0g/fusion/data/FusionObject.java:69-85 | set by name is set at the named field's index; an unknown name is an IllegalArgument error |
| Objects.GetFv | src/main/java/zer0g/fusion/data/FusionObjectBase.java:227-230 | the value of the field named so ignoring case |
| Objects.SetThenGet | src/main/java/zer0g/fusion/data/FusionObjectBase.java:96-123 | after set, getfv of that field in any spelling sees the converted value and every other field is unchanged |
| Objects.Reset | src/main/java/zer0g/fusion/data/FusionObjectBase.java:232-253 | READ ends in an assertion error; in INIT every field, and in WRITE every field that is not readonly, goes back to its default (reset) or to NULL (resetRaw), and the rest keep their values |
| Objects.ResetInInitIsFresh | src/main/java/zer0g/fusion/data/FusionObjectBase.java:232-253 | reset in INIT gives every field its default, as a new object has |
| Objects.ResetIdempotent | src/main/java/zer0g/fusion/data/FusionObjectBase.java:237-253 | reset twice is reset once, and a readonly field keeps its value through it in WRITE |
| Objects.MapPut | src/main/java/zer0g/fusion/data/FusionObjectBase.java:169-175 | the map view's put hands back the field's old value and applies set with every rule |
| Objects.MapRemove | src/main/java/zer0g/fusion/data/FusionObjectBase.java:177-180 | the map view's remove is a put of NULL |
| Objects.MapClear | src/main/java/zer0g/fusion/data/FusionObjectBase.java:182-186 | refused in READ; otherwise every value becomes NULL |
| Objects.MapEntries | src/main/java/zer0g/fusion/data/FusionObjectBase.java:188-223 | one entry per field, in schema order, under the field's name with its value |
| Objects.MapContainsKey | src/main/java/zer0g/fusion/data/FusionObjectBase.java:159-162 | true exactly when the schema has a field of that name ignoring case |
| Objects.MapEntriesAgree | src/main/java/zer0g/fusion/data/FusionObjectBase.java:159-223 | the map view and the object agree: every entry's name is a key, and getfv of it is the entry's value |
| Objects.SetPath | src/main/java/zer0g/fusion/data/FusionObject.java:208-225 | READ refuses; one name sets that field; a longer path fails on a NULL field or a list, and otherwise sets the nested object; the schema and field count are kept |
| Objects.GetPath | src/main/java/zer0g/fusion/data/FusionObject.java:227-242 | NULL as soon as a name holds NULL; a single name gives that field's value; an unknown first name fails |
| Objects.SetPathThenGet | src/main/java/zer0g/fusion/data/FusionObject.java:208-242 | after set of a path, get of that path sees what the last field's domain made of the value |
| Objects.PathTidyTail | src/main/java/zer0g/fusion/data/FusionObject.java:219 | the conditions along a path carry over to the rest of the path inside the first object |
| Objects.SetPathStep | src/main/java/zer0g/fusion/data/FusionObject.java:214-219 | a longer path sets the nested object, which is then held under the first name |
| Objects.GetPathStep | src/main/java/zer0g/fusion/data/FusionObject.java:236-237 | a longer path through an object is that object's own get of the rest |
| Objects.LastFieldStep | src/main/java/zer0g/fusion/data/FusionObject.java:219 | the field a path ends in is the one the rest of the path ends in inside the nested object |
| Objects.HashAsWritten | src/main/java/zer0g/fusion/data/FusionObjectBase.java:277-283 | with key fields, the first key field's value hash; without, an identity hash |
| Objects.KeylessHashBreaksEquals | src/main/java/zer0g/fusion/data/FusionObjectBase.java:277-301 | an object without key fields equals itself, yet two identity hashes of it may differ, so equal objects can hash apart |
| Objects.EqualObjectsHashAlike | src/main/java/zer0g/fusion/data/FusionObjectBase.java:277-301 | with the intended class hash for keyless types, objects equals considers equal hash alike |
| Objects.CompareCommon | src/main/java/zer0g/fusion/data/FusionObject.java:126-141 | without a schema, a non-zero verdict comes from a field both objects have; no field in common is an IllegalArgument error |
| Objects.CompareFrom | src/main/java/zer0g/fusion/data/FusionObject.java:128-137 | the loop counts the fields in common, and stops at the first non-zero comparison, which comes from a common field |
| ObjectTypes.ValidateFieldName | src/main/java/zer0g/fusion/data/FusionObjectTypeBase.java:161-165 | a name passes exactly when it starts with a letter; an empty name is out of bounds |
| ObjectTypes.ValidateNames | src/main/java/zer0g/fusion/data/FusionObjectTypeBase.java:156-158 | passes exactly when every field name does; otherwise the first bad name's failure |
| ObjectTypes.NewType | src/main/java/zer0g/fusion/data/FusionObjectTypeBase.java:156-185 | a type exists exactly when every field name starts with a letter, and then it has that name and schema |
| ObjectTypes.Flags | src/main/java/zer0g/fusion/data/FusionObjectTypeBase.java:63-81 | a key field is KEY and READONLY; an annotated field has NULLABLE and READONLY as annotated; an unannotated field is NULLABLE; a primitive accessor is never nullable |
| ObjectTypes.ReadRange | src/main/java/zer0g/fusion/data/FusionObjectTypeBase.java:53-59 | the annotated range is read as a list; an IOException of the read, the EOFException among them, becomes "Invalid range: " and the text; any other failure passes through unchanged |
| ObjectTypes.LibraryReaders | src/main/java/zer0g/fusion/data/FusionObjectTypeBase.java:53-90 | the library's own two reads: the range through `LIST.read` with no domain, and the default through `readJson` in the field's domain, each failing exactly as that read fails |
| ObjectTypes.UnterminatedRangeInvalid | src/main/java/zer0g/fusion/data/FusionObjectTypeBase.java:53-59 | with the library's reader, the range text `"a` leaves a string unterminated, and the resulting EOFException is refused as "Invalid range: \"a" |
| ObjectTypes.UnterminatedListEof | src/main/java/zer0g/fusion/data/JsonReader.java:123-135 | `LIST.read` of `["a]` fails with the EOFException of its first item |
| ObjectTypes.UnterminatedItemEof | src/main/java/zer0g/fusion/data/JsonReader.java:189-192 | the item `"a]` has no closing quote, so reading it in ANY raises the EOFException |
| ObjectTypes.FieldType | src/main/java/zer0g/fusion/data/FusionObjectTypeBase.java:43-52 | the accessor's kind is kept, and only a LIST or MAP with an annotated item type gets a qualifier |
| ObjectTypes.FieldDomain | src/main/java/zer0g/fusion/data/FusionObjectTypeBase.java:38-62 | a FusionValue accessor gets ANY without a range; any other gets its field type's kind, built with the annotated range or NULL |
| ObjectTypes.FieldDefault | src/main/java/zer0g/fusion/data/FusionObjectTypeBase.java:79-92 | a primitive accessor defaults to the domain's zero, any other to none; an annotated default overrides it, read in the domain, and an unreadable one is "Invalid defval" |
| ObjectTypes.MakeSchemaField | src/main/java/zer0g/fusion/data/FusionObjectTypeBase.java:37-94 | a built field is valid, with the given name, index and flags; a primitive one is not nullable; a key one is KEY and READONLY and not nullable; an unannotated one is neither key nor readonly |
| ObjectTypes.OnlyDefaultsRefused | src/main/java/zer0g/fusion/data/FusionObjectTypeBase.java:63-93 | the flags never make the field constructor fail; only a default that does not fit the domain does |
| ObjectTypes.PlainAccessorField | src/main/java/zer0g/fusion/data/FusionObjectTypeBase.java:37-94 | a reference accessor without an annotation gives a nullable, non-key, writable field with no default in its return type's domain |
| Fusion.FindFobType | src/main/java/zer0g/fusion/data/Fusion.java:19-21 | the registered type of that name, and none exactly when the name is not registered |
| Fusion.FobTypeNamed | src/main/java/zer0g/fusion/data/Fusion.java:54-68 | succeeds exactly for a registered name, with its type; a null name is a NullPointer error and an unregistered one an IllegalArgument error carrying the name |
| Fusion.Register | src/main/java/zer0g/fusion/data/Fusion.java:79-84 | succeeds exactly when the name is not yet registered, adding it and keeping every other entry; a repeat is "Object-type already registered" |
| Fusion.RegisterThenFind | src/main/java/zer0g/fusion/data/Fusion.java:19-84 | a registered type is found again, and a second registration of its name fails |
| Fusion.LastDot | src/main/java/zer0g/fusion/data/Fusion.java:43 | the index of the last dot, or -1 when there is none |
| Fusion.ClassBaseName | src/main/java/zer0g/fusion/data/Fusion.java:41-48 | the class name after its last dot, followed by "_FobType" |
| Fusion.ClassName | src/main/java/zer0g/fusion/data/Fusion.java:70-72 | the full class name followed by "_FobType" |
| Fusion.BaseNameIsTail | src/main/java/zer0g/fusion/data/Fusion.java:41-72 | the base name is a tail of the full name |
| Idents.SplitDots | src/main/java/zer0g/fusion/data/Ident.java:201-208 | the texts between the dots, at least one |
| Idents.SplitDotsParts | src/main/java/zer0g/fusion/data/Ident.java:197-208 | the parts are dot-free, and joining them with dots gives the text back |
| Idents.SplitDotsOfPrefixedPart | src/main/java/zer0g/fusion/data/Ident.java:201-202 | a leading non-dot character belongs to the first part |
| Idents.SplitDotsOfDot | src/main/java/zer0g/fusion/data/Ident.java:201-202 | a leading dot starts with an empty part |
| Idents.SplitJoin | src/main/java/zer0g/fusion/data/Ident.java:197-208 | splitting the join of dot-free parts gives the parts back |
| Idents.MakeIdent | src/main/java/zer0g/fusion/data/Ident.java:91-97 | an identifier exists exactly for a valid dotted text, holding that text; any other text is an IllegalArgument error |
| Idents.ValueOf | src/main/java/zer0g/fusion/data/Ident.java:131-137 | a missing or empty text gives none; any other succeeds exactly when it is valid, holding the text |
| Idents.Split | src/main/java/zer0g/fusion/data/Ident.java:197-208 | an identifier has at least one part |
| Idents.Count | src/main/java/zer0g/fusion/data/Ident.java:226-228 | the count is at least one |
| Idents.GetPart | src/main/java/zer0g/fusion/data/Ident.java:183-185 | the part at an index within the count; outside it a simple identifier raises `IndexOutOfBoundsException(index)`, "Index out of range: " and the index, and a dotted one the list's "Index i out of bounds for length n" |
| Idents.Head | src/main/java/zer0g/fusion/data/Ident.java:179-181 | the first part, as a simple identifier |
| Idents.Tail | src/main/java/zer0g/fusion/data/Ident.java:187-195 | none exactly for a single part; otherwise the identifier of the remaining parts |
| Idents.HeadCountAsWritten | src/main/java/zer0g/fusion/data/Ident.java:210-224 | as written, head(count) of two or more keeps count - 1 parts; a refused count raises "Index out of range: " and the count |
| Idents.HeadCount | src/main/java/zer0g/fusion/data/Ident.java:210-224 | the intended head(count) succeeds exactly for 0 <= count <= the count, is none exactly for 0, and holds the first count parts; a refused count raises "Index out of range: " and the count |
| Idents.CountOfJoin | src/main/java/zer0g/fusion/data/Ident.java:226-228 | the identifier joined from dot-free parts has that many parts |
| Idents.HeadCountAsWrittenDropsAPart | src/main/java/zer0g/fusion/data/Ident.java:218-220 | the source's head(2) of "a.b.c" is "a", where "a.b" is meant |
| Idents.MakeSimpleAsWritten | src/main/java/zer0g/fusion/data/Ident.java:38-74 | as written, a simple identifier accepts any valid dotted text yet counts one part |
| Idents.MakeSimple | src/main/java/zer0g/fusion/data/Ident.java:31-36 | the intended simple identifier exists exactly for a one-part text, and splits to just itself |
| Idents.DotFreeSplit | src/main/java/zer0g/fusion/data/Ident.java:201-202 | a dot-free text splits to itself |
| Idents.SimpleHasNoDot | src/main/java/zer0g/fusion/data/Ident.java:31-36 | a one-part text splits to itself |
| Idents.MakeSimpleAsWrittenAcceptsDots | src/main/java/zer0g/fusion/data/Ident.java:17-40 | the source's simple constructor accepts "a.b", which has two parts and which the one-part pattern refuses |
| Idents.EqualsHash | src/main/java/zer0g/fusion/data/Ident.java:139-167 | identifiers are equal exactly when they agree ignoring case, and equal ones hash alike |
| Idents.Compare | src/main/java/zer0g/fusion/data/Ident.java:164-167 | 0 exactly when the identifiers agree ignoring case, and swapping them negates the result |
| Idents.Equals | src/main/java/zer0g/fusion/data/Ident.java:144-157 | equal exactly when the comparison either way round says 0 |
| Idents.Hash | src/main/java/zer0g/fusion/data/Ident.java:139-142 | the hash of the lower-cased text is a 32-bit value |
| Idents.ConsEqual | src/main/java/zer0g/fusion/data/Ident.java:164-167 | texts with the same first character are equal exactly when their rests are |
| Idents.TextPrefixIsPartsPrefix | src/main/java/zer0g/fusion/data/Ident.java:169-177 | the text test of isPrefixOf holds exactly when the parts of one are the first parts of the other |
| Idents.SplitDotsLower | src/main/java/zer0g/fusion/data/Ident.java:176-202 | lower-casing commutes with splitting at dots |
| Idents.SplitDotsStep | src/main/java/zer0g/fusion/data/Ident.java:201-202 | a dot starts a new part, and any other character joins the first part of the rest |
| Idents.LowerCons | src/main/java/zer0g/fusion/data/Ident.java:176 | lower-casing a text is lower-casing its first character and the rest |
| Idents.IsPrefixOfIsPartsPrefix | src/main/java/zer0g/fusion/data/Ident.java:169-177 | isPrefixOf holds exactly when the parts of one are the first parts of the other, each equal ignoring case |
| Idents.Dot | src/main/java/zer0g/fusion/data/Ident.java:230-232 | an empty tail is a NullPointer error; otherwise it succeeds exactly for a valid tail, appending it after a dot |
| Blobs.New | src/main/java/zer0g/fusion/data/Blob.java:25-30 | a blob exists exactly for a length that is not negative, INIT, with no writer and every byte zero; a negative length is IndexOutOfBounds |
| Blobs.CopyOf | src/main/java/zer0g/fusion/data/Blob.java:36-38 | n bytes, the given ones first and zeros after; a negative n is NegativeArraySize |
| Blobs.CopyOfRoundTrip | src/main/java/zer0g/fusion/data/Blob.java:36-38 | copying to the same length gives the bytes back, and so does padding and then cutting back |
| Blobs.FromBytes | src/main/java/zer0g/fusion/data/Blob.java:32-38 | an INIT blob without a writer holding the copy of the bytes to the new length |
| Blobs.BytesCopy | src/main/java/zer0g/fusion/data/Blob.java:140-146 | the copy of the blob's bytes to the length, which is the bytes themselves at their own length |
| Blobs.Get | src/main/java/zer0g/fusion/data/Blob.java:44-46 | the byte at an index within the blob, and an error otherwise |
| Blobs.Set | src/main/java/zer0g/fusion/data/Blob.java:48-51 | refused when READ; otherwise sets the byte at an index within the blob |
| Blobs.Hook | src/main/java/zer0g/fusion/data/Blob.java:148-153 | a state change is vetoed exactly while a writer holds the slot |
| Blobs.DoneWrite | src/main/java/zer0g/fusion/data/Blob.java:148-153 | succeeds exactly for a blob not yet READ with no writer, and moves it to READ |
| Blobs.OpenWriter | src/main/java/zer0g/fusion/data/Blob.java:94-122 | refused when READ, and with "There is already an unclosed writer!" while a writer holds the slot; otherwise a writer at position 0 takes it |
| Blobs.Advance | src/main/java/zer0g/fusion/data/Blob.java:171-179 | the cursor moves on by one and closes exactly when it reaches the end |
| Blobs.Write | src/main/java/zer0g/fusion/data/Blob.java:102-108 | a closed writer raises EOF; otherwise the low eight bits of the int, as the `(byte)` cast keeps them, go at the cursor, which must be within the buffer; every other byte is kept and the cursor advances |
| Blobs.WriteKeepsLowBits | src/main/java/zer0g/fusion/data/Blob.java:102-108 | writing 256 stores 0 and writing -1 stores 255, since only the low eight bits are kept |
| Blobs.JavaByte | src/main/java/zer0g/fusion/data/Blob.java:70-76 | the Java `byte` value of a stored byte: from -128 to 127 and equal to the stored bit pattern modulo 256 |
| Blobs.LowByte | src/main/java/zer0g/fusion/data/Blob.java:102-108 | the `(byte)` cast: a byte equal to the int modulo 256 |
| Blobs.ReadByteAsWritten | src/main/java/zer0g/fusion/data/Blob.java:70-76 | as written, a closed stream raises EOF; otherwise the byte at the cursor sign-extended to an int from -128 to 127, and the advanced cursor |
| Blobs.ReadAsWrittenIsSigned | src/main/java/zer0g/fusion/data/Blob.java:70-76 | both readings succeed together, the as-written value is the signed view of the corrected one, and a stored 0xFF reads as -1 as written but as 255 corrected |
| Blobs.CloseWriterAsWritten | src/main/java/zer0g/fusion/data/Blob.java:110-116 | as written, closing releases the slot only when the stream is still open; a writer that closed itself at the end keeps it |
| Blobs.CloseWriter | src/main/java/zer0g/fusion/data/Blob.java:110-116 | the intended close always releases the slot and keeps the bytes and state |
| Blobs.WriteAll | src/main/java/zer0g/fusion/data/Blob.java:102-108 | writing a sequence keeps the writer, the state and the length |
| Blobs.WriteAllFills | src/main/java/zer0g/fusion/data/Blob.java:102-179 | writing exactly as many bytes as remain fills the buffer with them and closes the stream |
| Blobs.WriterSlotLeaks | src/main/java/zer0g/fusion/data/Blob.java:94-122 | as written, a one-byte blob whose writer writes its byte and is closed still refuses a new writer and vetoes doneWrite; with the intended close both succeed |
| Blobs.FillThenCloseThenDoneWrite | src/main/java/zer0g/fusion/data/Blob.java:94-153 | with the intended close, filling the buffer and closing lets the blob become READ holding the data |
| Blobs.ReadByte | src/main/java/zer0g/fusion/data/Blob.java:70-76 | the corrected read: a closed stream raises EOF; otherwise the byte at the cursor as a value from 0 to 255 and the advanced cursor |
| Blobs.CloseCursor | src/main/java/zer0g/fusion/data/Blob.java:185-191 | closing leaves the stream closed whatever its cursor |
| Blobs.ReadN | src/main/java/zer0g/fusion/data/Blob.java:70-76 | reading n bytes with the corrected read yields n bytes |
| Blobs.ReadToEnd | src/main/java/zer0g/fusion/data/Blob.java:171-197 | reading to the end with the corrected read yields the rest of the buffer as values from 0 to 255 and closes the stream, after which a read is EOF |
| Blobs.WriteThenRead | src/main/java/zer0g/fusion/data/Blob.java:65-122 | what a writer writes into the buffer, a reader reads back with the corrected read |
| Blobs.WriteThenReadAsWritten | src/main/java/zer0g/fusion/data/Blob.java:65-122 | the read as written gives back each written byte as its signed Java value |
| BlobRefs.HexDigit | src/main/java/zer0g/fusion/data/BlobRef.java:37 | the digit written for a nibble reads back as that nibble |
| BlobRefs.HexValue | src/main/java/zer0g/fusion/data/BlobRef.java:39 | a hexadecimal digit of either case has a value below 16 |
| BlobRefs.FormatHex | src/main/java/zer0g/fusion/data/BlobRef.java:37 | two hexadecimal digits per byte, none of them a dot |
| BlobRefs.ParseHex | src/main/java/zer0g/fusion/data/BlobRef.java:39 | one byte per two digits; anything else is an IllegalArgument error |
| BlobRefs.HexRoundTrip | src/main/java/zer0g/fusion/data/BlobRef.java:37-39 | the hexadecimal text of bytes parses back to those bytes |
| BlobRefs.Make | src/main/java/zer0g/fusion/data/BlobRef.java:32-43 | a negative size is refused; without a hash, the hash is written from the bytes; without bytes, they are parsed from the hash; both given is refused; the hash always parses to the bytes |
| BlobRefs.From | src/main/java/zer0g/fusion/data/BlobRef.java:10-22 | without a dot the whole text is the hash and there is no size; otherwise the hash is the text before the first dot and the size is the rest read as a long |
| BlobRefs.DotFreeText | src/main/java/zer0g/fusion/data/BlobRef.java:11 | a text without a dot has no first dot |
| BlobRefs.ToJsonString | src/main/java/zer0g/fusion/data/BlobRef.java:45-47 | the hash, then a dot, then the size |
| BlobRefs.JsonRoundTrip | src/main/java/zer0g/fusion/data/BlobRef.java:10-47 | a reference with a size reads back from its JSON text; one without a size does not, since "null" is not a long |
| BlobRefs.MakeFromHash | src/main/java/zer0g/fusion/data/BlobRef.java:24-43 | a reference made from a parseable hash holds the parsed bytes |
| BlobRefs.MadeFromBytesRoundTrips | src/main/java/zer0g/fusion/data/BlobRef.java:10-47 | every reference built from bytes and a size reads back from its JSON text |
| JsonLex.SkipWs | src/main/java/zer0g/fusion/data/JsonReader.java:368-384 | the first position at or after the start that is not whitespace, or the end, with only whitespace skipped |
| JsonLex.SkipWsPast | src/main/java/zer0g/fusion/data/JsonReader.java:368-384 | whitespace just before a position changes nothing for skipws |
| JsonLex.AtTokenBreak | src/main/java/zer0g/fusion/data/JsonReader.java:245-252 | passes exactly when the next character is whitespace, a comma, colon, brace or bracket, or the end; otherwise an I/O error |
| JsonLex.ExpectChar | src/main/java/zer0g/fusion/data/JsonReader.java:310-315 | succeeds exactly when the next character is the expected one, and consumes it |
| JsonLex.ReadMany | src/main/java/zer0g/fusion/data/JsonReader.java:219-229 | the next n characters, or EOF when fewer remain |
| JsonLex.ExpectToken | src/main/java/zer0g/fusion/data/JsonReader.java:317-323 | succeeds exactly when the text continues with the token followed by a token break, and consumes the token |
| JsonLex.DigitsEnd | src/main/java/zer0g/fusion/data/JsonReader.java:265-277 | the end of the run of digits that starts at the position |
| JsonLex.ReadDigits | src/main/java/zer0g/fusion/data/JsonReader.java:265-282 | succeeds exactly when a digit comes next, yielding the whole run of digits; otherwise "No digits!" |
| JsonLex.ReadIntPart | src/main/java/zer0g/fusion/data/JsonReader.java:234-243 | an optional minus and a run of digits, exactly as they appear in the text |
| JsonLex.ReadFracPart | src/main/java/zer0g/fusion/data/JsonReader.java:334-343 | empty exactly when no point comes next; otherwise the point and a run of digits, as in the text |
| JsonLex.ReadExpoPart | src/main/java/zer0g/fusion/data/JsonReader.java:348-366 | empty exactly when no e or E comes next; otherwise e, an optional sign and digits, as in the text after the letter |
| JsonLex.SignedDigitsShaped | src/main/java/zer0g/fusion/data/JsonReader.java:358-365 | e, an optional sign and one or more digits form an exponent |
| JsonLex.ReadNumberParts | src/main/java/zer0g/fusion/data/JsonReader.java:299-326 | the three parts in a row form a number and consume at least one character |
| JsonLex.Significand | src/main/java/zer0g/fusion/data/JsonReader.java:306-326 | the digits of the integer and fraction parts form one run of digits |
| JsonLex.DecimalValue | src/main/java/zer0g/fusion/data/JsonReader.java:306 | the unscaled value's magnitude is the significand's digits, and it is negative exactly when the text starts with a minus and the digits are not all zero (a minus never gives a positive value); the scale is the fraction's length less the exponent, and it succeeds exactly when the exponent and the scale fit 32 bits |
| JsonLex.DecimalParts | src/main/java/zer0g/fusion/data/JsonWriter.java:48-50 | the parts `BigDecimal.toString` prints have the shape the reader accepts, with a leading minus exactly for a negative unscaled value |
| JsonLex.ExpoText | src/main/java/zer0g/fusion/data/JsonWriter.java:48-50 | a printed exponent has the shape the reader accepts and reads back as the same exponent |
| JsonLex.DecimalTextParts | src/main/java/zer0g/fusion/data/JsonWriter.java:48-50 | the text `BigDecimal.toString` writes is exactly those parts in a row, with the exponent letter `E` |
| JsonLex.DecimalReadsBack | src/main/java/zer0g/fusion/data/JsonReader.java:306 | reading the parts of a written decimal gives back its unscaled value and scale, whenever the scale and the printed exponent fit 32 bits |
| JsonLex.SignificandOfParts | src/main/java/zer0g/fusion/data/JsonReader.java:306 | the digits of the written parts have the value of the unscaled magnitude |
| JsonLex.ScaleOfParts | src/main/java/zer0g/fusion/data/JsonReader.java:306 | the written fraction's length less the written exponent is the scale |
| JsonLex.LeadingZerosValue | src/main/java/zer0g/fusion/data/JsonReader.java:306 | leading zeros do not change the value of a run of digits |
| JsonLex.HexDigitValue | src/main/java/zer0g/fusion/data/JsonReader.java:209 | a hexadecimal digit's value, or -1 |
| JsonLex.ParseHexInt | src/main/java/zer0g/fusion/data/JsonReader.java:209 | hex digits give their value; a failure is an IllegalArgument error |
| JsonLex.UnitChar | src/main/java/zer0g/fusion/data/JsonReader.java:209-213 | the character is the low 16 bits of the value, and any value below the surrogates is that character |
| JsonLex.StringBody | src/main/java/zer0g/fusion/data/JsonReader.java:186-216 | a read string ends just after a closing quote within the text |
| JsonLex.PlainStringBody | src/main/java/zer0g/fusion/data/JsonReader.java:186-216 | text free of quotes and backslashes up to a quote is read as exactly that text, ending just after the quote, when a token break follows, and is refused when none does |
| JsonLex.UnclosedStringBody | src/main/java/zer0g/fusion/data/JsonReader.java:188-192 | a body with no closing quote is refused, and with no backslash either the refusal is the EOFException of reaching the end |
| JsonLex.ReadString | src/main/java/zer0g/fusion/data/JsonReader.java:182-185 | a string must open with a quote, and otherwise fails with "Unexpected string start!" |
| JsonRead.Read | src/main/java/zer0g/fusion/data/JsonReader.java:31-38 | null after whitespace reads NULL for any kind; otherwise the kind's reader decides, and a non-null value read is of the kind |
| JsonRead.ReadAny | src/main/java/zer0g/fusion/data/JsonReader.java:40-49 | a brace reads a map, a bracket a list, t or f a boolean, a quote a string, and anything else a number; something is always consumed |
| JsonRead.ReadBool | src/main/java/zer0g/fusion/data/JsonReader.java:51-64 | exactly "true" or "false" followed by a token break; any other start is an I/O error |
| JsonRead.ReadInteger | src/main/java/zer0g/fusion/data/JsonReader.java:66-71 | an integer part followed by a token break, given to INTEGER's from as a BigInteger |
| JsonRead.ReadDecimal | src/main/java/zer0g/fusion/data/JsonReader.java:73-76 | a number followed by a token break, giving a DECIMAL |
| JsonRead.ReadNumber | src/main/java/zer0g/fusion/data/JsonReader.java:297-308 | without a fraction or exponent the number is INTEGER's from of its integer part; otherwise a DECIMAL |
| JsonRead.ReadStr | src/main/java/zer0g/fusion/data/JsonReader.java:78-81 | a string read and given to STRING's from; a string that cannot be read fails as it does |
| JsonRead.ReadTemporal | src/main/java/zer0g/fusion/data/JsonReader.java:83-111 | a missing domain is a NullPointer error; otherwise a string parsed by the kind's parser and given to from |
| JsonRead.ReadBlob | src/main/java/zer0g/fusion/data/JsonReader.java:173-180 | a missing domain is a NullPointer error; otherwise a string decoded into a blob |
| JsonRead.ConstantIndex | src/main/java/zer0g/fusion/data/JsonReader.java:164-169 | the first constant of that name, or none exactly when no constant has it |
| JsonRead.ReadEnum | src/main/java/zer0g/fusion/data/JsonReader.java:160-171 | a missing domain is a NullPointer error; the name read must be a constant of the qualifier's enum, else "Invalid enum-constant" |
| JsonRead.LongerThanMax | src/main/java/zer0g/fusion/data/JsonReader.java:143-145 | no range means no early stop; an int maximum stops when the list is longer; with no maximum the source unboxes null |
| JsonRead.ReadList | src/main/java/zer0g/fusion/data/JsonReader.java:122-148 | a list must open with a bracket, else an I/O error; something is always consumed |
| JsonRead.ReadItems | src/main/java/zer0g/fusion/data/JsonReader.java:133-146 | the item loop ends on a closing bracket, keeps the domain and state, and only appends items |
| JsonRead.AddItem | src/main/java/zer0g/fusion/data/JsonReader.java:134 | an item just read, added to the list and followed by the rest of the loop, leaves a longer list that ends on a closing bracket and starts with the old items |
| JsonRead.GrowsFrom | src/main/java/zer0g/fusion/data/JsonReader.java:134 | a list grown by an add, then by further items, keeps its domain and state and still starts with the old items |
| JsonRead.ItemsAfter | src/main/java/zer0g/fusion/data/JsonReader.java:135-145 | after an item, a bracket ends the list and a comma goes on once the early length check passes |
| JsonRead.MemberDomain | src/main/java/zer0g/fusion/data/JsonReader.java:118-156 | a map member is read in the map's item domain; an object member in the domain of the field of that name, which must exist |
| JsonRead.PutMember | src/main/java/zer0g/fusion/data/JsonReader.java:403-408 | a map member goes straight into the sorted entries with no coercion; an object member goes through the map view's put |
| JsonRead.ReadBraces | src/main/java/zer0g/fusion/data/JsonReader.java:390-398 | whitespace and a brace, then either a closing brace or the members; a map target keeps its domain and state |
| JsonRead.ReadMembers | src/main/java/zer0g/fusion/data/JsonReader.java:398-399 | as written, a member must start with a quote at once, else "Unexpected string start!" |
| JsonRead.KeyedMember | src/main/java/zer0g/fusion/data/JsonReader.java:399-418 | a key, a colon and a value, then a closing brace ends or a comma goes on; a missing quote is "Unexpected string start!" |
| JsonRead.Member | src/main/java/zer0g/fusion/data/JsonReader.java:403-408 | a member's value is read in its domain and put in place |
| JsonRead.ReadMap | src/main/java/zer0g/fusion/data/JsonReader.java:150-158 | the members go into a new map of the domain, or MAP of ANY, which is then given to MAP's from |
| JsonRead.ReadObject | src/main/java/zer0g/fusion/data/JsonReader.java:113-120 | a missing domain or qualifier is a NullPointer error; otherwise the members go through a new object's map view, which is given to OBJECT's from |
| JsonRead.ReadJson | src/main/java/zer0g/fusion/data/FusionValueType.java:955-965 | no text gives Java's null; otherwise a value read from the start is the result; an I/O or EOF failure becomes an IllegalArgument error whose message is the exception's `toString`: "java.io.IOException: " and the message, or for the message-less EOFException just "java.io.EOFException"; any other failure passes through unchanged |
| JsonRead.IoExceptionText | src/main/java/zer0g/fusion/data/FusionValueType.java:961-962 | the text of the wrapped exception: "java.io.EOFException" alone for the message-less EOFException, "java.io.IOException: " and the message otherwise |
| Wrappers.MessageText | src/main/java/zer0g/fusion/data/JsonReader.java:407 | what string concatenation prints for `getMessage()`: "null" for the message-less EOFException, the message otherwise |
| JsonRead.UnterminatedStringText | src/main/java/zer0g/fusion/data/JsonReader.java:189-192 | `readJson` of `"ab` in ANY fails with an IllegalArgument error whose message is exactly "java.io.EOFException" |
| JsonRead.UnterminatedMemberText | src/main/java/zer0g/fusion/data/JsonReader.java:403-408 | `readJson` of `{"a":"x` in ANY fails with "java.io.IOException: Error reading value for field 'a' because: null", the EOFException's missing message printed as null |
| JsonRead.UnterminatedMap | src/main/java/zer0g/fusion/data/JsonReader.java:403-408 | the map read of `{"a":"x` fails with the member wrapper's IOException, "because: null" |
| JsonRead.UnterminatedBraces | src/main/java/zer0g/fusion/data/JsonReader.java:392-399 | after the opening brace the member loop starts at the key, and the braces fail as that member does |
| JsonRead.UnterminatedMember | src/main/java/zer0g/fusion/data/JsonReader.java:399-408 | the member loop reads the key `a` and its colon, and the failing value is wrapped naming that key, "because: null" |
| JsonRead.UnterminatedValue | src/main/java/zer0g/fusion/data/JsonReader.java:189-192 | the member value `"x` is read in ANY and ends in the EOFException |
| JsonRead.MembersIgnoreLeadingWs | src/main/java/zer0g/fusion/data/JsonReader.java:395-399 | with the intended skip, whitespace before a member key changes nothing |
| JsonRead.SpaceBeforeKeyRejected | src/main/java/zer0g/fusion/data/JsonReader.java:395-399 | as written, a space between the brace and the first key fails with "Unexpected string start!" |
| JsonRead.MinOnlyListDomain | src/main/java/zer0g/fusion/data/FusionValueType.java:844-856 | a list domain whose length range has a minimum and no maximum |
| JsonRead.MinOnlyRangeFailsEarly | src/main/java/zer0g/fusion/data/JsonReader.java:143-144 | as written, a list of such a domain fails at the first comma with a NullPointer error, although the range admits every longer list |
| JsonRead.EarlyExitSound | src/main/java/zer0g/fusion/data/JsonReader.java:143-144 | the intended early check never fails, and stops a list only when the range would refuse it anyway |
| JsonWrite.EscapeLetter | src/main/java/zer0g/fusion/data/JsonReader.java:196-211 | the letter written after a backslash for a named control character is the letter the reader's escape turns back into that character |
| JsonWrite.Hex4 | src/main/java/zer0g/fusion/data/JsonWriter.java:88-89 | the four-digit `%04X` code of a character below space is four hex digits |
| JsonWrite.Hex4Value | src/main/java/zer0g/fusion/data/JsonReader.java:196-211 | four hex digits written for a code read back as that code |
| JsonWrite.EncodeStr | src/main/java/zer0g/fusion/data/JsonWriter.java:61-97 | the written string begins and ends with a quote |
| JsonWrite.VerbatimText | src/main/java/zer0g/fusion/data/JsonWriter.java:87-93 | printable text without a quote or backslash is copied unchanged by either flavour of the encoder |
| JsonWrite.CharReadsBack | src/main/java/zer0g/fusion/data/JsonReader.java:182-217 | the code of one character, at any point of a text, is read by the reader's string loop as that character followed by what comes after |
| JsonWrite.EscapeReadsBack | src/main/java/zer0g/fusion/data/JsonReader.java:196-211 | a backslash escape of a named character reads back as the character |
| JsonWrite.UnicodeReadsBack | src/main/java/zer0g/fusion/data/JsonReader.java:196-211 | a `\uXXXX` escape of a control character reads back as the character |
| JsonWrite.SameCharReadsBack | src/main/java/zer0g/fusion/data/JsonReader.java:182-217 | a character other than quote or backslash reads back as itself |
| JsonWrite.BodyReadsBack | src/main/java/zer0g/fusion/data/JsonReader.java:182-217 | the reader's string loop reads the encoded body of any string back to the string, ending after the closing quote; for the encoder as written only when the string has no quote or backslash |
| JsonWrite.ClosingQuoteReads | src/main/java/zer0g/fusion/data/JsonReader.java:192-214 | a quote followed by a token break ends the string |
| JsonWrite.StringRoundTrip | src/main/java/zer0g/fusion/data/JsonWriter.java:61-97 | reading a string written by the escaping encoder gives back the same string, consuming exactly its text |
| JsonWrite.QuoteBreaksString | src/main/java/zer0g/fusion/data/JsonWriter.java:84-86 | as written, the one-character string `"` is written as three quotes, which the reader rejects; the escaping encoder's text reads back |
| JsonWrite.PlainStringRoundTrip | src/main/java/zer0g/fusion/data/JsonWriter.java:61-97 | as written, a string with no quote or backslash still reads back as itself |
| JsonWrite.Members | src/main/java/zer0g/fusion/data/JsonWriter.java:183-192 | an object writes each field position exactly once, in schema order: all of them, or for a key instance exactly the key fields |
| JsonWrite.Write | src/main/java/zer0g/fusion/data/JsonWriter.java:24-200 | NULL is written `null`, a string through the encoder, a list between brackets, a map or object between braces |
| JsonRoundTrip.ReadsAny | src/main/java/zer0g/fusion/data/JsonReader.java:31-49 | at a character that is not whitespace or `n`, reading in ANY is `readAny` there |
| JsonRoundTrip.AnyAtNumber | src/main/java/zer0g/fusion/data/JsonReader.java:40-49 | `readAny` at a minus sign or digit reads a number |
| JsonRoundTrip.AnyAtString | src/main/java/zer0g/fusion/data/JsonReader.java:40-49 | `readAny` at a quote reads a string |
| JsonRoundTrip.AnyAtList | src/main/java/zer0g/fusion/data/JsonReader.java:40-49 | `readAny` at an opening bracket reads a list of ANY |
| JsonRoundTrip.AnyAtBool | src/main/java/zer0g/fusion/data/JsonReader.java:40-49 | `readAny` at `t` or `f` reads a boolean |
| JsonRoundTrip.FirstChar | src/main/java/zer0g/fusion/data/JsonWriter.java:24-151 | a plain value's text starts with neither whitespace nor a closing bracket, and with `n` exactly when it is NULL |
| JsonRoundTrip.DigitsEndAfter | src/main/java/zer0g/fusion/data/JsonReader.java:265-282 | the digit scan stops exactly after a run of digits |
| JsonRoundTrip.IntTextValue | src/main/java/zer0g/fusion/data/JsonWriter.java:40-42 | the decimal text of an integer has the integer shape and denotes that integer |
| JsonRoundTrip.IntTextIntPart | src/main/java/zer0g/fusion/data/JsonReader.java:234-243 | the integer part read from an integer's text is all of that text |
| JsonRoundTrip.IntTextParts | src/main/java/zer0g/fusion/data/JsonReader.java:297-366 | an integer's text is read as a number with no fraction and no exponent |
| JsonRoundTrip.NullReadsBack | src/main/java/zer0g/fusion/data/JsonReader.java:31-38 | `null` followed by a token break reads back as NULL in any kind |
| JsonRoundTrip.NullWritten | src/main/java/zer0g/fusion/data/JsonWriter.java:24-27 | where NULL is written, the four letters `null` are found, followed by a token break |
| JsonRoundTrip.BoolWritten | src/main/java/zer0g/fusion/data/JsonReader.java:51-64 | where a boolean is written, `readBool` reads it back, consuming exactly its text |
| JsonRoundTrip.BoolReadsBack | src/main/java/zer0g/fusion/data/JsonReader.java:51-64 | a boolean reads back as itself in ANY |
| JsonRoundTrip.FromBigInteger | src/main/java/zer0g/fusion/data/FusionValueType.java:117-162 | INTEGER's conversion of a BigInteger without a domain gives an `int` when the value fits one |
| JsonRoundTrip.NumberReadsInt | src/main/java/zer0g/fusion/data/JsonReader.java:297-308 | reading the text of an `int` gives that `int` back |
| JsonRoundTrip.IntWritten | src/main/java/zer0g/fusion/data/JsonWriter.java:40-42 | where an `int` is written, its decimal text is found, starting with a minus sign or a digit |
| JsonRoundTrip.IntReadsBack | src/main/java/zer0g/fusion/data/JsonReader.java:297-308 | an `int` reads back as the same `int` in ANY |
| JsonRoundTrip.StringReads | src/main/java/zer0g/fusion/data/JsonReader.java:182-217 | the escaped text of a string, found anywhere followed by a token break, reads back as the string |
| JsonRoundTrip.FromString | src/main/java/zer0g/fusion/data/FusionValueType.java:258-277 | STRING's conversion of a String without a domain keeps it |
| JsonRoundTrip.StrValueReads | src/main/java/zer0g/fusion/data/JsonReader.java:78-81 | `readString` without a domain, of an escaped string, gives that string as a STRING value |
| JsonRoundTrip.StrWritten | src/main/java/zer0g/fusion/data/JsonWriter.java:56-59 | where a string is written, its escaped text is found, starting with a quote |
| JsonRoundTrip.StrReadsBack | src/main/java/zer0g/fusion/data/JsonReader.java:78-81 | a string written by the escaping encoder reads back as itself in ANY (the encoder as written breaks this for a string holding a quote, `JsonWrite.QuoteBreaksString`) |
| JsonRoundTrip.EmptyListReads | src/main/java/zer0g/fusion/data/JsonReader.java:122-148 | `[]` reads as an empty frozen list of ANY |
| JsonRoundTrip.FreezesEmptyListAny | src/main/java/zer0g/fusion/data/FusionValueType.java:439-453 | LIST's conversion of a new empty list in the list-of-ANY domain gives it back frozen |
| JsonRoundTrip.ItemsListReads | src/main/java/zer0g/fusion/data/JsonReader.java:122-148 | a list with items is the list the item loop builds, frozen by LIST's conversion |
| JsonRoundTrip.FreezesListAny | src/main/java/zer0g/fusion/data/FusionValueType.java:439-453 | LIST's conversion of a list of ANY in its own domain freezes it and keeps its items |
| JsonRoundTrip.ListWritten | src/main/java/zer0g/fusion/data/JsonWriter.java:139-152 | where a list is written: an opening bracket, then `]` at once when it is empty, or else its first item |
| JsonRoundTrip.ListReadsBack | src/main/java/zer0g/fusion/data/JsonReader.java:122-148 | a plain list written with the escaping encoder reads back as itself in ANY |
| JsonRoundTrip.ItemAdded | src/main/java/zer0g/fusion/data/JsonReader.java:134 | one turn of the item loop reads an item in the ANY domain and appends it |
| JsonRoundTrip.ItemThenClose | src/main/java/zer0g/fusion/data/JsonReader.java:135-139 | after an item, `]` ends the loop |
| JsonRoundTrip.ItemThenComma | src/main/java/zer0g/fusion/data/JsonReader.java:140-145 | after an item, a comma continues the loop, since a list of ANY has no length range |
| JsonRoundTrip.AddsAny | src/main/java/zer0g/fusion/data/FusionList.java:130-137 | a list of ANY appends any value unchanged |
| JsonRoundTrip.ItemsText | src/main/java/zer0g/fusion/data/JsonWriter.java:142-151 | in a written list, each item's text is followed by `]` if it is the last or else by a comma and the rest |
| JsonRoundTrip.ItemsReadBack | src/main/java/zer0g/fusion/data/JsonReader.java:133-146 | the item loop reads every remaining item written with the escaping encoder back, in order, and stops after `]` |
| JsonRoundTrip.ValueReadsBack | src/main/java/zer0g/fusion/data/JsonReader.java:31-148 | every plain value (NULL, boolean, `int`, string, list of plain values) written with the escaping encoder anywhere reads back as itself in ANY, consuming exactly its text |
| JsonRoundTrip.RoundTrip | src/main/java/zer0g/fusion/data/FusionValueType.java:944-965 | every plain value written alone with the escaping encoder reads back through `readJson` as itself; with the encoder as written this fails for a string holding a quote |
| Records.FirstHidden | src/main/java/zer0g/fusion/data/FusionRecordObjectType.java:157-162 | the index of the first component whose name starts with an underscore, or the count when there is none; every earlier component is visible |
| Records.PersistentComponents | src/main/java/zer0g/fusion/data/FusionRecordObjectType.java:155-178 | refused exactly when a visible component follows a hidden one (naming the first such) or when no component is persistent; otherwise the components before the first hidden one |
| Records.PersistentPartition | src/main/java/zer0g/fusion/data/FusionRecordObjectType.java:155-178 | the accepted persistent components are all visible and all the components after them are hidden |
| Records.PersistentAccepted | src/main/java/zer0g/fusion/data/FusionRecordObjectType.java:155-178 | components are accepted exactly when the first is visible and hidden components are never followed by visible ones |
| Records.SetRecord | src/main/java/zer0g/fusion/data/FusionRecordObjectType.java:237-245 | an object of another type is refused with a message ending in that type's text, and a record of another class with one ending in `class` and the record's class name, before the generated copy runs; success means both checks passed and is the generated copy's result |
| Records.Make | src/main/java/zer0g/fusion/data/FusionRecordObjectType.java:232-235 | a new object of the record type is writable and remembers no record |
| Records.Set | src/main/java/zer0g/fusion/data/FusionRecordObject.java:13-17 | refused on a readonly object; otherwise succeeds exactly when `setRecord` does, and leaves the remembered record alone |
| Records.From | src/main/java/zer0g/fusion/data/FusionRecordObject.java:9-21 | a new object of the record's type with the record copied into it, remembering nothing; fails exactly when the copy fails |
| Records.DoneWrite | src/main/java/zer0g/fusion/data/FusionRecordObject.java:70-75 | a record object's doneWrite runs no field check: it succeeds exactly when the object is not yet READ, and then only the state changes |
| Records.RecordSkipsFieldChecks | src/main/java/zer0g/fusion/data/FusionRecordObject.java:70-75 | an object whose fields fail the checks, which a plain object's doneWrite refuses, is still made READ by a record object's |
| Records.New | src/main/java/zer0g/fusion/data/FusionRecordObject.java:34-39 | the record-taking constructor succeeds exactly when the record's class is the type's and the copy leaves a writable object, whatever the fields hold; it gives a readonly object that remembers the record it was made from |
| Records.Extract | src/main/java/zer0g/fusion/data/FusionRecordObject.java:50-63 | a readonly object builds its record at most once and then returns the remembered one; a writable object builds a new record each call and remembers nothing; the fields are never touched |
| Records.ExtractOnce | src/main/java/zer0g/fusion/data/FusionRecordObject.java:50-59 | once readonly, a second extract returns the same record and changes nothing |
| Records.ExtractSeesSet | src/main/java/zer0g/fusion/data/FusionRecordObject.java:13-62 | before the object is readonly, extract reflects the fields after a `set` |
| Records.NewExtractsGiven | src/main/java/zer0g/fusion/data/FusionRecordObject.java:34-59 | an object made by the record-taking constructor returns the very record it was made from |
| Records.HashAsWritten | src/main/java/zer0g/fusion/data/FusionRecordObject.java:45-48 | as written the hash is that of the remembered record, and zero while nothing is remembered |
| Records.HashChangesOnExtract | src/main/java/zer0g/fusion/data/FusionRecordObject.java:45-59 | a readonly object made by `from` hashes to zero before its first extract and to its record's hash after it, although its fields do not change |
| Records.Current | src/main/java/zer0g/fusion/data/FusionRecordObject.java:50-63 | the record an object stands for is the remembered one, or else the one its fields build, and agrees with extract on a readonly object |
| Records.Hash | src/main/java/zer0g/fusion/data/FusionRecordObject.java:45-48 | the intended hash agrees with the hash as written once a record is remembered |
| Records.HashStable | src/main/java/zer0g/fusion/data/FusionRecordObject.java:45-59 | the intended hash does not change across an extract, and objects with the same fields that remember nothing hash alike |

## Left out

- ByteBuddy code generation and reflection are not modelled. This covers `FusionRecordObjectType.generateType`, `extractSchema`, `canonCtor`, `ensureLoaded` and the `OnDemand` type, `FobTypeGenerator`, and `Fusion.generateFobType` and `makeFobType`. A record type's generated `_setRecord` and `_extractRecord` are parameters of `Records.RecordType`. An accessor is described abstractly in `ObjectTypes`.
- Fusion.FobTypeNamed: the registry is a map that already holds every loadable type, so the `Class.forName` retry of `fobType` is not modelled.
- Parsing and printing of `java.time` values are not modelled. A temporal value is an ordinal, and its parser is the parameter `Types.Env.parseTime`. Its ISO text is a parameter of `JsonWrite.Texts`.
- Base64 text of blobs is not modelled. It is the reader parameter `JsonRead.Config.blobOf` and the writer parameter `JsonWrite.Texts.blob`.
- Binary floating point is not modelled. A `float` or `double` payload keeps the decimal value it was converted from. Its `toString` text is a parameter of `JsonWrite.Texts`.
- Locks, `synchronized` blocks, `AtomicReference` and the blob reader/writer waits are not modelled. The model is sequential.
- Identity hashes and JDK hash algorithms are not modelled. The model uses stand-ins that respect the same equality: a kind's constant, an object class's name hash, an enum constant's name hash, a temporal's ordinal and a decimal's unscaled value. `Objects.HashAsWritten` takes the identity hash as a parameter.
- Case folding covers ASCII letters only, where Java folds all of Unicode. Identifier letters are ASCII letters, where the pattern admits every Unicode letter.
- JsonLex.StringBody: a `\uXXXX` escape that names a surrogate code unit is refused, because a Dafny `char` cannot hold half of a surrogate pair. Java would keep the code unit.
- `BigDecimal` arithmetic beyond unscaled value and scale is not modelled. Ordering and equality compare numerically and by scale, as `compareTo` and `equals` do.
- ObjectCore.Clone: `Object.clone` makes the copy share the original's value list, and that sharing is not modelled. The copy holds equal values.
- The record object's `clone` and its copy constructor are not modelled.
- `FusionList.iterator` and `listIterator` navigation, `reversed`, `toArray`, `forEach`, `stream`, `parallelStream` and `spliterator` are not modelled. They only expose the item sequence. Their mutators are modelled as refused (`Lists.Refused`).
- `FusionValueVisitor` double dispatch is not modelled. `JsonWrite.Write` matches on the value directly.
- `FusionBean`, `FusionBeanObject`, `FusionBeanObjectType`, `FusionData`, `FoField` and `FoType` are not modelled beyond what `ObjectTypes` reads from an annotation.
- NoCase.CharAt: a Dafny string is a sequence of Unicode scalar values, where Java's `charAt` indexes UTF-16 code units. The two agree on text inside the Basic Multilingual Plane; a character outside it counts once here and twice in Java.
- NoCase.SubSequence: indexes Unicode scalar values, not UTF-16 code units, for the same reason as `NoCase.CharAt`.
- NoCase.Length: counts Unicode scalar values, not UTF-16 code units, for the same reason as `NoCase.CharAt`.
- NoCase.JavaHash: hashes Unicode scalar values, not UTF-16 code units. It equals `String.hashCode` on text inside the Basic Multilingual Plane.
- NoCase.Equals: takes a `NoCaseString` only. `equals(null)` and `equals` with an object of another class are always false in Java and are not modelled.
- ValueOps.Compare: has no identity shortcut, so a keyless object compared with itself is refused. `ValueOps.CompareAsWritten` keeps the shortcut as the parameter `same`.
- ValueOps.Equal: compares blobs by content, where `Blob` does not override `equals` and Java compares blobs by identity. `ValueOps.Hash` of a blob is a stand-in (its length) that respects content equality.
- ValueOps.Equal: the identity shortcut of `equals` is not modelled. It changes nothing on well-formed values, because `FusionValues.EqualReflexive` proves the structural comparison reflexive on them.
- ValueOps.EqualSameHash: holds for the model's hash, in which a keyless object hashes by its class name. Java hashes such an object by identity, and then equal objects can hash differently (`Objects.KeylessHashBreaksEquals`).
- Blobs.ReadN: yields the corrected byte values from 0 to 255. `Blobs.ReadByteAsWritten` gives the signed value Java's `read()` returns.
- Blobs.ReadToEnd: yields the corrected byte values from 0 to 255, not the signed values of Java's `read()`, for the same reason as `Blobs.ReadN`.
- Types.SubtypeParse: the JDK parsers of `path`, `uri` and `url` (`Path.of`, `new URI`, `new URL`) are not modelled. Their verdict on a text, and the error each raises, is the parameter `Types.Env.parseLink`.
- Types.SubtypeParse: `char` counts Unicode scalar values, where `String.length` counts UTF-16 code units, so a single character outside the Basic Multilingual Plane is accepted here and refused in Java.
- Types.SubtypeParseAsWritten: counts `char` text as `Types.SubtypeParse` does, in Unicode scalar values rather than UTF-16 code units.
- Ranges.Length: a string's length counts Unicode scalar values, not UTF-16 code units, so a string with characters outside the Basic Multilingual Plane is shorter here than Java's `length()`.
- NumText.ParseLong: accepts ASCII digits only, where `Long.parseLong` goes through `Character.digit` and also accepts the decimal digits of other scripts.
- JsonLex.ParseHexInt: accepts ASCII hex digits only, where `Integer.parseInt` goes through `Character.digit` and also accepts the digits of other scripts.
- JsonWrite.Members: a key instance's key fields are written in schema order, where Java collects them with `Map.ofEntries`, whose iteration order is unspecified; only that each key field is written exactly once is promised in Java's terms.
- JsonRoundTrip.StrReadsBack: proved for the escaping encoder only; the encoder as written does not escape a quote, so a string holding one does not read back (`JsonWrite.QuoteBreaksString`), and only strings free of quotes and backslashes are covered as written (`JsonWrite.PlainStringRoundTrip`).
- JsonRoundTrip.ListReadsBack: proved for the escaping encoder only, for the same reason as `JsonRoundTrip.StrReadsBack`.
- JsonRoundTrip.ItemsReadBack: proved for the escaping encoder only, for the same reason as `JsonRoundTrip.StrReadsBack`.
- JsonRoundTrip.ValueReadsBack: proved for the escaping encoder only, for the same reason as `JsonRoundTrip.StrReadsBack`.
- JsonRoundTrip.RoundTrip: proved for the escaping encoder only, for the same reason as `JsonRoundTrip.StrReadsBack`.
- ValueOps.CompareOn: key field values are compared with the corrected NULL-first order, where `FusionObject.compareTo` calls the as-written `FusionValue.compareTo`: there a NULL key against a non-null one is a ClassCast error (`ValueOps.KeyFieldNullOrders`), and key values holding the very same payload object compare as 0 without a look inside.
- Coerce.FromInput: a Java record given to an OBJECT domain, which `convert` turns into a record object through `FusionRecordObject.from`, is not an input case, because `from` finds the record's object type through `of(rec.getClass())`, which generates it on demand with ByteBuddy. Given that type, the conversion is `Records.From`.
- Coerce.From: a LIST or MAP copy is frozen into READ by the corrected `immutable`, where FusionValueType.java:439-453 leaves the new `FusionList` or `FusionMap` in INIT (`Coerce.CopyLeftWritable`); every member built on `from` inherits the frozen copy.
- Coerce.Validated: checks the range through the corrected `Ranges.DomainValidate`, so a string subtype under a length range is checked by its length, where the source raises ClassCast (`Ranges.SubtypeLengthRejected`).
- Ranges.CompileRange: a DECIMAL range keeps `BigDecimal` bounds as they are, where the source truncates them through `longValue()` (`Ranges.DecimalRangeTruncated`); domains built by the model carry the untruncated bounds.
- Ranges.DomainValidate: checks a string subtype's length through the corrected `Ranges.ValidateRange`, where the source's cast to `String` raises ClassCast (`Ranges.ValidateRangeAsWritten`); the setters, wrappers and readers built on it accept such a value when its length is in range.
- ObjectTypes.Readers: `FieldDomain`, `FieldDefault` and `MakeSchemaField` take the range read and the default read as a parameter and are proved for any reader. The library's own reads are `ObjectTypes.LibraryReaders`, built from `JsonRead.Read` and `JsonRead.ReadJson`, and `ObjectTypes.UnterminatedRangeInvalid` shows them at work.
- NullPointerException messages: where the JDK raises one itself (an unboxing, `Objects.requireNonNull` without a message), the model's message is a short label naming the missing value, not the JDK's text.
- Records.SetRecord: the text a fusion-object type prints as, its class name and identity hash, is not modelled; it is the parameter `Records.RecordType.typeText`.

## Findings

| source | as written | input that shows it | evidently intended | confidence | as-written member | corrected member |
|---|---|---|---|---|---|---|
| src/main/java/zer0g/fusion/data/Blob.java:110-116 | closing a writer releases the writer slot only if the stream has not already closed itself at the end of the buffer | a one-byte blob: open a writer, write one byte, close it, then `doneWrite` | closing always releases the slot, so the blob can become READ | high, not executed | Blobs.WriterSlotLeaks, Blobs.CloseWriterAsWritten | Blobs.CloseWriter, Blobs.FillThenCloseThenDoneWrite |
| src/main/java/zer0g/fusion/data/Blob.java:70-76 | `read()` returns the stored `byte` widened to an int, so bytes from 0x80 up read as negative numbers | a one-byte blob holding 0xFF: `read()` returns -1 | a value from 0 to 255, as `InputStream.read` promises, so that -1 only ever means the end of the stream | high, not executed | Blobs.ReadAsWrittenIsSigned, Blobs.WriteThenReadAsWritten | Blobs.ReadByte, Blobs.WriteThenRead |
| src/main/java/zer0g/fusion/data/Ident.java:218-220 | `head(count)` keeps `count - 1` parts | `head(2)` of `a.b.c` gives `a` | `a.b`, the first `count` parts | high, not executed | Idents.HeadCountAsWrittenDropsAPart | Idents.HeadCount |
| src/main/java/zer0g/fusion/data/Ident.java:31-40 | the `Simple` constructor checks only the dotted pattern | `a.b` is accepted as a simple identifier that claims one part, and as a value of the `ident` string subtype | a simple identifier is a single part | medium, not executed | Idents.MakeSimpleAsWrittenAcceptsDots, Types.IdentSubtypeAcceptsDots | Idents.MakeSimple, Types.SubtypeParse |
| src/main/java/zer0g/fusion/data/FusionValueType.java:439-453 | LIST and MAP `immutable` return a fresh copy left in INIT | `from` of an empty plain list in the list-of-ANY domain gives an INIT list | the copy is frozen (READ), so `from` is idempotent | high, not executed | Coerce.CopyLeftWritable | Coerce.FromIdempotent |
| src/main/java/zer0g/fusion/data/FusionValueType.java:576-579 | BLOB's zero is `BYTE_ZERO`, an INTEGER value | the zero of a BLOB domain | `BLOB_ZERO`, an empty readonly blob | high, not executed | Zeros.BlobZeroIsAnInteger | Zeros.BlobZeroIsEmptyBlob |
| src/main/java/zer0g/fusion/data/FusionValueType.java:427-436 | a list zero takes its length from the item domain's range, not the list's own | a list of `int` whose own length range has a minimum of 2 and whose items have no range | the zero holds as many item zeros as the list's own minimum length | medium, not executed | Zeros.ListZeroTooShort | Zeros.ListZeroFilled |
| src/main/java/zer0g/fusion/data/FusionObjectBase.java:277-283 | an object without key fields hashes by identity | two equal objects of a keyless type | they hash alike (the class hash the comment names) | high, not executed | Objects.KeylessHashBreaksEquals | Objects.EqualObjectsHashAlike |
| src/main/java/zer0g/fusion/data/FusionValue.java:166-180 | the kind check runs before the NULL check | NULL compared with the `int` 0 raises ClassCast | NULL comes before every non-null value | medium, not executed | ValueOps.CompareAsWrittenRejectsNull | ValueOps.CompareAntisymmetric |
| src/main/java/zer0g/fusion/data/FusionValueType.java:209-217 | a DECIMAL range bound is converted even when it is already a `BigDecimal`, through `longValue` | a `BigDecimal` range from 1.5 to 2.5 compiles to 1 to 2 | bounds already of the class are kept | high, not executed | Ranges.DecimalRangeTruncated | Ranges.CompileNumberRange |
| src/main/java/zer0g/fusion/data/FusionValueType.java:245-248 | STRING's length check casts the payload to `String` | a `nocase`-qualified string "ab" with length range 1 to 5 | the length of any string subtype is checked | high, not executed | Ranges.SubtypeLengthRejected | Ranges.ValidateRange |
| src/main/java/zer0g/fusion/data/JsonWriter.java:66-86 | `encodestr` writes a quote, a backslash and the named control characters unescaped | the one-character string `"` | the two-character escapes of section 7 of RFC 8259, so the text reads back | high, not executed | JsonWrite.QuoteBreaksString | JsonWrite.StringRoundTrip |
| src/main/java/zer0g/fusion/data/JsonReader.java:395-399 | no whitespace is skipped before a member key | `{ "a":1}` | whitespace before a key is allowed, as section 2 of RFC 8259 permits | high, not executed | JsonRead.SpaceBeforeKeyRejected | JsonRead.MembersIgnoreLeadingWs |
| src/main/java/zer0g/fusion/data/JsonReader.java:143-144 | the early length check unboxes the range's maximum even when there is none | a list domain with a minimum and no maximum, read from `[1,2]` | no early exit without a maximum | high, not executed | JsonRead.MinOnlyRangeFailsEarly | JsonRead.EarlyExitSound |
| src/main/java/zer0g/fusion/data/FusionRecordObject.java:45-48 | the hash is that of the remembered record, and zero before the first `extract` | a readonly record object made by `from`, hashed before and after `extract` | the hash of the record the object stands for, stable across `extract` | medium, not executed | Records.HashChangesOnExtract | Records.HashStable |
| src/main/java/zer0g/fusion/data/IwrList.java:58-62 | the iterator's `remove` removes the item at the cursor, which is after the one `next` returned | on [1, 2], `next` gives 1 and `remove` takes out 2 | remove the item `next` returned | high, not executed | IwrLists.IteratorRemovesTheWrongItem, IwrLists.IteratorRemoveAsWritten | IwrLists.IteratorRemove, IwrLists.NextThenRemove |


=== FILE: blobref.dfy ===
/** `BlobRef`: a reference to stored blob content by its hash and size,
    written in JSON as `"<hash>.<size>"`. The hash text and the hash bytes
    are two views of one value, kept together by lower-case hexadecimal as
    `java.util.HexFormat` writes and reads it.
 */
module BlobRefs {
  import opened Wrappers
  import opened NumText
  import Types
  import opened Values

  datatype BlobRef = BlobRef(hash: string, size: Option<int>, bytes: seq<Byte>)

  /** Lower-case hexadecimal digit of `d`. */
  function HexDigit(d: int): (c: char)
    requires 0 <= d < 16
    ensures HexValue(c) == Some(d)
  {
    if d < 10 then DigitChar(d) else ('a' as int + d - 10) as char
  }

  /** The value of a hexadecimal digit of either case. */
  function HexValue(c: char): (r: Option<int>)
    ensures r.Some? ==> 0 <= r.value < 16
  {
    if '0' <= c <= '9' then Some(c as int - '0' as int)
    else if 'a' <= c <= 'f' then Some(c as int - 'a' as int + 10)
    else if 'A' <= c <= 'F' then Some(c as int - 'A' as int + 10)
    else None
  }

  /** `formatHex`: two lower-case digits per byte, high digit first. */
  function FormatHex(bytes: seq<Byte>): (s: string)
    ensures |s| == 2 * |bytes|
    ensures forall i :: 0 <= i < |s| ==> HexValue(s[i]).Some? && s[i] != '.'
  {
    if |bytes| == 0 then ""
    else
      var b := bytes[0] as int;
      [HexDigit(b / 16), HexDigit(b % 16)] + FormatHex(bytes[1..])
  }

  /** `parseHex`: an even number of hexadecimal digits, or
      IllegalArgument. */
  function ParseHex(s: string): (r: Result<seq<Byte>>)
    ensures r.Ok? ==> 2 * |r.value| == |s|
    ensures r.Err? ==> r.error.kind == IllegalArgument
    decreases |s|
  {
    if |s| == 0 then Ok([])
    else if |s| == 1 then Fails(IllegalArgument, "string length not even: 1")
    else
      var hi := HexValue(s[0]);
      var lo := HexValue(s[1]);
      if hi.None? || lo.None? then Fails(IllegalArgument, "not a hexadecimal digit")
      else
        var rest :- ParseHex(s[2..]);
        Ok([(hi.value * 16 + lo.value) as Byte] + rest)
  }

  /** Hexadecimal text reads back to the bytes it was written from. */
  lemma {:induction false} HexRoundTrip(bytes: seq<Byte>)
    ensures ParseHex(FormatHex(bytes)) == Ok(bytes)
  {
    if |bytes| > 0 {
      var b := bytes[0] as int;
      var hi, lo := b / 16, b % 16;
      var s := FormatHex(bytes);
      assert s[0] == HexDigit(hi) && s[1] == HexDigit(lo);
      assert s[2..] == FormatHex(bytes[1..]);
      HexRoundTrip(bytes[1..]);
      assert ParseHex(s) == Ok([(hi * 16 + lo) as Byte] + bytes[1..]);
      assert [bytes[0]] + bytes[1..] == bytes;
    }
  }

  /** The canonical constructor: a negative size is refused; a missing hash
      is written from the bytes, missing bytes are read from the hash, and
      giving both is refused. Without either, `formatHex(null)` is a
      NullPointerException. */
  function Make(hash: Option<string>, size: Option<int>, bytes: Option<seq<Byte>>): (r: Result<BlobRef>)
    ensures size.Some? && size.value < 0 ==> r == Fails(IllegalArgument, "negative size!")
    ensures r.Ok? ==> r.value.size == size && (size.Some? ==> size.value >= 0)
    ensures r.Ok? ==> ParseHex(r.value.hash) == Ok(r.value.bytes)
    ensures r.Ok? && hash.Some? ==> r.value.hash == hash.value && bytes.None?
    ensures r.Ok? && hash.None? ==> bytes.Some? && r.value.bytes == bytes.value && r.value.hash == FormatHex(bytes.value)
    ensures hash.Some? && bytes.Some? && (size.None? || size.value >= 0) ==>
              r == Fails(IllegalArgument, "_bytes must be null unless hash is null!")
  {
    if size.Some? && size.value < 0 then Fails(IllegalArgument, "negative size!")
    else if hash.None? then
      if bytes.None? then Fails(NullPointer, "bytes")
      else
        HexRoundTrip(bytes.value);
        Ok(BlobRef(FormatHex(bytes.value), size, bytes.value))
    else if bytes.None? then
      var parsed :- ParseHex(hash.value);
      Ok(BlobRef(hash.value, size, parsed))
    else Fails(IllegalArgument, "_bytes must be null unless hash is null!")
  }

  /** `from(json)`: without a '.', the whole text is the hash and there is
      no size; otherwise the text is split at the first '.' and the rest is
      read by `Long.parseLong`. */
  function From(json: string): (r: Result<BlobRef>)
    ensures Types.FirstDot(json) == -1 ==> r == Make(Some(json), None, None)
    ensures Types.FirstDot(json) >= 0 ==> var i := Types.FirstDot(json);
      r.Ok? <==> ParseLong(json[i + 1..]).Ok? && Make(Some(json[..i]), Some(ParseLong(json[i + 1..]).value), None).Ok?
    ensures r.Ok? && Types.FirstDot(json) == -1 ==> r.value.hash == json && r.value.size.None?
    ensures r.Ok? && Types.FirstDot(json) >= 0 ==> var i := Types.FirstDot(json);
      r.value.hash == json[..i] && Types.FirstDot(r.value.hash) == -1
      && r.value.size == Some(ParseLong(json[i + 1..]).value)
  {
    var i := Types.FirstDot(json);
    if i == -1 then Make(Some(json), None, None)
    else
      var n :- ParseLong(json[i + 1..]);
      DotFreeText(json[..i]);
      Make(Some(json[..i]), Some(n), None)
  }

  /** A text without '.' has no first dot. */
  lemma {:induction false} DotFreeText(s: string)
    requires forall k :: 0 <= k < |s| ==> s[k] != '.'
    ensures Types.FirstDot(s) == -1
  {
    if |s| > 0 {
      DotFreeText(s[1..]);
    }
  }

  /** `toJsonString`: hash, '.', size (the text "null" when absent). */
  function ToJsonString(r: BlobRef): (s: string)
    ensures |s| > |r.hash| && s[..|r.hash| + 1] == r.hash + "."
  {
    r.hash + "." + (if r.size.Some? then IntText(r.size.value) else "null")
  }

  /** A reference with a size is read back from its JSON text. A reference
      without one is not: its text ends in ".null", which `parseLong`
      refuses. */
  lemma JsonRoundTrip(r: BlobRef)
    requires Types.FirstDot(r.hash) == -1
    requires r.size.Some? ==> 0 <= r.size.value <= LongMax
    requires ParseHex(r.hash) == Ok(r.bytes)
    ensures r.size.Some? ==> From(ToJsonString(r)) == Ok(r)
    ensures r.size.None? ==> From(ToJsonString(r)).Err?
  {
    var tail := if r.size.Some? then IntText(r.size.value) else "null";
    var s := ToJsonString(r);
    assert s == r.hash + ("." + tail);
    Types.FirstDotAfter(r.hash, "." + tail);
    assert s[..|r.hash|] == r.hash;
    assert s[|r.hash| + 1..] == tail;
    if r.size.Some? {
      hide *;
      LongTextRoundTrip(r.size.value);
      MakeFromHash(r.hash, r.size);
    } else {
      assert tail[0] == 'n';
    }
  }

  /** A reference made from a hash the hex parser accepts. */
  lemma MakeFromHash(h: string, size: Option<int>)
    requires ParseHex(h).Ok? && (size.None? || size.value >= 0)
    ensures Make(Some(h), size, None) == Ok(BlobRef(h, size, ParseHex(h).value))
  {
  }

  /** A hash written from bytes has no '.', so every reference built from
      bytes and a size round-trips through its JSON text. */
  lemma MadeFromBytesRoundTrips(bytes: seq<Byte>, n: int)
    requires 0 <= n <= LongMax
    ensures Make(None, Some(n), Some(bytes)).Ok?
    ensures From(ToJsonString(Make(None, Some(n), Some(bytes)).value)) == Make(None, Some(n), Some(bytes))
  {
    var r := Make(None, Some(n), Some(bytes)).value;
    assert Types.FirstDot(r.hash) == -1;
    JsonRoundTrip(r);
  }
}

=== FILE: blobs.dfy ===
/** `Blob`: a fixed-length byte buffer with the lifecycle, one writer slot
    and streams that walk the buffer one byte at a time.

    A stream's cursor is the index of the next byte, or -1 once the stream
    is closed; a stream closes itself when its cursor reaches the buffer's
    length. The blob's `writer` field is the slot: `None` when no writer is
    registered, otherwise the cursor of the registered writer. Readers are
    not registered anywhere; a reader is just its cursor. The locks that
    make readers wait for the writer are left out: the model is sequential.
 */
module Blobs {
  import opened Wrappers
  import opened Values
  import Iwr
  import NumText

  const ClosedCursor := -1

  /** The Java value of a stored byte: the buffer holds each byte as its
      bit pattern, 0 to 255, and Java reads a `byte` as signed, -128 to 127. */
  function JavaByte(x: Byte): (v: int)
    ensures -128 <= v < 128
    ensures v % 256 == x as int
  {
    if x < 128 then x as int else x as int - 256
  }

  /** The cast `(byte) n`: the low eight bits of `n`. */
  function LowByte(n: int): (x: Byte)
    ensures (x as int - n) % 256 == 0
  {
    (n % 256) as Byte
  }

  /** The cast and the signed view undo each other: casting a stored byte's
      Java value gives the byte back, and every Java `byte` value survives
      the cast. */
  lemma LowByteJavaByte(x: Byte, n: int)
    ensures LowByte(JavaByte(x)) == x
    ensures -128 <= n < 128 ==> JavaByte(LowByte(n)) == n
    ensures 0 <= n < 256 ==> LowByte(n) as int == n
  {
  }

  /** `new Blob(length)`: a zeroed buffer, or IndexOutOfBounds for a
      negative length. */
  function New(length: int): (r: Result<BlobData>)
    ensures r.Ok? <==> length >= 0
    ensures r.Ok? ==> r.value.state == Iwr.Init && r.value.writer.None?
    ensures r.Ok? ==> |r.value.bytes| == length && forall i :: 0 <= i < length ==> r.value.bytes[i] == 0
    ensures r.Err? ==> r.error.kind == IndexOutOfBounds
  {
    if length < 0 then Err(NumText.IndexOutOfRange(length))
    else Ok(BlobData(Iwr.Init, seq(length, i => 0), None))
  }

  /** `Arrays.copyOf(bytes, n)`: truncated or zero-padded to `n`; a negative
      length is a NegativeArraySizeException. */
  function CopyOf(bytes: seq<Byte>, n: int): (r: Result<seq<Byte>>)
    ensures r.Ok? <==> n >= 0
    ensures r.Ok? ==> |r.value| == n
    ensures r.Ok? ==> forall i :: 0 <= i < n ==> r.value[i] == if i < |bytes| then bytes[i] else 0
    ensures r.Err? ==> r.error.kind == NegativeArraySize
  {
    if n < 0 then Fails(NegativeArraySize, NumText.IntText(n))
    else Ok(seq(n, i requires 0 <= i < n => if i < |bytes| then bytes[i] else 0))
  }

  /** Copying to the same length gives back the bytes; copying to a longer
      length and back gives back the bytes too. */
  lemma CopyOfRoundTrip(bytes: seq<Byte>, n: nat)
    requires n >= |bytes|
    ensures CopyOf(bytes, |bytes|) == Ok(bytes)
    ensures CopyOf(CopyOf(bytes, n).value, |bytes|) == Ok(bytes)
  {
    var a := CopyOf(bytes, |bytes|).value;
    assert forall i :: 0 <= i < |a| ==> a[i] == bytes[i];
    assert a == bytes;
    var c := CopyOf(CopyOf(bytes, n).value, |bytes|).value;
    assert forall i :: 0 <= i < |c| ==> c[i] == bytes[i];
    assert c == bytes;
  }

  /** `new Blob(copy, n)`. */
  function FromBytes(copy: seq<Byte>, n: int): (r: Result<BlobData>)
    ensures r.Ok? <==> n >= 0
    ensures r.Ok? ==> r.value.state == Iwr.Init && r.value.writer.None? && Ok(r.value.bytes) == CopyOf(copy, n)
  {
    var bytes :- CopyOf(copy, n);
    Ok(BlobData(Iwr.Init, bytes, None))
  }

  /** `bytesCopy(n)`. */
  function BytesCopy(b: BlobData, n: int): (r: Result<seq<Byte>>)
    ensures r == CopyOf(b.bytes, n)
    ensures r.Ok? && n == |b.bytes| ==> r.value == b.bytes
  {
    CopyOf(b.bytes, n)
  }

  /** `get(i)`. */
  function Get(b: BlobData, i: int): (r: Result<Byte>)
    ensures r.Ok? <==> 0 <= i < |b.bytes|
    ensures r.Ok? ==> r.value == b.bytes[i]
  {
    if 0 <= i < |b.bytes| then Ok(b.bytes[i]) else Err(NumText.OutOfBounds(i, |b.bytes|))
  }

  /** `set(i, v)`: refused when readonly, then bounds-checked. */
  function Set(b: BlobData, i: int, v: Byte): (r: Result<BlobData>)
    ensures r.Ok? <==> b.state != Iwr.Read && 0 <= i < |b.bytes|
    ensures b.state == Iwr.Read ==> r == Err(Iwr.NotWritable)
    ensures r.Ok? ==> r.value == b.(bytes := b.bytes[i := v])
  {
    if b.state == Iwr.Read then Err(Iwr.NotWritable)
    else if 0 <= i < |b.bytes| then Ok(b.(bytes := b.bytes[i := v]))
    else Err(NumText.OutOfBounds(i, |b.bytes|))
  }

  /** The blob's pre-transition hook: no transition while a writer holds
      the slot. */
  function Hook(b: BlobData): (h: Iwr.Hook)
    ensures forall next :: h(next).Fail? <==> b.writer.Some?
  {
    (next: Iwr.IwrState) =>
      if b.writer.Some? then Fail(Error(IllegalState, "Blob still has open writer!")) else Pass
  }

  /** `doneWrite` of a blob. */
  function DoneWrite(b: BlobData): (r: Result<BlobData>)
    ensures r.Ok? <==> b.state != Iwr.Read && b.writer.None?
    ensures r.Ok? ==> r.value == b.(state := Iwr.Read)
  {
    var s :- Iwr.DoneWrite(b.state, Hook(b));
    Ok(b.(state := s))
  }

  /** `writerStream()`: refused when readonly or when a writer holds the
      slot; otherwise a writer at cursor 0 takes the slot. */
  function OpenWriter(b: BlobData): (r: Result<BlobData>)
    ensures r.Ok? <==> b.state != Iwr.Read && b.writer.None?
    ensures b.state == Iwr.Read ==> r == Err(Iwr.NotWritable)
    ensures b.state != Iwr.Read && b.writer.Some? ==> r == Fails(Io, "There is already an unclosed writer!")
    ensures r.Ok? ==> r.value == b.(writer := Some(0))
  {
    if b.state == Iwr.Read then Err(Iwr.NotWritable)
    else if b.writer.Some? then Fails(Io, "There is already an unclosed writer!")
    else Ok(b.(writer := Some(0)))
  }

  /** `BytesStream.advance`: one step on, closing at the end. */
  function Advance(cursor: nat, length: nat): (c: int)
    ensures c == ClosedCursor || c == cursor + 1
    ensures c == ClosedCursor <==> cursor + 1 == length
  {
    if cursor + 1 == length then ClosedCursor else cursor + 1
  }

  /** `write(int b)` on the registered writer: EOF once the writer is
      closed; otherwise the low eight bits of `x` go at the cursor (out of
      bounds only for an empty buffer) and the cursor advances. Writing does
      not consult the lifecycle, which cannot have moved while the writer is
      open. */
  function Write(b: BlobData, x: int): (r: Result<BlobData>)
    requires b.writer.Some?
    ensures b.writer.value == ClosedCursor ==> r.Err? && r.error.kind == Eof
    ensures r.Ok? <==> 0 <= b.writer.value < |b.bytes|
    ensures r.Ok? ==> var c := b.writer.value;
      |r.value.bytes| == |b.bytes| && (r.value.bytes[c] as int - x) % 256 == 0
      && (forall i :: 0 <= i < |b.bytes| && i != c ==> r.value.bytes[i] == b.bytes[i])
      && r.value.state == b.state && r.value.writer == Some(Advance(c, |b.bytes|))
  {
    var c := b.writer.value;
    if c == ClosedCursor then Err(EndOfInput)
    else if c < 0 || c >= |b.bytes| then Err(NumText.OutOfBounds(c, |b.bytes|))
    else Ok(b.(bytes := b.bytes[c := LowByte(x)], writer := Some(Advance(c, |b.bytes|))))
  }

  /** Only the low eight bits are kept: writing 256 stores 0, and writing -1
      stores 255. */
  lemma WriteKeepsLowBits()
    ensures var w := OpenWriter(New(1).value).value;
      Write(w, 256).value.bytes == [0] && Write(w, -1).value.bytes == [255]
  {
  }

  /** The writer's `close()` as written: it releases the slot only when its
      stream is still open, so a writer that closed itself at the end of the
      buffer keeps the slot for ever. */
  function CloseWriterAsWritten(b: BlobData): (r: BlobData)
    requires b.writer.Some?
    ensures b.writer.value != ClosedCursor ==> r == b.(writer := None)
    ensures b.writer.value == ClosedCursor ==> r == b
  {
    if b.writer.value != ClosedCursor then b.(writer := None) else b
  }

  /** The writer's `close()` as evidently intended: closing the writer
      always releases the slot. */
  function CloseWriter(b: BlobData): (r: BlobData)
    requires b.writer.Some?
    ensures r.writer.None? && r.bytes == b.bytes && r.state == b.state
  {
    b.(writer := None)
  }

  /** Writes `data` in order through the registered writer. */
  function WriteAll(b: BlobData, data: seq<Byte>): (r: Result<BlobData>)
    requires b.writer.Some?
    ensures r.Ok? ==> r.value.writer.Some? && r.value.state == b.state && |r.value.bytes| == |b.bytes|
    decreases |data|
  {
    if |data| == 0 then Ok(b)
    else
      var b1 :- Write(b, data[0] as int);
      WriteAll(b1, data[1..])
  }

  /** A fresh writer that writes exactly as many bytes as the buffer holds
      fills it with them and has closed itself by the end. */
  lemma {:induction false} WriteAllFills(b: BlobData, data: seq<Byte>, c: nat)
    requires b.writer == Some(c) && c + |data| == |b.bytes| && |data| > 0
    ensures WriteAll(b, data).Ok?
    ensures WriteAll(b, data).value.bytes == b.bytes[..c] + data
    ensures WriteAll(b, data).value.writer == Some(ClosedCursor)
    decreases |data|
  {
    var b1 := Write(b, data[0] as int).value;
    LowByteJavaByte(data[0], data[0] as int);
    assert b1.bytes == b.bytes[c := data[0]];
    if |data| == 1 {
      assert b1.bytes == b.bytes[..c] + data;
    } else {
      WriteAllFills(b1, data[1..], c + 1);
      assert b1.bytes[..c + 1] == b.bytes[..c] + [data[0]];
      assert [data[0]] + data[1..] == data;
    }
  }

  /** The slot is never freed as written: a blob of one byte whose writer
      writes that byte and is then closed still refuses a new writer and
      still vetoes `doneWrite`. */
  lemma WriterSlotLeaks()
    ensures var b := OpenWriter(New(1).value).value;
      var full := Write(b, 7).value;
      var closed := CloseWriterAsWritten(full);
      && OpenWriter(closed).Err? && DoneWrite(closed).Err?
      && OpenWriter(CloseWriter(full)).Ok? && DoneWrite(CloseWriter(full)).Ok?
  {
  }

  /** With the intended close, filling the buffer and closing the writer
      leaves the data in the blob and lets it become readonly. */
  lemma FillThenCloseThenDoneWrite(b: BlobData, data: seq<Byte>)
    requires b.state != Iwr.Read && b.writer.None? && |data| == |b.bytes| && |data| > 0
    ensures OpenWriter(b).Ok? && WriteAll(OpenWriter(b).value, data).Ok?
    ensures var w := WriteAll(OpenWriter(b).value, data).value;
      DoneWrite(CloseWriter(w)).Ok? && DoneWrite(CloseWriter(w)).value.bytes == data
  {
    WriteAllFills(OpenWriter(b).value, data, 0);
  }

  /** `read()` of a reader stream at `cursor` as written: EOF once closed;
      otherwise the byte at the cursor, sign-extended from `byte` to `int`,
      and the advanced cursor. A stored 0xFF therefore reads as -1, the value
      by which `InputStream.read` reports the end of the stream. */
  function ReadByteAsWritten(b: BlobData, cursor: int): (r: Result<(int, int)>)
    ensures cursor == ClosedCursor ==> r.Err? && r.error.kind == Eof
    ensures r.Ok? <==> 0 <= cursor < |b.bytes|
    ensures r.Ok? ==> -128 <= r.value.0 < 128 && (r.value.0 - b.bytes[cursor] as int) % 256 == 0
    ensures r.Ok? ==> r.value.1 == Advance(cursor, |b.bytes|)
  {
    if cursor == ClosedCursor then Err(EndOfInput)
    else if cursor < 0 || cursor >= |b.bytes| then Err(NumText.OutOfBounds(cursor, |b.bytes|))
    else Ok((JavaByte(b.bytes[cursor]), Advance(cursor, |b.bytes|)))
  }

  /** `read()` as `InputStream` promises it, the corrected reading: the byte
      at the cursor as a value from 0 to 255, so no byte can be mistaken for
      the end of the stream. The rest of the model reads through it. */
  function ReadByte(b: BlobData, cursor: int): (r: Result<(Byte, int)>)
    ensures cursor == ClosedCursor ==> r.Err? && r.error.kind == Eof
    ensures r.Ok? <==> 0 <= cursor < |b.bytes|
    ensures r.Ok? ==> r.value.0 == b.bytes[cursor] && r.value.1 == Advance(cursor, |b.bytes|)
  {
    if cursor == ClosedCursor then Err(EndOfInput)
    else if cursor < 0 || cursor >= |b.bytes| then Err(NumText.OutOfBounds(cursor, |b.bytes|))
    else Ok((b.bytes[cursor], Advance(cursor, |b.bytes|)))
  }

  /** The two readings agree on position and on every byte below 0x80, and
      differ by 256 on every byte from 0x80 up: a blob holding the single
      byte 0xFF reads as -1 as written and as 255 corrected. */
  lemma ReadAsWrittenIsSigned(b: BlobData, cursor: int)
    ensures ReadByteAsWritten(b, cursor).Ok? <==> ReadByte(b, cursor).Ok?
    ensures ReadByte(b, cursor).Ok? ==>
              ReadByteAsWritten(b, cursor).value.1 == ReadByte(b, cursor).value.1
              && ReadByteAsWritten(b, cursor).value.0 == JavaByte(ReadByte(b, cursor).value.0)
    ensures ReadByteAsWritten(BlobData(Iwr.Read, [255], None), 0) == Ok((-1, ClosedCursor))
    ensures ReadByte(BlobData(Iwr.Read, [255], None), 0) == Ok((255, ClosedCursor))
  {
  }

  /** A stream's `close()`: closed, whatever the cursor was. */
  function CloseCursor(cursor: int): (c: int)
    ensures c == ClosedCursor
  {
    ClosedCursor
  }

  /** Reads `n` bytes from `cursor` on. */
  function ReadN(b: BlobData, cursor: int, n: nat): (r: Result<(seq<Byte>, int)>)
    ensures r.Ok? ==> |r.value.0| == n
    decreases n
  {
    if n == 0 then Ok(([], cursor))
    else
      var (x, c) :- ReadByte(b, cursor);
      var (rest, c2) :- ReadN(b, c, n - 1);
      Ok(([x] + rest, c2))
  }

  /** Reading from `c` to the end yields the rest of the buffer and leaves
      the stream closed, so a further read is EOF. */
  lemma {:induction false} ReadToEnd(b: BlobData, c: nat)
    requires c < |b.bytes|
    ensures ReadN(b, c, |b.bytes| - c) == Ok((b.bytes[c..], ClosedCursor))
    ensures ReadByte(b, ClosedCursor).Err? && ReadByte(b, ClosedCursor).error.kind == Eof
    decreases |b.bytes| - c
  {
    assert ReadByte(b, c) == Ok((b.bytes[c], Advance(c, |b.bytes|)));
    if c + 1 < |b.bytes| {
      ReadToEnd(b, c + 1);
      assert b.bytes[c..] == [b.bytes[c]] + b.bytes[c + 1..];
    } else {
      assert ReadN(b, ClosedCursor, 0) == Ok(([], ClosedCursor));
      assert [b.bytes[c]] + [] == [b.bytes[c]] == b.bytes[c..];
      assert ReadN(b, c, 1) == Ok(([b.bytes[c]] + [], ClosedCursor));
    }
  }

  /** What a writer writes into a fresh buffer, a reader reads back with
      the corrected read. */
  lemma WriteThenRead(b: BlobData, data: seq<Byte>)
    requires b.state != Iwr.Read && b.writer.None? && |data| == |b.bytes| && |data| > 0
    ensures OpenWriter(b).Ok? && WriteAll(OpenWriter(b).value, data).Ok?
    ensures ReadN(WriteAll(OpenWriter(b).value, data).value, 0, |data|).Ok?
    ensures ReadN(WriteAll(OpenWriter(b).value, data).value, 0, |data|).value.0 == data
  {
    hide *;
    var w := OpenWriter(b).value;
    WriteAllFills(w, data, 0);
    var f := WriteAll(w, data).value;
    assert f.bytes == data;
    ReadToEnd(f, 0);
    assert f.bytes[0..] == data;
  }

  /** The read as written gives back, byte by byte, the signed Java value of
      what was written. */
  lemma WriteThenReadAsWritten(b: BlobData, data: seq<Byte>)
    requires b.state != Iwr.Read && b.writer.None? && |data| == |b.bytes| && |data| > 0
    ensures OpenWriter(b).Ok? && WriteAll(OpenWriter(b).value, data).Ok?
    ensures forall i :: 0 <= i < |data| ==>
              ReadByteAsWritten(WriteAll(OpenWriter(b).value, data).value, i) == Ok((JavaByte(data[i]), Advance(i, |data|)))
  {
    WriteAllFills(OpenWriter(b).value, data, 0);
  }
}

=== FILE: coerce.dfy ===
/** `FusionValueType.from`: how a Java value, a fusion value or a plain
    Java collection becomes a fusion value of a given kind and domain.

    A fusion value of another kind is refused; a payload whose class the
    domain's data class accepts is made immutable (an object, list, map or
    blob is moved to READ, a collection of the wrong domain is copied with
    every item coerced in turn); any other payload is converted by the
    kind. The domain's range is checked last, whatever the lifecycle state
    of whoever asked.

    Two flavours share one definition, told apart by `copied`, the state a
    collection copy is left in: INIT as the source is written, READ as its
    own documentation promises (an immutable copy).
 */
module Coerce {
  import opened Wrappers
  import opened Values
  import Iwr
  import Types
  import Convert
  import Domains
  import Ranges
  import ObjectCore
  import Blobs
  import NoCaseMaps
  import Fusion
  import NumText

  /** What `from` is handed: a fusion value (`Fv(Null)` is `FusionValue.NULL`),
      a Java payload (`Raw(Null)` is Java's null), or a plain Java list or
      map that is not a fusion container, in its iteration order. */
  datatype Input =
    | Fv(v: Value)
    | Raw(p: Value)
    | RawList(items: seq<Input>)
    | RawMap(entries: seq<RawEntry>)

  datatype RawEntry = RawEntry(key: string, value: Input)

  function CannotAssign(from: Kind, to: Kind): Error {
    Error(IllegalArgument, "Cannot assign " + KindName(from) + " to " + KindName(to))
  }

  function CannotConvert(k: Kind, from: string, to: JClass): Error {
    Error(Arithmetic, KindName(k) + ": cannot auto-convert " + from + " to " + Types.ClassText(to))
  }

  const OnlyStrings := Error(Unsupported, "Can only cast String to/from a String \"subtype\"!")

  /** The class `_from` wants: `javaDataClass()` without a domain, the
      qualifier's class with one. */
  function Desired(env: Types.Env, k: Kind, d: Option<Domain>): (r: Result<JClass>)
    requires k != Any
    ensures d.None? ==> r == Ok(Types.DefaultClass(k).value)
    ensures d.Some? ==> (r.Ok? <==> Types.JavaDataClass(env, k, d.value.qualifier).Ok?)
    ensures r.Ok? && d.Some? ==> Types.JavaDataClass(env, k, d.value.qualifier) == Ok(Some(r.value))
  {
    var c :- if d.None? then Ok(Types.DefaultClass(k)) else Types.JavaDataClass(env, k, d.value.qualifier);
    match c
    case Some(cls) => Ok(cls)
    case None => Fails(Assertion, "no data class")
  }

  /** The range check `from` ends with: only for a domain whose range is
      not NULL, and a missing compiled range is a NullPointerException. */
  function Validated(k: Kind, d: Option<Domain>, v: Value): (r: Result<Value>)
    ensures r.Ok? ==> r.value == v
    ensures r.Ok? <==> InRange(k, d, v)
  {
    if d.None? || d.value.range.Null? then Ok(v)
    else if d.value.compiled.None? then Fails(NullPointer, "compiledRange")
    else match Ranges.ValidateRange(k, d.value.compiled.value, v)
      case Pass => Ok(v)
      case Fail(e) => Err(e)
  }

  /** A value the domain's range admits (every value, without a range). */
  predicate InRange(k: Kind, d: Option<Domain>, v: Value) {
    d.None? || d.value.range.Null?
    || (d.value.compiled.Some? && Ranges.ValidateRange(k, d.value.compiled.value, v).Pass?)
  }

  /** STRING's `convert`: to `String` any string-kind payload gives its
      text; to a subtype class only a plain `String` converts, through
      that subtype's parser. */
  function StrConvert(env: Types.Env, desired: JClass, p: Value): (r: Result<Value>)
    requires !p.Null?
    ensures r.Ok? ==> r.value.StrVal? && PayloadClass(r.value) == desired
    ensures desired == StringC ==> (r.Ok? <==> p.StrVal?) && (r.Ok? ==> r.value.text == p.text)
    ensures desired.SubtypeC? ==>
              (r.Ok? <==> p.StrVal? && p.sub.None? && Types.SubtypeParse(env, desired.sub, p.text).Ok?)
    ensures desired.SubtypeC? && r.Ok? ==> r == Types.SubtypeParse(env, desired.sub, p.text)
  {
    if desired == StringC then
      if !p.StrVal? then Err(OnlyStrings) else Ok(StrVal(None, p.text))
    else if !desired.SubtypeC? then Err(OnlyStrings)
    else if !(p.StrVal? && p.sub.None?) then Fails(ClassCast, "payload cannot be cast to class java.lang.String")
    else Types.SubtypeParse(env, desired.sub, p.text)
  }

  /** `convert(javaVal, desiredClass)` of each kind, reached when the
      payload's class is not the one wanted: INTEGER narrows or widens,
      DECIMAL converts numbers, STRING goes through `StrConvert`, and every
      other kind refuses. */
  function ConvertPayload(env: Types.Env, k: Kind, desired: JClass, p: Value): (r: Result<Value>)
    requires k != Any && !p.Null?
    ensures r.Ok? ==> KindOf(r.value) == k && Assignable(desired, PayloadClass(r.value))
    ensures r.Ok? ==> r.value.IntVal? || r.value.DecVal? || r.value.StrVal?
    ensures k != Integer && k != Decimal && k != Str ==>
              r == Err(CannotConvert(k, Types.ClassText(PayloadClass(p)), desired))
  {
    if k == Integer && desired.IntC? then Convert.ConvertInteger(p, desired.width)
    else if k == Decimal && desired.DecC? then Convert.ConvertDecimal(p, desired.dwidth)
    else if k == Str then StrConvert(env, desired, p)
    else Err(CannotConvert(k, Types.ClassText(PayloadClass(p)), desired))
  }

  /** The payloads `from` hands back unchanged: a payload of the wanted
      class that needs no further freezing or copying. */
  predicate Fixed(env: Types.Env, k: Kind, d: Option<Domain>, v: Value)
    requires k != Any
  {
    if k == Bool then v.BoolVal?
    else
      Desired(env, k, d).Ok? && !v.Null? && Assignable(Desired(env, k, d).value, PayloadClass(v))
      && match v
         case ObjVal(o) => o.state == Iwr.Read && !o.isKey
         case ListVal(l) =>
           l.state == Iwr.Read && d.Some? && d.value.item.Some?
           && (d.value.item.value.kind == Any || l.domain == d.value)
         case MapVal(m) =>
           m.state == Iwr.Read && d.Some? && d.value.item.Some?
           && (d.value.item.value.kind == Any || m.domain == d.value)
         case BlobVal(b) => b.state == Iwr.Read
         case _ => true
  }

  // ---------------------------------------------------------------------
  // Fusion values and payloads

  /** `from(javaVal, domain)` for a fusion value (`fv`) or a payload. */
  function FromValue(env: Types.Env, k: Kind, d: Option<Domain>, fv: bool, v: Value, copied: Iwr.IwrState): (r: Result<Value>)
    ensures v.Null? ==> r == Ok(Null)
    ensures fv && k == Any ==> r == Ok(v)
    ensures fv && !v.Null? && k != Any && KindOf(v) != k ==> r == Err(CannotAssign(KindOf(v), k))
    ensures r.Ok? && !v.Null? && k != Any ==> KindOf(r.value) == k
    ensures r.Ok? && !v.Null? && !(fv && k == Any) ==> InRange(k, d, r.value) && !r.value.Null?
    ensures r.Ok? && !v.Null? && k != Any && copied == Iwr.Read ==> Fixed(env, k, d, r.value)
    decreases v, 3
  {
    if v.Null? then Ok(Null)
    else if fv && k == Any then Ok(v)
    else if fv && KindOf(v) != k then Err(CannotAssign(KindOf(v), k))
    else
      var p :- FromPayload(env, k, d, v, copied);
      Validated(k, d, p)
  }

  /** `_from(javaVal, domain)`: ANY takes the payload's own type and a
      range-less domain of it; every other kind is `FromTyped`. */
  function FromPayload(env: Types.Env, k: Kind, d: Option<Domain>, p: Value, copied: Iwr.IwrState): (r: Result<Value>)
    requires !p.Null?
    ensures r.Ok? ==> !r.value.Null?
    ensures r.Ok? && k != Any ==> KindOf(r.value) == k
    ensures r.Ok? && k == Any ==> KindOf(r.value) == KindOf(p)
    ensures k != Any ==> r == FromTyped(env, k, d, p, copied)
    ensures r.Ok? && k != Any && copied == Iwr.Read ==> Fixed(env, k, d, r.value)
    decreases p, 2, 2
  {
    if k == Any then
      var qt := TypeOfPayload(p);
      var dom :- Domains.MakeDomain(env, qt.kind, qt.qualifier, Null);
      FromTyped(env, qt.kind, Some(dom), p, copied)
    else if copied == Iwr.Read && FromTyped(env, k, d, p, copied).Ok? then
      FromTypedFixed(env, k, d, p);
      FromTyped(env, k, d, p, copied)
    else FromTyped(env, k, d, p, copied)
  }

  /** `_from` of a kind other than ANY: BOOL casts; the other kinds make a
      payload of the wanted class immutable and convert any other. */
  function FromTyped(env: Types.Env, k: Kind, d: Option<Domain>, p: Value, copied: Iwr.IwrState): (r: Result<Value>)
    requires k != Any && !p.Null?
    ensures r.Ok? ==> KindOf(r.value) == k
    ensures k == Bool ==> (r.Ok? <==> p.BoolVal?) && (r.Ok? ==> r.value == p)
    decreases p, 2, 0
  {
    if k == Bool then
      if p.BoolVal? then Ok(p) else Fails(ClassCast, "payload cannot be cast to class java.lang.Boolean")
    else
      var desired :- Desired(env, k, d);
      if Assignable(desired, PayloadClass(p)) then
        AssignableKind(env, k, d, p);
        hide *;
        Immutable(env, k, d, p, copied)
      else ConvertPayload(env, k, desired, p)
  }

  /** A payload the wanted class can hold is of the wanted kind. */
  lemma AssignableKind(env: Types.Env, k: Kind, d: Option<Domain>, p: Value)
    requires k != Any && k != Bool && !p.Null?
    requires Desired(env, k, d).Ok? && Assignable(Desired(env, k, d).value, PayloadClass(p))
    ensures KindOf(p) == k
  {
    assert ClassType(PayloadClass(p)).value.kind == KindOf(p) by {
      assert TypeOfPayload(p).kind == KindOf(p);
    }
    hide *;
    Types.DefaultClassType(k);
    AssignableSameKind(Desired(env, k, d).value, PayloadClass(p));
  }

  /** A class a payload class can be assigned to is registered under the
      same kind; the `FusionObject` interface takes only object classes. */
  lemma AssignableSameKind(to: JClass, from: JClass)
    requires Assignable(to, from) && from != FusionObjectC
    ensures ClassType(from).Ok?
    ensures ClassType(to).Ok? ==> ClassType(to).value.kind == ClassType(from).value.kind
    ensures to == FusionObjectC ==> ClassType(from).value.kind == Object
  {
  }

  /** What `FromTyped` returns, when copies are frozen, needs nothing more. */
  lemma FromTypedFixed(env: Types.Env, k: Kind, d: Option<Domain>, p: Value)
    requires k != Any && !p.Null? && FromTyped(env, k, d, p, Iwr.Read).Ok?
    ensures Fixed(env, k, d, FromTyped(env, k, d, p, Iwr.Read).value)
    decreases p, 2, 1
  {
    if k != Bool {
      var desired := Desired(env, k, d).value;
      if !Assignable(desired, PayloadClass(p)) {
        ConvertedIsFixed(env, k, d, ConvertPayload(env, k, desired, p).value);
      }
    }
  }

  /** A converted scalar of the wanted class needs nothing more. */
  lemma ConvertedIsFixed(env: Types.Env, k: Kind, d: Option<Domain>, v: Value)
    requires k != Any && k != Bool && Desired(env, k, d).Ok?
    requires v.IntVal? || v.DecVal? || v.StrVal?
    requires Assignable(Desired(env, k, d).value, PayloadClass(v))
    ensures Fixed(env, k, d, v)
  {
  }

  /** `immutable(javaVal, domain)`: a key instance cannot be a value; an
      object or blob not yet READ is moved there, so its own checks run; a
      list or map is frozen as it is when its items are untyped or its
      domain is the wanted one, and otherwise copied. Copying a fusion list
      coerces each of its payloads; copying a fusion map needs the map's
      `entrySet`, which is not implemented. */
  function Immutable(env: Types.Env, k: Kind, d: Option<Domain>, p: Value, copied: Iwr.IwrState): (r: Result<Value>)
    requires k != Any && k != Bool && !p.Null?
    requires Desired(env, k, d).Ok? && Assignable(Desired(env, k, d).value, PayloadClass(p))
    ensures r.Ok? ==> KindOf(r.value) == KindOf(p) && PayloadClass(r.value) == PayloadClass(p)
    ensures p.ObjVal? && p.obj.isKey ==> r.Err? && r.error.kind == IllegalArgument
    ensures p.ObjVal? && !p.obj.isKey ==> r == (if p.obj.state == Iwr.Read then Ok(p)
                                                 else match ObjectCore.DoneWrite(p.obj)
                                                      case Ok(o) => Ok(ObjVal(o))
                                                      case Err(e) => Err(e))
    ensures r.Ok? && copied == Iwr.Read ==> Fixed(env, k, d, r.value)
    decreases p, 1
  {
    match p
    case ObjVal(o) =>
      if o.isKey then Fails(IllegalArgument, "Cannot assign a key-fob as a value: " + Types.Show(p))
      else if o.state == Iwr.Read then Ok(p)
      else
        var o2 :- ObjectCore.DoneWrite(o);
        Ok(ObjVal(o2))
    case ListVal(l) =>
      if d.None? || d.value.item.None? then Fails(NullPointer, "itemDomain")
      else if d.value.item.value.kind == Any || l.domain == d.value then
        Ok(ListVal(l.(state := Iwr.Read)))
      else
        var items :- CopyItems(env, d.value.item.value, l, 0, copied);
        Ok(ListVal(FList(d.value, copied, items)))
    case MapVal(m) =>
      if d.None? || d.value.item.None? then Fails(NullPointer, "itemDomain")
      else if d.value.item.value.kind == Any || m.domain == d.value then
        Ok(MapVal(m.(state := Iwr.Read)))
      else Fails(Runtime, "todo")
    case BlobVal(b) =>
      if b.state == Iwr.Read then Ok(p)
      else
        var b2 :- Blobs.DoneWrite(b);
        Ok(BlobVal(b2))
    case _ => Ok(p)
  }

  /** The copy constructor's loop over a fusion list's payloads, from
      position `i`: each is coerced by the item domain, in order, and the
      first failure ends the copy. */
  function CopyItems(env: Types.Env, item: Domain, l: FList, i: nat, copied: Iwr.IwrState): (r: Result<seq<Value>>)
    requires i <= |l.items|
    ensures r.Ok? ==> |r.value| == |l.items| - i
    ensures r.Ok? ==> forall j :: i <= j < |l.items| ==>
                        FromValue(env, item.kind, Some(item), false, l.items[j], copied) == Ok(r.value[j - i])
    ensures r.Err? ==> exists j :: i <= j < |l.items| && FromValue(env, item.kind, Some(item), false, l.items[j], copied).Err?
    decreases l, |l.items| - i
  {
    if i == |l.items| then Ok([])
    else
      hide *;
      var v := FromValue(env, item.kind, Some(item), false, l.items[i], copied);
      if v.Err? then Err(v.error)
      else
        var rest := CopyItems(env, item, l, i + 1, copied);
        if rest.Err? then Err(rest.error)
        else
          assert forall j :: i + 1 <= j < |l.items| ==>
                   FromValue(env, item.kind, Some(item), false, l.items[j], copied) == Ok(rest.value[j - (i + 1)]);
          Ok([v.value] + rest.value)
  }

  // ---------------------------------------------------------------------
  // Plain Java collections

  /** `from(javaVal, domain)` for any input. */
  function FromInput(env: Types.Env, k: Kind, d: Option<Domain>, x: Input, copied: Iwr.IwrState): (r: Result<Value>)
    ensures x.Fv? ==> r == FromValue(env, k, d, true, x.v, copied)
    ensures x.Raw? ==> r == FromValue(env, k, d, false, x.p, copied)
    ensures r.Ok? && (x.RawList? || x.RawMap?) ==>
              KindOf(r.value) == (if k == Any then (if x.RawList? then List else Map) else k)
              && InRange(k, d, r.value)
    ensures r.Ok? && (x.RawList? || x.RawMap?) && k != Any && copied == Iwr.Read ==> Fixed(env, k, d, r.value)
    decreases x, 3
  {
    match x
    case Fv(v) => FromValue(env, k, d, true, v, copied)
    case Raw(p) => FromValue(env, k, d, false, p, copied)
    case _ =>
      var p :- FromCollection(env, k, d, x, copied);
      Validated(k, d, p)
  }

  /** `_from` of a plain list or map: ANY takes LIST or MAP with untyped
      items; LIST and MAP copy it; the other kinds fail as their `convert`
      does on a collection. */
  function FromCollection(env: Types.Env, k: Kind, d: Option<Domain>, x: Input, copied: Iwr.IwrState): (r: Result<Value>)
    requires x.RawList? || x.RawMap?
    ensures r.Ok? ==> KindOf(r.value) == (if k == Any then (if x.RawList? then List else Map) else k)
    ensures r.Ok? && k != Any && copied == Iwr.Read ==> Fixed(env, k, d, r.value)
    decreases x, 2, if k == Any then 1 else 0
  {
    var ck := if x.RawList? then List else Map;
    if k == Any then
      var dom :- Domains.MakeDomain(env, ck, None, Null);
      FromCollection(env, ck, Some(dom), x, copied)
    else if k == Bool then Fails(ClassCast, "payload cannot be cast to class java.lang.Boolean")
    else
      var desired :- Desired(env, k, d);
      if k == ck && desired == (if x.RawList? then ListC else MapC) then CopyCollection(env, k, d, x, copied)
      else if k == Integer then Fails(ClassCast, "payload cannot be cast to class java.lang.Number")
      else if k == Decimal && desired == DecC(JBigDecimal) then Fails(Assertion, "")
      else if k == Decimal then Fails(ClassCast, "payload cannot be cast to class java.lang.Number")
      else if k == Str && desired == StringC then Err(OnlyStrings)
      else if k == Str then Fails(ClassCast, "payload cannot be cast to class java.lang.String")
      else Err(CannotConvert(k, if x.RawList? then "java.util.ArrayList" else "java.util.HashMap", desired))
  }

  /** `new FusionList<>(list, domain)` and `new FusionMap(map, domain)` of a
      plain collection: every item coerced by the item domain, map keys
      put in turn into the case-insensitive sorted map. */
  function CopyCollection(env: Types.Env, k: Kind, d: Option<Domain>, x: Input, copied: Iwr.IwrState): (r: Result<Value>)
    requires x.RawList? || x.RawMap?
    requires k == (if x.RawList? then List else Map)
    ensures r.Ok? ==> d.Some? && d.value.item.Some?
    ensures r.Ok? && x.RawList? ==> r.value.ListVal? && r.value.list.domain == d.value && r.value.list.state == copied
                                    && |r.value.list.items| == |x.items|
                                    && forall i :: 0 <= i < |x.items| ==>
                                         FromInput(env, d.value.item.value.kind, d.value.item, x.items[i], copied)
                                         == Ok(r.value.list.items[i])
    ensures r.Ok? && x.RawMap? ==> r.value.MapVal? && r.value.fmap.domain == d.value && r.value.fmap.state == copied
                                   && NoCaseMaps.Sorted(r.value.fmap.entries)
                                   && forall i :: 0 <= i < |x.entries| ==> Lookup(r.value.fmap.entries, x.entries[i].key).Some?
    decreases x, 1
  {
    if d.None? || d.value.item.None? then Fails(NullPointer, "itemDomain")
    else
      var item := d.value.item.value;
      match x
      case RawList(xs) =>
        var items :- CopyInputs(env, item, xs, copied);
        Ok(ListVal(FList(d.value, copied, items)))
      case RawMap(es) =>
        var vals :- CopyEntries(env, item, es, copied);
        forall i | 0 <= i < |es| ensures Lookup(NoCaseMaps.PutAll([], vals), es[i].key).Some? {
          NoCaseMaps.PutAllHasKeys([], vals, i);
        }
        Ok(MapVal(FMap(d.value, copied, NoCaseMaps.PutAll([], vals))))
  }

  /** Each item of a plain list coerced by the item domain, in order. */
  function CopyInputs(env: Types.Env, item: Domain, xs: seq<Input>, copied: Iwr.IwrState): (r: Result<seq<Value>>)
    ensures r.Ok? ==> |r.value| == |xs|
    ensures r.Ok? ==> forall i :: 0 <= i < |xs| ==> FromInput(env, item.kind, Some(item), xs[i], copied) == Ok(r.value[i])
    ensures r.Err? ==> exists i :: 0 <= i < |xs| && FromInput(env, item.kind, Some(item), xs[i], copied).Err?
    decreases xs
  {
    if |xs| == 0 then Ok([])
    else
      var v :- FromInput(env, item.kind, Some(item), xs[0], copied);
      var rest :- CopyInputs(env, item, xs[1..], copied);
      assert forall i :: 1 <= i < |xs| ==> xs[i] == xs[1..][i - 1];
      Ok([v] + rest)
  }

  /** Each value of a plain map coerced by the item domain, keys kept, in
      the map's iteration order. */
  function CopyEntries(env: Types.Env, item: Domain, es: seq<RawEntry>, copied: Iwr.IwrState): (r: Result<seq<Entry>>)
    ensures r.Ok? ==> |r.value| == |es|
    ensures r.Ok? ==> forall i :: 0 <= i < |es| ==>
                        r.value[i].key == es[i].key
                        && FromInput(env, item.kind, Some(item), es[i].value, copied) == Ok(r.value[i].value)
    decreases es
  {
    if |es| == 0 then Ok([])
    else
      var v :- FromInput(env, item.kind, Some(item), es[0].value, copied);
      var rest :- CopyEntries(env, item, es[1..], copied);
      assert forall i :: 1 <= i < |es| ==> es[i] == es[1..][i - 1];
      Ok([Entry(es[0].key, v)] + rest)
  }

  // ---------------------------------------------------------------------
  // The two flavours

  /** `from(javaVal, domain)`, with every copy it makes frozen as its
      documentation promises. */
  function From(env: Types.Env, k: Kind, d: Option<Domain>, x: Input): (r: Result<Value>)
    requires d.None? || d.value.kind == k
    ensures (x == Fv(Null) || x == Raw(Null)) ==> r == Ok(Null)
    ensures x.Fv? && k == Any ==> r == Ok(x.v)
    ensures x.Fv? && !x.v.Null? && k != Any && KindOf(x.v) != k ==> r == Err(CannotAssign(KindOf(x.v), k))
    ensures r.Ok? && k != Any && !r.value.Null? ==> KindOf(r.value) == k && Fixed(env, k, d, r.value)
    ensures r.Ok? && !r.value.Null? && !(x.Fv? && k == Any) ==> InRange(k, d, r.value)
  {
    FromInput(env, k, d, x, Iwr.Read)
  }

  /** `from(javaVal, domain)` as written: a copied list or map
      is left in INIT. */
  function FromAsWritten(env: Types.Env, k: Kind, d: Option<Domain>, x: Input): (r: Result<Value>)
    requires d.None? || d.value.kind == k
    ensures (x == Fv(Null) || x == Raw(Null)) ==> r == Ok(Null)
    ensures r.Ok? && !r.value.Null? && !(x.Fv? && k == Any) ==> InRange(k, d, r.value)
  {
    FromInput(env, k, d, x, Iwr.Init)
  }

  /** A value `Fixed` for the kind and domain passes `_from` unchanged. */
  lemma FixedPassesUnchanged(env: Types.Env, k: Kind, d: Option<Domain>, v: Value, copied: Iwr.IwrState)
    requires k != Any && !v.Null? && Fixed(env, k, d, v)
    ensures FromPayload(env, k, d, v, copied) == Ok(v)
  {
    assert FromPayload(env, k, d, v, copied) == FromTyped(env, k, d, v, copied);
    if k != Bool {
      assert FromTyped(env, k, d, v, copied) == Immutable(env, k, d, v, copied);
      match v
      case ListVal(l) => assert l.(state := Iwr.Read) == l;
      case MapVal(m) => assert m.(state := Iwr.Read) == m;
      case ObjVal(o) =>
      case BlobVal(b) =>
      case _ =>
    }
  }

  /** `from` is idempotent: what it returns, handed back to it as a fusion
      value with the same domain, comes back unchanged. */
  lemma FromIdempotent(env: Types.Env, k: Kind, d: Option<Domain>, x: Input)
    requires d.None? || d.value.kind == k
    requires From(env, k, d, x).Ok?
    ensures From(env, k, d, Fv(From(env, k, d, x).value)) == From(env, k, d, x)
  {
    var r := From(env, k, d, x).value;
    if !r.Null? && k != Any {
      FixedPassesUnchanged(env, k, d, r, Iwr.Read);
      assert InRange(k, d, r) by {
        if x.Fv? && x.v.Null? {
        } else if x.Raw? && x.p.Null? {
        }
      }
    }
  }

  /** The empty list the JSON reader hands to `from` for `[]`: the source's
      copy is still INIT, so a second `from` changes it, while the
      documented copy is READ and stays as it is. */
  lemma CopyLeftWritable(env: Types.Env)
    ensures var listAny := Domain(List, None, Null, None, Some(ListC), Some(Domains.AnyDomain));
      && FromAsWritten(env, List, Some(listAny), RawList([])) == Ok(ListVal(FList(listAny, Iwr.Init, [])))
      && FromAsWritten(env, List, Some(listAny), Fv(ListVal(FList(listAny, Iwr.Init, []))))
         == Ok(ListVal(FList(listAny, Iwr.Read, [])))
      && From(env, List, Some(listAny), RawList([])) == Ok(ListVal(FList(listAny, Iwr.Read, [])))
  {
    hide *;
    EmptyCopyAsWritten(env);
    EmptyCopyFrozenLater(env);
    EmptyCopyDocumented(env);
  }

  lemma EmptyCopyAsWritten(env: Types.Env)
    ensures var listAny := Domain(List, None, Null, None, Some(ListC), Some(Domains.AnyDomain));
      FromAsWritten(env, List, Some(listAny), RawList([])) == Ok(ListVal(FList(listAny, Iwr.Init, [])))
  {
  }

  lemma EmptyCopyFrozenLater(env: Types.Env)
    ensures var listAny := Domain(List, None, Null, None, Some(ListC), Some(Domains.AnyDomain));
      FromAsWritten(env, List, Some(listAny), Fv(ListVal(FList(listAny, Iwr.Init, []))))
      == Ok(ListVal(FList(listAny, Iwr.Read, [])))
  {
  }

  lemma EmptyCopyDocumented(env: Types.Env)
    ensures var listAny := Domain(List, None, Null, None, Some(ListC), Some(Domains.AnyDomain));
      From(env, List, Some(listAny), RawList([])) == Ok(ListVal(FList(listAny, Iwr.Read, [])))
  {
  }
}

=== FILE: convert.dfy ===
/** The payload conversions of the numeric kinds: INTEGER's widening and
    exact narrowing between `Byte`, `Short`, `Integer`, `Long` and
    `BigInteger`, and DECIMAL's conversions to `Float`, `Double` and
    `BigDecimal`.

    Binary floating point is not modelled: a `Float` or `Double` payload
    keeps the decimal value it was converted from.
 */
module Convert {
  import opened Wrappers
  import opened Values
  import NumText

  /** Position of an integer class in the widening order. */
  function WidthRank(w: IntWidth): nat {
    match w
    case JByte => 0
    case JShort => 1
    case JInt => 2
    case JLong => 3
    case JBig => 4
  }

  function WidthClassName(w: IntWidth): string {
    match w
    case JByte => "java.lang.Byte"
    case JShort => "java.lang.Short"
    case JInt => "java.lang.Integer"
    case JLong => "java.lang.Long"
    case JBig => "java.math.BigInteger"
  }

  function DecClassName(d: DecWidth): string {
    match d
    case JFloat => "java.lang.Float"
    case JDouble => "java.lang.Double"
    case JBigDecimal => "java.math.BigDecimal"
  }

  function WidthTypeName(w: IntWidth): string {
    match w
    case JByte => "byte"
    case JShort => "short"
    case JInt => "int"
    case JLong => "long"
    case JBig => "BigInteger"
  }

  /** A value that fits a class fits every wider class. */
  lemma FitsWider(narrow: IntWidth, wide: IntWidth, n: int)
    requires WidthRank(narrow) <= WidthRank(wide)
    requires Fits(narrow, n)
    ensures Fits(wide, n)
  {
  }

  /** INTEGER's `convert`: the payload unchanged when already of the target
      class; a cast failure for a non-number; a refusal of the decimal
      classes; otherwise the same number in the target class, which fails
      with an ArithmeticException when it does not fit. */
  function ConvertInteger(v: Value, target: IntWidth): (r: Result<Value>)
    ensures WellFormed(v) ==> (r.Ok? <==> v.IntVal? && Fits(target, v.n))
    ensures r.Ok? ==> v.IntVal? && r.value == IntVal(target, v.n)
    ensures !v.IntVal? && !v.DecVal? ==> r.Err? && r.error.kind == ClassCast
    ensures v.DecVal? ==> r.Err? && r.error.kind == IllegalArgument
    ensures WellFormed(v) && v.IntVal? && !Fits(target, v.n) ==> r.Err? && r.error.kind == Arithmetic
  {
    if v.IntVal? && v.width == target then Ok(v)
    else if !v.IntVal? && !v.DecVal? then
      Fails(ClassCast, "payload cannot be cast to class java.lang.Number")
    else if v.DecVal? then
      Fails(IllegalArgument, "Invalid java-value type: class " + DecClassName(v.dwidth))
    else if Fits(target, v.n) then Ok(IntVal(target, v.n))
    else Fails(Arithmetic, "BigInteger out of " + WidthTypeName(target) + " range")
  }

  /** Widening never fails and keeps the number. */
  lemma WideningSucceeds(v: Value, target: IntWidth)
    requires WellFormed(v) && v.IntVal?
    requires WidthRank(v.width) <= WidthRank(target)
    ensures ConvertInteger(v, target) == Ok(IntVal(target, v.n))
  {
    FitsWider(v.width, target, v.n);
  }

  /** Converting to another class and back restores the original payload. */
  lemma ConvertIntegerRoundTrip(v: Value, target: IntWidth)
    requires WellFormed(v) && v.IntVal?
    requires ConvertInteger(v, target).Ok?
    ensures ConvertInteger(ConvertInteger(v, target).value, v.width) == Ok(v)
  {
  }

  /** Java's `long` arithmetic: the two's-complement value of the low 64 bits. */
  function Int64(x: int): (r: int)
    ensures Fits(JLong, r)
    ensures Fits(JLong, x) ==> r == x
  {
    var m := x % 0x1_0000_0000_0000_0000;
    if m < 0x8000_0000_0000_0000 then m else m - 0x1_0000_0000_0000_0000
  }

  /** The decimal text of ten to the power `k`: a one and `k` zeros. */
  function TenText(k: nat): (s: string)
    ensures NumText.AllDigits(s)
  {
    "1" + seq(k, _ => '0')
  }

  /** Ten to the power `k`, the number that text denotes. */
  function Pow10(k: nat): (p: nat)
    ensures p == NumText.DigitsValue(TenText(k))
    ensures p >= 1
  {
    if k == 0 then 1
    else
      assert TenText(k) == TenText(k - 1) + ['0'];
      NumText.DigitsValueAppend(TenText(k - 1), '0');
      10 * Pow10(k - 1)
  }

  /** `q` is `a / p` rounded toward zero: the largest multiple of `p` not
      beyond `a`, seen from zero. */
  predicate TruncatesTo(a: int, p: int, q: int) {
    (a >= 0 ==> 0 <= q * p <= a < q * p + p) && (a < 0 ==> q * p - p < a <= q * p <= 0)
  }

  /** Division rounding toward zero, as Java's integer `/` does. */
  function TruncDiv(a: int, b: int): (q: int)
    requires b > 0
    ensures TruncatesTo(a, b, q)
  {
    if a >= 0 then
      DivBounds(a, b);
      a / b
    else
      DivBounds(-a, b);
      -((-a) / b)
  }

  /** Euclidean division of a natural number brackets it between two
      consecutive multiples. */
  lemma DivBounds(a: nat, b: int)
    requires b > 0
    ensures 0 <= (a / b) * b <= a < (a / b) * b + b
  {
    var q, m := a / b, a % b;
    assert a == q * b + m && 0 <= m < b;
    assert q >= 0;
  }

  /** `Number.longValue()` of a numeric payload: the integer part, rounded
      toward zero, in 64-bit arithmetic. */
  function LongValue(v: Value): (r: int)
    requires v.IntVal? || v.DecVal?
    ensures Fits(JLong, r)
    ensures v.IntVal? && Fits(JLong, v.n) ==> r == v.n
    ensures v.DecVal? && v.scale >= 0 && Fits(JLong, TruncDiv(v.unscaled, Pow10(v.scale)))
            ==> TruncatesTo(v.unscaled, Pow10(v.scale), r)
    ensures v.DecVal? && v.scale < 0 && Fits(JLong, v.unscaled * Pow10(-v.scale))
            ==> r == v.unscaled * Pow10(-v.scale)
  {
    if v.IntVal? then Int64(v.n)
    else if v.scale >= 0 then Int64(TruncDiv(v.unscaled, Pow10(v.scale)))
    else Int64(v.unscaled * Pow10(-v.scale))
  }

  /** DECIMAL's `convert`. To `Float` or `Double`, any number converts; to
      `BigDecimal`, a `BigInteger` converts exactly, a `Float` or `Double`
      through its decimal value, and any other number through
      `longValue()`, dropping its fraction. A non-number cannot be cast. */
  function ConvertDecimal(v: Value, target: DecWidth): (r: Result<Value>)
    ensures r.Ok? <==> v.IntVal? || v.DecVal?
    ensures r.Ok? ==> r.value.DecVal? && r.value.dwidth == target
    ensures r.Err? && target != JBigDecimal ==> r.error.kind == ClassCast
    ensures WellFormed(v) && v.IntVal? ==> r == Ok(DecVal(target, v.n, 0))
    ensures v.DecVal? && (target != JBigDecimal || v.dwidth != JBigDecimal)
            ==> r == Ok(DecVal(target, v.unscaled, v.scale))
    ensures v.DecVal? && target == JBigDecimal && v.dwidth == JBigDecimal
            ==> r.Ok? && r.value.scale == 0 && r.value.unscaled == LongValue(v)
  {
    if !v.IntVal? && !v.DecVal? then
      if target == JBigDecimal then Fails(Assertion, "")
      else Fails(ClassCast, "payload cannot be cast to class java.lang.Number")
    else if target != JBigDecimal then
      if v.IntVal? then Ok(DecVal(target, v.n, 0)) else Ok(DecVal(target, v.unscaled, v.scale))
    else if v.IntVal? && v.width == JBig then Ok(DecVal(JBigDecimal, v.n, 0))
    else if v.DecVal? && v.dwidth != JBigDecimal then Ok(DecVal(JBigDecimal, v.unscaled, v.scale))
    else Ok(DecVal(JBigDecimal, LongValue(v), 0))
  }

  /** A `BigDecimal` converted to `BigDecimal` keeps only its integer part:
      1.5 becomes 1. */
  lemma ConvertDecimalDropsFraction()
    ensures ConvertDecimal(DecVal(JBigDecimal, 15, 1), JBigDecimal) == Ok(DecVal(JBigDecimal, 1, 0))
    ensures ConvertDecimal(DecVal(JBigDecimal, -15, 1), JBigDecimal) == Ok(DecVal(JBigDecimal, -1, 0))
  {
    assert Pow10(1) == 10;
  }
}

=== FILE: domains.dfy ===
/** `FusionValueDomain`: the constructor that derives, from a kind, a
    qualifier and a range, the compiled range, the Java data class and, for
    LIST and MAP, the domain of the items.
 */
module Domains {
  import opened Wrappers
  import opened Values
  import Types
  import Fusion
  import Ranges

  /** `FusionValueDomain.ANY`: kind ANY, no qualifier, no range. */
  const AnyDomain := Domain(Any, None, Null, None, None, None)

  /** The range an item domain receives: the third item of the range list,
      when the range is a list of at least three items. */
  function ItemRange(range: Value): (r: Value)
    ensures range.ListVal? && |range.list.items| >= 3 ==> r == range.list.items[2]
    ensures !(range.ListVal? && |range.list.items| >= 3) ==> r.Null?
  {
    if range.ListVal? && |range.list.items| >= 3 then range.list.items[2] else Null
  }

  /** The three-argument constructor and everything it derives, in its
      order: the range is compiled first (when not NULL), then the object
      type or the data class is looked up, then the item domain of a LIST or
      MAP is built from the qualifier read as a qualified type. A nested
      collection is refused, and a non-NULL range that is not a list is a
      ClassCastException when the item range is taken from it. */
  function MakeDomain(env: Types.Env, k: Kind, q: Option<string>, range: Value): (r: Result<Domain>)
    ensures r.Ok? ==> r.value.kind == k && r.value.qualifier == q && r.value.range == range
    ensures r.Ok? ==> (r.value.compiled.Some? <==> !range.Null?)
    ensures r.Ok? && !range.Null? ==> Ranges.CompileRange(env, k, q, range) == Ok(r.value.compiled.value)
    ensures r.Ok? && k == Object ==> q.Some? && q.value in env.fobs && r.value.dataClass.None?
    ensures r.Ok? && k != Object ==> Types.JavaDataClass(env, k, q) == Ok(r.value.dataClass)
    ensures r.Ok? ==> (r.value.item.Some? <==> IsCollection(k))
    ensures r.Ok? && IsCollection(k) ==> !IsCollection(r.value.item.value.kind)
    ensures r.Ok? && IsCollection(k) && q.None? ==> r.value.item == Some(AnyDomain)
    ensures r.Ok? && IsCollection(k) && q.Some? ==>
              Types.QtFromString(q.value).Ok?
              && r.value.item.value.kind == Types.QtFromString(q.value).value.kind
              && r.value.item.value.qualifier == Types.QtFromString(q.value).value.qualifier
              && r.value.item.value.range == ItemRange(range)
    ensures (IsCollection(k) && q.Some? && Types.QtFromString(q.value).Ok?
             && IsCollection(Types.QtFromString(q.value).value.kind)) ==> r.Err?
    decreases if IsCollection(k) then 1 else 0
  {
    var compiled :- if range.Null? then Ok(None)
                    else var b :- Ranges.CompileRange(env, k, q, range); Ok(Some(b));
    var cls :- if k == Object then var t :- Fusion.FobTypeNamed(env.fobs, q); Ok(None)
               else Types.JavaDataClass(env, k, q);
    if !IsCollection(k) then Ok(Domain(k, q, range, compiled, cls, None))
    else if q.None? then Ok(Domain(k, q, range, compiled, cls, Some(AnyDomain)))
    else
      var itemqt :- Types.QtFromString(q.value);
      if IsCollection(itemqt.kind) then
        Fails(IllegalArgument, KindName(itemqt.kind) + " cannot be nested in " + KindName(k))
      else if !range.Null? && !range.ListVal? then
        Fails(ClassCast, "range payload cannot be cast to class zer0g.fusion.data.FusionList")
      else
        var item :- MakeDomain(env, itemqt.kind, itemqt.qualifier, ItemRange(range));
        Ok(Domain(k, q, range, compiled, cls, Some(item)))
  }

  /** The canonical constructor: the kind and the range must be present,
      and none of the derived parts may be supplied; the rest is
      `MakeDomain`. */
  function Canonical(env: Types.Env, k: Option<Kind>, q: Option<string>, range: Option<Value>,
                     givenCompiled: bool, givenItem: bool, givenFob: bool, givenClass: bool): (r: Result<Domain>)
    ensures k.None? || range.None? ==> r.Err? && r.error.kind == NullPointer
    ensures k.Some? && range.Some? && givenCompiled ==> r == Fails(IllegalArgument, "_compiledRange must be null!")
    ensures k.Some? && range.Some? && !givenCompiled && givenItem ==>
              r == Fails(IllegalArgument, "_itemDomain must be null!")
    ensures k.Some? && range.Some? && !givenCompiled && !givenItem && givenFob ==>
              r == Fails(IllegalArgument, "_fobType must be null!")
    ensures k.Some? && range.Some? && !givenCompiled && !givenItem && !givenFob && givenClass ==>
              r == Fails(IllegalArgument, "_javaDataClass must be null!")
    ensures k.Some? && range.Some? && !givenCompiled && !givenItem && !givenFob && !givenClass ==>
              r == MakeDomain(env, k.value, q, range.value)
  {
    if k.None? then Fails(NullPointer, "type")
    else if range.None? then Fails(NullPointer, "range")
    else if givenCompiled then Fails(IllegalArgument, "_compiledRange must be null!")
    else if givenItem then Fails(IllegalArgument, "_itemDomain must be null!")
    else if givenFob then Fails(IllegalArgument, "_fobType must be null!")
    else if givenClass then Fails(IllegalArgument, "_javaDataClass must be null!")
    else MakeDomain(env, k.value, q, range.value)
  }

  /** A domain the constructor builds: rebuilding it from its own kind,
      qualifier and range gives it back. */
  predicate Built(env: Types.Env, d: Domain) {
    MakeDomain(env, d.kind, d.qualifier, d.range) == Ok(d)
  }

  /** The constructor is deterministic and its results are exactly the
      built domains; the item domain of a built collection domain is built
      too. */
  lemma {:induction false} BuiltItem(env: Types.Env, d: Domain)
    requires Built(env, d) && IsCollection(d.kind)
    ensures d.item.Some? && Built(env, d.item.value)
    ensures !IsCollection(d.item.value.kind)
  {
    if d.qualifier.None? {
      assert d.item == Some(AnyDomain);
      assert MakeDomain(env, Any, None, Null) == Ok(AnyDomain);
    } else {
      var itemqt := Types.QtFromString(d.qualifier.value).value;
      var item := MakeDomain(env, itemqt.kind, itemqt.qualifier, ItemRange(d.range));
      assert item.Ok? && d.item == Some(item.value);
    }
  }

  /** ANY, LIST-of-ANY and MAP-of-ANY are built domains. */
  lemma AnyDomainsBuilt(env: Types.Env)
    ensures Built(env, AnyDomain)
    ensures MakeDomain(env, List, None, Null) == Ok(Domain(List, None, Null, None, Some(ListC), Some(AnyDomain)))
    ensures MakeDomain(env, Map, None, Null) == Ok(Domain(Map, None, Null, None, Some(MapC), Some(AnyDomain)))
  {
  }

  /** A LIST of LIST is refused, whatever the range. */
  lemma NestedListRefused(env: Types.Env, range: Value)
    ensures MakeDomain(env, List, Some("LIST"), range).Err?
  {
    assert Types.QtFromString("LIST") == Ok(QualifiedType(List, None)) by {
      assert Types.FirstDot("LIST") == -1;
    }
  }
}

=== FILE: fields.dfy ===
/** `FusionFieldSchema`: a field's name, domain, flag bits, optional default
    and index, and the constructor's invariant that a key field is readonly
    and never nullable, and that a default fits the domain.
 */
module Fields {
  import opened Wrappers
  import opened Values
  import Types

  const KeyFlag: bv32 := 0x01
  const ReadonlyFlag: bv32 := 0x02
  const NullableFlag: bv32 := 0x04

  /** `isFlagSet`: some bit of `flag` is set in `flags`. */
  predicate IsFlagSet(flags: bv32, flag: bv32) {
    flags & flag != 0
  }

  /** `setFlag`: the bits of `flag` are set and every other bit is kept. */
  function SetFlag(flags: bv32, flag: bv32): (r: bv32)
    ensures r & flag == flag
    ensures r & !flag == flags & !flag
  {
    flags | flag
  }

  /** `unsetFlag`: the bits of `flag` are cleared and every other bit is
      kept, whether or not they were set before. */
  function UnsetFlag(flags: bv32, flag: bv32): (r: bv32)
    ensures r & flag == 0
    ensures r & !flag == flags & !flag
  {
    flags & (!0 ^ flag)
  }

  /** Setting then clearing a bit that was clear gives back the flags. */
  lemma SetUnsetInverse(flags: bv32, flag: bv32)
    ensures flags & flag == 0 ==> UnsetFlag(SetFlag(flags, flag), flag) == flags
  {
  }

  predicate IsKey(f: Field) { IsFlagSet(f.flags, KeyFlag) }
  predicate IsReadonly(f: Field) { IsFlagSet(f.flags, ReadonlyFlag) }
  predicate IsNullable(f: Field) { IsFlagSet(f.flags, NullableFlag) }

  /** The flag rule of the constructor: a key field is readonly and not
      nullable. */
  predicate KeyRule(flags: bv32) {
    IsFlagSet(flags, KeyFlag) ==> IsFlagSet(flags, ReadonlyFlag) && !IsFlagSet(flags, NullableFlag)
  }

  /** The default rule of the constructor: an absent or NULL default is
      allowed; any other default has the domain's kind and exactly the
      domain's Java data class. */
  predicate DefaultFits(d: Domain, defval: Option<Value>) {
    defval.None? || defval.value.Null?
    || (KindOf(defval.value) == d.kind && d.dataClass == Some(PayloadClass(defval.value)))
  }

  /** Every field the constructor lets through. */
  predicate ValidField(f: Field) {
    KeyRule(f.flags) && DefaultFits(f.domain, f.defval)
  }

  /** `Class.toString` of a payload class. */
  function ClassString(c: JClass): string {
    "class " + Types.ClassText(c)
  }

  /** The canonical constructor: the key rule first (nullable before
      readonly), then the default's kind, then its class. A domain with no
      data class (ANY, OBJECT) therefore rejects every non-null default. */
  function MakeField(name: string, domain: Domain, flags: bv32, defval: Option<Value>, index: int): (r: Result<Field>)
    ensures r.Ok? <==> KeyRule(flags) && DefaultFits(domain, defval)
    ensures r.Ok? ==> r.value == Field(name, domain, flags, defval, index) && ValidField(r.value)
    ensures IsFlagSet(flags, KeyFlag) && IsFlagSet(flags, NullableFlag) ==>
              r == Fails(IllegalArgument, "Key field cannot be nullable!")
    ensures IsFlagSet(flags, KeyFlag) && !IsFlagSet(flags, NullableFlag) && !IsFlagSet(flags, ReadonlyFlag) ==>
              r == Fails(IllegalArgument, "Key field MUST be readonly!")
    ensures KeyRule(flags) && defval.Some? && !defval.value.Null? && KindOf(defval.value) != domain.kind ==>
              r == Fails(IllegalArgument, "Wrong default value type: " + KindName(KindOf(defval.value)))
  {
    if IsFlagSet(flags, KeyFlag) && IsFlagSet(flags, NullableFlag) then
      Fails(IllegalArgument, "Key field cannot be nullable!")
    else if IsFlagSet(flags, KeyFlag) && !IsFlagSet(flags, ReadonlyFlag) then
      Fails(IllegalArgument, "Key field MUST be readonly!")
    else if defval.Some? && !defval.value.Null? && domain.kind != KindOf(defval.value) then
      Fails(IllegalArgument, "Wrong default value type: " + KindName(KindOf(defval.value)))
    else if defval.Some? && !defval.value.Null? && domain.dataClass != Some(PayloadClass(defval.value)) then
      Fails(IllegalArgument, "Wrong default value class: " + ClassString(PayloadClass(defval.value)))
    else
      Ok(Field(name, domain, flags, defval, index))
  }

  /** `defaultValue()`: the default, or NULL when there is none. */
  function DefaultValue(f: Field): (v: Value)
    ensures f.defval.None? ==> v.Null?
    ensures f.defval.Some? ==> v == f.defval.value
  {
    if f.defval.Some? then f.defval.value else Null
  }

  /** The index copy constructor: everything but the index is kept. */
  function WithIndex(f: Field, index: int): (g: Field)
    ensures g.name == f.name && g.domain == f.domain && g.flags == f.flags && g.defval == f.defval
    ensures g.index == index
  {
    f.(index := index)
  }

  /** The copy constructor re-runs the checks, and they pass on any field
      the constructor built: re-indexing never fails. */
  lemma WithIndexRevalidates(f: Field, index: int)
    requires ValidField(f)
    ensures MakeField(f.name, f.domain, f.flags, f.defval, index) == Ok(WithIndex(f, index))
  {
  }

  /** A key field built by the constructor is readonly and not nullable, so
      its default can only be replaced while the object is initialising. */
  lemma KeyFieldIsReadonly(name: string, d: Domain, flags: bv32, defval: Option<Value>, i: int)
    requires MakeField(name, d, flags, defval, i).Ok?
    ensures IsKey(MakeField(name, d, flags, defval, i).value) ==>
              IsReadonly(MakeField(name, d, flags, defval, i).value)
              && !IsNullable(MakeField(name, d, flags, defval, i).value)
  {
  }
}

=== FILE: fusion.dfy ===
/** The registry of fusion-object types, keyed by the name of the Java
    class whose data the type describes, and the naming rule that ties a
    data class to the class of its generated type.

    Generated types register themselves from their static initialisers;
    the model's registry is a map that already holds every type that can be
    loaded, so the class-loading retry of `fobType` finds nothing new.
 */
module Fusion {
  import opened Wrappers
  import opened Values

  const Suffix := "_FobType"

  /** A fusion-object type: its name (its data class's name) and schema. */
  datatype FobType = FobType(name: string, schema: Schema)

  type Registry = map<string, FobType>

  /** `findFobType`: the registered type of that name, or null. */
  function FindFobType(reg: Registry, id: string): (r: Option<FobType>)
    ensures r.Some? <==> id in reg
    ensures r.Some? ==> r.value == reg[id]
  {
    if id in reg then Some(reg[id]) else None
  }

  /** `fobType(id)`: a null name is a NullPointerException (the registry is
      a `ConcurrentHashMap`), an unregistered one an IllegalArgumentException
      carrying the name. */
  function FobTypeNamed(reg: Registry, id: Option<string>): (r: Result<FobType>)
    ensures r.Ok? <==> id.Some? && id.value in reg
    ensures r.Ok? ==> r.value == reg[id.value]
    ensures id.None? ==> r.Err? && r.error.kind == NullPointer
    ensures id.Some? && id.value !in reg ==> r == Fails(IllegalArgument, id.value)
  {
    if id.None? then Fails(NullPointer, "id")
    else match FindFobType(reg, id.value)
      case Some(t) => Ok(t)
      case None => Fails(IllegalArgument, id.value)
  }

  /** `registerFobType`: a name may be registered only once. */
  function Register(reg: Registry, t: FobType): (r: Result<Registry>)
    ensures r.Ok? <==> t.name !in reg
    ensures r.Err? ==> r.error == Error(IllegalArgument, "Object-type already registered: " + t.name)
    ensures r.Ok? ==> t.name in r.value && r.value[t.name] == t
    ensures r.Ok? ==> forall n :: n in reg ==> n in r.value && r.value[n] == reg[n]
    ensures r.Ok? ==> r.value.Keys == reg.Keys + {t.name}
  {
    if t.name in reg then Fails(IllegalArgument, "Object-type already registered: " + t.name)
    else Ok(reg[t.name := t])
  }

  /** A registered type is found again, and a second registration of the
      same name fails whatever the second type is. */
  lemma RegisterThenFind(reg: Registry, t: FobType, u: FobType)
    requires Register(reg, t).Ok?
    ensures FindFobType(Register(reg, t).value, t.name) == Some(t)
    ensures u.name == t.name ==> Register(Register(reg, t).value, u).Err?
  {
  }

  /** Index of the last '.' in `s`, or -1. */
  function LastDot(s: string): (i: int)
    ensures -1 <= i < |s|
    ensures i >= 0 ==> s[i] == '.'
    ensures forall k :: i < k < |s| ==> s[k] != '.'
  {
    if |s| == 0 then -1
    else if s[|s| - 1] == '.' then |s| - 1
    else LastDot(s[..|s| - 1])
  }

  /** `className[k..]` is the simple name: it starts the text or follows a
      dot, and holds no dot itself. */
  predicate SimpleNameAt(className: string, k: int) {
    0 <= k <= |className|
    && (k == 0 || className[k - 1] == '.')
    && forall j :: k <= j < |className| ==> className[j] != '.'
  }

  /** `fobTypeClassBaseNameFor`: the simple name of the data class followed
      by the suffix. */
  function ClassBaseName(className: string): (r: string)
    ensures exists k :: SimpleNameAt(className, k) && r == className[k..] + Suffix
  {
    var i := LastDot(className);
    var base := if i != -1 then className[i + 1..] else className;
    assert base == className[i + 1..];
    assert SimpleNameAt(className, i + 1);
    base + Suffix
  }

  /** `fobTypeClassNameFor`: the data class's full name followed by the
      suffix. */
  function ClassName(className: string): (r: string)
    ensures |r| == |className| + |Suffix|
    ensures r[..|className|] == className
  {
    className + Suffix
  }

  /** The base name is the tail of the full name: both end in the suffix
      and agree after the last dot of the data class's name. */
  lemma BaseNameIsTail(className: string)
    ensures |ClassBaseName(className)| <= |ClassName(className)|
    ensures ClassName(className)[|ClassName(className)| - |ClassBaseName(className)|..] == ClassBaseName(className)
  {
    var k := LastDot(className) + 1;
    assert ClassBaseName(className) == className[k..] + Suffix;
    assert ClassName(className)[k..] == className[k..] + Suffix;
  }
}

=== FILE: fvalues.dfy ===
/** `FusionValue` itself: its constructor, `clone`, `convert`, and the
    laws its `equals` keeps. The value type and `equals`, `compareTo` and
    `hashCode` are in `Values` and `ValueOps`.
 */
module FusionValues {
  import opened Wrappers
  import opened Values
  import opened NoCase
  import NoCaseMaps
  import ValueOps
  import Coerce
  import Types

  /** The package-private constructor: neither the kind nor the payload may
      be null, so no value it builds is NULL. The payload is not checked
      against the kind. */
  function New(k: Option<Kind>, payload: Value): (r: Result<Value>)
    ensures r.Ok? <==> k.Some? && !payload.Null?
    ensures r.Ok? ==> r.value == payload && !r.value.Null?
    ensures r.Err? ==> r.error.kind == NullPointer
  {
    if k.None? then Fails(NullPointer, "type")
    else if payload.Null? then Fails(NullPointer, "value")
    else Ok(payload)
  }

  /** `clone()`: NULL gives the NULL singleton, any other value a shallow
      copy holding the same payload. */
  function Clone(v: Value): (r: Value)
    ensures r.Null? <==> v.Null?
    ensures KindOf(r) == KindOf(v)
  {
    if v.Null? then Null else v
  }

  /** `convert(desiredClass)`: NULL converts to Java's null; a payload the
      desired class can already hold is returned as it is; otherwise the
      kind's own conversion decides. */
  function ConvertTo(env: Types.Env, v: Value, desired: JClass): (r: Result<Option<Value>>)
    ensures v.Null? ==> r == Ok(None)
    ensures !v.Null? && r.Ok? ==> r.value.Some? && KindOf(r.value.value) == KindOf(v)
                                  && Assignable(desired, PayloadClass(r.value.value))
    ensures !v.Null? && Assignable(desired, PayloadClass(v)) ==> r == Ok(Some(v))
  {
    if v.Null? then Ok(None)
    else if Assignable(desired, PayloadClass(v)) then Ok(Some(v))
    else
      var c :- Coerce.ConvertPayload(env, KindOf(v), desired, v);
      Ok(Some(c))
  }

  /** Every map inside the value, at any depth, keeps its keys in their
      case-insensitive order, as `TreeMap` does. */
  predicate MapsSorted(v: Value)
    decreases v
  {
    match v
    case ObjVal(o) => forall i :: 0 <= i < |o.vals| ==> MapsSorted(o.vals[i])
    case ListVal(l) => forall i :: 0 <= i < |l.items| ==> MapsSorted(l.items[i])
    case MapVal(m) =>
      NoCaseMaps.Sorted(m.entries) && forall i :: 0 <= i < |m.entries| ==> MapsSorted(m.entries[i].value)
    case _ => true
  }

  /** In a sorted map each entry's own key finds that entry. */
  lemma {:induction false} LookupOwnKey(es: seq<Entry>, i: int)
    requires NoCaseMaps.Sorted(es) && 0 <= i < |es|
    ensures Lookup(es, es[i].key) == Some(es[i].value)
    decreases i
  {
    CompareIgnoreCaseZeroIff(es[i].key, es[i].key);
    if i > 0 {
      assert CompareIgnoreCase(es[0].key, es[i].key) < 0;
      NoCaseMaps.SortedTail(es);
      assert es[1..][i - 1] == es[i];
      LookupOwnKey(es[1..], i - 1);
    }
  }

  /** `equals` is reflexive on every value the library can build: it
      holds objects with indexed schemas and maps with sorted keys. */
  lemma {:induction false} EqualReflexive(v: Value)
    requires WellFormed(v) && MapsSorted(v)
    ensures ValueOps.Equal(v, v)
    decreases v
  {
    match v
    case StrVal(s, t) =>
      CompareIgnoreCaseZeroIff(t, t);
    case ObjVal(o) =>
      var fs := if o.isKey then o.schema.keyFields else o.schema.fields;
      forall f | f in fs ensures 0 <= f.index < |o.vals| && ValueOps.Equal(o.vals[f.index], o.vals[f.index]) {
        assert f in o.schema.fields;
        EqualReflexive(o.vals[f.index]);
      }
    case ListVal(l) =>
      forall i | 0 <= i < |l.items| ensures ValueOps.Equal(l.items[i], l.items[i]) {
        EqualReflexive(l.items[i]);
      }
    case MapVal(m) =>
      forall i | 0 <= i < |m.entries|
        ensures var other := Lookup(m.entries, m.entries[i].key);
                other.Some? && ValueOps.Equal(m.entries[i].value, other.value)
      {
        LookupOwnKey(m.entries, i);
        EqualReflexive(m.entries[i].value);
      }
    case _ =>
  }

  /** A clone equals its original. */
  lemma CloneEquals(v: Value)
    requires WellFormed(v) && MapsSorted(v)
    ensures ValueOps.Equal(Clone(v), v)
  {
    EqualReflexive(v);
  }

  /** Integers of different Java classes are unequal even when their
      values agree: a `short` 5 is not an `int` 5. */
  lemma WidthsDistinguish(n: int)
    ensures !ValueOps.Equal(IntVal(JShort, n), IntVal(JInt, n))
  {
  }
}

=== FILE: ident.dfy ===
/** Dotted, case-insensitive identifiers (`Ident`) and their one-part form
    (`Ident.Simple`).

    A valid identifier is one or more parts joined by '.', each part a
    letter or '_' followed by letters, digits and '_'. Letters are the ASCII
    letters here.
 */
module Idents {
  import opened Wrappers
  import opened NoCase
  import NumText

  predicate IsLetter(c: char) {
    'a' <= c <= 'z' || 'A' <= c <= 'Z'
  }

  /** One part: `[_\p{L}][_\p{L}\d]*`. */
  predicate IsSimple(s: string) {
    |s| > 0 && (s[0] == '_' || IsLetter(s[0]))
    && forall i :: 1 <= i < |s| ==> s[i] == '_' || IsLetter(s[i]) || NumText.IsDigit(s[i])
  }

  /** The text between the dots, empty parts included. */
  function SplitDots(s: string): (parts: seq<string>)
    ensures |parts| >= 1
    decreases |s|
  {
    if |s| == 0 then [""]
    else
      var rest := SplitDots(s[1..]);
      if s[0] == '.' then [""] + rest
      else [[s[0]] + rest[0]] + rest[1..]
  }

  /** Parts joined by '.'. */
  function Join(parts: seq<string>): string
    requires |parts| >= 1
  {
    if |parts| == 1 then parts[0] else parts[0] + "." + Join(parts[1..])
  }

  /** The whole-identifier pattern `S(\.S)*`. */
  predicate IsValid(s: string) {
    forall p :: p in SplitDots(s) ==> IsSimple(p)
  }

  predicate DotFree(s: string) {
    forall i :: 0 <= i < |s| ==> s[i] != '.'
  }

  lemma {:induction false} SplitDotsParts(s: string)
    ensures forall k :: 0 <= k < |SplitDots(s)| ==> DotFree(SplitDots(s)[k])
    ensures Join(SplitDots(s)) == s
    decreases |s|
  {
    if |s| > 0 {
      var rest := SplitDots(s[1..]);
      SplitDotsParts(s[1..]);
      if s[0] == '.' {
        assert SplitDots(s)[1..] == rest;
      } else {
        var parts := SplitDots(s);
        assert parts[1..] == rest[1..];
        if |rest| > 1 {
          assert Join(rest) == rest[0] + "." + Join(rest[1..]);
        }
        forall k | 0 <= k < |parts|
          ensures DotFree(parts[k])
        {
          if k == 0 {
            assert parts[0] == [s[0]] + rest[0];
          } else {
            assert parts[k] == rest[k];
          }
        }
      }
    }
  }

  lemma {:induction false} SplitDotsOfPrefixedPart(c: char, t: string)
    requires c != '.'
    ensures SplitDots([c] + t) == [[c] + SplitDots(t)[0]] + SplitDots(t)[1..]
  {
    assert ([c] + t)[1..] == t;
  }

  lemma SplitDotsOfDot(t: string)
    ensures SplitDots(['.'] + t) == [""] + SplitDots(t)
  {
    assert (['.'] + t)[1..] == t;
  }

  /** Splitting the join of dot-free parts gives the parts back. */
  lemma {:induction false} SplitJoin(parts: seq<string>)
    requires |parts| >= 1
    requires forall k :: 0 <= k < |parts| ==> DotFree(parts[k])
    ensures SplitDots(Join(parts)) == parts
    decreases |parts|, |parts[0]|
  {
    if |parts[0]| == 0 {
      if |parts| == 1 {
      } else {
        var j := Join(parts);
        assert j == "." + Join(parts[1..]);
        assert j[1..] == Join(parts[1..]);
        SplitJoin(parts[1..]);
        assert parts == [""] + parts[1..];
      }
    } else {
      var c := parts[0][0];
      var shorter := [parts[0][1..]] + parts[1..];
      assert DotFree(parts[0]);
      assert DotFree(parts[0][1..]) by {
        forall i | 0 <= i < |parts[0][1..]| ensures parts[0][1..][i] != '.' {
          assert parts[0][1..][i] == parts[0][i + 1];
        }
      }
      assert forall k :: 0 <= k < |shorter| ==> DotFree(shorter[k]) by {
        forall k | 0 <= k < |shorter| ensures DotFree(shorter[k]) {
          if k > 0 { assert shorter[k] == parts[k]; }
        }
      }
      SplitJoin(shorter);
      assert Join(parts) == [c] + Join(shorter) by {
        assert parts[0] == [c] + parts[0][1..];
        if |parts| > 1 {
          assert shorter[1..] == parts[1..];
        }
      }
      assert c != '.';
      SplitDotsOfPrefixedPart(c, Join(shorter));
      assert shorter[0] == parts[0][1..] && [c] + parts[0][1..] == parts[0];
      assert shorter[1..] == parts[1..];
      assert parts == [[c] + shorter[0]] + shorter[1..];
    }
  }

  /** An identifier: the general dotted form, or the one-part `Simple` form
      (a distinct class in the source, which counts itself as one part). */
  datatype Ident = Dotted(value: string) | Simple(value: string)

  const NotValid := "Not a valid ident: "

  /** `new Ident(val)`. */
  function MakeIdent(s: string): (r: Result<Ident>)
    ensures r.Ok? <==> IsValid(s)
    ensures r.Ok? ==> r.value == Dotted(s)
    ensures r.Err? ==> r.error.kind == IllegalArgument
  {
    if IsValid(s) then Ok(Dotted(s)) else Fails(IllegalArgument, NotValid + s)
  }

  /** `Ident.valueOf`: a missing or empty string has no identifier. */
  function ValueOf(s: Option<string>): (r: Result<Option<Ident>>)
    ensures (s.None? || s.value == "") ==> r == Ok(None)
    ensures s.Some? && s.value != "" ==> (r.Ok? <==> IsValid(s.value))
    ensures r.Ok? && r.value.Some? ==> r.value.value.value == s.value
  {
    if s.None? || s.value == "" then Ok(None)
    else
      var id :- MakeIdent(s.value);
      Ok(Some(id))
  }

  /** The parts, each a valid simple name. */
  function Split(id: Ident): (parts: seq<string>)
    ensures |parts| >= 1
  {
    match id
    case Dotted(v) => SplitDots(v)
    case Simple(v) => [v]
  }

  function Count(id: Ident): (n: nat)
    ensures n >= 1
  {
    |Split(id)|
  }

  /** `getPart(index)`: a simple identifier raises `IndexOutOfBoundsException(index)`
      itself; a dotted one indexes the list of its parts. */
  function GetPart(id: Ident, index: int): (r: Result<string>)
    ensures r.Ok? <==> 0 <= index < Count(id)
    ensures r.Ok? ==> r.value == Split(id)[index]
    ensures id.Simple? && index != 0 ==> r == Err(NumText.IndexOutOfRange(index))
    ensures id.Dotted? && !(0 <= index < Count(id)) ==> r == Err(NumText.OutOfBounds(index, Count(id)))
  {
    if id.Simple? && index != 0 then Err(NumText.IndexOutOfRange(index))
    else if 0 <= index < |Split(id)| then Ok(Split(id)[index])
    else Err(NumText.OutOfBounds(index, |Split(id)|))
  }

  function Head(id: Ident): (h: Ident)
    ensures h.Simple? && h.value == Split(id)[0]
  {
    Simple(Split(id)[0])
  }

  /** The identifier without its first part, or none for a single part. */
  function Tail(id: Ident): (r: Option<Ident>)
    ensures r.None? <==> Count(id) == 1
    ensures r.Some? ==> r.value == Dotted(Join(Split(id)[1..]))
  {
    if |Split(id)| > 1 then Some(Dotted(Join(Split(id)[1..]))) else None
  }

  /** `head(count)` as written: for two or more parts it keeps `count - 1`. */
  function HeadCountAsWritten(id: Ident, count: int): (r: Result<Option<Ident>>)
    ensures r.Ok? && r.value.Some? && count >= 2 ==> Count(r.value.value) == count - 1
    ensures r.Err? ==> r == Err(NumText.IndexOutOfRange(count))
  {
    if count == 1 then Ok(Some(Head(id)))
    else if count == 0 then Ok(None)
    else if count < 0 then Err(NumText.IndexOutOfRange(count))
    else if id.Simple? then Err(NumText.IndexOutOfRange(count))
    else if |Split(id)| >= count then
      SplitDotsParts(id.value);
      SplitJoin(Split(id)[..count - 1]);
      Ok(Some(Dotted(Join(Split(id)[..count - 1]))))
    else Err(NumText.IndexOutOfRange(count))
  }

  /** `head(count)` as evidently intended: the first `count` parts. */
  function HeadCount(id: Ident, count: int): (r: Result<Option<Ident>>)
    ensures r.Ok? <==> 0 <= count <= Count(id)
    ensures r.Ok? ==> (r.value.None? <==> count == 0)
    ensures r.Ok? && r.value.Some? ==> Split(r.value.value) == Split(id)[..count]
    ensures r.Err? ==> r == Err(NumText.IndexOutOfRange(count))
  {
    if count == 1 then
      assert Split(id)[..1] == [Split(id)[0]];
      Ok(Some(Head(id)))
    else if count == 0 then Ok(None)
    else if count < 0 then Err(NumText.IndexOutOfRange(count))
    else if id.Simple? then Err(NumText.IndexOutOfRange(count))
    else if |Split(id)| >= count then
      SplitDotsParts(id.value);
      var kept := Split(id)[..count];
      SplitJoin(kept);
      Ok(Some(Dotted(Join(kept))))
    else Err(NumText.IndexOutOfRange(count))
  }

  lemma {:induction false} CountOfJoin(parts: seq<string>)
    requires |parts| >= 1
    requires forall k :: 0 <= k < |parts| ==> DotFree(parts[k])
    ensures Count(Dotted(Join(parts))) == |parts|
  {
    SplitJoin(parts);
  }

  /** The source's `head(2)` of `a.b.c` is `a`, one part short. */
  lemma HeadCountAsWrittenDropsAPart()
    ensures HeadCountAsWritten(Dotted("a.b.c"), 2) == Ok(Some(Dotted("a")))
    ensures HeadCount(Dotted("a.b.c"), 2) == Ok(Some(Dotted("a.b")))
  {
    assert "c" == ['c'] + "" && ".c" == ['.'] + "c" && "b.c" == ['b'] + ".c";
    assert ".b.c" == ['.'] + "b.c" && "a.b.c" == ['a'] + ".b.c";
    SplitDotsOfPrefixedPart('c', "");
    assert SplitDots("c") == ["c"];
    SplitDotsOfDot("c");
    assert SplitDots(".c") == ["", "c"];
    SplitDotsOfPrefixedPart('b', ".c");
    assert ['b'] + "" == "b";
    assert SplitDots("b.c") == ["b", "c"];
    SplitDotsOfDot("b.c");
    assert SplitDots(".b.c") == ["", "b", "c"];
    SplitDotsOfPrefixedPart('a', ".b.c");
    assert ['a'] + "" == "a";
    assert SplitDots("a.b.c") == ["a", "b", "c"];
    assert ["a", "b", "c"][..1] == ["a"];
    assert ["a", "b", "c"][..2] == ["a", "b"];
    assert Join(["a"]) == "a";
    assert Join(["a", "b"]) == "a" + "." + Join(["b"]) == "a.b";
  }

  /** `new Simple(val)` as written: validated with the dotted pattern, so a
      dotted text is accepted although a Simple counts as one part. */
  function MakeSimpleAsWritten(s: string): (r: Result<Ident>)
    ensures r.Ok? <==> IsValid(s)
    ensures r.Ok? ==> Count(r.value) == 1
  {
    if IsValid(s) then Ok(Simple(s)) else Fails(IllegalArgument, NotValid + s)
  }

  /** `new Simple(val)` checked against the one-part pattern. */
  function MakeSimple(s: string): (r: Result<Ident>)
    ensures r.Ok? <==> IsSimple(s)
    ensures r.Ok? ==> Split(r.value) == SplitDots(s) == [s]
  {
    if IsSimple(s) then
      SimpleHasNoDot(s);
      Ok(Simple(s))
    else Fails(IllegalArgument, NotValid + s)
  }

  lemma {:induction false} DotFreeSplit(s: string)
    requires DotFree(s)
    ensures SplitDots(s) == [s]
    decreases |s|
  {
    if |s| > 0 {
      assert DotFree(s[1..]) by {
        forall i | 0 <= i < |s[1..]| ensures s[1..][i] != '.' { assert s[1..][i] == s[i + 1]; }
      }
      DotFreeSplit(s[1..]);
      assert s == [s[0]] + s[1..];
    }
  }

  lemma SimpleHasNoDot(s: string)
    requires IsSimple(s)
    ensures SplitDots(s) == [s]
  {
    assert DotFree(s) by {
      forall i | 0 <= i < |s| ensures s[i] != '.' {
        if i > 0 { assert s[i] == '_' || IsLetter(s[i]) || NumText.IsDigit(s[i]); }
      }
    }
    DotFreeSplit(s);
  }

  /** The source's `Simple` constructor accepts `a.b`, a text of two parts
      that the one-part pattern refuses. */
  lemma MakeSimpleAsWrittenAcceptsDots()
    ensures MakeSimpleAsWritten("a.b").Ok?
    ensures MakeSimple("a.b").Err?
    ensures |SplitDots("a.b")| == 2
  {
    assert "b" == ['b'] + "" && ".b" == ['.'] + "b" && "a.b" == ['a'] + ".b";
    SplitDotsOfPrefixedPart('b', "");
    assert SplitDots("b") == ["b"];
    SplitDotsOfDot("b");
    assert SplitDots(".b") == ["", "b"];
    SplitDotsOfPrefixedPart('a', ".b");
    assert ['a'] + "" == "a";
    assert SplitDots("a.b") == ["a", "b"];
    assert IsSimple("a") && IsSimple("b");
    assert !IsSimple("a.b") by { assert "a.b"[1] == '.'; }
  }

  /** `compareTo`: 0 exactly for identifiers equal ignoring case, and
      swapping them negates the result. */
  function Compare(a: Ident, b: Ident): (r: int)
    ensures r == 0 <==> LowerStr(a.value) == LowerStr(b.value)
    ensures r == -CompareIgnoreCase(b.value, a.value)
  {
    CompareIgnoreCaseZeroIff(a.value, b.value);
    CompareIgnoreCaseOrder(a.value, b.value, a.value);
    CompareIgnoreCase(a.value, b.value)
  }

  /** `equals`: equal ignoring case. */
  function Equals(a: Ident, b: Ident): (r: bool)
    ensures r <==> Compare(b, a) == 0
  {
    Compare(a, b) == 0
  }

  /** `hashCode`: the `String` hash of the lower-cased text. */
  function Hash(id: Ident): (r: int)
    ensures -0x8000_0000 <= r < 0x8000_0000
  {
    JavaHash(LowerStr(id.value))
  }

  /** Identifiers equal ignoring case hash alike. */
  lemma EqualsHash(a: Ident, b: Ident)
    ensures Equals(a, b) <==> LowerStr(a.value) == LowerStr(b.value)
    ensures Equals(a, b) ==> Hash(a) == Hash(b)
  {
    CompareIgnoreCaseZeroIff(a.value, b.value);
  }

  /** `isPrefixOf`: `a` is `o` up to a dot or the end, ignoring case. */
  predicate IsPrefixOf(a: Ident, o: Option<Ident>) {
    if o.None? || |o.value.value| < |a.value| then false
    else if |o.value.value| > |a.value| && o.value.value[|a.value|] != '.' then false
    else CompareIgnoreCase(o.value.value[..|a.value|], a.value) == 0
  }

  /** `p` is the start of `q`, part by part, ignoring case. */
  predicate PartsPrefix(p: seq<string>, q: seq<string>) {
    |p| <= |q| && forall i :: 0 <= i < |p| ==> LowerStr(p[i]) == LowerStr(q[i])
  }

  /** `p` is the start of `q`. */
  predicate IsPrefix<T(==)>(p: seq<T>, q: seq<T>) {
    |p| <= |q| && forall i :: 0 <= i < |p| ==> p[i] == q[i]
  }

  lemma ConsEqual(c: char, x: string, y: string)
    ensures [c] + x == [c] + y <==> x == y
  {
    if [c] + x == [c] + y {
      assert x == ([c] + x)[1..] && y == ([c] + y)[1..];
    }
  }

  lemma {:induction false} TextPrefixIsPartsPrefix(a: string, o: string)
    ensures (|a| <= |o| && o[..|a|] == a && (|o| == |a| || o[|a|] == '.'))
      <==> IsPrefix(SplitDots(a), SplitDots(o))
    decreases |a|
  {
    var pa := SplitDots(a);
    var po := SplitDots(o);
    if |a| == 0 {
      if |o| > 0 && o[0] != '.' {
        assert po[0] == [o[0]] + SplitDots(o[1..])[0];
        assert po[0] != "" by { assert po[0][0] == o[0]; }
      }
    } else if |o| == 0 {
      if a[0] == '.' {
        assert |pa| >= 2;
      } else {
        assert pa[0] != "";
        assert po == [""];
      }
    } else {
      var sa := SplitDots(a[1..]);
      var so := SplitDots(o[1..]);
      TextPrefixIsPartsPrefix(a[1..], o[1..]);
      if a[0] != o[0] {
        if a[0] == '.' {
          assert pa[0] == "";
          assert po[0] == [o[0]] + so[0];
          assert po[0] != pa[0];
        } else if o[0] == '.' {
          assert po[0] == "";
          assert pa[0] == [a[0]] + sa[0];
          assert po[0] != pa[0];
        } else {
          assert pa[0][0] == a[0] && po[0][0] == o[0];
          assert po[0] != pa[0];
        }
        if |a| <= |o| {
          assert o[..|a|][0] == o[0];
          assert o[..|a|] != a;
        }
      } else {
        assert (|a| <= |o| && o[..|a|] == a && (|o| == |a| || o[|a|] == '.'))
          <==> (|a[1..]| <= |o[1..]| && o[1..][..|a[1..]|] == a[1..]
                && (|o[1..]| == |a[1..]| || o[1..][|a[1..]|] == '.')) by {
          if |a| <= |o| && o[..|a|] == a {
            assert o[1..][..|a[1..]|] == o[..|a|][1..];
          }
          if |a[1..]| <= |o[1..]| && o[1..][..|a[1..]|] == a[1..] {
            assert o[..|a|] == [o[0]] + o[1..][..|a[1..]|];
            assert a == [a[0]] + a[1..];
          }
        }
        if a[0] == '.' {
          assert pa == [""] + sa && po == [""] + so;
          if IsPrefix(sa, so) {
            forall i | 0 <= i < |pa| ensures pa[i] == po[i] {
              if i > 0 { assert pa[i] == sa[i - 1] && po[i] == so[i - 1]; }
            }
          }
          if IsPrefix(pa, po) {
            forall i | 0 <= i < |sa| ensures sa[i] == so[i] {
              assert pa[i + 1] == po[i + 1];
            }
          }
        } else {
          var c := a[0];
          assert pa == [[c] + sa[0]] + sa[1..];
          assert po == [[c] + so[0]] + so[1..];
          ConsEqual(c, sa[0], so[0]);
          if IsPrefix(sa, so) {
            forall i | 0 <= i < |pa| ensures pa[i] == po[i] {
              if i > 0 { assert pa[i] == sa[i] && po[i] == so[i]; }
            }
          }
          if IsPrefix(pa, po) {
            forall i | 0 <= i < |sa| ensures sa[i] == so[i] {
              assert pa[i] == po[i];
              if i > 0 { assert pa[i] == sa[i] && po[i] == so[i]; }
            }
          }
        }
      }
    }
  }

  /** Lower-casing commutes with splitting at dots. */
  lemma {:induction false} SplitDotsLower(s: string)
    ensures |SplitDots(LowerStr(s))| == |SplitDots(s)|
    ensures forall k :: 0 <= k < |SplitDots(s)| ==> SplitDots(LowerStr(s))[k] == LowerStr(SplitDots(s)[k])
    decreases |s|
  {
    if |s| > 0 {
      var ls := LowerStr(s);
      assert ls[1..] == LowerStr(s[1..]);
      assert ls[0] == '.' <==> s[0] == '.';
      hide *;
      SplitDotsLower(s[1..]);
      SplitDotsStep(s);
      SplitDotsStep(ls);
      var rest := SplitDots(s[1..]);
      if s[0] != '.' {
        LowerCons(s[0], rest[0]);
      }
    }
  }

  /** One character of `SplitDots`: a dot starts a new part, any other
      character joins the first part of the rest. */
  lemma SplitDotsStep(s: string)
    requires |s| > 0
    ensures SplitDots(s) == if s[0] == '.' then [""] + SplitDots(s[1..])
                            else [[s[0]] + SplitDots(s[1..])[0]] + SplitDots(s[1..])[1..]
  {
  }

  /** Lower-casing a text is lower-casing its first character and the rest. */
  lemma LowerCons(c: char, s: string)
    ensures LowerStr([c] + s) == [Lower(c)] + LowerStr(s)
  {
  }

  /** `isPrefixOf` holds exactly when the parts of `a` are the first parts
      of `o`, each equal ignoring case. */
  lemma IsPrefixOfIsPartsPrefix(a: Ident, o: Ident)
    requires a.Dotted? && o.Dotted?
    ensures IsPrefixOf(a, Some(o)) <==> PartsPrefix(Split(a), Split(o))
  {
    var la := LowerStr(a.value);
    var lo := LowerStr(o.value);
    TextPrefixIsPartsPrefix(la, lo);
    SplitDotsLower(a.value);
    SplitDotsLower(o.value);
    var pa := SplitDots(la);
    var po := SplitDots(lo);
    if |o.value| >= |a.value| {
      var pre := o.value[..|a.value|];
      CompareIgnoreCaseZeroIff(pre, a.value);
      assert LowerStr(pre) == lo[..|a.value|];
      if |o.value| > |a.value| {
        assert lo[|a.value|] == '.' <==> o.value[|a.value|] == '.';
      }
    }
    if PartsPrefix(Split(a), Split(o)) {
      assert IsPrefix(pa, po);
    }
  }

  /** `dot(tail)`: append one more part; an empty tail is a null element. */
  function Dot(id: Ident, tail: string): (r: Result<Ident>)
    ensures tail == "" ==> r.Err? && r.error.kind == NullPointer
    ensures tail != "" ==> (r.Ok? <==> IsValid(tail))
    ensures r.Ok? ==> r.value == Dotted(id.value + "." + tail)
  {
    var t :- ValueOf(Some(tail));
    if t.None? then Fails(NullPointer, "null element")
    else Ok(Dotted(id.value + "." + t.value.value))
  }
}

=== FILE: iwr.dfy ===
/** The INIT -> WRITE -> READ lifecycle shared by every data entity.

    An entity starts in `Init`, where anything may be set; `DoneInit` moves it
    to `Write`, where readonly fields are frozen; `DoneWrite` moves it to
    `Read`, where nothing may change. Each forward transition first consults
    the entity's pre-transition hook, which may veto it; a vetoed transition
    leaves the state where it was. Only `Clone` produces an entity in an
    earlier state, and then always as a copy.

    An entity's hook is given to these functions as `hook`, the verdict the
    hook would reach for each target state.
 */
module Iwr {
  import opened Wrappers

  datatype IwrState = Init | Write | Read

  /** The verdict of an entity's pre-transition hook, per target state. */
  type Hook = IwrState -> Outcome

  /** The hook of an entity that never vetoes a transition. */
  function NoHook(): Hook {
    (next: IwrState) => Pass
  }

  /** Position of a state in the lifecycle. */
  function Rank(s: IwrState): (n: nat)
    ensures n <= 2
    ensures s == Init <==> n == 0
    ensures s == Read <==> n == 2
  {
    match s
    case Init => 0
    case Write => 1
    case Read => 2
  }

  function Name(s: IwrState): string {
    match s
    case Init => "INIT"
    case Write => "WRITE"
    case Read => "READ"
  }

  const NotWritable := Error(IllegalState, "Not writable!")
  const AlreadyDoneInit := Error(IllegalState, "Already done-init!")

  /** Gate in front of every mutator: only `Read` refuses. */
  function RequireWritable(s: IwrState): (r: Outcome)
    ensures r.Pass? <==> s != Read
    ensures r.Fail? ==> r.error == NotWritable
  {
    if s == Read then Fail(NotWritable) else Pass
  }

  function RequireWrite(s: IwrState): (r: Outcome)
    ensures r.Pass? <==> s == Write
    ensures r.Fail? ==> r.error == Error(IllegalState, "Not write!")
  {
    if s != Write then Fail(Error(IllegalState, "Not write!")) else Pass
  }

  function RequireReadonly(s: IwrState): (r: Outcome)
    ensures r.Pass? <==> s == Read
    ensures r.Fail? ==> r.error == Error(IllegalState, "Not readonly!")
  {
    if s != Read then Fail(Error(IllegalState, "Not readonly!")) else Pass
  }

  function RequireInit(s: IwrState): (r: Outcome)
    ensures r.Pass? <==> s == Init
    ensures r.Fail? ==> r.error.kind == IllegalState
  {
    if s != Init then Fail(Error(IllegalState, "Non-init state (" + Name(s) + ")!")) else Pass
  }

  /** The hook runs first; the state changes only if it passes. */
  function Trans(next: IwrState, hook: Hook): (r: Result<IwrState>)
    ensures r.Ok? <==> hook(next).Pass?
    ensures r.Ok? ==> r.value == next
    ensures r.Err? ==> r.error == hook(next).error
  {
    match hook(next)
    case Pass => Ok(next)
    case Fail(e) => Err(e)
  }

  function DoneInit(s: IwrState, hook: Hook): (r: Result<IwrState>)
    ensures r.Ok? <==> s == Init && hook(Write).Pass?
    ensures r.Ok? ==> r.value == Write
    ensures s != Init ==> r == Err(AlreadyDoneInit)
    ensures s == Init && hook(Write).Fail? ==> r == Err(hook(Write).error)
  {
    match s
    case Init => Trans(Write, hook)
    case Write => Err(AlreadyDoneInit)
    case Read => Err(AlreadyDoneInit)
  }

  function DoneWrite(s: IwrState, hook: Hook): (r: Result<IwrState>)
    ensures r.Ok? <==> s != Read && hook(Read).Pass?
    ensures r.Ok? ==> r.value == Read
    ensures s == Read ==> r == Err(NotWritable)
    ensures s != Read && hook(Read).Fail? ==> r == Err(hook(Read).error)
  {
    match s
    case Init => Trans(Read, hook)
    case Write => Trans(Read, hook)
    case Read => Err(NotWritable)
  }

  /** `DoneWrite` unless already `Read`; an entity already `Read` is returned
      without consulting its hook. */
  function EnsureReadonly(s: IwrState, hook: Hook): (r: Result<IwrState>)
    ensures r.Ok? ==> r.value == Read
    ensures s == Read ==> r == Ok(Read)
    ensures r.Err? <==> s != Read && hook(Read).Fail?
  {
    if s != Read then DoneWrite(s, hook) else Ok(s)
  }

  /** What `clone(wanted)` hands back: the state of the result and whether
      the result is the receiver itself rather than a copy. */
  datatype Cloned = Cloned(state: IwrState, same: bool)

  function Clone(s: IwrState, wanted: IwrState, hook: Hook): (r: Result<Cloned>)
    ensures r.Ok? ==> r.value.state == wanted
    ensures r.Ok? ==> (r.value.same <==> s == Read && wanted == Read)
    ensures r.Err? <==> Rank(s) < Rank(wanted) && hook(wanted).Fail?
  {
    if s == wanted then
      Ok(Cloned(s, s == Read))
    else
      match wanted
      case Read =>
        var t :- DoneWrite(s, hook);
        Ok(Cloned(t, false))
      case Write =>
        if s == Init then
          var t :- DoneInit(s, hook);
          Ok(Cloned(t, false))
        else
          Ok(Cloned(Write, false))
      case Init =>
        Ok(Cloned(Init, false))
  }

  function CloneForWrite(s: IwrState, hook: Hook): (r: Result<Cloned>)
    ensures r.Ok? ==> r.value.state == Write && !r.value.same
  {
    Clone(s, Write, hook)
  }

  function CloneForRead(s: IwrState, hook: Hook): (r: Result<Cloned>)
    ensures r.Ok? ==> r.value.state == Read
    ensures s == Read ==> r == Ok(Cloned(Read, true))
  {
    Clone(s, Read, hook)
  }

  /** `cloneForInit` never reaches the hook, so it cannot fail. */
  function CloneForInit(s: IwrState, hook: Hook): (r: Cloned)
    ensures r.state == Init && !r.same
  {
    Clone(s, Init, hook).value
  }

  /** The two transitions only ever move forward, one step at a time, and a
      failed transition is exactly a hook veto or a wrong starting state. */
  lemma TransitionsMoveForward(s: IwrState, hook: Hook)
    ensures DoneInit(s, hook).Ok? ==> Rank(DoneInit(s, hook).value) == Rank(s) + 1
    ensures DoneWrite(s, hook).Ok? ==> Rank(DoneWrite(s, hook).value) > Rank(s)
    ensures EnsureReadonly(s, hook).Ok? ==> Rank(EnsureReadonly(s, hook).value) >= Rank(s)
  {
  }

  /** A state reached from `Read` by the transitions alone is `Read`: once
      readonly, only a clone can be written again. */
  lemma ReadIsFinal(hook: Hook)
    ensures DoneInit(Read, hook).Err? && DoneWrite(Read, hook).Err?
    ensures RequireWritable(Read).Fail?
    ensures EnsureReadonly(Read, hook) == Ok(Read)
  {
  }

  /** Cloning toward an earlier state never consults the hook, so it
      succeeds for every hook; cloning forward fails exactly when the hook
      vetoes the single transition it needs. */
  lemma CloneBackwardAlwaysSucceeds(s: IwrState, wanted: IwrState, h1: Hook, h2: Hook)
    requires Rank(wanted) <= Rank(s)
    ensures Clone(s, wanted, h1) == Clone(s, wanted, h2)
    ensures Clone(s, wanted, h1).Ok?
  {
  }
}

=== FILE: iwrlist.dfy ===
/** `IwrList`: a plain list with the lifecycle bolted on. It is born in
    WRITE, its hook never vetoes, every mutator is refused in READ, and the
    queries never look at the state. Items are compared by Java `equals`,
    stood for here by `==`.
 */
module IwrLists {
  import opened Wrappers
  import Iwr
  import NumText

  datatype IwrList<T> = IwrList(state: Iwr.IwrState, items: seq<T>)

  /** The constructor: an empty list on which `doneInit` has already run,
      which the empty hook always lets through. */
  function New<T>(): (l: IwrList<T>)
    ensures l.state == Iwr.Write && |l.items| == 0
    ensures Iwr.DoneInit(Iwr.Init, Iwr.NoHook()) == Ok(l.state)
  {
    IwrList(Iwr.DoneInit(Iwr.Init, Iwr.NoHook()).value, [])
  }

  /** `doneWrite`: the empty hook never vetoes, so it fails only in READ. */
  function DoneWrite<T>(l: IwrList<T>): (r: Result<IwrList<T>>)
    ensures r.Ok? <==> l.state != Iwr.Read
    ensures r.Ok? ==> r.value == l.(state := Iwr.Read)
    ensures r.Err? ==> r.error == Iwr.NotWritable
  {
    var s :- Iwr.DoneWrite(l.state, Iwr.NoHook());
    Ok(l.(state := s))
  }

  // ---------------------------------------------------------------------
  // Queries

  function Get<T>(l: IwrList<T>, i: int): (r: Result<T>)
    ensures r.Ok? <==> 0 <= i < |l.items|
    ensures r.Ok? ==> r.value == l.items[i]
    ensures r.Err? ==> r.error.kind == IndexOutOfBounds
  {
    if 0 <= i < |l.items| then Ok(l.items[i])
    else Err(NumText.OutOfBounds(i, |l.items|))
  }

  /** The first index holding `x`, or -1. */
  function IndexOf<T(==)>(items: seq<T>, x: T): (i: int)
    ensures -1 <= i < |items|
    ensures i == -1 <==> x !in items
    ensures i >= 0 ==> items[i] == x && forall k :: 0 <= k < i ==> items[k] != x
  {
    if |items| == 0 then -1
    else if items[0] == x then 0
    else
      var j := IndexOf(items[1..], x);
      assert items == [items[0]] + items[1..];
      if j == -1 then -1
      else
        assert items[..j + 1] == [items[0]] + items[1..][..j];
        j + 1
  }

  /** The last index holding `x`, or -1. */
  function LastIndexOf<T(==)>(items: seq<T>, x: T): (i: int)
    ensures -1 <= i < |items|
    ensures i == -1 <==> x !in items
    ensures i >= 0 ==> items[i] == x && x !in items[i + 1..]
  {
    if |items| == 0 then -1
    else if items[|items| - 1] == x then |items| - 1
    else
      var front := items[..|items| - 1];
      assert items == front + [items[|items| - 1]];
      var j := LastIndexOf(front, x);
      assert j >= 0 ==> items[j + 1..] == front[j + 1..] + [items[|items| - 1]];
      j
  }

  function Contains<T(==)>(l: IwrList<T>, x: T): (r: bool)
    ensures r <==> IndexOf(l.items, x) >= 0
  {
    x in l.items
  }

  // ---------------------------------------------------------------------
  // Mutators: refused in READ

  function Add<T>(l: IwrList<T>, x: T): (r: Result<IwrList<T>>)
    ensures r.Ok? <==> l.state != Iwr.Read
    ensures r.Err? ==> r.error == Iwr.NotWritable
    ensures r.Ok? ==> r.value.state == l.state && |r.value.items| == |l.items| + 1
                      && r.value.items[..|l.items|] == l.items && r.value.items[|l.items|] == x
  {
    if l.state == Iwr.Read then Err(Iwr.NotWritable) else
    Ok(l.(items := l.items + [x]))
  }

  /** `remove(Object)`: takes out the first occurrence; the flag says
      whether there was one. */
  function Remove<T(==)>(l: IwrList<T>, x: T): (r: Result<(IwrList<T>, bool)>)
    ensures r.Ok? <==> l.state != Iwr.Read
    ensures r.Err? ==> r.error == Iwr.NotWritable
    ensures r.Ok? ==> (r.value.1 <==> x in l.items) && r.value.0.state == l.state
    ensures r.Ok? && x !in l.items ==> r.value.0 == l
    ensures r.Ok? && x in l.items ==>
              var i := IndexOf(l.items, x);
              r.value.0.items == l.items[..i] + l.items[i + 1..]
  {
    if l.state == Iwr.Read then Err(Iwr.NotWritable) else
    var i := IndexOf(l.items, x);
    if i < 0 then Ok((l, false))
    else Ok((l.(items := l.items[..i] + l.items[i + 1..]), true))
  }

  /** `addAll(c)`: appends the collection; the flag says whether it was
      non-empty. */
  function AddAll<T>(l: IwrList<T>, xs: seq<T>): (r: Result<(IwrList<T>, bool)>)
    ensures r.Ok? <==> l.state != Iwr.Read
    ensures r.Err? ==> r.error == Iwr.NotWritable
    ensures r.Ok? ==> |r.value.0.items| == |l.items| + |xs|
                      && r.value.0.items[..|l.items|] == l.items && r.value.0.items[|l.items|..] == xs
                      && r.value.0.state == l.state && (r.value.1 <==> |xs| > 0)
  {
    if l.state == Iwr.Read then Err(Iwr.NotWritable) else
    Ok((l.(items := l.items + xs), |xs| > 0))
  }

  /** `addAll(index, c)`: inserts the collection before the item at `i`. */
  function InsertAll<T>(l: IwrList<T>, i: int, xs: seq<T>): (r: Result<(IwrList<T>, bool)>)
    ensures r.Ok? <==> l.state != Iwr.Read && 0 <= i <= |l.items|
    ensures l.state == Iwr.Read ==> r == Err(Iwr.NotWritable)
    ensures r.Ok? ==> |r.value.0.items| == |l.items| + |xs| && r.value.0.state == l.state
                      && r.value.0.items[..i] == l.items[..i] && r.value.0.items[i..i + |xs|] == xs
                      && r.value.0.items[i + |xs|..] == l.items[i..] && (r.value.1 <==> |xs| > 0)
  {
    if l.state == Iwr.Read then Err(Iwr.NotWritable) else
    if !(0 <= i <= |l.items|) then Err(NumText.AddOutOfBounds(i, |l.items|))
    else
      var items := l.items[..i] + xs + l.items[i..];
      assert items[..i] == l.items[..i] && items[i..i + |xs|] == xs && items[i + |xs|..] == l.items[i..];
      Ok((l.(items := items), |xs| > 0))
  }

  /** `a` is `b` with some items left out, the rest in their order. */
  predicate Subseq<T(==)>(a: seq<T>, b: seq<T>)
    decreases |b|
  {
    if |b| == 0 then |a| == 0
    else (|a| > 0 && a[0] == b[0] && Subseq(a[1..], b[1..])) || Subseq(a, b[1..])
  }

  /** The items for which `keep` holds, in order: every occurrence of an item
      that passes, and none of one that fails. */
  function Filter<T(==,!new)>(items: seq<T>, keep: T -> bool): (r: seq<T>)
    ensures |r| <= |items|
    ensures forall y :: y in r <==> y in items && keep(y)
    ensures multiset(r) <= multiset(items)
    ensures forall y :: multiset(r)[y] == if keep(y) then multiset(items)[y] else 0
    ensures Subseq(r, items)
    ensures (forall k :: 0 <= k < |items| ==> keep(items[k])) ==> r == items
  {
    if |items| == 0 then []
    else
      var rest := Filter(items[1..], keep);
      assert items == [items[0]] + items[1..];
      if keep(items[0]) then [items[0]] + rest else rest
  }

  /** `removeAll(c)`: takes out every item that `c` contains; the flag
      says whether anything went. */
  function RemoveAll<T(==,!new)>(l: IwrList<T>, c: seq<T>): (r: Result<(IwrList<T>, bool)>)
    ensures r.Ok? <==> l.state != Iwr.Read
    ensures r.Err? ==> r.error == Iwr.NotWritable
    ensures r.Ok? ==> (forall y :: y in r.value.0.items <==> y in l.items && y !in c)
                      && (r.value.1 <==> |r.value.0.items| < |l.items|)
    ensures r.Ok? ==> Subseq(r.value.0.items, l.items) && r.value.0.state == l.state
    ensures r.Ok? ==> forall y :: multiset(r.value.0.items)[y] == if y in c then 0 else multiset(l.items)[y]
  {
    if l.state == Iwr.Read then Err(Iwr.NotWritable) else
    var kept := Filter(l.items, y => y !in c);
    Ok((l.(items := kept), |kept| < |l.items|))
  }

  /** `retainAll(c)`: keeps only the items that `c` contains. */
  function RetainAll<T(==,!new)>(l: IwrList<T>, c: seq<T>): (r: Result<(IwrList<T>, bool)>)
    ensures r.Ok? <==> l.state != Iwr.Read
    ensures r.Err? ==> r.error == Iwr.NotWritable
    ensures r.Ok? ==> (forall y :: y in r.value.0.items <==> y in l.items && y in c)
                      && (r.value.1 <==> |r.value.0.items| < |l.items|)
    ensures r.Ok? ==> Subseq(r.value.0.items, l.items) && r.value.0.state == l.state
    ensures r.Ok? ==> forall y :: multiset(r.value.0.items)[y] == if y in c then multiset(l.items)[y] else 0
  {
    if l.state == Iwr.Read then Err(Iwr.NotWritable) else
    var kept := Filter(l.items, y => y in c);
    Ok((l.(items := kept), |kept| < |l.items|))
  }

  /** Each item goes to exactly one of `removeAll(c)` and `retainAll(c)`:
      together they hold the list's items, with their multiplicities. */
  lemma FilterSplits<T(!new)>(items: seq<T>, c: seq<T>)
    ensures multiset(Filter(items, y => y !in c)) + multiset(Filter(items, y => y in c)) == multiset(items)
  {
    FilterComplement(items, y => y !in c, y => y in c);
  }

  /** Filtering by a test and by its negation splits the items between the
      two results. */
  lemma {:induction false} FilterComplement<T(!new)>(items: seq<T>, keep: T -> bool, drop: T -> bool)
    requires forall y :: drop(y) == !keep(y)
    ensures multiset(Filter(items, keep)) + multiset(Filter(items, drop)) == multiset(items)
  {
    if |items| > 0 {
      hide *;
      var h, t := items[0], items[1..];
      FilterComplement(t, keep, drop);
      var kept, dropped := multiset(Filter(t, keep)), multiset(Filter(t, drop));
      assert multiset(items) == multiset{h} + (kept + dropped) by {
        assert items == [h] + t;
      }
      if keep(h) {
        assert multiset(Filter(items, keep)) == multiset{h} + kept by { FilterStep(items, keep); }
        assert multiset(Filter(items, drop)) == dropped by { FilterStep(items, drop); }
      } else {
        assert multiset(Filter(items, keep)) == kept by { FilterStep(items, keep); }
        assert multiset(Filter(items, drop)) == multiset{h} + dropped by { FilterStep(items, drop); }
      }
    }
  }

  /** `Filter` looks at the first item, then filters the rest. */
  lemma FilterStep<T(!new)>(items: seq<T>, keep: T -> bool)
    requires |items| > 0
    ensures multiset(Filter(items, keep)) ==
              (if keep(items[0]) then multiset{items[0]} else multiset{}) + multiset(Filter(items[1..], keep))
  {
  }

  function Clear<T>(l: IwrList<T>): (r: Result<IwrList<T>>)
    ensures r.Ok? <==> l.state != Iwr.Read
    ensures r.Ok? ==> r.value.state == l.state && |r.value.items| == 0
  {
    if l.state == Iwr.Read then Err(Iwr.NotWritable) else
    Ok(l.(items := []))
  }

  /** `set(index, element)`: hands back the item it replaced. */
  function Set<T>(l: IwrList<T>, i: int, x: T): (r: Result<(IwrList<T>, T)>)
    ensures r.Ok? <==> l.state != Iwr.Read && 0 <= i < |l.items|
    ensures l.state == Iwr.Read ==> r == Err(Iwr.NotWritable)
    ensures r.Ok? ==> r.value.0.items == l.items[i := x] && r.value.1 == l.items[i] && r.value.0.state == l.state
  {
    if l.state == Iwr.Read then Err(Iwr.NotWritable) else
    var was :- Get(l, i);
    Ok((l.(items := l.items[i := x]), was))
  }

  /** `add(index, element)`. */
  function Insert<T>(l: IwrList<T>, i: int, x: T): (r: Result<IwrList<T>>)
    ensures r.Ok? <==> l.state != Iwr.Read && 0 <= i <= |l.items|
    ensures l.state == Iwr.Read ==> r == Err(Iwr.NotWritable)
    ensures r.Ok? ==> r.value.items == l.items[..i] + [x] + l.items[i..] && r.value.state == l.state
  {
    var r :- InsertAll(l, i, [x]);
    assert r.0.items == r.0.items[..i] + r.0.items[i..i + 1] + r.0.items[i + 1..];
    Ok(r.0)
  }

  /** `remove(index)`: hands back the item it took out. */
  function RemoveAt<T>(l: IwrList<T>, i: int): (r: Result<(IwrList<T>, T)>)
    ensures r.Ok? <==> l.state != Iwr.Read && 0 <= i < |l.items|
    ensures l.state == Iwr.Read ==> r == Err(Iwr.NotWritable)
    ensures r.Ok? ==> r.value.0.items == l.items[..i] + l.items[i + 1..] && r.value.1 == l.items[i]
                      && r.value.0.state == l.state
  {
    if l.state == Iwr.Read then Err(Iwr.NotWritable) else
    var was :- Get(l, i);
    Ok((l.(items := l.items[..i] + l.items[i + 1..]), was))
  }

  /** Inserting at `i` and removing at `i` gives back the list and the
      item. */
  lemma InsertThenRemove<T>(l: IwrList<T>, i: int, x: T)
    requires Insert(l, i, x).Ok?
    ensures RemoveAt(Insert(l, i, x).value, i) == Ok((l, x))
  {
    var r := Insert(l, i, x).value;
    assert r.items[..i] + r.items[i + 1..] == l.items;
  }

  /** Once `doneWrite` has run, every mutator is refused. */
  lemma ReadRefusesMutators<T(!new)>(l: IwrList<T>, x: T, xs: seq<T>, i: int)
    requires DoneWrite(l).Ok?
    ensures var r := DoneWrite(l).value;
            Add(r, x).Err? && Remove(r, x).Err? && AddAll(r, xs).Err? && InsertAll(r, i, xs).Err?
            && RemoveAll(r, xs).Err? && RetainAll(r, xs).Err? && Clear(r).Err?
            && Set(r, i, x).Err? && Insert(r, i, x).Err? && RemoveAt(r, i).Err?
  {
  }

  /** `subList(from, to)`: the `ArrayList` range checks, then a view that
      refuses every change. */
  datatype Unmodifiable<T> = Unmodifiable(items: seq<T>)

  function SubList<T>(l: IwrList<T>, from: int, to: int): (r: Result<Unmodifiable<T>>)
    ensures r.Ok? <==> 0 <= from <= to <= |l.items|
    ensures r.Ok? ==> r.value.items == l.items[from..to]
    ensures from < 0 ==> r == Fails(IndexOutOfBounds, "fromIndex = " + NumText.IntText(from))
  {
    if from < 0 then Fails(IndexOutOfBounds, "fromIndex = " + NumText.IntText(from))
    else if to > |l.items| then Fails(IndexOutOfBounds, "toIndex = " + NumText.IntText(to))
    else if from > to then
      Fails(IllegalArgument, "fromIndex(" + NumText.IntText(from) + ") > toIndex(" + NumText.IntText(to) + ")")
    else Ok(Unmodifiable(l.items[from..to]))
  }

  /** Any change through the view: `UnsupportedOperationException`. */
  function ViewChange<T>(v: Unmodifiable<T>): (r: Result<Unmodifiable<T>>)
    ensures r.Err? && r.error.kind == Unsupported
  {
    Fails(Unsupported, "")
  }

  /** `listIterator()` and `listIterator(index)` are unfinished. */
  function ListIterator<T>(l: IwrList<T>): (r: Result<int>)
    ensures r == Fails(Runtime, "todo")
  {
    Fails(Runtime, "todo")
  }

  // ---------------------------------------------------------------------
  // The iterator

  /** `next()`: the item at the cursor, which then moves on by one. */
  function Next<T>(l: IwrList<T>, cursor: int): (r: Result<(T, int)>)
    ensures r.Ok? <==> 0 <= cursor < |l.items|
    ensures r.Ok? ==> r.value == (l.items[cursor], cursor + 1)
  {
    var x :- Get(l, cursor);
    Ok((x, cursor + 1))
  }

  /** The iterator's `remove()` as written: it removes at the cursor, which
      `next` has already moved past the item it returned, and leaves the
      cursor where it is. */
  function IteratorRemoveAsWritten<T>(l: IwrList<T>, cursor: int): (r: Result<(IwrList<T>, int)>)
    ensures r.Ok? <==> l.state != Iwr.Read && 0 <= cursor < |l.items|
    ensures r.Ok? ==> r.value.0.items == l.items[..cursor] + l.items[cursor + 1..] && r.value.1 == cursor
  {
    var p :- RemoveAt(l, cursor);
    Ok((p.0, cursor))
  }

  /** The iterator's `remove()` as `Iterator.remove` promises it: the item
      the last `next` returned goes, and the cursor steps back onto the
      item that followed it. */
  function IteratorRemove<T>(l: IwrList<T>, cursor: int): (r: Result<(IwrList<T>, int)>)
    ensures r.Ok? <==> l.state != Iwr.Read && 0 < cursor <= |l.items|
    ensures r.Ok? ==> r.value.0.items == l.items[..cursor - 1] + l.items[cursor..] && r.value.1 == cursor - 1
  {
    var p :- RemoveAt(l, cursor - 1);
    Ok((p.0, cursor - 1))
  }

  /** After `next` hands back an item, the intended `remove` takes out that
      very item and the next `next` sees the item that followed it. */
  lemma NextThenRemove<T>(l: IwrList<T>, cursor: int)
    requires l.state != Iwr.Read && Next(l, cursor).Ok?
    ensures var c := Next(l, cursor).value.1;
            var r := IteratorRemove(l, c);
            r.Ok? && r.value.0 == RemoveAt(l, cursor).value.0
            && (cursor + 1 < |l.items| ==> Next(r.value.0, r.value.1) == Ok((l.items[cursor + 1], cursor + 1)))
  {
    var r := IteratorRemove(l, cursor + 1).value;
    if cursor + 1 < |l.items| {
      assert r.0.items[cursor] == l.items[cursor + 1];
    }
  }

  /** On the WRITE list [1, 2], `next` returns 1 and the source's `remove`
      then takes out 2; on [1] it raises, although 1 was just returned. */
  lemma IteratorRemovesTheWrongItem()
    ensures Next(IwrList(Iwr.Write, [1, 2]), 0) == Ok((1, 1))
    ensures IteratorRemoveAsWritten(IwrList(Iwr.Write, [1, 2]), 1) == Ok((IwrList(Iwr.Write, [1]), 1))
    ensures IteratorRemove(IwrList(Iwr.Write, [1, 2]), 1) == Ok((IwrList(Iwr.Write, [2]), 0))
    ensures IteratorRemoveAsWritten(IwrList(Iwr.Write, [1]), 1).Err?
  {
    assert [1, 2][..1] + [1, 2][2..] == [1];
    assert [1, 2][..0] + [1, 2][1..] == [2];
  }
}

=== FILE: jsonlex.dfy ===
/** The character level of `JsonReader`, over a text and a position: the
    one-character lookahead, whitespace, the token-break check, literal
    tokens, the number grammar of section 6 of RFC 8259 (read as text, with
    the exponent letter normalised to `e`) and the string grammar of its
    section 7.

    Java's `read()` of -1 at the end of the input is the position `|t|`.
 */
module JsonLex {
  import opened Wrappers
  import NumText

  /** A token read and the position just after it. */
  datatype Lexed<T> = Lexed(val: T, next: nat)

  /** `peek()`: the next character as an int, -1 at the end. */
  function Peek(t: string, p: nat): int {
    if p < |t| then t[p] as int else -1
  }

  /** The characters `skipws` passes over. */
  predicate IsWs(c: int) {
    c == '\n' as int || c == '\r' as int || c == ' ' as int || c == '\t' as int
  }

  /** What may follow a scalar token: whitespace, a separator or a bracket,
      or the end of the input. */
  predicate IsBreak(c: int) {
    IsWs(c) || c == ',' as int || c == ':' as int || c == '{' as int || c == '}' as int
    || c == '[' as int || c == ']' as int || c == -1
  }

  /** `(char) c` in a message; the end of the input prints as U+FFFF. */
  function Shown(c: int): string {
    if 0 <= c < 0xD800 || 0xE000 <= c < 0x11_0000 then [c as char] else "￿"
  }

  /** `skipws()`: the position of the first character at or after `p` that
      is not whitespace, or the end. */
  function SkipWs(t: string, p: nat): (q: nat)
    requires p <= |t|
    ensures p <= q <= |t|
    ensures forall i :: p <= i < q ==> IsWs(t[i] as int)
    ensures q == |t| || !IsWs(t[q] as int)
    decreases |t| - p
  {
    if p < |t| && IsWs(t[p] as int) then SkipWs(t, p + 1) else p
  }

  /** Whitespace just before a position changes nothing for `skipws`. */
  lemma SkipWsPast(t: string, p: nat)
    requires p < |t| && IsWs(t[p] as int)
    ensures SkipWs(t, p) == SkipWs(t, p + 1)
  {
  }

  /** `expectAtTokenBreak()`: the next character must end the token. */
  function AtTokenBreak(t: string, p: nat): (r: Outcome)
    ensures r.Pass? <==> IsBreak(Peek(t, p))
    ensures r.Fail? ==> r.error.kind == Io
  {
    if IsBreak(Peek(t, p)) then Pass else Fail(Error(Io, "Unexpected: " + Shown(Peek(t, p))))
  }

  /** `expect(char)`: the next character must be `c`, and is consumed. */
  function ExpectChar(t: string, p: nat, c: char): (r: Result<nat>)
    requires p <= |t|
    ensures r.Ok? <==> p < |t| && t[p] == c
    ensures r.Ok? ==> r.value == p + 1
    ensures r.Err? ==> r.error.kind == Io
  {
    if p < |t| && t[p] == c then Ok(p + 1)
    else Fails(Io, "Expected " + [c] + " but got " + Shown(Peek(t, p)))
  }

  /** `readmany(n)`: the next `n` characters, or an EOFException. */
  function ReadMany(t: string, p: nat, n: nat): (r: Result<Lexed<string>>)
    requires p <= |t|
    ensures r.Ok? <==> p + n <= |t|
    ensures r.Ok? ==> r.value == Lexed(t[p..p + n], p + n)
    ensures r.Err? ==> r.error.kind == Eof
  {
    if p + n > |t| then Err(EndOfInput) else Ok(Lexed(t[p..p + n], p + n))
  }

  /** `expect(String)`: exactly `token`, then a token break. */
  function ExpectToken(t: string, p: nat, token: string): (r: Result<nat>)
    requires p <= |t|
    ensures r.Ok? <==> p + |token| <= |t| && t[p..p + |token|] == token && IsBreak(Peek(t, p + |token|))
    ensures r.Ok? ==> r.value == p + |token|
  {
    var got :- ReadMany(t, p, |token|);
    if got.val != token then Fails(Io, "Expected '" + token + "' but got '" + got.val + "'")
    else
      :- AtTokenBreak(t, got.next);
      Ok(got.next)
  }

  // ---------------------------------------------------------------------
  // Numbers

  /** The end of the run of digits starting at `p`. */
  function DigitsEnd(t: string, p: nat): (q: nat)
    requires p <= |t|
    ensures p <= q <= |t|
    ensures forall k :: p <= k < q ==> NumText.IsDigit(t[k])
    ensures q == |t| || !NumText.IsDigit(t[q])
    decreases |t| - p
  {
    if p < |t| && NumText.IsDigit(t[p]) then DigitsEnd(t, p + 1) else p
  }

  /** `jreadDigits`: one or more decimal digits. */
  function ReadDigits(t: string, p: nat): (r: Result<Lexed<string>>)
    requires p <= |t|
    ensures r.Ok? <==> p < |t| && NumText.IsDigit(t[p])
    ensures r.Ok? ==> var next := r.value.next;
                      |r.value.val| > 0 && NumText.AllDigits(r.value.val)
                      && p < next <= |t| && r.value.val == t[p..next]
                      && (next == |t| || !NumText.IsDigit(t[next]))
  {
    var q := DigitsEnd(t, p);
    if q == p then Fails(Io, "No digits!") else Ok(Lexed(t[p..q], q))
  }

  /** The text of a JSON integer: an optional minus, then digits. */
  predicate IntShaped(s: string) {
    (|s| > 0 && NumText.AllDigits(s)) || (|s| > 1 && s[0] == '-' && NumText.AllDigits(s[1..]))
  }

  /** `jreadIntPart`. */
  function ReadIntPart(t: string, p: nat): (r: Result<Lexed<string>>)
    requires p <= |t|
    ensures r.Ok? ==> var next := r.value.next; IntShaped(r.value.val) && p < next <= |t| && r.value.val == t[p..next]
  {
    if p < |t| && t[p] == '-' then
      var d :- ReadDigits(t, p + 1);
      assert ("-" + d.val)[1..] == d.val;
      Ok(Lexed("-" + d.val, d.next))
    else ReadDigits(t, p)
  }

  /** `jreadFracPart`: a point and digits, or nothing. */
  function ReadFracPart(t: string, p: nat): (r: Result<Lexed<string>>)
    requires p <= |t|
    ensures r.Ok? ==> var next := r.value.next; p <= next <= |t| && r.value.val == t[p..next]
    ensures r.Ok? ==> (r.value.val == "" <==> Peek(t, p) != '.' as int)
    ensures r.Ok? && r.value.val != "" ==> r.value.val[0] == '.' && |r.value.val| > 1 && NumText.AllDigits(r.value.val[1..])
  {
    if p < |t| && t[p] == '.' then
      var d :- ReadDigits(t, p + 1);
      assert ("." + d.val)[1..] == d.val;
      Ok(Lexed("." + d.val, d.next))
    else Ok(Lexed("", p))
  }

  /** The text of an exponent as `jreadExpoPart` returns it. */
  predicate ExpoShaped(s: string) {
    |s| > 1 && s[0] == 'e'
    && ((s[1] == '+' || s[1] == '-') ==> |s| > 2 && NumText.AllDigits(s[2..]))
    && (!(s[1] == '+' || s[1] == '-') ==> NumText.AllDigits(s[1..]))
  }

  /** `jreadExpoPart`: `e` or `E`, an optional sign and digits, returned
      with the letter written `e`; or nothing. */
  function ReadExpoPart(t: string, p: nat): (r: Result<Lexed<string>>)
    requires p <= |t|
    ensures r.Ok? ==> p <= r.value.next <= |t|
    ensures r.Ok? ==> (r.value.val == "" <==> !(Peek(t, p) == 'e' as int || Peek(t, p) == 'E' as int))
    ensures r.Ok? && r.value.val != "" ==> var next := r.value.next; ExpoShaped(r.value.val) && p + 1 <= next && r.value.val[1..] == t[p + 1..next]
  {
    if !(p < |t| && (t[p] == 'e' || t[p] == 'E')) then Ok(Lexed("", p))
    else
      var q := p + 1;
      var sign := if q < |t| && (t[q] == '+' || t[q] == '-') then [t[q]] else "";
      var d :- ReadDigits(t, q + |sign|);
      assert t[q..d.next] == t[q..q + |sign|] + t[q + |sign|..d.next];
      hide *;
      SignedDigitsShaped(sign, d.val);
      Ok(Lexed("e" + sign + d.val, d.next))
  }

  /** `e`, an optional sign and one or more digits make an exponent. */
  lemma SignedDigitsShaped(sign: string, digits: string)
    requires sign == "" || sign == "+" || sign == "-"
    requires |digits| > 0 && NumText.AllDigits(digits)
    ensures ExpoShaped("e" + sign + digits) && ("e" + sign + digits)[1..] == sign + digits
  {
    var s := "e" + sign + digits;
    assert s[1..] == sign + digits;
    if |sign| == 1 {
      assert s[2..] == digits;
    } else {
      assert NumText.IsDigit(digits[0]);
    }
  }

  /** A number as the three parts the reader collects. */
  datatype Number = Number(intPart: string, fracPart: string, expoPart: string)

  predicate NumberShaped(n: Number) {
    IntShaped(n.intPart)
    && (n.fracPart != "" ==> n.fracPart[0] == '.' && |n.fracPart| > 1 && NumText.AllDigits(n.fracPart[1..]))
    && (n.expoPart != "" ==> ExpoShaped(n.expoPart))
  }

  /** The three parts in a row, with no token-break check yet. */
  function ReadNumberParts(t: string, p: nat): (r: Result<Lexed<Number>>)
    requires p <= |t|
    ensures r.Ok? ==> NumberShaped(r.value.val) && p < r.value.next <= |t|
  {
    var i :- ReadIntPart(t, p);
    var f :- ReadFracPart(t, i.next);
    var e :- ReadExpoPart(t, f.next);
    Ok(Lexed(Number(i.val, f.val, e.val), e.next))
  }

  /** `new BigInteger(intPart)`. */
  function IntValue(s: string): int
    requires IntShaped(s)
  {
    if |s| > 0 && s[0] == '-' then -(NumText.DigitsValue(s[1..]) as int) else NumText.DigitsValue(s)
  }

  /** The digits of a number's integer and fraction parts, in order. */
  function Significand(n: Number): (s: string)
    requires NumberShaped(n)
    ensures NumText.AllDigits(s)
  {
    var whole := if n.intPart[0] == '-' then n.intPart[1..] else n.intPart;
    var frac := if n.fracPart == "" then "" else n.fracPart[1..];
    whole + frac
  }

  /** The exponent's value, 0 when there is none. */
  function ExpoValue(e: string): int
    requires e == "" || ExpoShaped(e)
  {
    if e == "" then 0
    else if e[1] == '-' then -(NumText.DigitsValue(e[2..]) as int)
    else if e[1] == '+' then NumText.DigitsValue(e[2..])
    else NumText.DigitsValue(e[1..])
  }

  const IntMin := -0x8000_0000
  const IntMax := 0x7FFF_FFFF

  /** `new BigDecimal(text)`: the unscaled value is the significand's
      digits with the sign, the scale the fraction's length less the
      exponent; an exponent or scale outside the 32-bit range is a
      NumberFormatException. */
  function DecimalValue(n: Number): (r: Result<(int, int)>)
    requires NumberShaped(n)
    ensures r.Ok? ==> r.value.1 == (if n.fracPart == "" then 0 else |n.fracPart| - 1) - ExpoValue(n.expoPart)
    ensures r.Ok? ==> (r.value.0 < 0 ==> n.intPart[0] == '-')
    ensures r.Ok? && n.intPart[0] == '-' ==> r.value.0 <= 0
    ensures r.Ok? && n.intPart[0] == '-' && NumText.DigitsValue(Significand(n)) > 0 ==> r.value.0 < 0
    ensures r.Ok? ==> (if r.value.0 < 0 then -r.value.0 else r.value.0) == NumText.DigitsValue(Significand(n))
    ensures r.Ok? <==> IntMin <= ExpoValue(n.expoPart) <= IntMax && IntMin <= (if n.fracPart == "" then 0 else |n.fracPart| - 1) - ExpoValue(n.expoPart) <= IntMax
  {
    var mag := NumText.DigitsValue(Significand(n));
    var e := ExpoValue(n.expoPart);
    var scale := (if n.fracPart == "" then 0 else |n.fracPart| - 1) - e;
    if !(IntMin <= e <= IntMax && IntMin <= scale <= IntMax) then Fails(IllegalArgument, "Exponent overflow.")
    else Ok((if n.intPart[0] == '-' then -(mag as int) else mag, scale))
  }

  /** The exponent `BigDecimal.toString` would print in scientific notation:
      the position of the leading digit relative to the point. */
  function Adjusted(unscaled: int, scale: int): int {
    -scale + (|NumText.NatText(if unscaled < 0 then -unscaled else unscaled)| - 1)
  }

  /** The parts of `BigDecimal.toString` for `unscaled * 10^-scale`, as the
      reader collects them: the sign and the digits before the point, the
      point and the digits after it, and the exponent with its letter
      written `e`. */
  function DecimalParts(unscaled: int, scale: int): (n: Number)
    ensures NumberShaped(n)
    ensures n.intPart[0] == '-' <==> unscaled < 0
  {
    var coeff := NumText.NatText(if unscaled < 0 then -unscaled else unscaled);
    var sign := if unscaled < 0 then "-" else "";
    var adjusted := Adjusted(unscaled, scale);
    assert NumText.AllDigits(coeff[1..]);
    if scale == 0 then Number(sign + coeff, "", "")
    else if scale > 0 && adjusted >= -6 then
      if scale >= |coeff| then
        var frac := "." + NumText.Zeros(scale - |coeff|) + coeff;
        assert frac[1..] == NumText.Zeros(scale - |coeff|) + coeff;
        Number(sign + "0", frac, "")
      else
        var frac := "." + coeff[|coeff| - scale..];
        assert frac[1..] == coeff[|coeff| - scale..];
        Number(sign + coeff[..|coeff| - scale], frac, "")
    else
      var frac := if |coeff| > 1 then "." + coeff[1..] else "";
      assert frac != "" ==> frac[1..] == coeff[1..];
      var expo := if adjusted == 0 then "" else ExpoText(adjusted);
      Number(sign + [coeff[0]], frac, expo)
  }

  /** An exponent as the reader returns it: `e`, the sign, the digits. */
  function ExpoText(e: int): (s: string)
    ensures ExpoShaped(s) && ExpoValue(s) == e
    ensures s[1..] == (if e < 0 then "-" else "+") + NumText.NatText(if e < 0 then -e else e)
  {
    var digits := NumText.NatText(if e < 0 then -e else e);
    var s := "e" + (if e < 0 then "-" else "+") + digits;
    assert s[2..] == digits;
    NumText.NatTextValue(if e < 0 then -e else e);
    s
  }

  /** The text of a number's parts with the exponent letter written `E`, as
      `BigDecimal.toString` writes it. */
  function PartsText(n: Number): string
    requires NumberShaped(n)
  {
    n.intPart + n.fracPart + (if n.expoPart == "" then "" else "E" + n.expoPart[1..])
  }

  /** `BigDecimal.toString` writes exactly the parts `DecimalParts` names. */
  lemma DecimalTextParts(unscaled: int, scale: int)
    ensures NumText.DecimalText(unscaled, scale) == PartsText(DecimalParts(unscaled, scale))
  {
    if scale == 0 || (scale > 0 && Adjusted(unscaled, scale) >= -6) {
      PointTextParts(unscaled, scale);
    } else {
      ScientificTextParts(unscaled, scale);
    }
  }

  /** The branches of `DecimalTextParts` without an exponent. */
  lemma PointTextParts(unscaled: int, scale: int)
    requires scale == 0 || (scale > 0 && Adjusted(unscaled, scale) >= -6)
    ensures NumText.DecimalText(unscaled, scale) == PartsText(DecimalParts(unscaled, scale))
  {
    hide NumText.NatText, NumText.Zeros, NumText.IntText, ExpoText;
    if scale == 0 {
    } else if scale >= |NumText.NatText(if unscaled < 0 then -unscaled else unscaled)| {
    } else {
    }
  }

  /** The branches of `DecimalTextParts` in scientific notation. */
  lemma ScientificTextParts(unscaled: int, scale: int)
    requires !(scale == 0 || (scale > 0 && Adjusted(unscaled, scale) >= -6))
    ensures NumText.DecimalText(unscaled, scale) == PartsText(DecimalParts(unscaled, scale))
  {
    hide NumText.NatText, NumText.Zeros, ExpoText;
    var adjusted := Adjusted(unscaled, scale);
    if adjusted > 0 {
    } else if adjusted < 0 {
    } else {
    }
  }

  /** Leading zeros do not change the value of a run of digits. */
  lemma {:induction false} LeadingZerosValue(m: nat, c: string)
    requires NumText.AllDigits(c)
    ensures NumText.AllDigits(NumText.Zeros(m) + c)
    ensures NumText.DigitsValue(NumText.Zeros(m) + c) == NumText.DigitsValue(c)
  {
    var z := NumText.Zeros(m);
    if |c| == 0 {
      assert z + c == z;
      ZerosValue(m);
    } else {
      var init := c[..|c| - 1];
      LeadingZerosValue(m, init);
      assert (z + c)[..|z + c| - 1] == z + init;
    }
  }

  lemma {:induction false} ZerosValue(m: nat)
    ensures NumText.DigitsValue(NumText.Zeros(m)) == 0
  {
    if m > 0 {
      assert NumText.Zeros(m)[..m - 1] == NumText.Zeros(m - 1);
      ZerosValue(m - 1);
    }
  }

  /** The digits of the parts are those of the unscaled value, perhaps
      after leading zeros. */
  lemma SignificandOfParts(unscaled: int, scale: int)
    ensures NumText.DigitsValue(Significand(DecimalParts(unscaled, scale))) == if unscaled < 0 then -unscaled else unscaled
  {
    var mag := if unscaled < 0 then -unscaled else unscaled;
    NumText.NatTextValue(mag);
    if scale > 0 && Adjusted(unscaled, scale) >= -6 && scale >= |NumText.NatText(mag)| {
      FractionOnlySignificand(unscaled, scale);
    } else {
      WholeSignificand(unscaled, scale);
    }
  }

  /** Unless the value is below one and written without an exponent, the
      parts hold exactly the digits of the unscaled value. */
  lemma WholeSignificand(unscaled: int, scale: int)
    requires !(scale > 0 && Adjusted(unscaled, scale) >= -6
               && scale >= |NumText.NatText(if unscaled < 0 then -unscaled else unscaled)|)
    ensures Significand(DecimalParts(unscaled, scale)) == NumText.NatText(if unscaled < 0 then -unscaled else unscaled)
  {
    hide NumText.NatText, NumText.DigitsValue, ExpoText, NumText.AllDigits, NumberShaped;
    var coeff := NumText.NatText(if unscaled < 0 then -unscaled else unscaled);
    if scale == 0 {
    } else if scale > 0 && Adjusted(unscaled, scale) >= -6 {
      assert coeff[..|coeff| - scale] + coeff[|coeff| - scale..] == coeff;
    } else {
      assert [coeff[0]] + coeff[1..] == coeff;
    }
  }

  /** A value below one is written `0.`, then zeros, then its digits. */
  lemma FractionOnlySignificand(unscaled: int, scale: int)
    requires var coeff := NumText.NatText(if unscaled < 0 then -unscaled else unscaled);
      scale > 0 && Adjusted(unscaled, scale) >= -6 && scale >= |coeff|
    ensures NumText.DigitsValue(Significand(DecimalParts(unscaled, scale)))
              == NumText.DigitsValue(NumText.NatText(if unscaled < 0 then -unscaled else unscaled))
  {
    var coeff := NumText.NatText(if unscaled < 0 then -unscaled else unscaled);
    var z := NumText.Zeros(scale - |coeff|);
    assert Significand(DecimalParts(unscaled, scale)) == NumText.Zeros(1) + (z + coeff) by {
      hide NumText.NatText, ExpoText, Adjusted, NumText.AllDigits, NumberShaped;
      var n := DecimalParts(unscaled, scale);
      assert n.fracPart[1..] == z + coeff;
      assert NumText.Zeros(1) == "0";
    }
    LeadingZerosValue(scale - |coeff|, coeff);
    LeadingZerosValue(1, z + coeff);
  }

  /** The fraction's length less the exponent is the scale, and the
      exponent is the one printed. */
  lemma ScaleOfParts(unscaled: int, scale: int)
    ensures var n := DecimalParts(unscaled, scale);
      (if n.fracPart == "" then 0 else |n.fracPart| - 1) - ExpoValue(n.expoPart) == scale
      && (ExpoValue(n.expoPart) == 0 || ExpoValue(n.expoPart) == Adjusted(unscaled, scale))
  {
    hide NumText.NatText, NumText.Zeros, NumText.DigitsValue;
  }

  /** Reading back what `BigDecimal.toString` writes gives the same unscaled
      value and scale, whenever the scale and the printed exponent fit the
      32 bits `BigDecimal` keeps them in. */
  lemma DecimalReadsBack(unscaled: int, scale: int)
    requires IntMin <= scale <= IntMax && IntMin <= Adjusted(unscaled, scale) <= IntMax
    ensures NumText.DecimalText(unscaled, scale) == PartsText(DecimalParts(unscaled, scale))
    ensures DecimalValue(DecimalParts(unscaled, scale)) == Ok((unscaled, scale))
  {
    DecimalTextParts(unscaled, scale);
    SignificandOfParts(unscaled, scale);
    ScaleOfParts(unscaled, scale);
    hide NumText.NatText, NumText.DigitsValue, Significand, ExpoValue, DecimalParts, Adjusted;
  }

  // ---------------------------------------------------------------------
  // Strings

  /** The value of a hexadecimal digit of either case, or -1. */
  function HexDigitValue(c: char): (v: int)
    ensures -1 <= v < 16
  {
    if '0' <= c <= '9' then c as int - '0' as int
    else if 'a' <= c <= 'f' then c as int - 'a' as int + 10
    else if 'A' <= c <= 'F' then c as int - 'A' as int + 10
    else -1
  }

  predicate AllHex(s: string) {
    forall i :: 0 <= i < |s| ==> HexDigitValue(s[i]) >= 0
  }

  function HexValue(s: string): nat
    requires AllHex(s)
  {
    if |s| == 0 then 0 else HexValue(s[..|s| - 1]) * 16 + HexDigitValue(s[|s| - 1])
  }

  /** `Integer.valueOf(s, 16)`: an optional sign, then one or more hex
      digits. */
  function ParseHexInt(s: string): (r: Result<int>)
    ensures r.Err? ==> r.error.kind == IllegalArgument
    ensures AllHex(s) && |s| > 0 ==> r == Ok(HexValue(s))
  {
    var start := if |s| > 0 && (s[0] == '-' || s[0] == '+') then 1 else 0;
    var digits := s[start..];
    if |digits| == 0 || !AllHex(digits) then Fails(IllegalArgument, "For input string: \"" + s + "\" under radix 16")
    else
      assert start == 0 ==> digits == s;
      Ok(if start == 1 && s[0] == '-' then -(HexValue(digits) as int) else HexValue(digits))
  }

  /** `(char) value.shortValue()`: the low 16 bits as a UTF-16 code unit.
      A lone surrogate has no `char` of its own here. */
  function UnitChar(v: int): (r: Result<char>)
    ensures r.Ok? ==> r.value as int == v % 0x1_0000
    ensures 0 <= v < 0xD800 ==> r == Ok(v as char)
  {
    var u := v % 0x1_0000;
    if 0xD800 <= u < 0xE000 then Fails(Unsupported, "lone surrogate")
    else Ok(u as char)
  }

  /** `jreadString` after the opening quote: characters up to the closing
      quote, with the escapes of section 7 of RFC 8259 decoded. An unknown
      escape letter is dropped and stands as a backslash; the end of input
      is an EOFException; the closing quote must be followed by a token
      break. */
  function StringBody(t: string, q: nat): (r: Result<Lexed<string>>)
    requires q <= |t|
    ensures r.Ok? ==> q < r.value.next <= |t| && r.value.next - 1 < |t| && t[r.value.next - 1] == '"'
    decreases |t| - q
  {
    if q == |t| then Err(EndOfInput)
    else if t[q] == '"' then
      :- AtTokenBreak(t, q + 1);
      Ok(Lexed("", q + 1))
    else if t[q] == '\\' && q + 1 < |t| && t[q + 1] == 'u' then
      var hex :- ReadMany(t, q + 2, 4);
      var v :- ParseHexInt(hex.val);
      var c :- UnitChar(v);
      var rest :- StringBody(t, q + 6);
      Ok(Lexed([c] + rest.val, rest.next))
    else
      var c := if t[q] == '\\' then (if q + 1 < |t| then Unescaped(t[q + 1]) else '\\') else t[q];
      var step := if t[q] == '\\' && q + 1 < |t| then 2 else 1;
      var rest :- StringBody(t, q + step);
      Ok(Lexed([c] + rest.val, rest.next))
  }

  /** Text without quotes or backslashes up to a quote is the string's
      content as it stands; the quote must still be followed by a token
      break. */
  lemma {:induction false} PlainStringBody(t: string, q: nat, e: nat)
    requires q <= e < |t| && t[e] == '"'
    requires forall k :: q <= k < e ==> t[k] != '"' && t[k] != '\\'
    ensures IsBreak(Peek(t, e + 1)) ==> StringBody(t, q) == Ok(Lexed(t[q..e], e + 1))
    ensures !IsBreak(Peek(t, e + 1)) ==> StringBody(t, q).Err?
    decreases e - q
  {
    if q < e {
      PlainStringBody(t, q + 1, e);
      assert t[q] != '"' && t[q] != '\\';
      assert t[q..e] == [t[q]] + t[q + 1..e];
      if IsBreak(Peek(t, e + 1)) {
        assert StringBody(t, q + 1) == Ok(Lexed(t[q + 1..e], e + 1));
      }
    } else if IsBreak(Peek(t, e + 1)) {
      assert AtTokenBreak(t, e + 1) == Pass && t[q..e] == "";
    }
  }

  /** Without a closing quote the string is refused, and when no escape
      intervenes the refusal is the EOFException of reaching the end. */
  lemma {:induction false} UnclosedStringBody(t: string, q: nat)
    requires q <= |t|
    requires forall k :: q <= k < |t| ==> t[k] != '"'
    ensures StringBody(t, q).Err?
    ensures (forall k :: q <= k < |t| ==> t[k] != '\\') ==> StringBody(t, q).error.kind == Eof
    decreases |t| - q
  {
    if q < |t| {
      if t[q] == '\\' && q + 1 < |t| && t[q + 1] == 'u' {
        if q + 6 <= |t| {
          UnclosedStringBody(t, q + 6);
        }
      } else {
        var step := if t[q] == '\\' && q + 1 < |t| then 2 else 1;
        UnclosedStringBody(t, q + step);
      }
    }
  }

  /** The character an escape letter other than `u` stands for. */
  function Unescaped(e: char): char {
    match e
    case '"' => '"'
    case '\\' => '\\'
    case '/' => '/'
    case 'b' => 8 as char
    case 'f' => 12 as char
    case 'n' => '\n'
    case 'r' => '\r'
    case 't' => '\t'
    case _ => '\\'
  }

  /** `jreadString`: an opening quote, then the body. */
  function ReadString(t: string, p: nat): (r: Result<Lexed<string>>)
    requires p <= |t|
    ensures Peek(t, p) != '"' as int ==> r == Fails(Io, "Unexpected string start!")
    ensures Peek(t, p) == '"' as int ==> r == StringBody(t, p + 1)
    ensures r.Ok? ==> p + 1 < r.value.next <= |t|
  {
    if Peek(t, p) != '"' as int then Fails(Io, "Unexpected string start!")
    else StringBody(t, p + 1)
  }
}

=== FILE: jsonread.dfy ===
/** `JsonReader`: JSON text read as a fusion value of an expected kind and
    domain. Leading whitespace is skipped and `null` is NULL whatever the
    kind; otherwise the kind picks the reader, and each scalar is handed to
    the kind's `from` with the domain. A list is built item by item in a
    new list of its domain, a map's values are put straight into the
    map's sorted entries, and an object's members are put through the
    object's map view; each container is then handed to `from`.

    Two flavours share one definition, told apart by `asWritten`. As the
    source is written, no whitespace may come before a member key, and the
    list reader's early length check unboxes the range's maximum even when
    there is none. The other flavour skips that whitespace and that check.
 */
module JsonRead {
  import opened Wrappers
  import opened Values
  import opened JsonLex
  import Iwr
  import Types
  import Coerce
  import Domains
  import Lists
  import Maps
  import NoCaseMaps
  import Objects
  import ObjectCore
  import Fusion
  import Schemas
  import Ranges

  /** What the reader takes from outside: the Base64 decoding of `new
      Blob(String)`, and which flavour to read with. */
  datatype Config = Config(blobOf: string -> Result<BlobData>, asWritten: bool)

  /** `FusionValueDomain.LIST_ANY` and `MAP_ANY`. */
  const ListAny := Domain(List, None, Null, None, Some(ListC), Some(Domains.AnyDomain))
  const MapAny := Domain(Map, None, Null, None, Some(MapC), Some(Domains.AnyDomain))

  /** `Character.toString(-1)`: the end of input is not a code point. */
  const NotACodePoint := Error(IllegalArgument, "Not a valid Unicode code point: 0xFFFFFFFF")

  /** A successful read of a kind gives NULL or a value of that kind. */
  predicate Yields(r: Result<Lexed<Value>>, k: Kind) {
    r.Ok? && !r.value.val.Null? ==> KindOf(r.value.val) == k
  }

  /** `read(type, domain)`: whitespace, then `null` for any kind, or the
      kind's reader. */
  function Read(env: Types.Env, cfg: Config, t: string, p: nat, k: Kind, d: Option<Domain>): (r: Result<Lexed<Value>>)
    requires p <= |t|
    requires d.None? || d.value.kind == k
    ensures r.Ok? ==> p < r.value.next <= |t|
    ensures r.Ok? && k != Any && !r.value.val.Null? ==> KindOf(r.value.val) == k
    ensures Peek(t, SkipWs(t, p)) == 'n' as int ==>
              r == (match ExpectToken(t, SkipWs(t, p), "null")
                    case Ok(n) => Ok(Lexed(Null, n))
                    case Err(e) => Err(e))
    decreases |t| - p, 4
  {
    var s := SkipWs(t, p);
    if Peek(t, s) == 'n' as int then
      var n :- ExpectToken(t, s, "null");
      Ok(Lexed(Null, n))
    else
      match k
      case Any => ReadAny(env, cfg, t, s)
      case Bool => ReadBool(t, s)
      case Integer => ReadInteger(env, t, s, d)
      case Decimal => ReadDecimal(env, t, s, d)
      case Str => ReadStr(env, t, s, d)
      case Object => ReadObject(env, cfg, t, s, d)
      case List => ReadList(env, cfg, t, s, d)
      case Map => ReadMap(env, cfg, t, s, d)
      case Enum => ReadEnum(env, t, s, d)
      case Blob => ReadBlob(env, cfg, t, s, d)
      case _ => ReadTemporal(env, t, s, k, d)
  }

  /** `readAny`: the next character tells a map, a list, a boolean or a
      string; anything else is read as a number. */
  function ReadAny(env: Types.Env, cfg: Config, t: string, p: nat): (r: Result<Lexed<Value>>)
    requires p <= |t|
    ensures r.Ok? ==> p < r.value.next <= |t|
    decreases |t| - p, 3
  {
    var c := Peek(t, p);
    if c == '{' as int then ReadMap(env, cfg, t, p, None)
    else if c == '[' as int then ReadList(env, cfg, t, p, None)
    else if c == 't' as int || c == 'f' as int then ReadBool(t, p)
    else if c == '"' as int then ReadStr(env, t, p, None)
    else ReadNumber(env, t, p)
  }

  // ---------------------------------------------------------------------
  // Scalars

  /** `readBool`: exactly `true` or `false`, then a token break. */
  function ReadBool(t: string, p: nat): (r: Result<Lexed<Value>>)
    requires p <= |t|
    ensures r.Ok? ==> var next := r.value.next;
                      p < next <= |t| && r.value.val.BoolVal?
                      && t[p..next] == (if r.value.val.b then "true" else "false")
                      && IsBreak(Peek(t, next))
    ensures p + 4 <= |t| && t[p..p + 4] == "true" && IsBreak(Peek(t, p + 4)) ==> r == Ok(Lexed(BoolVal(true), p + 4))
    ensures p + 5 <= |t| && t[p..p + 5] == "false" && IsBreak(Peek(t, p + 5)) ==> r == Ok(Lexed(BoolVal(false), p + 5))
    ensures Peek(t, p) != 't' as int && Peek(t, p) != 'f' as int ==> r.Err? && r.error.kind == Io
    ensures Yields(r, Bool)
  {
    if Peek(t, p) == 't' as int then
      var n :- ExpectToken(t, p, "true");
      Ok(Lexed(BoolVal(true), n))
    else if Peek(t, p) == 'f' as int then
      var n :- ExpectToken(t, p, "false");
      Ok(Lexed(BoolVal(false), n))
    else Fails(Io, "Unexpected start for boolean: " + Shown(Peek(t, p)))
  }

  /** `readInteger`: an integer part and a token break, handed to INTEGER's
      `from` as a `BigInteger`. */
  function ReadInteger(env: Types.Env, t: string, p: nat, d: Option<Domain>): (r: Result<Lexed<Value>>)
    requires p <= |t|
    requires d.None? || d.value.kind == Integer
    ensures r.Ok? ==> p < r.value.next <= |t| && IsBreak(Peek(t, r.value.next))
    ensures r.Ok? ==> var next := r.value.next;
                      IntShaped(t[p..next])
                      && Coerce.From(env, Integer, d, Coerce.Raw(IntVal(JBig, IntValue(t[p..next])))) == Ok(r.value.val)
    ensures Yields(r, Integer)
  {
    var i :- ReadIntPart(t, p);
    :- AtTokenBreak(t, i.next);
    var v :- Coerce.From(env, Integer, d, Coerce.Raw(IntVal(JBig, IntValue(i.val))));
    Ok(Lexed(v, i.next))
  }

  /** `jreadNumber`: the three parts made a `BigDecimal` before the token
      break is checked. */
  function ReadDecimal(env: Types.Env, t: string, p: nat, d: Option<Domain>): (r: Result<Lexed<Value>>)
    requires p <= |t|
    requires d.None? || d.value.kind == Decimal
    ensures r.Ok? ==> p < r.value.next <= |t| && IsBreak(Peek(t, r.value.next))
    ensures Yields(r, Decimal)
  {
    var n :- ReadNumberParts(t, p);
    var dv :- DecimalValue(n.val);
    :- AtTokenBreak(t, n.next);
    var v :- Coerce.From(env, Decimal, d, Coerce.Raw(DecVal(JBigDecimal, dv.0, dv.1)));
    Ok(Lexed(v, n.next))
  }

  /** `readNumber`: without a fraction or an exponent the number is an
      INTEGER of no domain (so an `int`), otherwise a DECIMAL of no domain;
      the token break is checked first. */
  function ReadNumber(env: Types.Env, t: string, p: nat): (r: Result<Lexed<Value>>)
    requires p <= |t|
    ensures r.Ok? ==> p < r.value.next <= |t| && IsBreak(Peek(t, r.value.next))
    ensures r.Ok? && !r.value.val.Null? ==> KindOf(r.value.val) == Integer || KindOf(r.value.val) == Decimal
    ensures r.Ok? ==> ReadNumberParts(t, p).Ok? && r.value.next == ReadNumberParts(t, p).value.next
    ensures r.Ok? && ReadNumberParts(t, p).value.val.fracPart == "" && ReadNumberParts(t, p).value.val.expoPart == "" ==>
              Coerce.From(env, Integer, None, Coerce.Raw(IntVal(JBig, IntValue(ReadNumberParts(t, p).value.val.intPart))))
              == Ok(r.value.val)
    ensures r.Ok? && !r.value.val.Null? && (ReadNumberParts(t, p).value.val.fracPart != "" || ReadNumberParts(t, p).value.val.expoPart != "") ==>
              KindOf(r.value.val) == Decimal
  {
    var n :- ReadNumberParts(t, p);
    :- AtTokenBreak(t, n.next);
    if n.val.fracPart == "" && n.val.expoPart == "" then
      var v :- Coerce.From(env, Integer, None, Coerce.Raw(IntVal(JBig, IntValue(n.val.intPart))));
      Ok(Lexed(v, n.next))
    else
      var dv :- DecimalValue(n.val);
      var v :- Coerce.From(env, Decimal, None, Coerce.Raw(DecVal(JBigDecimal, dv.0, dv.1)));
      Ok(Lexed(v, n.next))
  }

  /** `readString`: a string handed to STRING's `from`. */
  function ReadStr(env: Types.Env, t: string, p: nat, d: Option<Domain>): (r: Result<Lexed<Value>>)
    requires p <= |t|
    requires d.None? || d.value.kind == Str
    ensures r.Ok? ==> ReadString(t, p).Ok? && r.value.next == ReadString(t, p).value.next
                      && Coerce.From(env, Str, d, Coerce.Raw(StrVal(None, ReadString(t, p).value.val))) == Ok(r.value.val)
    ensures ReadString(t, p).Err? ==> r == Err(ReadString(t, p).error)
    ensures Yields(r, Str)
  {
    var s :- ReadString(t, p);
    var v :- Coerce.From(env, Str, d, Coerce.Raw(StrVal(None, s.val)));
    Ok(Lexed(v, s.next))
  }

  /** `fromString(domain, parser)`: the domain's type is asked for before
      anything is read, so a missing domain is a NullPointerException. */
  function ReadTemporal(env: Types.Env, t: string, p: nat, k: Kind, d: Option<Domain>): (r: Result<Lexed<Value>>)
    requires p <= |t| && IsTemporal(k)
    requires d.None? || d.value.kind == k
    ensures d.None? ==> r.Err? && r.error.kind == NullPointer
    ensures r.Ok? ==> ReadString(t, p).Ok? && r.value.next == ReadString(t, p).value.next
                      && env.parseTime(k, ReadString(t, p).value.val).Ok?
                      && Coerce.From(env, k, d, Coerce.Raw(TimeVal(k, env.parseTime(k, ReadString(t, p).value.val).value)))
                         == Ok(r.value.val)
    ensures Yields(r, k)
  {
    if d.None? then Fails(NullPointer, "domain")
    else
      var s :- ReadString(t, p);
      var ticks :- env.parseTime(k, s.val);
      var v :- Coerce.From(env, k, d, Coerce.Raw(TimeVal(k, ticks)));
      Ok(Lexed(v, s.next))
  }

  /** `readBlob`: a Base64 string decoded into a new blob. */
  function ReadBlob(env: Types.Env, cfg: Config, t: string, p: nat, d: Option<Domain>): (r: Result<Lexed<Value>>)
    requires p <= |t|
    requires d.None? || d.value.kind == Blob
    ensures d.None? ==> r.Err? && r.error.kind == NullPointer
    ensures r.Ok? ==> ReadString(t, p).Ok? && r.value.next == ReadString(t, p).value.next
                      && cfg.blobOf(ReadString(t, p).value.val).Ok?
    ensures Yields(r, Blob)
  {
    if d.None? then Fails(NullPointer, "domain")
    else
      var s :- ReadString(t, p);
      var b :- cfg.blobOf(s.val);
      var v :- Coerce.From(env, Blob, d, Coerce.Raw(BlobVal(b)));
      Ok(Lexed(v, s.next))
  }

  /** The position of the first constant of that name. */
  function ConstantIndex(names: seq<string>, name: string): (r: Option<nat>)
    ensures r.Some? ==> r.value < |names| && names[r.value] == name
                        && forall j :: 0 <= j < r.value ==> names[j] != name
    ensures r.None? ==> name !in names
  {
    if |names| == 0 then None
    else if names[0] == name then Some(0)
    else match ConstantIndex(names[1..], name)
      case Some(i) => Some(i + 1)
      case None => None
  }

  /** `readEnum`: the qualifier's enum class is looked up first; the name
      read must be one of its constants. The base class `Enum` has no
      constants to search, so an unqualified domain fails once the name is
      read. */
  function ReadEnum(env: Types.Env, t: string, p: nat, d: Option<Domain>): (r: Result<Lexed<Value>>)
    requires p <= |t|
    requires d.None? || d.value.kind == Enum
    ensures d.None? ==> r.Err? && r.error.kind == NullPointer
    ensures r.Ok? ==> d.Some? && d.value.qualifier.Some? && d.value.qualifier.value in env.enums
                      && ReadString(t, p).Ok? && r.value.next == ReadString(t, p).value.next
                      && ReadString(t, p).value.val in env.enums[d.value.qualifier.value]
    ensures d.Some? && d.value.qualifier.Some? && d.value.qualifier.value in env.enums && ReadString(t, p).Ok?
            && ReadString(t, p).value.val !in env.enums[d.value.qualifier.value] ==>
              r == Fails(Io, "Invalid enum-constant for " + d.value.qualifier.value + ": " + ReadString(t, p).value.val)
    ensures Yields(r, Enum)
  {
    if d.None? then Fails(NullPointer, "domain")
    else
      var c :- Types.JavaDataClass(env, Enum, d.value.qualifier);
      var s :- ReadString(t, p);
      if d.value.qualifier.None? then Fails(NullPointer, "getEnumConstants")
      else
        var cls := d.value.qualifier.value;
        match ConstantIndex(env.enums[cls], s.val)
        case None => Fails(Io, "Invalid enum-constant for " + cls + ": " + s.val)
        case Some(i) =>
          var v :- Coerce.From(env, Enum, d, Coerce.Raw(EnumVal(cls, s.val, i)));
          Ok(Lexed(v, s.next))
  }

  // ---------------------------------------------------------------------
  // Lists

  /** The early length check after each comma: `(int) max < size`. As
      written a range without a maximum is unboxed all the same. */
  function LongerThanMax(d: Domain, size: nat, asWritten: bool): (r: Result<bool>)
    ensures d.compiled.None? ==> r == Ok(false)
    ensures (d.compiled.Some? && d.compiled.value.max.Some? && d.compiled.value.max.value.IntVal?
             && d.compiled.value.max.value.width == JInt) ==> r == Ok(d.compiled.value.max.value.n < size)
    ensures d.compiled.Some? && d.compiled.value.max.None? ==>
              r == (if asWritten then Fails(NullPointer, "max") else Ok(false))
  {
    if d.compiled.None? then Ok(false)
    else match d.compiled.value.max
      case None => if asWritten then Fails(NullPointer, "max") else Ok(false)
      case Some(m) =>
        if m.IntVal? && m.width == JInt then Ok(m.n < size)
        else Fails(ClassCast, "payload cannot be cast to class java.lang.Integer")
  }

  /** `readList`: `[`, then `]` for an empty list handed to `from` as a
      plain Java list, or items read in the item domain and added to a new
      list of the domain, separated by commas, until `]`. */
  function ReadList(env: Types.Env, cfg: Config, t: string, p: nat, d: Option<Domain>): (r: Result<Lexed<Value>>)
    requires p <= |t|
    requires d.None? || d.value.kind == List
    ensures r.Ok? ==> p < r.value.next <= |t|
    ensures Peek(t, p) != '[' as int ==> r.Err? && r.error.kind == Io
    decreases |t| - p, 2
    ensures Yields(r, List)
  {
    var dom := if d.None? then ListAny else d.value;
    var q :- ExpectChar(t, p, '[');
    var s := SkipWs(t, q);
    if Peek(t, s) == ']' as int then
      var v :- Coerce.From(env, List, Some(dom), Coerce.RawList([]));
      Ok(Lexed(v, s + 1))
    else
      var l := Lists.New(dom).value;
      if dom.item.None? then Fails(NullPointer, "valueDomain")
      else
        var done :- ReadItems(env, cfg, t, s, l);
        var v :- Coerce.From(env, List, Some(dom), Coerce.Raw(ListVal(done.val)));
        Ok(Lexed(v, done.next))
  }

  /** The item loop: an item read in the item domain and added to the
      list, then what follows it. The list only grows. */
  function ReadItems(env: Types.Env, cfg: Config, t: string, q: nat, l: FList): (r: Result<Lexed<FList>>)
    requires q <= |t| && l.domain.kind == List && l.domain.item.Some?
    ensures r.Ok? ==> q < r.value.next <= |t| && t[r.value.next - 1] == ']'
    ensures r.Ok? ==> r.value.val.domain == l.domain && r.value.val.state == l.state
                      && |r.value.val.items| > |l.items| && r.value.val.items[..|l.items|] == l.items
    decreases |t| - q, 5
  {
    hide *;
    var item := l.domain.item.value;
    var x :- Read(env, cfg, t, q, item.kind, Some(item));
    AddItem(env, cfg, t, q, l, x)
  }

  /** An item just read is added to the list, then what follows it. */
  function AddItem(env: Types.Env, cfg: Config, t: string, q: nat, l: FList, x: Lexed<Value>): (r: Result<Lexed<FList>>)
    requires q < x.next <= |t| && l.domain.kind == List && l.domain.item.Some?
    ensures r.Ok? ==> q < r.value.next <= |t| && t[r.value.next - 1] == ']'
    ensures r.Ok? ==> r.value.val.domain == l.domain && r.value.val.state == l.state
                      && |r.value.val.items| > |l.items| && r.value.val.items[..|l.items|] == l.items
    decreases |t| - q, 3
  {
    hide *;
    var l2 :- Lists.Add(env, l, Coerce.Fv(x.val));
    var rest :- ItemsAfter(env, cfg, t, x.next, l2);
    GrowsFrom(l, l2, rest.val, Lists.Wrap(env, l, Coerce.Fv(x.val)).value);
    Ok(rest)
  }

  /** A list that extends `l` with one more item, then grows further,
      still starts with the items of `l`. */
  lemma GrowsFrom(l: FList, l2: FList, r: FList, y: Value)
    requires l2 == l.(items := l.items + [y])
    requires r.domain == l2.domain && r.state == l2.state
    requires |r.items| >= |l2.items| && r.items[..|l2.items|] == l2.items
    ensures r.domain == l.domain && r.state == l.state
    ensures |r.items| > |l.items| && r.items[..|l.items|] == l.items
  {
    assert r.items[..|l.items|] == r.items[..|l2.items|][..|l.items|];
  }

  /** After an item: `]` ends the list; `,` goes on to the next item once
      the early length check passes. */
  function ItemsAfter(env: Types.Env, cfg: Config, t: string, e: nat, l: FList): (r: Result<Lexed<FList>>)
    requires e <= |t| && l.domain.kind == List && l.domain.item.Some?
    ensures r.Ok? ==> e < r.value.next <= |t| && t[r.value.next - 1] == ']'
    ensures r.Ok? ==> r.value.val.domain == l.domain && r.value.val.state == l.state
                      && |r.value.val.items| >= |l.items| && r.value.val.items[..|l.items|] == l.items
    decreases |t| - e, 5
  {
    var s := SkipWs(t, e);
    if s == |t| then Err(NotACodePoint)
    else if t[s] == ']' then Ok(Lexed(l, s + 1))
    else if t[s] != ',' then Fails(Io, "Expected , or ] but got " + [t[s]])
    else
      var tooLong :- LongerThanMax(l.domain, |l.items|, cfg.asWritten);
      if tooLong then Fails(Io, "List longer than max: " + Types.Show(l.domain.compiled.value.max.value))
      else ReadItems(env, cfg, t, s + 1, l)
  }

  // ---------------------------------------------------------------------
  // Maps and objects

  /** Where the members of a JSON object go: straight into a map's sorted
      entries, or through an object's map view. */
  datatype Target = IntoMap(m: FMap) | IntoObject(o: FObject)

  predicate TargetOk(tg: Target) {
    tg.IntoMap? ==> NoCaseMaps.Sorted(tg.m.entries)
  }

  /** The domain a member's value is read in: the map's item domain, or the
      domain of the object's field of that name. */
  function MemberDomain(tg: Target, key: string): (r: Result<Domain>)
    ensures tg.IntoMap? ==> r == (if tg.m.domain.item.None? then Fails(NullPointer, "valueDomain") else Ok(tg.m.domain.item.value))
    ensures tg.IntoObject? ==> (r.Ok? <==> Schemas.FieldNamed(tg.o.schema, key).Ok?)
    ensures tg.IntoObject? && r.Ok? ==> r.value == Schemas.FieldNamed(tg.o.schema, key).value.domain
  {
    match tg
    case IntoMap(m) => if m.domain.item.None? then Fails(NullPointer, "valueDomain") else Ok(m.domain.item.value)
    case IntoObject(o) =>
      var f :- Schemas.FieldNamed(o.schema, key);
      Ok(f.domain)
  }

  /** A member put in place: `TreeMap.put` on the map's entries, with no
      coercion; `asMap().put` on an object. */
  function PutMember(env: Types.Env, tg: Target, key: string, v: Value): (r: Result<Target>)
    requires TargetOk(tg)
    ensures r.Ok? ==> TargetOk(r.value) && r.value.IntoMap? == tg.IntoMap?
    ensures tg.IntoMap? ==> r.Ok? && r.value.m == tg.m.(entries := NoCaseMaps.PutEntry(tg.m.entries, key, v).entries)
    ensures tg.IntoObject? ==> (r.Ok? <==> Objects.MapPut(env, tg.o, key, v).Ok?)
    ensures tg.IntoObject? && r.Ok? ==> r.value.o == Objects.MapPut(env, tg.o, key, v).value.0
  {
    match tg
    case IntoMap(m) =>
      NoCaseMaps.PutKeepsSorted(m.entries, key, v);
      Ok(IntoMap(m.(entries := NoCaseMaps.PutEntry(m.entries, key, v).entries)))
    case IntoObject(o) =>
      var put :- Objects.MapPut(env, o, key, v);
      Ok(IntoObject(put.0))
  }

  /** The private `readMap`: whitespace, `{`, then `}` for no members or
      the member loop. Only the corrected flavour skips whitespace before
      the first key or the closing brace. */
  function ReadBraces(env: Types.Env, cfg: Config, t: string, p: nat, tg: Target): (r: Result<Lexed<Target>>)
    requires p <= |t| && TargetOk(tg)
    ensures r.Ok? ==> p < r.value.next <= |t| && TargetOk(r.value.val) && r.value.val.IntoMap? == tg.IntoMap?
    ensures r.Ok? && tg.IntoMap? ==> r.value.val.m.domain == tg.m.domain && r.value.val.m.state == tg.m.state
    decreases |t| - p, 1
  {
    var s := SkipWs(t, p);
    var q :- ExpectChar(t, s, '{');
    var q2 := if cfg.asWritten then q else SkipWs(t, q);
    if Peek(t, q2) == '}' as int then Ok(Lexed(tg, q2 + 1))
    else ReadMembers(env, cfg, t, q2, tg)
  }

  /** Any failure while a member's value is found a domain, read and put
      becomes an IOException naming the key. */
  function Because(key: string, e: Error): Error {
    Error(Io, "Error reading value for field '" + key + "' because: " + MessageText(e))
  }

  /** The member loop: a key (after whitespace only in the corrected
      flavour), then the rest of the member. */
  function ReadMembers(env: Types.Env, cfg: Config, t: string, q: nat, tg: Target): (r: Result<Lexed<Target>>)
    requires q <= |t| && TargetOk(tg)
    ensures r.Ok? ==> q < r.value.next <= |t| && TargetOk(r.value.val) && r.value.val.IntoMap? == tg.IntoMap?
    ensures r.Ok? && tg.IntoMap? ==> r.value.val.m.domain == tg.m.domain && r.value.val.m.state == tg.m.state
    ensures cfg.asWritten && Peek(t, q) != '"' as int ==> r == Fails(Io, "Unexpected string start!")
    decreases |t| - q, 6
  {
    KeyedMember(env, cfg, t, if cfg.asWritten then q else SkipWs(t, q), tg)
  }

  /** From a member's key: the key, `:`, the value, then `}` to end or `,`
      to go on. */
  function KeyedMember(env: Types.Env, cfg: Config, t: string, k0: nat, tg: Target): (r: Result<Lexed<Target>>)
    requires k0 <= |t| && TargetOk(tg)
    ensures r.Ok? ==> k0 < r.value.next <= |t| && TargetOk(r.value.val) && r.value.val.IntoMap? == tg.IntoMap?
    ensures r.Ok? && tg.IntoMap? ==> r.value.val.m.domain == tg.m.domain && r.value.val.m.state == tg.m.state
    ensures Peek(t, k0) != '"' as int ==> r == Fails(Io, "Unexpected string start!")
    decreases |t| - k0, 5
  {
    var key :- ReadString(t, k0);
    var c :- ExpectChar(t, SkipWs(t, key.next), ':');
    var m := Member(env, cfg, t, c, tg, key.val);
    if m.Err? then Err(Because(key.val, m.error))
    else
      var s := SkipWs(t, m.value.next);
      if s == |t| then Err(NotACodePoint)
      else if t[s] == '}' then Ok(Lexed(m.value.val, s + 1))
      else if t[s] != ',' then Fails(Io, "Expected , or } but got " + [t[s]])
      else ReadMembers(env, cfg, t, s + 1, m.value.val)
  }

  /** One member's value: its domain, the value read in it, and the put. */
  function Member(env: Types.Env, cfg: Config, t: string, c: nat, tg: Target, key: string): (r: Result<Lexed<Target>>)
    requires c <= |t| && TargetOk(tg)
    ensures r.Ok? ==> c < r.value.next <= |t| && TargetOk(r.value.val) && r.value.val.IntoMap? == tg.IntoMap?
    ensures r.Ok? && tg.IntoMap? ==> r.value.val.m.domain == tg.m.domain && r.value.val.m.state == tg.m.state
    decreases |t| - c, 5
  {
    var dom :- MemberDomain(tg, key);
    var v :- Read(env, cfg, t, c, dom.kind, Some(dom));
    var tg2 :- PutMember(env, tg, key, v.val);
    Ok(Lexed(tg2, v.next))
  }

  /** `readMap(domain)`: the members go straight into a new map of the
      domain (MAP of ANY without one), which is then handed to `from`. */
  function ReadMap(env: Types.Env, cfg: Config, t: string, p: nat, d: Option<Domain>): (r: Result<Lexed<Value>>)
    requires p <= |t|
    requires d.None? || d.value.kind == Map
    ensures r.Ok? ==> p < r.value.next <= |t|
    decreases |t| - p, 2
    ensures Yields(r, Map)
  {
    var dom := if d.None? then MapAny else d.value;
    var m := Maps.New(dom).value;
    var done :- ReadBraces(env, cfg, t, p, IntoMap(m));
    var v :- Coerce.From(env, Map, Some(dom), Coerce.Raw(MapVal(done.val.m)));
    Ok(Lexed(v, done.next))
  }

  /** `readObject`: the object type named by the domain's qualifier makes
      a new object, the members are put through its map view, and the
      object is handed to `from`. */
  function ReadObject(env: Types.Env, cfg: Config, t: string, p: nat, d: Option<Domain>): (r: Result<Lexed<Value>>)
    requires p <= |t|
    requires d.None? || d.value.kind == Object
    ensures r.Ok? ==> p < r.value.next <= |t|
    ensures d.None? || d.value.qualifier.None? ==> r.Err? && r.error.kind == NullPointer
    decreases |t| - p, 2
    ensures Yields(r, Object)
  {
    var ty :- Fusion.FobTypeNamed(env.fobs, if d.None? then None else d.value.qualifier);
    var done :- ReadBraces(env, cfg, t, p, IntoObject(ObjectCore.Make(ty)));
    var v :- Coerce.From(env, Object, d, Coerce.Raw(ObjVal(done.val.o)));
    Ok(Lexed(v, done.next))
  }

  /** `toString` of an I/O exception: its class name, then ": " and its
      message when it has one, which the EOFException never does. */
  function IoExceptionText(e: Error): (s: string)
    requires e.kind == Io || e.kind == Eof
    ensures e.kind == Eof ==> s == "java.io.EOFException"
    ensures e.kind == Io ==> s == "java.io.IOException: " + e.msg
  {
    if e.kind == Eof then "java.io.EOFException" else "java.io.IOException: " + e.msg
  }

  /** `readJson(json, domain)`: no text reads as Java's null; an
      IOException becomes an IllegalArgumentException wrapping it, whose
      message is the exception's own text; any other failure passes
      through; nothing after the value is looked at. */
  function ReadJson(env: Types.Env, cfg: Config, json: Option<string>, k: Kind, d: Option<Domain>): (r: Result<Option<Value>>)
    requires d.None? || d.value.kind == k
    ensures json.None? ==> r == Ok(None)
    ensures json.Some? && Read(env, cfg, json.value, 0, k, d).Ok? ==>
              r == Ok(Some(Read(env, cfg, json.value, 0, k, d).value.val))
    ensures json.Some? && Read(env, cfg, json.value, 0, k, d).Err? ==>
              var e := Read(env, cfg, json.value, 0, k, d).error;
              r.Err? && r.error == (if e.kind == Io || e.kind == Eof then Error(IllegalArgument, IoExceptionText(e)) else e)
  {
    if json.None? then Ok(None)
    else
      match Read(env, cfg, json.value, 0, k, d)
      case Ok(x) => Ok(Some(x.val))
      case Err(e) => if e.kind == Io || e.kind == Eof then Err(Error(IllegalArgument, IoExceptionText(e))) else Err(e)
  }

  /** An unterminated string raises the message-less EOFException, so
      `readJson` reports the bare class name. */
  lemma UnterminatedStringText(env: Types.Env, cfg: Config)
    ensures ReadJson(env, cfg, Some("\"ab"), Any, None) == Err(Error(IllegalArgument, "java.io.EOFException"))
  {
    var t := "\"ab";
    UnclosedStringBody(t, 1);
    assert ReadString(t, 0) == StringBody(t, 1);
    assert Read(env, cfg, t, 0, Any, None) == ReadAny(env, cfg, t, 0);
  }

  /** A member whose string value is unterminated: the EOFException's
      missing message is printed as "null" by the member's wrapper. */
  lemma UnterminatedMemberText(env: Types.Env, cfg: Config)
    ensures ReadJson(env, cfg, Some("{\"a\":\"x"), Any, None)
            == Err(Error(IllegalArgument, "java.io.IOException: " + ("Error reading value for field '" + "a" + "' because: " + "null")))
  {
    var t := "{\"a\":\"x";
    var e := Error(Io, "Error reading value for field '" + "a" + "' because: " + "null");
    UnterminatedMap(env, cfg, t);
    assert SkipWs(t, 0) == 0 && Peek(t, 0) == '{' as int;
    assert ReadAny(env, cfg, t, 0) == Err(e);
    hide ReadAny, ReadMap;
    assert Read(env, cfg, t, 0, Any, None) == Err(e);
  }

  /** The map read of that text fails with the member's wrapper. */
  lemma UnterminatedMap(env: Types.Env, cfg: Config, t: string)
    requires t == "{\"a\":\"x"
    ensures ReadMap(env, cfg, t, 0, None) == Err(Error(Io, "Error reading value for field '" + "a" + "' because: " + "null"))
  {
    var m := Maps.New(MapAny).value;
    UnterminatedBraces(env, cfg, t, m);
    hide ReadBraces, Coerce.From;
  }

  /** The braces of that text: the member loop starts at the key. */
  lemma UnterminatedBraces(env: Types.Env, cfg: Config, t: string, m: FMap)
    requires t == "{\"a\":\"x" && m == Maps.New(MapAny).value
    ensures ReadBraces(env, cfg, t, 0, IntoMap(m)) == Err(Error(Io, "Error reading value for field '" + "a" + "' because: " + "null"))
  {
    UnterminatedMember(env, cfg, t, m);
    assert SkipWs(t, 0) == 0 && SkipWs(t, 1) == 1 && ExpectChar(t, 0, '{') == Ok(1);
    hide KeyedMember, ReadString, Read, Member;
    assert ReadMembers(env, cfg, t, 1, IntoMap(m)) == KeyedMember(env, cfg, t, 1, IntoMap(m));
  }

  /** The key `a` and its colon are read, and the failing value is
      wrapped naming that key. */
  lemma UnterminatedMember(env: Types.Env, cfg: Config, t: string, m: FMap)
    requires t == "{\"a\":\"x" && m == Maps.New(MapAny).value
    ensures KeyedMember(env, cfg, t, 1, IntoMap(m)) == Err(Error(Io, "Error reading value for field '" + "a" + "' because: " + "null"))
  {
    UnterminatedValue(env, cfg, t, m);
    var me := Member(env, cfg, t, 5, IntoMap(m), "a");
    assert ReadString(t, 1) == Ok(Lexed("a", 4)) by {
      assert IsBreak(Peek(t, 4));
      PlainStringBody(t, 2, 3);
      assert t[2..3] == "a";
    }
    assert SkipWs(t, 4) == 4 && ExpectChar(t, 4, ':') == Ok(5);
    hide Member, ReadString, Read, ReadMembers;
    assert KeyedMember(env, cfg, t, 1, IntoMap(m)) == Err(Because("a", me.error));
  }

  /** The member's value `"x` is read in ANY and ends in the EOFException. */
  lemma UnterminatedValue(env: Types.Env, cfg: Config, t: string, m: FMap)
    requires t == "{\"a\":\"x" && m == Maps.New(MapAny).value
    ensures Member(env, cfg, t, 5, IntoMap(m), "a").Err?
    ensures Member(env, cfg, t, 5, IntoMap(m), "a").error.kind == Eof
  {
    UnclosedStringBody(t, 6);
    assert ReadString(t, 5) == StringBody(t, 6);
    assert Read(env, cfg, t, 5, Any, Some(Domains.AnyDomain)) == ReadAny(env, cfg, t, 5);
    assert MemberDomain(IntoMap(m), "a") == Ok(Domains.AnyDomain);
  }

  // ---------------------------------------------------------------------
  // What the two flavours differ in

  /** Corrected: whitespace before a member key changes nothing. */
  lemma MembersIgnoreLeadingWs(env: Types.Env, blobOf: string -> Result<BlobData>, t: string, q: nat, tg: Target)
    requires q <= |t| && TargetOk(tg)
    ensures ReadMembers(env, Config(blobOf, false), t, q, tg) == ReadMembers(env, Config(blobOf, false), t, SkipWs(t, q), tg)
  {
    var s := SkipWs(t, q);
    assert SkipWs(t, s) == s;
  }

  /** As written: a space between `{` and the first key fails the read. */
  lemma SpaceBeforeKeyRejected(env: Types.Env, blobOf: string -> Result<BlobData>)
    ensures ReadMap(env, Config(blobOf, true), "{ \"a\":1}", 0, None) == Fails(Io, "Unexpected string start!")
  {
    var t := "{ \"a\":1}";
    assert SkipWs(t, 0) == 0;
    assert ExpectChar(t, 0, '{') == Ok(1);
    assert Peek(t, 1) == ' ' as int;
  }

  /** A list domain whose length range has a minimum and no maximum, as
      `[min, null]` compiles to. */
  function MinOnlyListDomain(min: nat): (d: Domain)
    ensures d.kind == List && d.compiled.Some? && Ranges.LengthBounds(d.compiled.value)
    ensures d.compiled.value.max.None? && d.compiled.value.min == Some(IntVal(JInt, min))
  {
    var range := ListVal(FList(ListAny, Iwr.Read, [IntVal(JInt, min), Null]));
    Domain(List, None, range, Some(Bounds(Some(IntVal(JInt, min)), None)), Some(ListC), Some(Domains.AnyDomain))
  }

  /** As written: once a list of such a domain has an item and a comma
      follows, the early check fails, though the range admits every longer
      list. */
  lemma MinOnlyRangeFailsEarly(min: nat, size: nat, finalSize: nat)
    requires min <= size <= finalSize
    ensures Ranges.CheckLength(MinOnlyListDomain(min).compiled.value, finalSize).Pass?
    ensures LongerThanMax(MinOnlyListDomain(min), size, true) == Fails(NullPointer, "max")
  {
  }

  /** Corrected: the early check never fails on a compiled length range,
      and it stops a list only when the range would refuse the list
      anyway, since the list already has more items than it. */
  lemma EarlyExitSound(d: Domain, size: nat, finalSize: nat)
    requires d.compiled.Some? && Ranges.LengthBounds(d.compiled.value)
    requires size <= finalSize
    ensures LongerThanMax(d, size, false).Ok?
    ensures LongerThanMax(d, size, false) == Ok(true) ==> Ranges.CheckLength(d.compiled.value, finalSize).Fail?
    ensures LongerThanMax(d, size, false) == Ok(false) ==>
              d.compiled.value.max.None? || Ranges.CheckLength(d.compiled.value, size).Pass?
              || (d.compiled.value.min.Some? && size < d.compiled.value.min.value.n)
  {
  }
}

=== FILE: jsonroundtrip.dfy ===
/** What `JsonWriter` writes, `JsonReader` reads back: NULL, booleans,
    `int`s, plain strings, and lists of ANY holding such values, nested to
    any depth. The writer is taken in its escaping flavour; the written
    text may sit anywhere in a larger input, followed by a token break as a
    value inside a list or a map is.
 */
module JsonRoundTrip {
  import opened Wrappers
  import opened Values
  import opened JsonLex
  import NumText
  import Types
  import Coerce
  import Domains
  import Lists
  import JsonWrite
  import JsonRead

  /** `w` is found in `t` at `p`. */
  predicate At(t: string, p: nat, w: string) {
    p + |w| <= |t| && t[p..p + |w|] == w
  }

  lemma AtSplit(t: string, p: nat, a: string, b: string)
    requires At(t, p, a + b)
    ensures At(t, p, a) && At(t, p + |a|, b)
  {
    assert t[p..p + |a|] == (a + b)[..|a|];
    assert t[p + |a|..p + |a| + |b|] == (a + b)[|a|..];
  }

  /** The values that need neither a domain nor a reader parameter: NULL,
      a boolean, an `int`, a plain string. */
  predicate Scalar(v: Value) {
    v.Null? || v.BoolVal? || (v.IntVal? && v.width == JInt && Fits(JInt, v.n)) || (v.StrVal? && v.sub.None?)
  }

  /** Scalars, and frozen lists of ANY holding such values. */
  predicate Plain(v: Value)
    decreases v
  {
    Scalar(v)
    || (v.ListVal? && v.list.domain == JsonRead.ListAny && v.list.state == Iwr.Read
        && forall i :: 0 <= i < |v.list.items| ==> Plain(v.list.items[i]))
  }

  /** The texts of a list's items, as the writer joins them. */
  function ItemTexts(tx: JsonWrite.Texts, items: seq<Value>): (ws: seq<string>)
    ensures |ws| == |items|
    ensures forall i :: 0 <= i < |items| ==> ws[i] == JsonWrite.Write(tx, items[i], true)
  {
    seq(|items|, i requires 0 <= i < |items| => JsonWrite.Write(tx, items[i], true))
  }

  lemma ListText(tx: JsonWrite.Texts, l: FList)
    ensures JsonWrite.Write(tx, ListVal(l), true) == "[" + JsonWrite.Join(ItemTexts(tx, l.items)) + "]"
  {
    assert ItemTexts(tx, l.items) == seq(|l.items|, i requires 0 <= i < |l.items| => JsonWrite.Write(tx, l.items[i], true));
  }

  /** At a character that is neither whitespace nor `n`, reading in ANY
      is `readAny` there. */
  lemma ReadsAny(env: Types.Env, cfg: JsonRead.Config, d: Option<Domain>, t: string, p: nat)
    requires d.None? || d.value.kind == Any
    requires p < |t| && !IsWs(t[p] as int) && t[p] != 'n'
    ensures JsonRead.Read(env, cfg, t, p, Any, d) == JsonRead.ReadAny(env, cfg, t, p)
  {
    hide JsonRead.ReadAny, JsonRead.ReadBool, JsonRead.ReadInteger, JsonRead.ReadDecimal, JsonRead.ReadStr, JsonRead.ReadObject,
           JsonRead.ReadList, JsonRead.ReadMap, JsonRead.ReadEnum, JsonRead.ReadBlob, JsonRead.ReadTemporal;
    assert SkipWs(t, p) == p;
  }

  /** `readAny` at a minus or a digit reads a number. */
  lemma AnyAtNumber(env: Types.Env, cfg: JsonRead.Config, t: string, p: nat)
    requires p < |t| && (t[p] == '-' || NumText.IsDigit(t[p]))
    ensures JsonRead.ReadAny(env, cfg, t, p) == JsonRead.ReadNumber(env, t, p)
  {
    hide JsonRead.ReadMap, JsonRead.ReadList, JsonRead.ReadBool, JsonRead.ReadStr, JsonRead.ReadNumber;
  }

  /** `readAny` at a quote reads a string. */
  lemma AnyAtString(env: Types.Env, cfg: JsonRead.Config, t: string, p: nat)
    requires p < |t| && t[p] == '"'
    ensures JsonRead.ReadAny(env, cfg, t, p) == JsonRead.ReadStr(env, t, p, None)
  {
    hide JsonRead.ReadMap, JsonRead.ReadList, JsonRead.ReadBool, JsonRead.ReadStr, JsonRead.ReadNumber;
  }

  /** `readAny` at an opening bracket reads a list of ANY. */
  lemma AnyAtList(env: Types.Env, cfg: JsonRead.Config, t: string, p: nat)
    requires p < |t| && t[p] == '['
    ensures JsonRead.ReadAny(env, cfg, t, p) == JsonRead.ReadList(env, cfg, t, p, None)
  {
    hide JsonRead.ReadMap, JsonRead.ReadList, JsonRead.ReadBool, JsonRead.ReadStr, JsonRead.ReadNumber;
  }

  /** A written plain value starts with a character that is neither
      whitespace nor a closing bracket. */
  lemma FirstChar(tx: JsonWrite.Texts, v: Value)
    requires Plain(v)
    ensures var w := JsonWrite.Write(tx, v, true);
            |w| > 0 && !IsWs(w[0] as int) && w[0] != ']' && w[0] != ',' && w[0] != 'n' ==> !v.Null?
    ensures var w := JsonWrite.Write(tx, v, true);
            |w| > 0 && !IsWs(w[0] as int) && w[0] != ']' && (w[0] == 'n' <==> v.Null?)
  {
    if v.IntVal? {
      var s := NumText.IntText(v.n);
      if v.n >= 0 {
        assert NumText.IsDigit(NumText.NatText(v.n)[0]);
      }
    }
  }

  // ---------------------------------------------------------------------
  // Scalars

  /** `DigitsEnd` stops exactly after a run of digits. */
  lemma {:induction false} DigitsEndAfter(t: string, p: nat, s: string)
    requires At(t, p, s) && NumText.AllDigits(s)
    requires p + |s| == |t| || !NumText.IsDigit(t[p + |s|])
    ensures DigitsEnd(t, p) == p + |s|
    decreases |s|
  {
    if |s| > 0 {
      assert t[p] == s[0];
      assert t[p + 1..p + |s|] == s[1..];
      DigitsEndAfter(t, p + 1, s[1..]);
    }
  }

  /** `Integer.toString` reads back through `new BigInteger`. */
  lemma IntTextValue(n: int)
    ensures IntShaped(NumText.IntText(n)) && IntValue(NumText.IntText(n)) == n
  {
    var s := NumText.IntText(n);
    if n < 0 {
      NumText.NatTextValue(-n);
      assert s[1..] == NumText.NatText(-n);
    } else {
      NumText.NatTextValue(n);
    }
  }

  /** The integer part of a number written by `Integer.toString` is all
      of it. */
  lemma IntTextIntPart(n: int, t: string, p: nat)
    requires At(t, p, NumText.IntText(n)) && IsBreak(Peek(t, p + |NumText.IntText(n)|))
    ensures ReadIntPart(t, p) == Ok(Lexed(NumText.IntText(n), p + |NumText.IntText(n)|))
  {
    var s := NumText.IntText(n);
    if n < 0 {
      var digits := NumText.NatText(-n);
      assert s == "-" + digits;
      AtSplit(t, p, "-", digits);
      DigitsEndAfter(t, p + 1, digits);
      assert t[p..p + |s|] == s;
    } else {
      DigitsEndAfter(t, p, s);
    }
  }

  /** A number written by `Integer.toString` is read as its integer part
      alone. */
  lemma IntTextParts(n: int, t: string, p: nat)
    requires At(t, p, NumText.IntText(n)) && IsBreak(Peek(t, p + |NumText.IntText(n)|))
    ensures ReadNumberParts(t, p) == Ok(Lexed(Number(NumText.IntText(n), "", ""), p + |NumText.IntText(n)|))
  {
    IntTextIntPart(n, t, p);
  }

  /** `readAny` at a `t` or an `f` reads a boolean. */
  lemma AnyAtBool(env: Types.Env, cfg: JsonRead.Config, t: string, p: nat)
    requires p < |t| && (t[p] == 't' || t[p] == 'f')
    ensures JsonRead.ReadAny(env, cfg, t, p) == JsonRead.ReadBool(t, p)
  {
    hide JsonRead.ReadMap, JsonRead.ReadList, JsonRead.ReadBool, JsonRead.ReadStr, JsonRead.ReadNumber;
  }

  /** `v`'s escaped text is found in `t` at `p`, followed by a token
      break. */
  predicate WrittenAt(tx: JsonWrite.Texts, v: Value, t: string, p: nat) {
    At(t, p, JsonWrite.Write(tx, v, true)) && IsBreak(Peek(t, p + |JsonWrite.Write(tx, v, true)|))
  }

  /** A plain value is one of the scalars or a list. */
  lemma PlainCases(v: Value)
    requires Plain(v)
    ensures v.Null? || v.BoolVal? || (v.IntVal? && v.width == JInt && Fits(JInt, v.n))
            || (v.StrVal? && v.sub.None?) || v.ListVal?
  {
  }

  // Each `...ReadsBack` lemma below hides every function body: it only
  // chains the facts of the lemmas it calls, so that its proof does not
  // unfold the reader and `from` it mentions.

  /** `null` reads back as NULL whatever the kind asked for. */
  lemma NullReadsBack(env: Types.Env, cfg: JsonRead.Config, k: Kind, d: Option<Domain>, t: string, p: nat)
    requires d.None? || d.value.kind == k
    requires At(t, p, "null") && IsBreak(Peek(t, p + 4))
    ensures JsonRead.Read(env, cfg, t, p, k, d) == Ok(Lexed(Null, p + 4))
  {
    hide JsonRead.ReadAny, JsonRead.ReadBool, JsonRead.ReadInteger, JsonRead.ReadDecimal, JsonRead.ReadStr, JsonRead.ReadObject,
           JsonRead.ReadList, JsonRead.ReadMap, JsonRead.ReadEnum, JsonRead.ReadBlob, JsonRead.ReadTemporal;
    assert t[p] == 'n';
    assert SkipWs(t, p) == p;
  }

  /** Where NULL is written, `null` is found. */
  lemma NullWritten(tx: JsonWrite.Texts, v: Value, t: string, p: nat)
    requires v.Null? && WrittenAt(tx, v, t, p)
    ensures At(t, p, "null") && IsBreak(Peek(t, p + 4)) && |JsonWrite.Write(tx, v, true)| == 4
  {
  }

  /** Where a boolean is written, `readBool` reads it back. */
  lemma BoolWritten(tx: JsonWrite.Texts, v: Value, t: string, p: nat)
    requires v.BoolVal? && WrittenAt(tx, v, t, p)
    ensures p < |t| && !IsWs(t[p] as int) && t[p] != 'n' && (t[p] == 't' || t[p] == 'f')
    ensures JsonRead.ReadBool(t, p) == Ok(Lexed(v, p + |JsonWrite.Write(tx, v, true)|))
  {
    var w := JsonWrite.Write(tx, v, true);
    assert w == if v.b then "true" else "false";
    assert t[p] == w[0];
  }

  /** A boolean reads back as itself. */
  lemma BoolReadsBack(env: Types.Env, cfg: JsonRead.Config, tx: JsonWrite.Texts, v: Value, d: Option<Domain>, t: string, p: nat)
    requires v.BoolVal? && (d.None? || d.value.kind == Any) && WrittenAt(tx, v, t, p)
    ensures JsonRead.Read(env, cfg, t, p, Any, d) == Ok(Lexed(v, p + |JsonWrite.Write(tx, v, true)|))
  {
    hide *;
    BoolWritten(tx, v, t, p);
    ReadsAny(env, cfg, d, t, p);
    AnyAtBool(env, cfg, t, p);
  }

  /** INTEGER's `from` of a `BigInteger` without a domain gives an `int`
      when the value fits one. */
  lemma FromBigInteger(env: Types.Env, n: int)
    requires Fits(JInt, n)
    ensures Coerce.From(env, Integer, None, Coerce.Raw(IntVal(JBig, n))) == Ok(IntVal(JInt, n))
  {
    assert Coerce.FromTyped(env, Integer, None, IntVal(JBig, n), Iwr.Read) == Ok(IntVal(JInt, n));
  }

  /** `readNumber` of a number written by `Integer.toString`, for an
      `int`, gives the `int`: the reader makes a `BigInteger`, which
      INTEGER's `from` converts to its default class. */
  lemma NumberReadsInt(env: Types.Env, n: int, t: string, p: nat)
    requires Fits(JInt, n)
    requires At(t, p, NumText.IntText(n)) && IsBreak(Peek(t, p + |NumText.IntText(n)|))
    ensures JsonRead.ReadNumber(env, t, p) == Ok(Lexed(IntVal(JInt, n), p + |NumText.IntText(n)|))
  {
    IntTextParts(n, t, p);
    IntTextValue(n);
    FromBigInteger(env, n);
  }

  /** Where an `int` is written, its `Integer.toString` text is found, and
      it starts with a minus or a digit. */
  lemma IntWritten(tx: JsonWrite.Texts, v: Value, t: string, p: nat)
    requires v.IntVal? && v.width == JInt && WrittenAt(tx, v, t, p)
    ensures v == IntVal(JInt, v.n) && JsonWrite.Write(tx, v, true) == NumText.IntText(v.n)
    ensures At(t, p, NumText.IntText(v.n)) && IsBreak(Peek(t, p + |NumText.IntText(v.n)|))
    ensures p < |t| && (t[p] == '-' || NumText.IsDigit(t[p])) && !IsWs(t[p] as int) && t[p] != 'n'
  {
    var w := NumText.IntText(v.n);
    assert t[p] == w[0];
    if v.n >= 0 { assert NumText.IsDigit(NumText.NatText(v.n)[0]); }
  }

  /** An `int` reads back as an `int` of the same value. */
  lemma IntReadsBack(env: Types.Env, cfg: JsonRead.Config, tx: JsonWrite.Texts, v: Value, d: Option<Domain>, t: string, p: nat)
    requires v.IntVal? && v.width == JInt && Fits(JInt, v.n)
    requires (d.None? || d.value.kind == Any) && WrittenAt(tx, v, t, p)
    ensures JsonRead.Read(env, cfg, t, p, Any, d) == Ok(Lexed(v, p + |JsonWrite.Write(tx, v, true)|))
  {
    hide *;
    IntWritten(tx, v, t, p);
    ReadsAny(env, cfg, d, t, p);
    AnyAtNumber(env, cfg, t, p);
    NumberReadsInt(env, v.n, t, p);
  }

  /** The escaped text of a string, found anywhere, reads back as it. */
  lemma StringReads(s: string, t: string, p: nat)
    requires At(t, p, JsonWrite.EncodeStr(s, true)) && IsBreak(Peek(t, p + |JsonWrite.EncodeStr(s, true)|))
    ensures ReadString(t, p) == Ok(Lexed(s, p + |JsonWrite.EncodeStr(s, true)|))
  {
    var b := JsonWrite.EncodeBody(s, true);
    assert JsonWrite.EncodeStr(s, true) == "\"" + (b + "\"");
    hide JsonWrite.EncodeStr;
    AtSplit(t, p, "\"", b + "\"");
    AtSplit(t, p + 1, b, "\"");
    assert t[p + 1 + |b|] == '"';
    JsonWrite.BodyReadsBack(s, true, t, p + 1);
    assert Peek(t, p) == '"' as int;
    hide StringBody;
  }

  /** STRING's `from` of a `String` without a domain keeps it. */
  lemma FromString(env: Types.Env, s: string)
    ensures Coerce.From(env, Str, None, Coerce.Raw(StrVal(None, s))) == Ok(StrVal(None, s))
  {
    assert Coerce.FromTyped(env, Str, None, StrVal(None, s), Iwr.Read) == Ok(StrVal(None, s));
  }

  /** `readString` handed to STRING's `from` without a domain, of an
      escaped string, gives the plain string. */
  lemma StrValueReads(env: Types.Env, s: string, t: string, p: nat)
    requires At(t, p, JsonWrite.EncodeStr(s, true)) && IsBreak(Peek(t, p + |JsonWrite.EncodeStr(s, true)|))
    ensures JsonRead.ReadStr(env, t, p, None) == Ok(Lexed(StrVal(None, s), p + |JsonWrite.EncodeStr(s, true)|))
  {
    hide ReadString, Coerce.From, JsonWrite.EncodeStr;
    StringReads(s, t, p);
    FromString(env, s);
  }

  /** Where a plain string is written, its escaped text is found, and it
      starts with a quote. */
  lemma StrWritten(tx: JsonWrite.Texts, v: Value, t: string, p: nat)
    requires v.StrVal? && v.sub.None? && WrittenAt(tx, v, t, p)
    ensures v == StrVal(None, v.text) && JsonWrite.Write(tx, v, true) == JsonWrite.EncodeStr(v.text, true)
    ensures At(t, p, JsonWrite.EncodeStr(v.text, true)) && IsBreak(Peek(t, p + |JsonWrite.EncodeStr(v.text, true)|))
    ensures p < |t| && t[p] == '"' && !IsWs(t[p] as int) && t[p] != 'n'
  {
    var w := JsonWrite.EncodeStr(v.text, true);
    assert t[p] == w[0];
  }

  /** A plain string reads back as itself. */
  lemma StrReadsBack(env: Types.Env, cfg: JsonRead.Config, tx: JsonWrite.Texts, v: Value, d: Option<Domain>, t: string, p: nat)
    requires v.StrVal? && v.sub.None?
    requires (d.None? || d.value.kind == Any) && WrittenAt(tx, v, t, p)
    ensures JsonRead.Read(env, cfg, t, p, Any, d) == Ok(Lexed(v, p + |JsonWrite.Write(tx, v, true)|))
  {
    hide *;
    StrWritten(tx, v, t, p);
    ReadsAny(env, cfg, d, t, p);
    AnyAtString(env, cfg, t, p);
    StrValueReads(env, v.text, t, p);
  }

  // ---------------------------------------------------------------------
  // Lists

  /** Any plain value reads back as itself, in ANY, with or without the ANY
      domain. */
  lemma {:induction false} ValueReadsBack(env: Types.Env, cfg: JsonRead.Config, tx: JsonWrite.Texts, v: Value,
                                          d: Option<Domain>, t: string, p: nat)
    requires Plain(v)
    requires (d.None? || d.value.kind == Any) && WrittenAt(tx, v, t, p)
    ensures JsonRead.Read(env, cfg, t, p, Any, d) == Ok(Lexed(v, p + |JsonWrite.Write(tx, v, true)|))
    decreases v, 1
  {
    hide *;
    PlainCases(v);
    if v.Null? {
      NullWritten(tx, v, t, p);
      NullReadsBack(env, cfg, Any, d, t, p);
    } else if v.BoolVal? {
      BoolReadsBack(env, cfg, tx, v, d, t, p);
    } else if v.IntVal? {
      IntReadsBack(env, cfg, tx, v, d, t, p);
    } else if v.StrVal? {
      StrReadsBack(env, cfg, tx, v, d, t, p);
    } else {
      ListReadsBack(env, cfg, tx, v.list, d, t, p);
    }
  }

  /** `[]` reads as an empty frozen list of ANY. */
  lemma EmptyListReads(env: Types.Env, cfg: JsonRead.Config, t: string, p: nat)
    requires At(t, p, "[]")
    ensures JsonRead.ReadList(env, cfg, t, p, None) == Ok(Lexed(ListVal(FList(JsonRead.ListAny, Iwr.Read, [])), p + 2))
  {
    hide JsonRead.ReadItems, Coerce.From, Lists.New;
    assert t[p] == '[' && t[p + 1] == ']';
    assert SkipWs(t, p + 1) == p + 1;
    FreezesEmptyListAny(env);
  }

  /** LIST's `from` of a new empty list in the domain of lists of ANY is
      that list, frozen. */
  lemma FreezesEmptyListAny(env: Types.Env)
    ensures Coerce.From(env, List, Some(JsonRead.ListAny), Coerce.RawList([]))
            == Ok(ListVal(FList(JsonRead.ListAny, Iwr.Read, [])))
  {
    Domains.AnyDomainsBuilt(env);
  }

  /** A list with items: what the item loop builds is frozen by LIST's
      `from`. */
  lemma ItemsListReads(env: Types.Env, cfg: JsonRead.Config, t: string, p: nat, items: seq<Value>, e: nat)
    requires p + 1 < |t| && t[p] == '[' && !IsWs(t[p + 1] as int) && t[p + 1] != ']'
    requires JsonRead.ReadItems(env, cfg, t, p + 1, FList(JsonRead.ListAny, Iwr.Init, []))
             == Ok(Lexed(FList(JsonRead.ListAny, Iwr.Init, items), e))
    ensures JsonRead.ReadList(env, cfg, t, p, None) == Ok(Lexed(ListVal(FList(JsonRead.ListAny, Iwr.Read, items)), e))
  {
    hide JsonRead.ReadItems, Coerce.From;
    assert SkipWs(t, p + 1) == p + 1;
    assert Lists.New(JsonRead.ListAny).value == FList(JsonRead.ListAny, Iwr.Init, []);
    FreezesListAny(env, items);
  }

  /** LIST's `from` of a list of ANY in its own domain freezes it. */
  lemma FreezesListAny(env: Types.Env, items: seq<Value>)
    ensures Coerce.From(env, List, Some(JsonRead.ListAny), Coerce.Raw(ListVal(FList(JsonRead.ListAny, Iwr.Init, items))))
            == Ok(ListVal(FList(JsonRead.ListAny, Iwr.Read, items)))
  {
    var l := FList(JsonRead.ListAny, Iwr.Init, items);
    var d := Some(JsonRead.ListAny);
    var frozen := ListVal(FList(JsonRead.ListAny, Iwr.Read, items));
    assert Types.JavaDataClass(env, List, None) == Ok(Some(ListC));
    assert Coerce.Desired(env, List, d) == Ok(ListC);
    assert Coerce.Immutable(env, List, d, ListVal(l), Iwr.Read) == Ok(frozen);
    assert Coerce.FromTyped(env, List, d, ListVal(l), Iwr.Read) == Ok(frozen);
    assert Coerce.FromPayload(env, List, d, ListVal(l), Iwr.Read) == Ok(frozen);
    assert Coerce.FromValue(env, List, d, false, ListVal(l), Iwr.Read) == Ok(frozen);
  }

  /** Where a plain list is written: its opening bracket, and either `]`
      at once or its first item, which starts neither with whitespace nor
      with `]`. */
  lemma ListWritten(tx: JsonWrite.Texts, l: FList, t: string, p: nat)
    requires Plain(ListVal(l)) && WrittenAt(tx, ListVal(l), t, p)
    ensures l.domain == JsonRead.ListAny && l.state == Iwr.Read
    ensures p < |t| && t[p] == '[' && !IsWs(t[p] as int) && t[p] != 'n'
    ensures |JsonWrite.Write(tx, ListVal(l), true)| == |JsonWrite.Join(ItemTexts(tx, l.items)[0..])| + 2
    ensures |l.items| == 0 ==> At(t, p, "[]") && |JsonWrite.Write(tx, ListVal(l), true)| == 2
    ensures |l.items| > 0 ==> p + 1 < |t| && !IsWs(t[p + 1] as int) && t[p + 1] != ']'
                              && At(t, p + 1, JsonWrite.Join(ItemTexts(tx, l.items)[0..]) + "]")
  {
    ListText(tx, l);
    hide JsonWrite.Write;
    var ws := ItemTexts(tx, l.items);
    var body := JsonWrite.Join(ws);
    assert ws[0..] == ws;
    AtSplit(t, p, "[", body + "]");
    AtSplit(t, p + 1, body, "]");
    assert t[p] == '[';
    if |l.items| == 0 {
      assert body == "";
    } else {
      FirstChar(tx, l.items[0]);
      assert t[p + 1] == body[0] == ws[0][0];
    }
  }

  /** A plain list reads back as itself. */
  lemma {:induction false} ListReadsBack(env: Types.Env, cfg: JsonRead.Config, tx: JsonWrite.Texts, l: FList,
                                         d: Option<Domain>, t: string, p: nat)
    requires Plain(ListVal(l))
    requires (d.None? || d.value.kind == Any) && WrittenAt(tx, ListVal(l), t, p)
    ensures JsonRead.Read(env, cfg, t, p, Any, d) == Ok(Lexed(ListVal(l), p + |JsonWrite.Write(tx, ListVal(l), true)|))
    decreases ListVal(l), 0
  {
    hide *;
    ListWritten(tx, l, t, p);
    ReadsAny(env, cfg, d, t, p);
    AnyAtList(env, cfg, t, p);
    if |l.items| == 0 {
      assert l == FList(JsonRead.ListAny, Iwr.Read, []);
      EmptyListReads(env, cfg, t, p);
    } else {
      ItemsReadBack(env, cfg, tx, l, 0, t, p + 1);
      assert l.items[..0] == [];
      ItemsListReads(env, cfg, t, p, l.items, p + 1 + |JsonWrite.Join(ItemTexts(tx, l.items)[0..])| + 1);
      assert l == FList(JsonRead.ListAny, Iwr.Read, l.items);
    }
  }

  /** One turn of the item loop: the item is read and added. */
  lemma ItemAdded(env: Types.Env, cfg: JsonRead.Config, t: string, p: nat, items: seq<Value>, x: Value, q: nat)
    requires p <= |t| && JsonRead.Read(env, cfg, t, p, Any, Some(Domains.AnyDomain)) == Ok(Lexed(x, q))
    ensures JsonRead.ReadItems(env, cfg, t, p, FList(JsonRead.ListAny, Iwr.Init, items))
            == JsonRead.ItemsAfter(env, cfg, t, q, FList(JsonRead.ListAny, Iwr.Init, items + [x]))
  {
    hide JsonRead.Read, JsonRead.ItemsAfter, Lists.Add;
    AnyItems();
    AddsAny(env, items, x);
  }

  /** After an item, `]` ends the loop. */
  lemma ItemThenClose(env: Types.Env, cfg: JsonRead.Config, t: string, q: nat, l: FList)
    requires l.domain == JsonRead.ListAny
    requires q < |t| && t[q] == ']'
    ensures JsonRead.ItemsAfter(env, cfg, t, q, l) == Ok(Lexed(l, q + 1))
  {
    hide JsonRead.ReadItems;
    assert SkipWs(t, q) == q;
  }

  /** After an item, `,` goes on: a list of ANY has no length range. */
  lemma ItemThenComma(env: Types.Env, cfg: JsonRead.Config, t: string, q: nat, l: FList)
    requires l.domain == JsonRead.ListAny
    requires q < |t| && t[q] == ','
    ensures JsonRead.ItemsAfter(env, cfg, t, q, l) == JsonRead.ReadItems(env, cfg, t, q + 1, l)
  {
    hide JsonRead.ReadItems;
    AnyItems();
    assert SkipWs(t, q) == q;
  }

  /** The items of a list of ANY are read in ANY, in the ANY domain. */
  lemma AnyItems()
    ensures JsonRead.ListAny.item == Some(Domains.AnyDomain) && Domains.AnyDomain.kind == Any
    ensures JsonRead.ListAny.compiled.None? && JsonRead.ListAny.kind == List
  {
  }

  /** A list of ANY takes any value as it is. */
  lemma AddsAny(env: Types.Env, items: seq<Value>, x: Value)
    ensures Lists.Add(env, FList(JsonRead.ListAny, Iwr.Init, items), Coerce.Fv(x))
            == Ok(FList(JsonRead.ListAny, Iwr.Init, items + [x]))
  {
    assert JsonRead.ListAny.item == Some(Domains.AnyDomain);
  }

  /** The items of a plain list are plain. */
  lemma PlainItem(l: FList, j: nat)
    requires Plain(ListVal(l)) && j < |l.items|
    ensures Plain(l.items[j])
  {
  }

  /** Where the items from the `j`th on are written, followed by `]`,
      the `j`th item's text comes first, then `]` or a comma and the rest. */
  lemma ItemsText(tx: JsonWrite.Texts, items: seq<Value>, j: nat, t: string, p: nat)
    requires j < |items|
    requires At(t, p, JsonWrite.Join(ItemTexts(tx, items)[j..]) + "]")
    ensures var w0 := JsonWrite.Write(tx, items[j], true);
            var e := p + |w0|;
            WrittenAt(tx, items[j], t, p) && e < |t|
            && (j + 1 == |items| ==> t[e] == ']' && |JsonWrite.Join(ItemTexts(tx, items)[j..])| == |w0|)
            && (j + 1 < |items| ==>
                  t[e] == ',' && At(t, e + 1, JsonWrite.Join(ItemTexts(tx, items)[j + 1..]) + "]")
                  && |JsonWrite.Join(ItemTexts(tx, items)[j..])| == |w0| + 1 + |JsonWrite.Join(ItemTexts(tx, items)[j + 1..])|)
  {
    hide JsonWrite.Write;
    var ws := ItemTexts(tx, items)[j..];
    var w0 := ws[0];
    if |ws| == 1 {
      assert JsonWrite.Join(ws) == w0;
      AtSplit(t, p, w0, "]");
    } else {
      var tail := JsonWrite.Join(ws[1..]);
      assert JsonWrite.Join(ws) == w0 + "," + tail;
      assert ws[1..] == ItemTexts(tx, items)[j + 1..];
      assert w0 + "," + tail + "]" == w0 + ("," + (tail + "]"));
      AtSplit(t, p, w0, "," + (tail + "]"));
      AtSplit(t, p + |w0|, ",", tail + "]");
    }
  }

  /** The item loop reads the items from the `j`th on, each in the ANY
      domain, and appends them to the list begun with the first `j`. */
  lemma {:induction false} ItemsReadBack(env: Types.Env, cfg: JsonRead.Config, tx: JsonWrite.Texts, l: FList,
                                         j: nat, t: string, p: nat)
    requires Plain(ListVal(l)) && j < |l.items|
    requires At(t, p, JsonWrite.Join(ItemTexts(tx, l.items)[j..]) + "]")
    ensures JsonRead.ReadItems(env, cfg, t, p, FList(JsonRead.ListAny, Iwr.Init, l.items[..j]))
            == Ok(Lexed(FList(JsonRead.ListAny, Iwr.Init, l.items), p + |JsonWrite.Join(ItemTexts(tx, l.items)[j..])| + 1))
    decreases ListVal(l), 0, |l.items| - j
  {
    hide *;
    var x := l.items[j];
    var e := p + |JsonWrite.Write(tx, x, true)|;
    ItemsText(tx, l.items, j, t, p);
    PlainItem(l, j);
    AnyItems();
    ValueReadsBack(env, cfg, tx, x, Some(Domains.AnyDomain), t, p);
    ItemAdded(env, cfg, t, p, l.items[..j], x, e);
    assert l.items[..j] + [x] == l.items[..j + 1];
    if j + 1 == |l.items| {
      assert l.items[..j + 1] == l.items;
      ItemThenClose(env, cfg, t, e, FList(JsonRead.ListAny, Iwr.Init, l.items));
    } else {
      ItemThenComma(env, cfg, t, e, FList(JsonRead.ListAny, Iwr.Init, l.items[..j + 1]));
      ItemsReadBack(env, cfg, tx, l, j + 1, t, e + 1);
    }
  }

  /** A value's text, alone, is written at the start of itself. */
  lemma WrittenAlone(tx: JsonWrite.Texts, v: Value)
    ensures WrittenAt(tx, v, JsonWrite.Write(tx, v, true), 0)
  {
    var w := JsonWrite.Write(tx, v, true);
    assert w[0..|w|] == w;
  }

  /** Every plain value, written alone, reads back as itself. */
  lemma RoundTrip(env: Types.Env, cfg: JsonRead.Config, tx: JsonWrite.Texts, v: Value)
    requires Plain(v)
    ensures JsonRead.ReadJson(env, cfg, Some(JsonWrite.Write(tx, v, true)), Any, None) == Ok(Some(v))
  {
    hide *;
    WrittenAlone(tx, v);
    ValueReadsBack(env, cfg, tx, v, None, JsonWrite.Write(tx, v, true), 0);
  }
}

=== FILE: jsonwrite.dfy ===
/** `JsonWriter`: a value as JSON text. Scalars are written with their
    `toString`, strings, enum names, temporals and blobs as quoted strings,
    lists as arrays and maps and objects as JSON objects.

    `encodestr` is given in two flavours. As written (`escaped` false) it
    writes a quote, a backslash and the control characters tab, CR, LF,
    backspace and form feed as they are, so the text it makes of a string
    holding a quote is not JSON; escaped, it writes the two-character
    escapes of section 7 of RFC 8259, and what it writes reads back.
 */
module JsonWrite {
  import opened Wrappers
  import opened Values
  import opened JsonLex
  import NumText
  import Fields

  /** The texts the writer takes from classes outside the model: the ISO
      text of a temporal, the Base64 text of a blob, and `toString` of a
      `float` or `double`. */
  datatype Texts = Texts(time: (TimeKind, int) -> string, blob: BlobData -> string,
                         floating: (DecWidth, int, int) -> string)

  /** The characters `encodestr` singles out by name. */
  predicate Named(c: char) {
    c == '\t' || c == '\r' || c == '\n' || c == 8 as char || c == 12 as char || c == '\\' || c == '"'
  }

  /** The escape letter of a named character. */
  function EscapeLetter(c: char): (e: char)
    requires Named(c)
    ensures Unescaped(e) == c
  {
    if c == '\t' then 't' else if c == '\r' then 'r' else if c == '\n' then 'n'
    else if c == 8 as char then 'b' else if c == 12 as char then 'f' else c
  }

  function HexChar(d: int): (c: char)
    requires 0 <= d < 16
    ensures HexDigitValue(c) == d
  {
    if d < 10 then ('0' as int + d) as char else ('A' as int + d - 10) as char
  }

  /** `String.format("%04X", n)`. */
  function Hex4(n: int): (s: string)
    requires 0 <= n < 0x1_0000
    ensures |s| == 4 && AllHex(s)
  {
    [HexChar(n / 0x1000), HexChar(n / 0x100 % 16), HexChar(n / 16 % 16), HexChar(n % 16)]
  }

  /** Four hex digits read back as the number they were written from. */
  lemma Hex4Value(n: int)
    requires 0 <= n < 0x1_0000
    ensures HexValue(Hex4(n)) == n
  {
    var s := Hex4(n);
    var n3 := n / 16;
    var n2 := n3 / 16;
    var n1 := n2 / 16;
    assert n / 0x100 == n2 && n / 0x1000 == n1 by { DivSixteen(n); }
    hide *;
    assert s[..3][..2][..1][..0] == [];
    assert HexValue(s[..3][..2][..1]) == n1;
    assert HexValue(s[..3][..2]) == n2;
    assert HexValue(s[..3]) == n3;
  }

  /** Dropping one hex digit twice, or three times, drops two or three. */
  lemma DivSixteen(n: nat)
    ensures n / 16 / 16 == n / 0x100 && n / 16 / 16 / 16 == n / 0x1000
  {
  }

  /** One character of `encodestr`. */
  function EncodeChar(c: char, escaped: bool): string {
    if Named(c) then (if escaped then ['\\', EscapeLetter(c)] else [c])
    else if (c as int) < 0x20 then "\\u" + Hex4(c as int)
    else [c]
  }

  function EncodeBody(s: string, escaped: bool): string {
    if |s| == 0 then "" else EncodeChar(s[0], escaped) + EncodeBody(s[1..], escaped)
  }

  /** `encodestr`: the characters of `s` between quotes. */
  function EncodeStr(s: string, escaped: bool): (r: string)
    ensures |r| >= 2 && r[0] == '"' && r[|r| - 1] == '"'
  {
    "\"" + EncodeBody(s, escaped) + "\""
  }

  /** A character both flavours write as it is. */
  predicate Verbatim(c: char) {
    (c as int) >= 0x20 && c != '"' && c != '\\'
  }

  /** A string with neither a quote nor a backslash in it. */
  predicate Plain(s: string) {
    forall i :: 0 <= i < |s| ==> s[i] != '"' && s[i] != '\\'
  }

  /** Printable text other than a quote or a backslash is written as it
      is by either flavour. */
  lemma {:induction false} VerbatimText(s: string, escaped: bool)
    requires forall i :: 0 <= i < |s| ==> Verbatim(s[i])
    ensures EncodeBody(s, escaped) == s
  {
    if |s| > 0 {
      VerbatimText(s[1..], escaped);
    }
  }

  /** What a character's code reads back as, one step of the reader's
      string loop. */
  lemma CharReadsBack(c: char, escaped: bool, t: string, q: nat, rest: Lexed<string>)
    requires escaped || (c != '"' && c != '\\')
    requires q + |EncodeChar(c, escaped)| <= |t| && t[q..q + |EncodeChar(c, escaped)|] == EncodeChar(c, escaped)
    requires StringBody(t, q + |EncodeChar(c, escaped)|) == Ok(rest)
    ensures StringBody(t, q) == Ok(Lexed([c] + rest.val, rest.next))
  {
    hide StringBody, Hex4, HexValue;
    var e := EncodeChar(c, escaped);
    assert forall i :: 0 <= i < |e| ==> t[q + i] == e[i] by {
      forall i | 0 <= i < |e| ensures t[q + i] == e[i] {
        assert t[q..q + |e|][i] == t[q + i];
      }
    }
    if Named(c) && escaped {
      EscapeReadsBack(c, t, q, rest);
    } else if !Named(c) && (c as int) < 0x20 {
      assert e == "\\u" + Hex4(c as int);
      assert t[q + 2..q + 6] == t[q..q + |e|][2..6] == Hex4(c as int);
      UnicodeReadsBack(c, t, q, rest);
    } else {
      assert t[q] == c;
      hide *;
      SameCharReadsBack(c, t, q, rest);
    }
  }

  /** A two-character escape reads back as the character it names. */
  lemma EscapeReadsBack(c: char, t: string, q: nat, rest: Lexed<string>)
    requires Named(c) && q + 2 <= |t| && t[q] == '\\' && t[q + 1] == EscapeLetter(c)
    requires StringBody(t, q + 2) == Ok(rest)
    ensures StringBody(t, q) == Ok(Lexed([c] + rest.val, rest.next))
  {
  }

  /** A `\uXXXX` escape reads back as the character it codes. */
  lemma UnicodeReadsBack(c: char, t: string, q: nat, rest: Lexed<string>)
    requires (c as int) < 0x20 && q + 6 <= |t| && t[q] == '\\' && t[q + 1] == 'u' && t[q + 2..q + 6] == Hex4(c as int)
    requires StringBody(t, q + 6) == Ok(rest)
    ensures StringBody(t, q) == Ok(Lexed([c] + rest.val, rest.next))
  {
    Hex4Value(c as int);
  }

  /** A character other than a quote or a backslash reads back as itself. */
  lemma SameCharReadsBack(c: char, t: string, q: nat, rest: Lexed<string>)
    requires c != '"' && c != '\\' && q < |t| && t[q] == c
    requires StringBody(t, q + 1) == Ok(rest)
    ensures StringBody(t, q) == Ok(Lexed([c] + rest.val, rest.next))
  {
  }

  /** The reader's string loop reads back the code of `s` up to the closing
      quote: always for the escaped flavour, and for the flavour as written
      only when `s` holds no quote or backslash. */
  lemma {:induction false} BodyReadsBack(s: string, escaped: bool, t: string, q: nat)
    requires escaped || Plain(s)
    requires q + |EncodeBody(s, escaped)| < |t|
    requires t[q..q + |EncodeBody(s, escaped)|] == EncodeBody(s, escaped)
    requires t[q + |EncodeBody(s, escaped)|] == '"'
    requires IsBreak(Peek(t, q + |EncodeBody(s, escaped)| + 1))
    ensures StringBody(t, q) == Ok(Lexed(s, q + |EncodeBody(s, escaped)| + 1))
    decreases |s|
  {
    hide *;
    if |s| == 0 {
      EmptyBody(escaped);
      ClosingQuoteReads(t, q);
    } else {
      var n := |EncodeChar(s[0], escaped)|;
      SplitCode(s, escaped, t, q);
      BodyReadsBack(s[1..], escaped, t, q + n);
      BodyStep(s, escaped, t, q);
    }
  }

  lemma EmptyBody(escaped: bool)
    ensures EncodeBody("", escaped) == ""
  {
  }

  /** The closing quote ends the string when a token break follows it. */
  lemma ClosingQuoteReads(t: string, q: nat)
    requires q < |t| && t[q] == '"' && IsBreak(Peek(t, q + 1))
    ensures StringBody(t, q) == Ok(Lexed("", q + 1))
  {
  }

  /** The code of a non-empty string is that of its first character and
      then that of the rest. */
  lemma SplitCode(s: string, escaped: bool, t: string, q: nat)
    requires |s| > 0 && (escaped || Plain(s))
    requires q + |EncodeBody(s, escaped)| <= |t|
    requires t[q..q + |EncodeBody(s, escaped)|] == EncodeBody(s, escaped)
    ensures escaped || Plain(s[1..])
    ensures |EncodeBody(s, escaped)| == |EncodeChar(s[0], escaped)| + |EncodeBody(s[1..], escaped)|
    ensures t[q..q + |EncodeChar(s[0], escaped)|] == EncodeChar(s[0], escaped)
    ensures t[q + |EncodeChar(s[0], escaped)|..q + |EncodeBody(s, escaped)|] == EncodeBody(s[1..], escaped)
  {
    var e := EncodeChar(s[0], escaped);
    var tail := EncodeBody(s[1..], escaped);
    assert EncodeBody(s, escaped) == e + tail;
    SliceConcat(t, q, e, tail);
    PlainTail(s, escaped);
  }

  /** One step of the induction: the first character's code, then the
      rest read back. */
  lemma BodyStep(s: string, escaped: bool, t: string, q: nat)
    requires |s| > 0 && (escaped || Plain(s))
    requires q + |EncodeBody(s, escaped)| <= |t|
    requires |EncodeBody(s, escaped)| == |EncodeChar(s[0], escaped)| + |EncodeBody(s[1..], escaped)|
    requires t[q..q + |EncodeChar(s[0], escaped)|] == EncodeChar(s[0], escaped)
    requires StringBody(t, q + |EncodeChar(s[0], escaped)|) == Ok(Lexed(s[1..], q + |EncodeChar(s[0], escaped)| + |EncodeBody(s[1..], escaped)| + 1))
    ensures StringBody(t, q) == Ok(Lexed(s, q + |EncodeBody(s, escaped)| + 1))
  {
    hide StringBody, EncodeBody;
    CharReadsBack(s[0], escaped, t, q, Lexed(s[1..], q + |EncodeBody(s, escaped)| + 1));
    assert [s[0]] + s[1..] == s;
  }

  /** A slice holding `a + b` holds `a` and then `b`. */
  lemma SliceConcat(t: string, q: nat, a: string, b: string)
    requires q + |a + b| <= |t| && t[q..q + |a + b|] == a + b
    ensures t[q..q + |a|] == a && t[q + |a|..q + |a| + |b|] == b
  {
    assert t[q..q + |a|] == t[q..q + |a + b|][..|a|];
    assert t[q + |a|..q + |a| + |b|] == t[q..q + |a + b|][|a|..];
  }

  lemma PlainTail(s: string, escaped: bool)
    requires |s| > 0 && (escaped || Plain(s))
    ensures escaped || Plain(s[1..])
  {
    if !escaped {
      forall i | 0 <= i < |s[1..]| ensures s[1..][i] != '"' && s[1..][i] != '\\' {
        assert s[1..][i] == s[i + 1];
      }
    }
  }

  /** `jreadString` reads back what the escaped `encodestr` writes, when a
      token break follows. */
  lemma StringRoundTrip(s: string, rest: string)
    requires IsBreak(Peek(rest, 0))
    ensures ReadString(EncodeStr(s, true) + rest, 0) == Ok(Lexed(s, |EncodeStr(s, true)|))
  {
    var t := EncodeStr(s, true) + rest;
    var b := EncodeBody(s, true);
    assert t[1..1 + |b|] == b;
    assert Peek(t, |b| + 2) == Peek(rest, 0);
    BodyReadsBack(s, true, t, 1);
  }

  /** As written, a string with a quote in it does not read back: the
      reader ends the string at that quote and then finds no token
      break. */
  lemma QuoteBreaksString()
    ensures EncodeStr("\"", false) == "\"\"\""
    ensures ReadString(EncodeStr("\"", false), 0).Err?
    ensures ReadString(EncodeStr("\"", true), 0) == Ok(Lexed("\"", 4))
  {
    assert EncodeBody("\"", false) == "\"";
    assert EncodeBody("\"", true) == "\\\"";
    StringRoundTrip("\"", "");
    assert EncodeStr("\"", true) + "" == EncodeStr("\"", true);
  }

  /** As written, a string with no quote and no backslash still reads
      back. */
  lemma PlainStringRoundTrip(s: string, rest: string)
    requires Plain(s) && IsBreak(Peek(rest, 0))
    ensures ReadString(EncodeStr(s, false) + rest, 0) == Ok(Lexed(s, |EncodeStr(s, false)|))
  {
    var t := EncodeStr(s, false) + rest;
    var b := EncodeBody(s, false);
    assert t[1..1 + |b|] == b;
    assert Peek(t, |b| + 2) == Peek(rest, 0);
    BodyReadsBack(s, false, t, 1);
  }

  // ---------------------------------------------------------------------
  // Values

  /** The parts joined by commas. */
  function Join(parts: seq<string>): string {
    if |parts| == 0 then "" else if |parts| == 1 then parts[0] else parts[0] + "," + Join(parts[1..])
  }

  /** The positions of the fields an object writes, in schema order, each
      once: all of them, or exactly the key fields of a key instance. */
  function Members(o: FObject): (idx: seq<nat>)
    ensures forall j :: 0 <= j < |idx| ==> idx[j] < |o.vals| && idx[j] < |o.schema.fields|
    ensures forall j :: 0 <= j < |idx| ==> !o.isKey || Fields.IsKey(o.schema.fields[idx[j]])
    ensures !o.isKey && |o.vals| == |o.schema.fields| ==> idx == seq(|o.vals|, i => i)
    ensures forall a, b :: 0 <= a < b < |idx| ==> idx[a] < idx[b]
    ensures forall k :: 0 <= k < |o.vals| && k < |o.schema.fields| && (!o.isKey || Fields.IsKey(o.schema.fields[k]))
                        ==> k in idx
  {
    MembersFrom(o, 0)
  }

  function MembersFrom(o: FObject, i: nat): (idx: seq<nat>)
    ensures forall j :: 0 <= j < |idx| ==> i <= idx[j] < |o.vals| && idx[j] < |o.schema.fields|
    ensures forall j :: 0 <= j < |idx| ==> !o.isKey || Fields.IsKey(o.schema.fields[idx[j]])
    ensures !o.isKey && |o.vals| == |o.schema.fields| && i <= |o.vals| ==> idx == seq(|o.vals| - i, j => i + j)
    ensures forall a, b :: 0 <= a < b < |idx| ==> idx[a] < idx[b]
    ensures forall k :: i <= k < |o.vals| && k < |o.schema.fields| && (!o.isKey || Fields.IsKey(o.schema.fields[k]))
                        ==> k in idx
    decreases |o.vals| - i
  {
    if i >= |o.vals| || i >= |o.schema.fields| then []
    else
      var rest := MembersFrom(o, i + 1);
      if !o.isKey || Fields.IsKey(o.schema.fields[i]) then [i] + rest else rest
  }

  /** The text of a value. */
  function Write(tx: Texts, v: Value, escaped: bool): (r: string)
    ensures v.Null? ==> r == "null"
    ensures v.StrVal? ==> r == EncodeStr(v.text, escaped)
    ensures v.ListVal? ==> |r| >= 2 && r[0] == '[' && r[|r| - 1] == ']'
    ensures v.MapVal? || v.ObjVal? ==> |r| >= 2 && r[0] == '{' && r[|r| - 1] == '}'
    decreases v
  {
    match v
    case Null => "null"
    case BoolVal(b) => if b then "true" else "false"
    case IntVal(_, n) => NumText.IntText(n)
    case DecVal(w, u, s) => if w == JBigDecimal then NumText.DecimalText(u, s) else tx.floating(w, u, s)
    case StrVal(_, t) => EncodeStr(t, escaped)
    case TimeVal(k, ticks) => EncodeStr(tx.time(k, ticks), escaped)
    case ObjVal(o) =>
      var idx := Members(o);
      "{" + Join(seq(|idx|, j requires 0 <= j < |idx| =>
                       EncodeStr(o.schema.fields[idx[j]].name, escaped) + ":" + Write(tx, o.vals[idx[j]], escaped))) + "}"
    case ListVal(l) =>
      "[" + Join(seq(|l.items|, i requires 0 <= i < |l.items| => Write(tx, l.items[i], escaped))) + "]"
    case MapVal(m) =>
      "{" + Join(seq(|m.entries|, i requires 0 <= i < |m.entries| =>
                       EncodeStr(m.entries[i].key, escaped) + ":" + Write(tx, m.entries[i].value, escaped))) + "}"
    case EnumVal(_, name, _) => EncodeStr(name, escaped)
    case BlobVal(b) => EncodeStr(tx.blob(b), escaped)
  }
}

=== FILE: lists.dfy ===
/** `FusionList`: a list whose items are fusion values of its domain's
    item domain. Every value that goes in is coerced by `from` with the
    item domain first; every mutator checks that the list is not READ;
    the hook lets every transition through.
 */
module Lists {
  import opened Wrappers
  import opened Values
  import Iwr
  import Coerce
  import ValueOps
  import Ranges
  import Types
  import NumText

  /** `new FusionList(domain)`: only a LIST domain, a new list is INIT and
      empty. */
  function New(d: Domain): (r: Result<FList>)
    ensures r.Ok? <==> d.kind == List
    ensures r.Ok? ==> r.value.domain == d && r.value.state == Iwr.Init && |r.value.items| == 0
    ensures r.Err? ==> r.error == Error(IllegalArgument, KindName(d.kind))
  {
    if d.kind != List then Fails(IllegalArgument, KindName(d.kind)) else Ok(FList(d, Iwr.Init, []))
  }

  /** `wrap(javaVal)`: the item domain's `from`; a domain without an item
      domain has no type to ask. */
  function Wrap(env: Types.Env, l: FList, x: Coerce.Input): (r: Result<Value>)
    ensures l.domain.item.None? ==> r.Err? && r.error.kind == NullPointer
    ensures l.domain.item.Some? ==> r == Coerce.From(env, l.domain.item.value.kind, l.domain.item, x)
    ensures r.Ok? && !r.value.Null? && l.domain.item.value.kind != Any ==> KindOf(r.value) == l.domain.item.value.kind
  {
    if l.domain.item.None? then Fails(NullPointer, "valueDomain")
    else Coerce.From(env, l.domain.item.value.kind, l.domain.item, x)
  }

  /** The invariant every list the library builds keeps: each item is what
      `wrap` makes of it, so wrapping it again changes nothing. */
  predicate Coerced(env: Types.Env, l: FList) {
    forall i :: 0 <= i < |l.items| ==> Wrap(env, l, Coerce.Fv(l.items[i])) == Ok(l.items[i])
  }

  /** What `wrap` returns is a fixed point of `wrap`. */
  lemma WrapStable(env: Types.Env, l: FList, x: Coerce.Input)
    requires l.domain.item.Some? && Wrap(env, l, x).Ok?
    ensures Wrap(env, l, Coerce.Fv(Wrap(env, l, x).value)) == Wrap(env, l, x)
  {
    Coerce.FromIdempotent(env, l.domain.item.value.kind, l.domain.item, x);
  }

  /** The copy constructor: each item of the collection wrapped in order,
      into a new INIT list, with no state check. */
  function FromItems(env: Types.Env, xs: seq<Coerce.Input>, d: Domain): (r: Result<FList>)
    ensures r.Ok? ==> d.kind == List && r.value.domain == d && r.value.state == Iwr.Init
    ensures r.Ok? ==> |r.value.items| == |xs|
                      && forall i :: 0 <= i < |xs| ==> Wrap(env, FList(d, Iwr.Init, []), xs[i]) == Ok(r.value.items[i])
    ensures r.Ok? ==> Coerced(env, r.value)
    ensures d.kind != List ==> r == Fails(IllegalArgument, KindName(d.kind))
  {
    var l :- New(d);
    var items :- WrapAll(env, l, xs);
    var r := FList(d, Iwr.Init, items);
    forall i | 0 <= i < |items| ensures Wrap(env, r, Coerce.Fv(items[i])) == Ok(items[i]) {
      WrapStable(env, l, xs[i]);
    }
    Ok(r)
  }

  /** Each input wrapped in order; the first failure ends it. */
  function WrapAll(env: Types.Env, l: FList, xs: seq<Coerce.Input>): (r: Result<seq<Value>>)
    ensures r.Ok? ==> |r.value| == |xs| && forall i :: 0 <= i < |xs| ==> Wrap(env, l, xs[i]) == Ok(r.value[i])
    ensures r.Err? ==> exists i :: 0 <= i < |xs| && Wrap(env, l, xs[i]).Err?
  {
    if |xs| == 0 then Ok([])
    else
      var v :- Wrap(env, l, xs[0]);
      var rest :- WrapAll(env, l, xs[1..]);
      assert forall i :: 1 <= i < |xs| ==> xs[i] == xs[1..][i - 1];
      Ok([v] + rest)
  }

  // ---------------------------------------------------------------------
  // Queries: no state check

  /** `get(index)`: the payload at the index. */
  function Get(l: FList, i: int): (r: Result<Value>)
    ensures r.Ok? <==> 0 <= i < |l.items|
    ensures r.Ok? ==> r.value == l.items[i]
    ensures r.Err? ==> r.error == NumText.OutOfBounds(i, |l.items|)
  {
    if 0 <= i < |l.items| then Ok(l.items[i]) else Err(NumText.OutOfBounds(i, |l.items|))
  }

  /** `indexOf(o)`: the value is wrapped first, then the first equal item
      is found. */
  function IndexOf(env: Types.Env, l: FList, x: Coerce.Input): (r: Result<int>)
    ensures r.Ok? <==> Wrap(env, l, x).Ok?
    ensures r.Ok? ==> FirstMatch(l.items, Wrap(env, l, x).value, r.value)
  {
    var v :- Wrap(env, l, x);
    Ok(Find(l.items, v, 0))
  }

  /** `lastIndexOf(o)`: the last equal item, found by walking backwards. */
  function LastIndexOf(env: Types.Env, l: FList, x: Coerce.Input): (r: Result<int>)
    ensures r.Ok? <==> Wrap(env, l, x).Ok?
    ensures r.Ok? ==> LastMatch(l.items, Wrap(env, l, x).value, r.value)
  {
    var v :- Wrap(env, l, x);
    Ok(FindLast(l.items, v, |l.items|))
  }

  /** `contains(o)`: some item equals the wrapped value. */
  function Contains(env: Types.Env, l: FList, x: Coerce.Input): (r: Result<bool>)
    ensures r.Ok? <==> Wrap(env, l, x).Ok?
    ensures r.Ok? ==> (r.value <==> exists i :: 0 <= i < |l.items| && ValueOps.Equal(l.items[i], Wrap(env, l, x).value))
  {
    var v :- Wrap(env, l, x);
    Ok(Find(l.items, v, 0) >= 0)
  }

  /** `i` is -1 and nothing matches, or the first item equal to `v`. */
  predicate FirstMatch(items: seq<Value>, v: Value, i: int) {
    -1 <= i < |items|
    && (i == -1 ==> forall j :: 0 <= j < |items| ==> !ValueOps.Equal(items[j], v))
    && (i >= 0 ==> ValueOps.Equal(items[i], v) && forall j :: 0 <= j < i ==> !ValueOps.Equal(items[j], v))
  }

  /** `i` is -1 and nothing matches, or the last item equal to `v`. */
  predicate LastMatch(items: seq<Value>, v: Value, i: int) {
    -1 <= i < |items|
    && (i == -1 ==> forall j :: 0 <= j < |items| ==> !ValueOps.Equal(items[j], v))
    && (i >= 0 ==> ValueOps.Equal(items[i], v) && forall j :: i < j < |items| ==> !ValueOps.Equal(items[j], v))
  }

  /** The forward walk from `k`. */
  function Find(items: seq<Value>, v: Value, k: nat): (i: int)
    requires k <= |items|
    requires forall j :: 0 <= j < k ==> !ValueOps.Equal(items[j], v)
    ensures FirstMatch(items, v, i)
    decreases |items| - k
  {
    if k == |items| then -1
    else if ValueOps.Equal(items[k], v) then k
    else Find(items, v, k + 1)
  }

  /** The backward walk over the first `k` items. */
  function FindLast(items: seq<Value>, v: Value, k: nat): (i: int)
    requires k <= |items|
    requires forall j :: k <= j < |items| ==> !ValueOps.Equal(items[j], v)
    ensures LastMatch(items, v, i)
  {
    if k == 0 then -1
    else if ValueOps.Equal(items[k - 1], v) then k - 1
    else FindLast(items, v, k - 1)
  }

  /** The first match never follows the last, and they agree on whether
      there is one. */
  lemma IndexOfBeforeLast(env: Types.Env, l: FList, x: Coerce.Input)
    requires Wrap(env, l, x).Ok?
    ensures IndexOf(env, l, x).value <= LastIndexOf(env, l, x).value
    ensures IndexOf(env, l, x).value == -1 <==> LastIndexOf(env, l, x).value == -1
    ensures Contains(env, l, x).value <==> IndexOf(env, l, x).value >= 0
  {
  }

  // ---------------------------------------------------------------------
  // Mutators: refused in READ

  /** `add(element)`: appends the wrapped value. */
  function Add(env: Types.Env, l: FList, x: Coerce.Input): (r: Result<FList>)
    ensures l.state == Iwr.Read ==> r == Err(Iwr.NotWritable)
    ensures r.Ok? <==> l.state != Iwr.Read && Wrap(env, l, x).Ok?
    ensures r.Ok? ==> r.value == l.(items := l.items + [Wrap(env, l, x).value])
  {
    if l.state == Iwr.Read then Err(Iwr.NotWritable) else
    var v :- Wrap(env, l, x);
    Ok(l.(items := l.items + [v]))
  }

  /** `add(index, element)`: the value is wrapped before the position is
      checked; it goes in before the item at `i`. */
  function Insert(env: Types.Env, l: FList, i: int, x: Coerce.Input): (r: Result<FList>)
    ensures l.state == Iwr.Read ==> r == Err(Iwr.NotWritable)
    ensures r.Ok? <==> l.state != Iwr.Read && Wrap(env, l, x).Ok? && 0 <= i <= |l.items|
    ensures r.Ok? ==> r.value.domain == l.domain && r.value.state == l.state
                      && r.value.items == l.items[..i] + [Wrap(env, l, x).value] + l.items[i..]
  {
    if l.state == Iwr.Read then Err(Iwr.NotWritable) else
    var v :- Wrap(env, l, x);
    if !(0 <= i <= |l.items|) then Err(NumText.AddOutOfBounds(i, |l.items|))
    else Ok(l.(items := l.items[..i] + [v] + l.items[i..]))
  }

  /** `set(index, element)`: replaces the item at `i`, handing back the
      payload it held. */
  function Set(env: Types.Env, l: FList, i: int, x: Coerce.Input): (r: Result<(FList, Value)>)
    ensures l.state == Iwr.Read ==> r == Err(Iwr.NotWritable)
    ensures r.Ok? <==> l.state != Iwr.Read && Wrap(env, l, x).Ok? && 0 <= i < |l.items|
    ensures r.Ok? ==> r.value.0 == l.(items := l.items[i := Wrap(env, l, x).value]) && r.value.1 == l.items[i]
  {
    if l.state == Iwr.Read then Err(Iwr.NotWritable) else
    var v :- Wrap(env, l, x);
    if !(0 <= i < |l.items|) then Err(NumText.OutOfBounds(i, |l.items|))
    else Ok((l.(items := l.items[i := v]), l.items[i]))
  }

  /** `remove(index)`: takes out the item at `i` and hands back its
      payload. */
  function RemoveAt(l: FList, i: int): (r: Result<(FList, Value)>)
    ensures l.state == Iwr.Read ==> r == Err(Iwr.NotWritable)
    ensures r.Ok? <==> l.state != Iwr.Read && 0 <= i < |l.items|
    ensures r.Ok? ==> r.value.1 == l.items[i] && r.value.0.domain == l.domain && r.value.0.state == l.state
                      && r.value.0.items == l.items[..i] + l.items[i + 1..]
  {
    if l.state == Iwr.Read then Err(Iwr.NotWritable) else
    if !(0 <= i < |l.items|) then Err(NumText.OutOfBounds(i, |l.items|))
    else Ok((l.(items := l.items[..i] + l.items[i + 1..]), l.items[i]))
  }

  /** `clear()`. */
  function Clear(l: FList): (r: Result<FList>)
    ensures r.Ok? <==> l.state != Iwr.Read
    ensures r.Ok? ==> r.value.domain == l.domain && r.value.state == l.state && |r.value.items| == 0
  {
    if l.state == Iwr.Read then Err(Iwr.NotWritable) else
    Ok(l.(items := []))
  }

  /** `addAll(c)`: `add` of each element in turn, so an empty collection
      is accepted even by a READ list; the result says whether the
      collection was non-empty. */
  function AddAll(env: Types.Env, l: FList, xs: seq<Coerce.Input>): (r: Result<(FList, bool)>)
    ensures |xs| == 0 ==> r == Ok((l, false))
    ensures |xs| > 0 && l.state == Iwr.Read ==> r == Err(Iwr.NotWritable)
    ensures r.Ok? ==> r.value.1 == (|xs| > 0)
    ensures r.Ok? ==> r.value.0.domain == l.domain && r.value.0.state == l.state
    decreases |xs|
  {
    if |xs| == 0 then Ok((l, false))
    else
      var l1 :- Add(env, l, xs[0]);
      var r :- AddAll(env, l1, xs[1..]);
      Ok((r.0, true))
  }

  /** `addAll` succeeds exactly when the list is writable and every
      element wraps, and then appends the wrapped elements in order. */
  lemma {:induction false} AddAllWraps(env: Types.Env, l: FList, xs: seq<Coerce.Input>)
    ensures AddAll(env, l, xs).Ok? <==> |xs| == 0 || (l.state != Iwr.Read && WrapAll(env, l, xs).Ok?)
    ensures AddAll(env, l, xs).Ok? ==>
              WrapAll(env, l, xs).Ok? && AddAll(env, l, xs).value.0 == l.(items := l.items + WrapAll(env, l, xs).value)
    decreases |xs|
  {
    hide *;
    if |xs| > 0 {
      WrapAllStep(env, l, xs);
      AddAllStep(env, l, xs);
      if Add(env, l, xs[0]).Ok? {
        var l1 := Add(env, l, xs[0]).value;
        WrapAllSameDomain(env, l1, l, xs[1..]);
        AddAllWraps(env, l1, xs[1..]);
        if AddAll(env, l1, xs[1..]).Ok? {
          assert l1.items + WrapAll(env, l1, xs[1..]).value == l.items + WrapAll(env, l, xs).value;
        }
      }
    }
  }

  /** One element of `addAll`: add the first, then the rest to the result. */
  lemma AddAllStep(env: Types.Env, l: FList, xs: seq<Coerce.Input>)
    requires |xs| > 0
    ensures AddAll(env, l, xs).Ok? <==> Add(env, l, xs[0]).Ok? && AddAll(env, Add(env, l, xs[0]).value, xs[1..]).Ok?
    ensures AddAll(env, l, xs).Ok? ==>
              AddAll(env, l, xs).value.0 == AddAll(env, Add(env, l, xs[0]).value, xs[1..]).value.0
  {
  }

  /** Wrapping a non-empty sequence is wrapping its head, then its tail. */
  lemma WrapAllStep(env: Types.Env, l: FList, xs: seq<Coerce.Input>)
    requires |xs| > 0
    ensures WrapAll(env, l, xs).Ok? <==> Wrap(env, l, xs[0]).Ok? && WrapAll(env, l, xs[1..]).Ok?
    ensures WrapAll(env, l, xs).Ok? ==>
              WrapAll(env, l, xs).value == [Wrap(env, l, xs[0]).value] + WrapAll(env, l, xs[1..]).value
  {
  }

  /** `addAll(index, c)`: `add(index++, element)` of each element in
      turn, so the wrapped elements go in, in order, before the item at
      `i`. */
  function InsertAll(env: Types.Env, l: FList, i: int, xs: seq<Coerce.Input>): (r: Result<(FList, bool)>)
    ensures |xs| == 0 ==> r == Ok((l, false))
    ensures |xs| > 0 && l.state == Iwr.Read ==> r == Err(Iwr.NotWritable)
    ensures r.Ok? <==> |xs| == 0 || (l.state != Iwr.Read && WrapAll(env, l, xs).Ok? && 0 <= i <= |l.items|)
    ensures r.Ok? && |xs| > 0 ==>
              r.value.1 && WrapAll(env, l, xs).Ok? && 0 <= i <= |l.items|
              && r.value.0 == l.(items := l.items[..i] + WrapAll(env, l, xs).value + l.items[i..])
    decreases |xs|
  {
    if |xs| == 0 then Ok((l, false))
    else
      var l1 :- Insert(env, l, i, xs[0]);
      var r :- InsertAll(env, l1, i + 1, xs[1..]);
      WrapAllSameDomain(env, l1, l, xs[1..]);
      SpliceShift(l.items, i, Wrap(env, l, xs[0]).value, WrapAll(env, l, xs[1..]).value);
      Ok((r.0, true))
  }

  /** Putting `w` before position `i` and then `ws` before position
      `i + 1` puts `[w] + ws` before position `i`. */
  lemma SpliceShift(items: seq<Value>, i: int, w: Value, ws: seq<Value>)
    requires 0 <= i <= |items|
    ensures var once := items[..i] + [w] + items[i..];
            once[..i + 1] + ws + once[i + 1..] == items[..i] + ([w] + ws) + items[i..]
  {
    var once := items[..i] + [w] + items[i..];
    assert once[..i + 1] == items[..i] + [w];
    assert once[i + 1..] == items[i..];
  }

  // ---------------------------------------------------------------------
  // What `addAll` leaves behind when an element fails

  /** How many leading inputs wrap, up to the first that does not. */
  function WrapPrefix(env: Types.Env, l: FList, xs: seq<Coerce.Input>): (n: nat)
    ensures n <= |xs|
    ensures forall j :: 0 <= j < n ==> Wrap(env, l, xs[j]).Ok?
    ensures n < |xs| ==> Wrap(env, l, xs[n]).Err?
    decreases |xs|
  {
    if |xs| == 0 || Wrap(env, l, xs[0]).Err? then 0
    else
      assert forall j :: 1 <= j < |xs| ==> xs[j] == xs[1..][j - 1];
      1 + WrapPrefix(env, l, xs[1..])
  }

  /** `wrap` reads only the domain, so the leading run is the domain's. */
  lemma {:induction false} WrapPrefixSameDomain(env: Types.Env, a: FList, b: FList, xs: seq<Coerce.Input>)
    requires a.domain == b.domain
    ensures WrapPrefix(env, a, xs) == WrapPrefix(env, b, xs)
    decreases |xs|
  {
    if |xs| > 0 {
      WrapPrefixSameDomain(env, a, b, xs[1..]);
    }
  }

  /** The inputs before the first that fails all wrap together. */
  lemma {:induction false} WrapPrefixWraps(env: Types.Env, l: FList, xs: seq<Coerce.Input>)
    ensures WrapAll(env, l, xs[..WrapPrefix(env, l, xs)]).Ok?
    decreases |xs|
  {
    var n := WrapPrefix(env, l, xs);
    if n > 0 {
      WrapPrefixWraps(env, l, xs[1..]);
      assert xs[..n][1..] == xs[1..][..n - 1];
      WrapAllStep(env, l, xs[..n]);
    }
  }

  /** The items a writable list has gained when `addAll` stops: the
      wrapped inputs before the first that fails; a READ list gains none. */
  function Gained(env: Types.Env, l: FList, xs: seq<Coerce.Input>): (r: seq<Value>)
    ensures l.state == Iwr.Read ==> r == []
    ensures l.state != Iwr.Read ==> r == WrapAll(env, l, xs[..WrapPrefix(env, l, xs)]).value
  {
    WrapPrefixWraps(env, l, xs);
    if l.state == Iwr.Read then [] else WrapAll(env, l, xs[..WrapPrefix(env, l, xs)]).value
  }

  /** The list `addAll(c)` leaves, whether it returns or throws: Java adds
      the elements one at a time, so those added before a failing one
      stay in. */
  function AddAllLeaves(env: Types.Env, l: FList, xs: seq<Coerce.Input>): (r: FList)
    ensures r.domain == l.domain && r.state == l.state
    decreases |xs|
  {
    if |xs| == 0 then l
    else
      match Add(env, l, xs[0])
      case Ok(l1) => AddAllLeaves(env, l1, xs[1..])
      case Err(_) => l
  }

  /** What a writable list gains is the first input wrapped, then what a
      list of the same domain gains from the rest. */
  lemma GainedStep(env: Types.Env, l: FList, l1: FList, xs: seq<Coerce.Input>)
    requires |xs| > 0 && l.state != Iwr.Read && Wrap(env, l, xs[0]).Ok?
    requires l1.domain == l.domain && l1.state == l.state
    ensures Gained(env, l, xs) == [Wrap(env, l, xs[0]).value] + Gained(env, l1, xs[1..])
  {
    var n := WrapPrefix(env, l, xs);
    assert n == 1 + WrapPrefix(env, l, xs[1..]);
    WrapPrefixSameDomain(env, l1, l, xs[1..]);
    WrapAllSameDomain(env, l1, l, xs[1..][..n - 1]);
    WrapPrefixWraps(env, l, xs);
    assert xs[..n][1..] == xs[1..][..n - 1];
    WrapAllStep(env, l, xs[..n]);
  }

  /** A list that cannot take the first input gains nothing. */
  lemma GainedNone(env: Types.Env, l: FList, xs: seq<Coerce.Input>)
    requires |xs| == 0 || l.state == Iwr.Read || Wrap(env, l, xs[0]).Err?
    ensures Gained(env, l, xs) == []
  {
    if l.state != Iwr.Read {
      assert WrapPrefix(env, l, xs) == 0;
      assert xs[..0] == [];
    }
  }

  /** One element of the `addAll` loop: a failing `add` ends it. */
  lemma AddAllLeavesStep(env: Types.Env, l: FList, xs: seq<Coerce.Input>)
    ensures |xs| == 0 || Add(env, l, xs[0]).Err? ==> AddAllLeaves(env, l, xs) == l
    ensures |xs| > 0 && Add(env, l, xs[0]).Ok? ==>
              AddAllLeaves(env, l, xs) == AddAllLeaves(env, Add(env, l, xs[0]).value, xs[1..])
  {
  }

  /** After `addAll`, the list holds its old items followed by the
      wrapped inputs before the first that fails. */
  lemma {:induction false} AddAllLeavesGained(env: Types.Env, l: FList, xs: seq<Coerce.Input>)
    ensures AddAllLeaves(env, l, xs) == l.(items := l.items + Gained(env, l, xs))
    decreases |xs|
  {
    AddAllLeavesStep(env, l, xs);
    hide *;
    if |xs| == 0 || Add(env, l, xs[0]).Err? {
      GainedNone(env, l, xs);
      assert l.items + [] == l.items;
    } else {
      var w := Wrap(env, l, xs[0]).value;
      var l1 := l.(items := l.items + [w]);
      AddAllLeavesGained(env, l1, xs[1..]);
      GainedStep(env, l, l1, xs);
      assert l1.items + Gained(env, l1, xs[1..]) == l.items + Gained(env, l, xs);
    }
  }

  /** A successful `addAll` leaves the list it returns; a failing one
      leaves fewer items than the collection would have added. */
  lemma {:induction false} AddAllLeavesAgrees(env: Types.Env, l: FList, xs: seq<Coerce.Input>)
    ensures AddAll(env, l, xs).Ok? ==> AddAllLeaves(env, l, xs) == AddAll(env, l, xs).value.0
    ensures AddAll(env, l, xs).Err? ==> |AddAllLeaves(env, l, xs).items| < |l.items| + |xs|
    decreases |xs|
  {
    if |xs| > 0 && Add(env, l, xs[0]).Ok? {
      AddAllLeavesAgrees(env, Add(env, l, xs[0]).value, xs[1..]);
    }
  }

  /** The list `addAll(index, c)` leaves, whether it returns or throws:
      each element goes in at the next position until one fails. */
  function InsertAllLeaves(env: Types.Env, l: FList, i: int, xs: seq<Coerce.Input>): (r: FList)
    ensures r.domain == l.domain && r.state == l.state
    decreases |xs|
  {
    if |xs| == 0 then l
    else
      match Insert(env, l, i, xs[0])
      case Ok(l1) => InsertAllLeaves(env, l1, i + 1, xs[1..])
      case Err(_) => l
  }

  /** After `addAll(index, c)`, a list whose index is out of range is
      unchanged; otherwise the wrapped inputs before the first that fails
      sit, in order, before the item that was at the index. */
  lemma {:induction false} InsertAllLeavesGained(env: Types.Env, l: FList, i: int, xs: seq<Coerce.Input>)
    ensures !(0 <= i <= |l.items|) ==> InsertAllLeaves(env, l, i, xs) == l
    ensures 0 <= i <= |l.items| ==>
              InsertAllLeaves(env, l, i, xs) == l.(items := l.items[..i] + Gained(env, l, xs) + l.items[i..])
    decreases |xs|
  {
    if |xs| > 0 && Insert(env, l, i, xs[0]).Ok? {
      var l1 := Insert(env, l, i, xs[0]).value;
      InsertAllLeavesGained(env, l1, i + 1, xs[1..]);
      GainedStep(env, l, l1, xs);
      SpliceShift(l.items, i, Wrap(env, l, xs[0]).value, Gained(env, l1, xs[1..]));
    }
  }

  /** A successful `addAll(index, c)` leaves the list it returns; a
      failing one leaves fewer items than the collection would have
      added. */
  lemma {:induction false} InsertAllLeavesAgrees(env: Types.Env, l: FList, i: int, xs: seq<Coerce.Input>)
    ensures InsertAll(env, l, i, xs).Ok? ==> InsertAllLeaves(env, l, i, xs) == InsertAll(env, l, i, xs).value.0
    ensures InsertAll(env, l, i, xs).Err? ==> |InsertAllLeaves(env, l, i, xs).items| < |l.items| + |xs|
    decreases |xs|
  {
    if |xs| > 0 && Insert(env, l, i, xs[0]).Ok? {
      InsertAllLeavesAgrees(env, Insert(env, l, i, xs[0]).value, i + 1, xs[1..]);
    }
  }

  /** `containsAll(c)`: `contains` of each element until one is missing. */
  function ContainsAll(env: Types.Env, l: FList, xs: seq<Coerce.Input>): (r: Result<bool>)
    ensures r == Ok(true) <==> forall i :: 0 <= i < |xs| ==> Contains(env, l, xs[i]) == Ok(true)
    ensures r.Err? ==> exists i :: 0 <= i < |xs| && Contains(env, l, xs[i]).Err?
    decreases |xs|
  {
    if |xs| == 0 then Ok(true)
    else
      var c :- Contains(env, l, xs[0]);
      assert forall i :: 1 <= i < |xs| ==> xs[i] == xs[1..][i - 1];
      if !c then Ok(false) else ContainsAll(env, l, xs[1..])
  }

  /** `wrap` reads only the domain. */
  lemma {:induction false} WrapAllSameDomain(env: Types.Env, a: FList, b: FList, xs: seq<Coerce.Input>)
    requires a.domain == b.domain
    ensures WrapAll(env, a, xs) == WrapAll(env, b, xs)
    decreases |xs|
  {
    if |xs| > 0 {
      WrapAllSameDomain(env, a, b, xs[1..]);
    }
  }

  /** The operations the list refuses whatever its state: `remove(Object)`,
      `removeAll`, `retainAll`, `removeIf`, `sort` and the iterator's
      `remove`, `set` and `add`. */
  datatype RefusedOp = RemoveObject | RemoveAll | RetainAll | RemoveIf | Sort
                     | IteratorRemove | IteratorSet | IteratorAdd

  function Refused(l: FList, op: RefusedOp): (r: Result<FList>)
    ensures r.Err? && r.error.kind == Unsupported
    ensures op == Sort <==> r.error.msg == "TODO"
  {
    Fails(Unsupported, if op == Sort then "TODO" else "")
  }

  /** `subList(from, to)`: the range is checked as `ArrayList` checks it,
      and the items are wrapped again into a new INIT list. */
  function SubList(env: Types.Env, l: FList, from: int, to: int): (r: Result<FList>)
    ensures r.Ok? ==> 0 <= from <= to <= |l.items|
    ensures 0 <= from <= to <= |l.items| && l.domain.kind == List && Coerced(env, l) ==>
              r == Ok(FList(l.domain, Iwr.Init, l.items[from..to]))
  {
    if from < 0 then Fails(IndexOutOfBounds, "fromIndex = " + NumText.IntText(from))
    else if to > |l.items| then Fails(IndexOutOfBounds, "toIndex = " + NumText.IntText(to))
    else if from > to then
      Fails(IllegalArgument, "fromIndex(" + NumText.IntText(from) + ") > toIndex(" + NumText.IntText(to) + ")")
    else
      var slice := l.items[from..to];
      var r :- FromItems(env, seq(|slice|, i requires 0 <= i < |slice| => Coerce.Fv(slice[i])), l.domain);
      assert Coerced(env, l) ==> r.items == slice by {
        if Coerced(env, l) {
          forall i | 0 <= i < |slice| ensures r.items[i] == slice[i] {
            assert slice[i] == l.items[from + i];
          }
        }
      }
      Ok(r)
  }

  // ---------------------------------------------------------------------
  // The invariant

  /** `add` keeps the items coerced. */
  lemma AddKeepsCoerced(env: Types.Env, l: FList, x: Coerce.Input)
    requires Coerced(env, l) && Add(env, l, x).Ok?
    ensures Coerced(env, Add(env, l, x).value)
  {
    WrapStable(env, l, x);
    var r := Add(env, l, x).value;
    forall j | 0 <= j < |r.items| ensures Wrap(env, r, Coerce.Fv(r.items[j])) == Ok(r.items[j]) {
      if j < |l.items| { assert r.items[j] == l.items[j]; }
    }
  }

  /** `add(index, element)` keeps the items coerced. */
  lemma InsertKeepsCoerced(env: Types.Env, l: FList, i: int, x: Coerce.Input)
    requires Coerced(env, l) && Insert(env, l, i, x).Ok?
    ensures Coerced(env, Insert(env, l, i, x).value)
  {
    WrapStable(env, l, x);
    var r := Insert(env, l, i, x).value;
    forall j | 0 <= j < |r.items| ensures Wrap(env, r, Coerce.Fv(r.items[j])) == Ok(r.items[j]) {
      if j < i { assert r.items[j] == l.items[j]; }
      else if j > i { assert r.items[j] == l.items[j - 1]; }
    }
  }

  /** `set` keeps the items coerced. */
  lemma SetKeepsCoerced(env: Types.Env, l: FList, i: int, x: Coerce.Input)
    requires Coerced(env, l) && Set(env, l, i, x).Ok?
    ensures Coerced(env, Set(env, l, i, x).value.0)
  {
    WrapStable(env, l, x);
    var r := Set(env, l, i, x).value.0;
    forall j | 0 <= j < |r.items| ensures Wrap(env, r, Coerce.Fv(r.items[j])) == Ok(r.items[j]) {
      if j != i { assert r.items[j] == l.items[j]; }
    }
  }

  /** `remove(index)` keeps the items coerced. */
  lemma RemoveKeepsCoerced(env: Types.Env, l: FList, i: int)
    requires Coerced(env, l) && RemoveAt(l, i).Ok?
    ensures Coerced(env, RemoveAt(l, i).value.0)
  {
    var r := RemoveAt(l, i).value.0;
    forall j | 0 <= j < |r.items| ensures Wrap(env, r, Coerce.Fv(r.items[j])) == Ok(r.items[j]) {
      if j < i { assert r.items[j] == l.items[j]; }
      else { assert r.items[j] == l.items[j + 1]; }
    }
  }

  /** `addAll` keeps the items coerced. */
  lemma AddAllKeepsCoerced(env: Types.Env, l: FList, xs: seq<Coerce.Input>)
    requires Coerced(env, l) && AddAll(env, l, xs).Ok?
    ensures Coerced(env, AddAll(env, l, xs).value.0)
  {
    AddAllWraps(env, l, xs);
    var r := AddAll(env, l, xs).value.0;
    var ws := WrapAll(env, l, xs).value;
    forall j | 0 <= j < |r.items| ensures Wrap(env, r, Coerce.Fv(r.items[j])) == Ok(r.items[j]) {
      if j < |l.items| { assert r.items[j] == l.items[j]; }
      else {
        assert r.items[j] == ws[j - |l.items|];
        WrapStable(env, l, xs[j - |l.items|]);
      }
    }
  }

  /** Inserting and then removing at the same position gives back the
      list and the wrapped value. */
  lemma InsertThenRemove(env: Types.Env, l: FList, i: int, x: Coerce.Input)
    requires Insert(env, l, i, x).Ok?
    ensures RemoveAt(Insert(env, l, i, x).value, i) == Ok((l, Wrap(env, l, x).value))
  {
    var r := Insert(env, l, i, x).value;
    assert r.items[..i] + r.items[i + 1..] == l.items;
  }

  /** After `set`, `get` at that position sees the wrapped value and every
      other position is unchanged; setting back the old payload of a
      coerced list restores it. */
  lemma SetThenGet(env: Types.Env, l: FList, i: int, j: int, x: Coerce.Input)
    requires Set(env, l, i, x).Ok?
    ensures Get(Set(env, l, i, x).value.0, i) == Wrap(env, l, x)
    ensures j != i ==> Get(Set(env, l, i, x).value.0, j) == Get(l, j)
    ensures Coerced(env, l) ==>
              Set(env, Set(env, l, i, x).value.0, i, Coerce.Fv(Set(env, l, i, x).value.1)) == Ok((l, Wrap(env, l, x).value))
  {
    var r := Set(env, l, i, x).value;
    if Coerced(env, l) {
      assert Wrap(env, r.0, Coerce.Fv(l.items[i])) == Ok(l.items[i]);
      assert r.0.items[i := l.items[i]] == l.items;
    }
  }

  /** `hashCode()`: refused until the list is READ, then the item kind and
      the size. */
  function Hash(l: FList): (r: Result<int>)
    ensures r.Ok? <==> l.state == Iwr.Read
    ensures r == ValueOps.Hash(ListVal(l))
  {
    ValueOps.Hash(ListVal(l))
  }

  /** Lists `equals` considers equal hash alike once both are READ. */
  lemma EqualListsHashAlike(a: FList, b: FList)
    requires ValueOps.Equal(ListVal(a), ListVal(b))
    requires a.state == Iwr.Read && b.state == Iwr.Read
    ensures Hash(a) == Hash(b)
  {
  }
}

=== FILE: maps.dfy ===
/** `FusionMap`: a map from case-insensitive keys to fusion values of its
    domain's item domain, kept in a `TreeMap` so that iteration is in
    ascending case-insensitive key order. `put` coerces its value with the
    item domain and is refused in READ; `remove` and `putAll` are refused
    in READ and are unfinished otherwise.
 */
module Maps {
  import opened Wrappers
  import opened Values
  import opened NoCaseMaps
  import NoCase
  import Iwr
  import Coerce
  import ValueOps
  import Types

  /** `new FusionMap(domain)`: only a MAP domain; a new map is INIT and
      empty. */
  function New(d: Domain): (r: Result<FMap>)
    ensures r.Ok? <==> d.kind == Map
    ensures r.Ok? ==> r.value.domain == d && r.value.state == Iwr.Init && |r.value.entries| == 0
    ensures r.Err? ==> r.error == Error(IllegalArgument, KindName(d.kind))
  {
    if d.kind != Map then Fails(IllegalArgument, KindName(d.kind)) else Ok(FMap(d, Iwr.Init, []))
  }

  /** The item domain's `from` applied to a value going into the map. */
  function Wrap(env: Types.Env, m: FMap, x: Coerce.Input): (r: Result<Value>)
    ensures m.domain.item.None? ==> r.Err? && r.error.kind == NullPointer
    ensures m.domain.item.Some? ==> r == Coerce.From(env, m.domain.item.value.kind, m.domain.item, x)
  {
    if m.domain.item.None? then Fails(NullPointer, "valueDomain")
    else Coerce.From(env, m.domain.item.value.kind, m.domain.item, x)
  }

  /** The invariant every map the library builds keeps: its keys are in
      ascending case-insensitive order and each value is what `wrap`
      makes of it. */
  predicate Valid(env: Types.Env, m: FMap) {
    Sorted(m.entries)
    && forall i :: 0 <= i < |m.entries| ==> Wrap(env, m, Coerce.Fv(m.entries[i].value)) == Ok(m.entries[i].value)
  }

  /** What `wrap` returns is a fixed point of `wrap`. */
  lemma WrapStable(env: Types.Env, m: FMap, x: Coerce.Input)
    requires Wrap(env, m, x).Ok?
    ensures Wrap(env, m, Coerce.Fv(Wrap(env, m, x).value)) == Wrap(env, m, x)
  {
    Coerce.FromIdempotent(env, m.domain.item.value.kind, m.domain.item, x);
  }

  // ---------------------------------------------------------------------
  // Queries: no state check

  /** `containsKey(key)`: some key equals it ignoring case. */
  function ContainsKey(m: FMap, key: string): (r: bool)
    ensures r <==> exists i :: 0 <= i < |m.entries| && NoCase.CompareIgnoreCase(m.entries[i].key, key) == 0
  {
    Lookup(m.entries, key).Some?
  }

  /** `get(key)`: the payload under the key; an absent key makes the
      unguarded `getinner()` call raise. */
  function Get(m: FMap, key: string): (r: Result<Value>)
    ensures r.Ok? <==> ContainsKey(m, key)
    ensures r.Ok? ==> exists i :: 0 <= i < |m.entries| && NoCase.CompareIgnoreCase(m.entries[i].key, key) == 0
                                  && m.entries[i].value == r.value
    ensures r.Err? ==> r.error.kind == NullPointer
  {
    var v := Lookup(m.entries, key);
    if v.None? then Fails(NullPointer, "no value") else Ok(v.value)
  }

  /** The first value equal to `v`, scanning the entries from `k`. */
  function AnyEqual(es: seq<Entry>, v: Value, k: nat): (r: bool)
    requires k <= |es|
    ensures r <==> exists i :: k <= i < |es| && ValueOps.Equal(es[i].value, v)
    decreases |es| - k
  {
    if k == |es| then false
    else ValueOps.Equal(es[k].value, v) || AnyEqual(es, v, k + 1)
  }

  /** `containsValue(value)`: the value is converted by the item kind's
      `from` with no domain, so no range is checked, and then compared. */
  function ContainsValue(env: Types.Env, m: FMap, x: Coerce.Input): (r: Result<bool>)
    ensures m.domain.item.None? ==> r.Err? && r.error.kind == NullPointer
    ensures m.domain.item.Some? ==> (r.Ok? <==> Coerce.From(env, m.domain.item.value.kind, None, x).Ok?)
    ensures r.Ok? ==> var v := Coerce.From(env, m.domain.item.value.kind, None, x).value;
              (r.value <==> exists i :: 0 <= i < |m.entries| && ValueOps.Equal(m.entries[i].value, v))
  {
    if m.domain.item.None? then Fails(NullPointer, "valueDomain")
    else
      var v :- Coerce.From(env, m.domain.item.value.kind, None, x);
      Ok(AnyEqual(m.entries, v, 0))
  }

  /** `keySet()`: the keys in the map's iteration order. */
  function Keys(m: FMap): (ks: seq<string>)
    ensures |ks| == |m.entries|
    ensures forall i :: 0 <= i < |ks| ==> ks[i] == m.entries[i].key
  {
    seq(|m.entries|, i requires 0 <= i < |m.entries| => m.entries[i].key)
  }

  /** The keys of a valid map come out in strictly ascending
      case-insensitive order. */
  lemma KeysAscend(env: Types.Env, m: FMap, i: int, j: int)
    requires Valid(env, m) && 0 <= i < j < |m.entries|
    ensures NoCase.CompareIgnoreCase(Keys(m)[i], Keys(m)[j]) < 0
  {
  }

  // ---------------------------------------------------------------------
  // Mutators: refused in READ

  /** What `put` hands back: the map after it and the payload the key held
      before, if any. */
  datatype Stored = Stored(after: FMap, previous: Option<Value>)

  /** `put(key, value)`: refused in READ; the wrapped value goes under the
      key, replacing the value of a key equal to it ignoring case. */
  function PutValue(env: Types.Env, m: FMap, key: string, x: Coerce.Input): (r: Result<Stored>)
    requires Sorted(m.entries)
    ensures m.state == Iwr.Read ==> r == Err(Iwr.NotWritable)
    ensures r.Ok? <==> m.state != Iwr.Read && Wrap(env, m, x).Ok?
    ensures r.Ok? ==> r.value.previous == Lookup(m.entries, key)
                      && r.value.after == m.(entries := PutEntry(m.entries, key, Wrap(env, m, x).value).entries)
    ensures r.Ok? ==> Sorted(r.value.after.entries) && Lookup(r.value.after.entries, key) == Some(Wrap(env, m, x).value)
  {
    if m.state == Iwr.Read then Err(Iwr.NotWritable) else
    var v :- Wrap(env, m, x);
    var p := PutEntry(m.entries, key, v);
    PutKeepsSorted(m.entries, key, v);
    NoCase.CompareIgnoreCaseZeroIff(key, key);
    PutThenLookup(m.entries, key, v, key);
    Ok(Stored(m.(entries := p.entries), p.previous))
  }

  /** `clear()`: refused in READ. */
  function Clear(m: FMap): (r: Result<FMap>)
    ensures r.Ok? <==> m.state != Iwr.Read
    ensures r.Ok? ==> r.value.domain == m.domain && r.value.state == m.state && |r.value.entries| == 0
  {
    if m.state == Iwr.Read then Err(Iwr.NotWritable) else
    Ok(m.(entries := []))
  }

  /** The unfinished operations: `remove` and `putAll` check the state
      first, then raise "todo"; `values`, `entrySet` and `clone` raise
      "todo" whatever the state. */
  datatype Unfinished = Remove | PutAll | Values | EntrySet | CloneMap

  function Todo(m: FMap, op: Unfinished): (r: Result<FMap>)
    ensures r.Err?
    ensures (op == Remove || op == PutAll) && m.state == Iwr.Read ==> r == Err(Iwr.NotWritable)
    ensures !((op == Remove || op == PutAll) && m.state == Iwr.Read) ==> r == Fails(Runtime, "todo")
  {
    if op == Remove || op == PutAll then
      :- Iwr.RequireWritable(m.state);
      Fails(Runtime, "todo")
    else Fails(Runtime, "todo")
  }

  // ---------------------------------------------------------------------
  // The copy constructor

  /** A user map entry: a key and the value to wrap. */
  datatype Source = Source(key: string, value: Coerce.Input)

  /** The copy constructor's loop: each source entry wrapped and put in
      turn, with no state check. */
  function PutSources(env: Types.Env, m: FMap, src: seq<Source>): (r: Result<FMap>)
    requires Valid(env, m)
    ensures r.Ok? ==> Valid(env, r.value) && r.value.domain == m.domain && r.value.state == m.state
    ensures r.Ok? <==> forall i :: 0 <= i < |src| ==> Wrap(env, m, src[i].value).Ok?
    decreases |src|
  {
    if |src| == 0 then Ok(m)
    else
      hide *;
      var v :- Wrap(env, m, src[0].value);
      var next := m.(entries := PutEntry(m.entries, src[0].key, v).entries);
      PutKeepsValid(env, m, src[0].key, src[0].value);
      assert forall i :: 1 <= i < |src| ==> src[i] == src[1..][i - 1];
      PutSources(env, next, src[1..])
  }

  /** Every source key is in the map the copy loop builds. */
  lemma {:induction false} PutSourcesContain(env: Types.Env, m: FMap, src: seq<Source>)
    requires Valid(env, m)
    ensures PutSources(env, m, src).Ok? ==> forall i :: 0 <= i < |src| ==> ContainsKey(PutSources(env, m, src).value, src[i].key)
    decreases |src|
  {
    hide PutSources, Wrap, PutEntry, Coerce.From;
    if |src| > 0 && PutSources(env, m, src).Ok? {
      PutSourcesStep(env, m, src);
      var v := Wrap(env, m, src[0].value).value;
      var next := m.(entries := PutEntry(m.entries, src[0].key, v).entries);
      PutKeepsValid(env, m, src[0].key, src[0].value);
      var r := PutSources(env, m, src).value;
      PutSourcesContain(env, next, src[1..]);
      NoCase.CompareIgnoreCaseZeroIff(src[0].key, src[0].key);
      PutThenLookup(m.entries, src[0].key, v, src[0].key);
      PutSourcesKeeps(env, next, src[1..], src[0].key);
      forall i | 1 <= i < |src| ensures ContainsKey(r, src[i].key) {
        assert src[i] == src[1..][i - 1];
      }
    }
  }

  /** The copy loop puts the first source entry, then copies the rest. */
  lemma PutSourcesStep(env: Types.Env, m: FMap, src: seq<Source>)
    requires Valid(env, m) && |src| > 0 && PutSources(env, m, src).Ok?
    ensures Wrap(env, m, src[0].value).Ok?
    ensures var next := m.(entries := PutEntry(m.entries, src[0].key, Wrap(env, m, src[0].value).value).entries);
            Valid(env, next) && PutSources(env, m, src) == PutSources(env, next, src[1..])
  {
    PutKeepsValid(env, m, src[0].key, src[0].value);
  }

  /** A key present before the copy loop is present after it. */
  lemma {:induction false} PutSourcesKeeps(env: Types.Env, m: FMap, src: seq<Source>, key: string)
    requires Valid(env, m) && ContainsKey(m, key) && PutSources(env, m, src).Ok?
    ensures ContainsKey(PutSources(env, m, src).value, key)
    decreases |src|
  {
    if |src| > 0 {
      var v := Wrap(env, m, src[0].value).value;
      var next := m.(entries := PutEntry(m.entries, src[0].key, v).entries);
      PutKeepsValid(env, m, src[0].key, src[0].value);
      PutThenLookup(m.entries, src[0].key, v, key);
      PutSourcesKeeps(env, next, src[1..], key);
    }
  }

  /** The copy constructor `FusionMap(fromUser, domain)`: a new INIT map
      holding each source entry's wrapped value. */
  function FromSources(env: Types.Env, src: seq<Source>, d: Domain): (r: Result<FMap>)
    ensures d.kind != Map ==> r == Fails(IllegalArgument, KindName(d.kind))
    ensures r.Ok? ==> d.kind == Map && r.value.domain == d && r.value.state == Iwr.Init && Valid(env, r.value)
    ensures r.Ok? ==> forall i :: 0 <= i < |src| ==> ContainsKey(r.value, src[i].key)
  {
    var m :- New(d);
    PutSourcesContain(env, m, src);
    PutSources(env, m, src)
  }

  // ---------------------------------------------------------------------
  // The invariant and the order

  /** `put` into the map keeps it valid. */
  lemma PutKeepsValid(env: Types.Env, m: FMap, key: string, x: Coerce.Input)
    requires Valid(env, m) && Wrap(env, m, x).Ok?
    ensures Valid(env, m.(entries := PutEntry(m.entries, key, Wrap(env, m, x).value).entries))
  {
    var v := Wrap(env, m, x).value;
    var r := m.(entries := PutEntry(m.entries, key, v).entries);
    PutKeepsSorted(m.entries, key, v);
    PutMembers(m.entries, key, v);
    WrapStable(env, m, x);
    forall i | 0 <= i < |r.entries|
      ensures Wrap(env, r, Coerce.Fv(r.entries[i].value)) == Ok(r.entries[i].value)
    {
      assert r.entries[i] in r.entries;
      if r.entries[i] in m.entries {
        var j :| 0 <= j < |m.entries| && m.entries[j] == r.entries[i];
      }
    }
  }

  /** `put` and `clear` keep a valid map valid. */
  lemma MutatorsKeepValid(env: Types.Env, m: FMap, key: string, x: Coerce.Input)
    requires Valid(env, m)
    ensures PutValue(env, m, key, x).Ok? ==> Valid(env, PutValue(env, m, key, x).value.after)
    ensures Clear(m).Ok? ==> Valid(env, Clear(m).value)
  {
    if PutValue(env, m, key, x).Ok? {
      PutKeepsValid(env, m, key, x);
    }
  }

  /** Iteration order does not depend on insertion order: putting two
      keys that differ ignoring case in either order gives the same map. */
  lemma PutOrderIrrelevant(env: Types.Env, m: FMap, k1: string, x1: Coerce.Input, k2: string, x2: Coerce.Input)
    requires Sorted(m.entries) && NoCase.CompareIgnoreCase(k1, k2) != 0
    requires PutValue(env, m, k1, x1).Ok? && PutValue(env, m, k2, x2).Ok?
    ensures PutValue(env, PutValue(env, m, k1, x1).value.after, k2, x2).Ok?
    ensures PutValue(env, PutValue(env, m, k2, x2).value.after, k1, x1).Ok?
    ensures PutValue(env, PutValue(env, m, k1, x1).value.after, k2, x2).value.after
         == PutValue(env, PutValue(env, m, k2, x2).value.after, k1, x1).value.after
  {
    var v1 := Wrap(env, m, x1).value;
    var v2 := Wrap(env, m, x2).value;
    PutCommutes(m.entries, k1, v1, k2, v2);
  }

  /** After `put`, `get` under the key (in any spelling) sees the wrapped
      value, and every other key sees what it saw before. */
  lemma PutThenGet(env: Types.Env, m: FMap, key: string, x: Coerce.Input, k: string)
    requires Sorted(m.entries) && PutValue(env, m, key, x).Ok?
    ensures NoCase.CompareIgnoreCase(k, key) == 0 ==> Get(PutValue(env, m, key, x).value.after, k) == Wrap(env, m, x)
    ensures NoCase.CompareIgnoreCase(k, key) != 0 ==> Get(PutValue(env, m, key, x).value.after, k) == Get(m, k)
  {
    PutThenLookup(m.entries, key, Wrap(env, m, x).value, k);
  }

  /** `hashCode()`: refused until the map is READ, then the item kind and
      the size. */
  function Hash(m: FMap): (r: Result<int>)
    ensures r.Ok? <==> m.state == Iwr.Read
    ensures r == ValueOps.Hash(MapVal(m))
  {
    ValueOps.Hash(MapVal(m))
  }

  /** `equals`: same size, same item kind, and under every key of one map
      a value equal to the one the other map holds there. */
  lemma EqualMeansSameKeys(a: FMap, b: FMap, i: int)
    requires ValueOps.Equal(MapVal(a), MapVal(b)) && 0 <= i < |a.entries|
    ensures ContainsKey(b, a.entries[i].key)
    ensures ValueOps.Equal(a.entries[i].value, Get(b, a.entries[i].key).value)
    ensures |a.entries| == |b.entries| && ItemKind(a.domain) == ItemKind(b.domain)
  {
  }
}

=== FILE: nocase.dfy ===
/** Java string comparison, case-insensitive comparison and hashing, and
    the `NoCaseString` wrapper that orders and hashes its text ignoring case.

    Case mapping covers the ASCII letters; every other character is its own
    upper and lower case.
 */
module NoCase {
  import opened Wrappers

  function Upper(c: char): (u: char)
    ensures 'a' <= c <= 'z' ==> u as int == c as int - 32
    ensures !('a' <= c <= 'z') ==> u == c
  {
    if 'a' <= c <= 'z' then (c as int - 32) as char else c
  }

  function Lower(c: char): (l: char)
    ensures 'A' <= c <= 'Z' ==> l as int == c as int + 32
    ensures !('A' <= c <= 'Z') ==> l == c
  {
    if 'A' <= c <= 'Z' then (c as int + 32) as char else c
  }

  /** `String.toLowerCase`. */
  function LowerStr(s: string): (r: string)
    ensures |r| == |s|
    ensures forall i :: 0 <= i < |s| ==> r[i] == Lower(s[i])
  {
    seq(|s|, i requires 0 <= i < |s| => Lower(s[i]))
  }

  lemma LowerOfUpper(c: char)
    ensures Lower(Upper(c)) == Lower(c)
  {
  }

  /** `String.compareTo`: the difference of the first differing characters,
      or of the lengths when one string is a prefix of the other. */
  function JavaCompare(a: string, b: string): int
  {
    if |a| == 0 || |b| == 0 then |a| - |b|
    else if a[0] != b[0] then a[0] as int - b[0] as int
    else JavaCompare(a[1..], b[1..])
  }

  /** `String.compareToIgnoreCase`, character by character as the JDK does
      it: equal characters match; otherwise their upper cases are compared,
      and if those differ their lower cases decide. */
  function CompareIgnoreCase(a: string, b: string): int
  {
    if |a| == 0 || |b| == 0 then |a| - |b|
    else
      var c1 := a[0];
      var c2 := b[0];
      if c1 != c2 && Upper(c1) != Upper(c2) && Lower(Upper(c1)) != Lower(Upper(c2)) then
        Lower(Upper(c1)) as int - Lower(Upper(c2)) as int
      else
        CompareIgnoreCase(a[1..], b[1..])
  }

  /** Comparing ignoring case is comparing the lower-cased strings. */
  lemma {:induction false} CompareIgnoreCaseIsLowerCompare(a: string, b: string)
    ensures CompareIgnoreCase(a, b) == JavaCompare(LowerStr(a), LowerStr(b))
    decreases |a|
  {
    if |a| == 0 || |b| == 0 {
    } else {
      LowerOfUpper(a[0]);
      LowerOfUpper(b[0]);
      assert LowerStr(a)[1..] == LowerStr(a[1..]);
      assert LowerStr(b)[1..] == LowerStr(b[1..]);
      CompareIgnoreCaseIsLowerCompare(a[1..], b[1..]);
    }
  }

  lemma {:induction false} JavaCompareZeroIff(a: string, b: string)
    ensures JavaCompare(a, b) == 0 <==> a == b
    decreases |a|
  {
    if |a| == 0 || |b| == 0 {
    } else if a[0] != b[0] {
    } else {
      JavaCompareZeroIff(a[1..], b[1..]);
      if a[1..] == b[1..] {
        assert a == [a[0]] + a[1..] && b == [b[0]] + b[1..];
      }
    }
  }

  lemma {:induction false} JavaCompareAntisymmetric(a: string, b: string)
    ensures JavaCompare(a, b) == -JavaCompare(b, a)
    decreases |a|
  {
    if |a| == 0 || |b| == 0 {
    } else if a[0] != b[0] {
    } else {
      JavaCompareAntisymmetric(a[1..], b[1..]);
    }
  }

  lemma {:induction false} JavaCompareTransitive(a: string, b: string, c: string)
    requires JavaCompare(a, b) < 0 && JavaCompare(b, c) < 0
    ensures JavaCompare(a, c) < 0
    decreases |a|
  {
    if |a| == 0 || |b| == 0 || |c| == 0 {
    } else if a[0] == b[0] && b[0] == c[0] {
      JavaCompareTransitive(a[1..], b[1..], c[1..]);
    } else {
    }
  }

  /** Ignoring case, strings are equal exactly when their lower cases are. */
  lemma CompareIgnoreCaseZeroIff(a: string, b: string)
    ensures CompareIgnoreCase(a, b) == 0 <==> LowerStr(a) == LowerStr(b)
  {
    CompareIgnoreCaseIsLowerCompare(a, b);
    JavaCompareZeroIff(LowerStr(a), LowerStr(b));
  }

  /** The case-insensitive order is a total order on lower-cased text. */
  lemma CompareIgnoreCaseOrder(a: string, b: string, c: string)
    ensures CompareIgnoreCase(a, b) == -CompareIgnoreCase(b, a)
    ensures CompareIgnoreCase(a, b) < 0 && CompareIgnoreCase(b, c) < 0 ==> CompareIgnoreCase(a, c) < 0
  {
    CompareIgnoreCaseIsLowerCompare(a, b);
    CompareIgnoreCaseIsLowerCompare(b, a);
    CompareIgnoreCaseIsLowerCompare(b, c);
    CompareIgnoreCaseIsLowerCompare(a, c);
    JavaCompareAntisymmetric(LowerStr(a), LowerStr(b));
    if CompareIgnoreCase(a, b) < 0 && CompareIgnoreCase(b, c) < 0 {
      JavaCompareTransitive(LowerStr(a), LowerStr(b), LowerStr(c));
    }
  }

  /** Java `int` arithmetic: the two's-complement value of the low 32 bits. */
  function Int32(x: int): (r: int)
    ensures -0x8000_0000 <= r < 0x8000_0000
    ensures (r - x) % 0x1_0000_0000 == 0
  {
    var m := x % 0x1_0000_0000;
    if m < 0x8000_0000 then m else m - 0x1_0000_0000
  }

  /** `String.hashCode`: `s[0]*31^(n-1) + ... + s[n-1]` in 32-bit arithmetic. */
  function JavaHash(s: string): (h: int)
    ensures -0x8000_0000 <= h < 0x8000_0000
  {
    Int32(Polynomial(s))
  }

  function Polynomial(s: string): int
  {
    if |s| == 0 then 0 else Polynomial(s[..|s| - 1]) * 31 + s[|s| - 1] as int
  }

  /** `String.hashCode` computes `h = 31 * h + c` one character at a time,
      wrapping at every step; wrapping once at the end is the same. */
  lemma JavaHashStep(s: string, c: char)
    ensures JavaHash([]) == 0
    ensures JavaHash(s + [c]) == Int32(31 * JavaHash(s) + c as int)
  {
    var p := Polynomial(s);
    assert (s + [c])[..|s + [c]| - 1] == s;
    assert Polynomial(s + [c]) == p * 31 + c as int;
    var h := JavaHash(s);
    var k := (h - p) / 0x1_0000_0000;
    assert h - p == k * 0x1_0000_0000;
    Int32Congruent(31 * h + c as int, p * 31 + c as int, 31 * k);
  }

  /** Values that differ by a multiple of 2^32 wrap to the same `int`. */
  lemma Int32Congruent(x: int, y: int, k: int)
    requires x - y == k * 0x1_0000_0000
    ensures Int32(x) == Int32(y)
  {
    assert x % 0x1_0000_0000 == y % 0x1_0000_0000;
  }

  /** A string held for case-insensitive ordering, equality and hashing. */
  datatype NoCaseString = NoCaseString(original: string) {

    /** `compareTo`: 0 exactly for strings equal ignoring case, and
        swapping the operands negates the result. */
    function Compare(o: NoCaseString): (r: int)
      ensures r == 0 <==> LowerStr(original) == LowerStr(o.original)
      ensures r == -CompareIgnoreCase(o.original, original)
    {
      CompareIgnoreCaseZeroIff(original, o.original);
      CompareIgnoreCaseOrder(original, o.original, original);
      CompareIgnoreCase(original, o.original)
    }

    /** `equals` of another `NoCaseString`: equal ignoring case, and then
        hashing alike. */
    function Equals(o: NoCaseString): (r: bool)
      ensures r <==> LowerStr(original) == LowerStr(o.original)
      ensures r ==> Hash() == o.Hash()
    {
      Compare(o) == 0
    }

    /** `hashCode`: the `String` hash of the lower-cased text. */
    function Hash(): (r: int)
      ensures -0x8000_0000 <= r < 0x8000_0000
    {
      JavaHash(LowerStr(original))
    }

    /** `length`: the indices `charAt` accepts, and the whole string as a
        subsequence. */
    function Length(): (r: nat)
      ensures forall i :: CharAt(i).Ok? <==> 0 <= i < r
      ensures SubSequence(0, r) == Ok(this)
    {
      assert original[0..|original|] == original;
      |original|
    }

    function CharAt(index: int): (r: Result<char>)
      ensures r.Ok? <==> 0 <= index < |original|
      ensures r.Ok? ==> r.value == original[index]
      ensures r.Err? ==> r.error.kind == IndexOutOfBounds
    {
      if 0 <= index < |original| then Ok(original[index])
      else Fails(IndexOutOfBounds, "index out of range")
    }

    function SubSequence(start: int, end: int): (r: Result<NoCaseString>)
      ensures r.Ok? <==> 0 <= start <= end <= |original|
      ensures r.Ok? ==> |r.value.original| == end - start
      ensures r.Ok? ==> forall i :: 0 <= i < end - start ==> r.value.original[i] == original[start + i]
      ensures r.Err? ==> r.error.kind == IndexOutOfBounds
    {
      if 0 <= start <= end <= |original| then Ok(NoCaseString(original[start..end]))
      else Fails(IndexOutOfBounds, "begin or end out of range")
    }
  }

  /** Equal (ignoring case) strings hash alike, and equality ignoring case is
      equality of the lower-cased text. */
  lemma NoCaseEqualsHash(a: NoCaseString, b: NoCaseString)
    ensures a.Equals(b) <==> LowerStr(a.original) == LowerStr(b.original)
    ensures a.Equals(b) ==> a.Hash() == b.Hash()
    ensures a.Equals(b) <==> b.Equals(a)
  {
    CompareIgnoreCaseZeroIff(a.original, b.original);
    CompareIgnoreCaseZeroIff(b.original, a.original);
  }
}

=== FILE: nocasemap.dfy ===
/** The `TreeMap<NoCaseString, FusionValue>` inside a `FusionMap`: entries
    kept in ascending case-insensitive key order, where a `put` under a key
    that is already present (in any spelling) replaces the value and keeps
    the key's first spelling.
 */
module NoCaseMaps {
  import opened Wrappers
  import opened NoCase
  import opened Values

  /** Keys in strictly ascending case-insensitive order, so no two keys are
      equal ignoring case. */
  predicate Sorted(es: seq<Entry>) {
    forall i, j :: 0 <= i < j < |es| ==> CompareIgnoreCase(es[i].key, es[j].key) < 0
  }

  /** `b` sorts before every key of `es`. */
  predicate Below(b: string, es: seq<Entry>) {
    forall i :: 0 <= i < |es| ==> CompareIgnoreCase(b, es[i].key) < 0
  }

  /** Strings equal ignoring case compare alike against every other. */
  lemma SameOrder(a: string, b: string, c: string)
    requires CompareIgnoreCase(a, b) == 0
    ensures CompareIgnoreCase(a, c) == CompareIgnoreCase(b, c)
    ensures CompareIgnoreCase(c, a) == CompareIgnoreCase(c, b)
  {
    CompareIgnoreCaseZeroIff(a, b);
    CompareIgnoreCaseIsLowerCompare(a, c);
    CompareIgnoreCaseIsLowerCompare(b, c);
    CompareIgnoreCaseIsLowerCompare(c, a);
    CompareIgnoreCaseIsLowerCompare(c, b);
  }

  /** The tail of a sorted map is sorted, and its keys all follow the head's. */
  lemma SortedTail(es: seq<Entry>)
    requires Sorted(es) && |es| > 0
    ensures Sorted(es[1..]) && Below(es[0].key, es[1..])
  {
    forall i, j | 0 <= i < j < |es[1..]|
      ensures CompareIgnoreCase(es[1..][i].key, es[1..][j].key) < 0
    {
      assert es[1..][i] == es[i + 1] && es[1..][j] == es[j + 1];
    }
    forall i | 0 <= i < |es[1..]| ensures CompareIgnoreCase(es[0].key, es[1..][i].key) < 0 {
      assert es[1..][i] == es[i + 1];
    }
  }

  /** In a sorted map whose first key is greater than `key`, `key` is
      absent. */
  lemma AbsentBeforeFirst(es: seq<Entry>, key: string)
    requires Sorted(es) && |es| > 0 && CompareIgnoreCase(es[0].key, key) > 0
    ensures Lookup(es, key).None?
  {
    if Lookup(es, key).Some? {
      var i :| 0 <= i < |es| && CompareIgnoreCase(es[i].key, key) == 0;
      if i == 0 {
        assert false;
      } else {
        SameOrder(es[i].key, key, es[0].key);
        assert false;
      }
    }
  }

  /** What `put` hands back: the new entries and the value it replaced. */
  datatype Put = Put(entries: seq<Entry>, previous: Option<Value>)

  /** `TreeMap.put`: walks the keys in order; an equal key has its value
      replaced, otherwise the entry goes in before the first greater key. */
  function PutEntry(es: seq<Entry>, key: string, v: Value): (r: Put)
    requires Sorted(es)
    ensures r.previous == Lookup(es, key)
    ensures |r.entries| == if r.previous.Some? then |es| else |es| + 1
    ensures |r.entries| > 0
  {
    if |es| == 0 then Put([Entry(key, v)], None)
    else
      var c := CompareIgnoreCase(es[0].key, key);
      if c == 0 then Put([Entry(es[0].key, v)] + es[1..], Some(es[0].value))
      else if c > 0 then
        AbsentBeforeFirst(es, key);
        Put([Entry(key, v)] + es, None)
      else
        SortedTail(es);
        var r := PutEntry(es[1..], key, v);
        Put([es[0]] + r.entries, r.previous)
  }

  /** Every key after `put` is a key of `es` or `key`, so a bound below
      both stays below. */
  lemma {:induction false} PutKeepsBelow(es: seq<Entry>, key: string, v: Value, b: string)
    requires Sorted(es) && Below(b, es) && CompareIgnoreCase(b, key) < 0
    ensures Below(b, PutEntry(es, key, v).entries)
    decreases |es|
  {
    var r := PutEntry(es, key, v).entries;
    if |es| > 0 {
      var c := CompareIgnoreCase(es[0].key, key);
      if c == 0 {
        assert forall i :: 0 <= i < |r| ==> r[i].key == es[i].key;
      } else if c > 0 {
        assert forall i :: 1 <= i < |r| ==> r[i] == es[i - 1];
      } else {
        SortedTail(es);
        var rest := PutEntry(es[1..], key, v).entries;
        assert Below(b, es[1..]) by {
          forall i | 0 <= i < |es[1..]| ensures CompareIgnoreCase(b, es[1..][i].key) < 0 {
            assert es[1..][i] == es[i + 1];
          }
        }
        PutKeepsBelow(es[1..], key, v, b);
        assert forall i :: 1 <= i < |r| ==> r[i] == rest[i - 1];
      }
    }
  }

  /** An entry below every key of a sorted map can go in front of it. */
  lemma SortedCons(x: Entry, es: seq<Entry>)
    requires Sorted(es) && Below(x.key, es)
    ensures Sorted([x] + es)
  {
    var r := [x] + es;
    forall i, j | 0 <= i < j < |r|
      ensures CompareIgnoreCase(r[i].key, r[j].key) < 0
    {
      if i == 0 {
        assert r[j] == es[j - 1];
      } else {
        assert r[i] == es[i - 1] && r[j] == es[j - 1];
      }
    }
  }

  /** A key below the first key of a sorted map is below all of them. */
  lemma BelowFirst(b: string, es: seq<Entry>)
    requires Sorted(es) && |es| > 0 && CompareIgnoreCase(b, es[0].key) < 0
    ensures Below(b, es)
  {
    forall j | 0 < j < |es| ensures CompareIgnoreCase(b, es[j].key) < 0 {
      CompareIgnoreCaseOrder(b, es[0].key, es[j].key);
    }
  }

  /** `put` keeps the keys sorted. */
  lemma {:induction false} PutKeepsSorted(es: seq<Entry>, key: string, v: Value)
    requires Sorted(es)
    ensures Sorted(PutEntry(es, key, v).entries)
    decreases |es|
  {
    if |es| > 0 {
      var c := CompareIgnoreCase(es[0].key, key);
      SortedTail(es);
      if c == 0 {
        SortedCons(Entry(es[0].key, v), es[1..]);
      } else if c > 0 {
        CompareIgnoreCaseOrder(es[0].key, key, es[0].key);
        BelowFirst(key, es);
        SortedCons(Entry(key, v), es);
      } else {
        PutKeepsSorted(es[1..], key, v);
        PutKeepsBelow(es[1..], key, v, es[0].key);
        SortedCons(es[0], PutEntry(es[1..], key, v).entries);
      }
    }
  }

  /** After `put`, the key maps to the new value and every other key maps
      to what it mapped to before. */
  lemma {:induction false} PutThenLookup(es: seq<Entry>, key: string, v: Value, k: string)
    requires Sorted(es)
    ensures CompareIgnoreCase(k, key) == 0 ==> Lookup(PutEntry(es, key, v).entries, k) == Some(v)
    ensures CompareIgnoreCase(k, key) != 0 ==> Lookup(PutEntry(es, key, v).entries, k) == Lookup(es, k)
    decreases |es|
  {
    var r := PutEntry(es, key, v).entries;
    CompareIgnoreCaseOrder(k, key, k);
    if |es| == 0 {
    } else {
      var c := CompareIgnoreCase(es[0].key, key);
      if c == 0 {
        SameOrder(es[0].key, key, k);
        CompareIgnoreCaseOrder(es[0].key, k, es[0].key);
        CompareIgnoreCaseOrder(key, k, key);
        assert r[1..] == es[1..];
      } else if c > 0 {
        assert r[1..] == es;
      } else {
        SortedTail(es);
        PutThenLookup(es[1..], key, v, k);
        assert r[1..] == PutEntry(es[1..], key, v).entries;
        if CompareIgnoreCase(k, key) == 0 {
          SameOrder(k, key, es[0].key);
          CompareIgnoreCaseOrder(es[0].key, k, es[0].key);
          CompareIgnoreCaseOrder(es[0].key, key, es[0].key);
        }
      }
    }
  }

  /** The copy constructor's loop: each entry of the source map is put in
      turn, so a later spelling of a key replaces the earlier value. */
  function PutAll(es: seq<Entry>, from: seq<Entry>): (r: seq<Entry>)
    requires Sorted(es)
    ensures Sorted(r)
    decreases |from|
  {
    if |from| == 0 then es
    else
      PutKeepsSorted(es, from[0].key, from[0].value);
      PutAll(PutEntry(es, from[0].key, from[0].value).entries, from[1..])
  }

  /** Every key put is present afterwards. */
  lemma {:induction false} PutAllHasKeys(es: seq<Entry>, from: seq<Entry>, i: int)
    requires Sorted(es) && 0 <= i < |from|
    ensures Lookup(PutAll(es, from), from[i].key).Some?
    decreases |from|
  {
    var next := PutEntry(es, from[0].key, from[0].value).entries;
    PutKeepsSorted(es, from[0].key, from[0].value);
    if i == 0 {
      CompareIgnoreCaseZeroIff(from[0].key, from[0].key);
      PutThenLookup(es, from[0].key, from[0].value, from[0].key);
      PutAllKeeps(next, from[1..], from[0].key);
    } else {
      assert from[1..][i - 1] == from[i];
      PutAllHasKeys(next, from[1..], i - 1);
    }
  }

  /** A key already present stays present through further puts. */
  lemma {:induction false} PutAllKeeps(es: seq<Entry>, from: seq<Entry>, k: string)
    requires Sorted(es) && Lookup(es, k).Some?
    ensures Lookup(PutAll(es, from), k).Some?
    decreases |from|
  {
    if |from| > 0 {
      var next := PutEntry(es, from[0].key, from[0].value).entries;
      PutKeepsSorted(es, from[0].key, from[0].value);
      PutThenLookup(es, from[0].key, from[0].value, k);
      PutAllKeeps(next, from[1..], k);
    }
  }

  /** Keys no two of which are equal ignoring case. */
  predicate DistinctKeys(from: seq<Entry>) {
    forall i, j :: 0 <= i < j < |from| ==> CompareIgnoreCase(from[i].key, from[j].key) != 0
  }

  /** Putting keys that are new and distinct ignoring case adds one entry
      per key. */
  lemma {:induction false} PutAllSize(es: seq<Entry>, from: seq<Entry>)
    requires Sorted(es) && DistinctKeys(from)
    requires forall j :: 0 <= j < |from| ==> Lookup(es, from[j].key).None?
    ensures |PutAll(es, from)| == |es| + |from|
    decreases |from|
  {
    if |from| > 0 {
      var next := PutEntry(es, from[0].key, from[0].value).entries;
      PutKeepsSorted(es, from[0].key, from[0].value);
      forall j | 0 <= j < |from[1..]| ensures Lookup(next, from[1..][j].key).None? {
        assert from[1..][j] == from[j + 1];
        CompareIgnoreCaseOrder(from[0].key, from[j + 1].key, from[0].key);
        PutThenLookup(es, from[0].key, from[0].value, from[j + 1].key);
      }
      assert DistinctKeys(from[1..]) by {
        forall i, j | 0 <= i < j < |from[1..]|
          ensures CompareIgnoreCase(from[1..][i].key, from[1..][j].key) != 0
        {
          assert from[1..][i] == from[i + 1] && from[1..][j] == from[j + 1];
        }
      }
      PutAllSize(next, from[1..]);
    }
  }

  /** The spelling a key is stored under: the spelling already in the map
      when a key equal to it ignoring case is there, else the key itself. */
  function Spelling(es: seq<Entry>, key: string): (s: string)
    ensures LowerStr(s) == LowerStr(key)
  {
    if |es| == 0 then key
    else if CompareIgnoreCase(es[0].key, key) == 0 then
      CompareIgnoreCaseZeroIff(es[0].key, key);
      es[0].key
    else Spelling(es[1..], key)
  }

  /** In a sorted map, the stored key equal to `key` ignoring case is its
      spelling. */
  lemma {:induction false} SpellingOf(es: seq<Entry>, key: string, i: int)
    requires Sorted(es) && 0 <= i < |es| && LowerStr(es[i].key) == LowerStr(key)
    ensures Spelling(es, key) == es[i].key
    decreases |es|
  {
    CompareIgnoreCaseZeroIff(es[0].key, key);
    if CompareIgnoreCase(es[0].key, key) == 0 {
      if i != 0 {
        CompareIgnoreCaseZeroIff(es[0].key, es[i].key);
        assert false;
      }
    } else {
      SortedTail(es);
      assert es[1..][i - 1] == es[i];
      SpellingOf(es[1..], key, i - 1);
    }
  }

  /** A key with no stored equal is spelt as given. */
  lemma {:induction false} SpellingAbsent(es: seq<Entry>, key: string)
    requires forall i :: 0 <= i < |es| ==> LowerStr(es[i].key) != LowerStr(key)
    ensures Spelling(es, key) == key
    decreases |es|
  {
    if |es| > 0 {
      CompareIgnoreCaseZeroIff(es[0].key, key);
      assert forall i :: 0 <= i < |es[1..]| ==> es[1..][i] == es[i + 1];
      SpellingAbsent(es[1..], key);
    }
  }

  /** The entries after `put` are the entries under other keys, and the
      new value under the key's stored spelling. */
  lemma {:induction false} PutMembers(es: seq<Entry>, key: string, v: Value)
    requires Sorted(es)
    ensures forall e :: e in PutEntry(es, key, v).entries <==>
                          (e in es && LowerStr(e.key) != LowerStr(key)) || e == Entry(Spelling(es, key), v)
    decreases |es|
  {
    var r := PutEntry(es, key, v).entries;
    if |es| > 0 {
      var c := CompareIgnoreCase(es[0].key, key);
      CompareIgnoreCaseZeroIff(es[0].key, key);
      assert es == [es[0]] + es[1..];
      if c == 0 {
        forall j | 1 <= j < |es| ensures LowerStr(es[j].key) != LowerStr(key) {
          CompareIgnoreCaseZeroIff(es[0].key, es[j].key);
        }
        assert forall e :: e in es[1..] ==> exists j :: 1 <= j < |es| && e == es[j];
      } else if c > 0 {
        AbsentBeforeFirst(es, key);
        forall j | 0 <= j < |es| ensures LowerStr(es[j].key) != LowerStr(key) {
          CompareIgnoreCaseZeroIff(es[j].key, key);
        }
        SpellingAbsent(es, key);
      } else {
        SortedTail(es);
        PutMembers(es[1..], key, v);
      }
    }
  }

  /** `put` under one key leaves the spelling of every other key alone. */
  lemma SpellingAfterPut(es: seq<Entry>, key: string, v: Value, k: string)
    requires Sorted(es) && LowerStr(k) != LowerStr(key)
    ensures Spelling(PutEntry(es, key, v).entries, k) == Spelling(es, k)
  {
    var r := PutEntry(es, key, v).entries;
    PutKeepsSorted(es, key, v);
    PutMembers(es, key, v);
    if i :| 0 <= i < |es| && LowerStr(es[i].key) == LowerStr(k) {
      assert es[i] in r;
      var j :| 0 <= j < |r| && r[j] == es[i];
      SpellingOf(es, k, i);
      SpellingOf(r, k, j);
    } else {
      assert forall j :: 0 <= j < |r| ==> r[j] in r;
      SpellingAbsent(es, k);
      SpellingAbsent(r, k);
    }
  }

  /** A sorted map is determined by its entries: two that hold the same
      entries are the same sequence, so the iteration order depends on
      the contents alone. */
  lemma {:induction false} SortedUnique(a: seq<Entry>, b: seq<Entry>)
    requires Sorted(a) && Sorted(b)
    requires forall e :: e in a <==> e in b
    ensures a == b
    decreases |a|
  {
    if |a| == 0 {
      NoMembers(b);
    } else {
      assert a[0] in b;
      SameFirst(a, b);
      SortedTail(a);
      SortedTail(b);
      SameTail(a);
      SameTail(b);
      SortedUnique(a[1..], b[1..]);
      assert a == [a[0]] + a[1..] && b == [b[0]] + b[1..];
    }
  }

  /** A sequence with no members is empty. */
  lemma NoMembers(b: seq<Entry>)
    requires forall e :: e !in b
    ensures b == []
  {
    FirstIsMember(b);
  }

  /** The first element of a non-empty sequence is one of its members. */
  lemma FirstIsMember(b: seq<Entry>)
    ensures |b| > 0 ==> b[0] in b
  {
  }

  /** The least entry of two sorted maps with the same entries is the
      same. */
  lemma SameFirst(a: seq<Entry>, b: seq<Entry>)
    requires Sorted(a) && Sorted(b) && |a| > 0 && |b| > 0
    requires a[0] in b && b[0] in a
    ensures a[0] == b[0]
  {
    var j :| 0 <= j < |b| && b[j] == a[0];
    var i :| 0 <= i < |a| && a[i] == b[0];
    CompareIgnoreCaseZeroIff(a[0].key, a[0].key);
    if j > 0 {
      if i > 0 {
        CompareIgnoreCaseOrder(a[0].key, a[i].key, a[0].key);
      }
      assert false;
    }
  }

  /** The entries of a sorted map after its first are the others. */
  lemma SameTail(a: seq<Entry>)
    requires Sorted(a) && |a| > 0
    ensures forall e :: e in a[1..] <==> e in a && e != a[0]
  {
    CompareIgnoreCaseZeroIff(a[0].key, a[0].key);
    assert a == [a[0]] + a[1..];
    forall e | e in a[1..] ensures e != a[0] {
      var k :| 0 <= k < |a[1..]| && a[1..][k] == e;
      assert CompareIgnoreCase(a[0].key, a[k + 1].key) < 0;
    }
  }

  /** Puts under keys that differ ignoring case commute, so the map a
      sequence of such puts builds does not depend on their order. */
  lemma PutCommutes(es: seq<Entry>, k1: string, v1: Value, k2: string, v2: Value)
    requires Sorted(es) && CompareIgnoreCase(k1, k2) != 0
    ensures Sorted(PutEntry(es, k1, v1).entries) && Sorted(PutEntry(es, k2, v2).entries)
    ensures PutEntry(PutEntry(es, k1, v1).entries, k2, v2).entries
         == PutEntry(PutEntry(es, k2, v2).entries, k1, v1).entries
  {
    CompareIgnoreCaseZeroIff(k1, k2);
    var a := PutEntry(es, k1, v1).entries;
    var b := PutEntry(es, k2, v2).entries;
    PutKeepsSorted(es, k1, v1);
    PutKeepsSorted(es, k2, v2);
    PutKeepsSorted(a, k2, v2);
    PutKeepsSorted(b, k1, v1);
    PutMembers(es, k1, v1);
    PutMembers(es, k2, v2);
    PutMembers(a, k2, v2);
    PutMembers(b, k1, v1);
    SpellingAfterPut(es, k1, v1, k2);
    SpellingAfterPut(es, k2, v2, k1);
    SortedUnique(PutEntry(a, k2, v2).entries, PutEntry(b, k1, v1).entries);
  }
}

=== FILE: numtext.dfy ===
/** Decimal text of Java integers: `toString` of the integer classes and
    `Long.parseLong`, with the value ranges of the fixed-width classes. */
module NumText {
  import opened Wrappers

  const ByteMin: int := -0x80
  const ByteMax: int := 0x7F
  const ShortMin: int := -0x8000
  const ShortMax: int := 0x7FFF
  const IntMin: int := -0x8000_0000
  const IntMax: int := 0x7FFF_FFFF
  const LongMin: int := -0x8000_0000_0000_0000
  const LongMax: int := 0x7FFF_FFFF_FFFF_FFFF

  predicate IsDigit(c: char) {
    '0' <= c <= '9'
  }

  predicate AllDigits(s: string) {
    forall i :: 0 <= i < |s| ==> IsDigit(s[i])
  }

  function DigitChar(d: int): (c: char)
    requires 0 <= d < 10
    ensures IsDigit(c)
    ensures c as int - '0' as int == d
  {
    ('0' as int + d) as char
  }

  /** The value of a run of decimal digits, most significant first. */
  function DigitsValue(s: string): nat
    requires AllDigits(s)
  {
    if |s| == 0 then 0
    else DigitsValue(s[..|s| - 1]) * 10 + (s[|s| - 1] as int - '0' as int)
  }

  /** The shortest decimal text of a natural number. */
  function NatText(n: nat): (s: string)
    ensures |s| > 0 && AllDigits(s)
    ensures s[0] == '0' ==> n == 0 && |s| == 1
  {
    if n < 10 then [DigitChar(n)] else NatText(n / 10) + [DigitChar(n % 10)]
  }

  /** `Integer.toString`, `Long.toString`, `BigInteger.toString`. */
  function IntText(i: int): (s: string)
    ensures |s| > 0
    ensures i < 0 <==> s[0] == '-'
  {
    if i < 0 then "-" + NatText(-i) else NatText(i)
  }

  /** The message of the `IndexOutOfBoundsException` that `List.get`,
      `set` and `remove` and an array access raise for an index outside a
      sequence of length `n`. */
  function OutOfBounds(i: int, n: int): Error {
    Error(IndexOutOfBounds, "Index " + IntText(i) + " out of bounds for length " + IntText(n))
  }

  /** The message `ArrayList.add(index, e)` raises for an index outside
      `0..n`. */
  function AddOutOfBounds(i: int, n: int): Error {
    Error(IndexOutOfBounds, "Index: " + IntText(i) + ", Size: " + IntText(n))
  }

  /** The exception `new IndexOutOfBoundsException(index)` constructs. */
  function IndexOutOfRange(i: int): Error {
    Error(IndexOutOfBounds, "Index out of range: " + IntText(i))
  }

  lemma {:induction false} NatTextValue(n: nat)
    ensures DigitsValue(NatText(n)) == n
  {
    if n >= 10 {
      var s := NatText(n);
      assert s[..|s| - 1] == NatText(n / 10);
      NatTextValue(n / 10);
    }
  }

  /** The value of the digits of `a + b` in terms of those of `a` and `b`:
      used to read a number whose digits arrive one at a time. */
  lemma {:induction false} DigitsValueAppend(a: string, c: char)
    requires AllDigits(a) && IsDigit(c)
    ensures AllDigits(a + [c])
    ensures DigitsValue(a + [c]) == DigitsValue(a) * 10 + (c as int - '0' as int)
  {
    assert (a + [c])[..|a + [c]| - 1] == a;
  }

  /** `Long.parseLong`: an optional sign, then one or more digits, within the
      64-bit range; anything else is a NumberFormatException. */
  function ParseLong(s: string): (r: Result<int>)
    ensures r.Ok? ==> LongMin <= r.value <= LongMax
    ensures r.Err? ==> r.error.kind == IllegalArgument
  {
    var neg := |s| > 0 && s[0] == '-';
    var start := if |s| > 0 && (s[0] == '-' || s[0] == '+') then 1 else 0;
    var digits := s[start..];
    if |digits| == 0 || !AllDigits(digits) then
      Fails(IllegalArgument, "For input string: \"" + s + "\"")
    else
      var mag: int := DigitsValue(digits);
      var v := if neg then -mag else mag;
      if LongMin <= v <= LongMax then Ok(v)
      else Fails(IllegalArgument, "For input string: \"" + s + "\"")
  }

  /** `Long.parseLong` reads back what `Long.toString` writes. */
  lemma LongTextRoundTrip(i: int)
    requires LongMin <= i <= LongMax
    ensures ParseLong(IntText(i)) == Ok(i)
  {
    var s := IntText(i);
    if i < 0 {
      assert s[0] == '-' && s[1..] == NatText(-i);
      NatTextValue(-i);
    } else {
      assert s == NatText(i) && s[0] != '-' && s[0] != '+';
      assert s[0..] == s;
      NatTextValue(i);
    }
  }

  /** `n` zero digits. */
  function Zeros(n: nat): (s: string)
    ensures |s| == n && AllDigits(s)
    ensures forall i :: 0 <= i < n ==> s[i] == '0'
  {
    seq(n, i => '0')
  }

  /** `BigDecimal.toString` of `unscaled * 10^-scale`: the digits of the
      unscaled value with the point placed by the scale when the scale is
      not negative and the adjusted exponent (`-scale + digits - 1`) is at
      least -6; otherwise one digit before the point and an `E` exponent,
      omitted when it is zero. */
  function DecimalText(unscaled: int, scale: int): (s: string)
    ensures |s| > 0
    ensures unscaled < 0 <==> s[0] == '-'
  {
    var coeff := NatText(if unscaled < 0 then -unscaled else unscaled);
    var sign := if unscaled < 0 then "-" else "";
    var adjusted := -scale + (|coeff| - 1);
    if scale == 0 then sign + coeff
    else if scale > 0 && adjusted >= -6 then
      if scale >= |coeff| then sign + "0." + Zeros(scale - |coeff|) + coeff
      else sign + coeff[..|coeff| - scale] + "." + coeff[|coeff| - scale..]
    else
      sign + [coeff[0]] + (if |coeff| > 1 then "." + coeff[1..] else "")
      + (if adjusted != 0 then "E" + (if adjusted > 0 then "+" else "") + IntText(adjusted) else "")
  }
}

=== FILE: objcore.dfy ===
/** The lifecycle side of `FusionObjectBase`: a new object holds each
    field's default, and before every state change the object checks its
    fields, every field of a plain object and the key fields of a key
    instance, refusing a null in a non-nullable field and a value outside
    its field's range.
 */
module ObjectCore {
  import opened Wrappers
  import opened Values
  import Iwr
  import Fields
  import Ranges
  import Fusion
  import NumText

  /** The fields the check covers. */
  function CheckedFields(o: FObject): (fs: seq<Field>)
    ensures o.isKey ==> fs == o.schema.keyFields
    ensures !o.isKey ==> fs == o.schema.fields
  {
    if o.isKey then o.schema.keyFields else o.schema.fields
  }

  /** The check one field passes: a null value only in a nullable field,
      any other value within the field domain's range. */
  predicate FieldOk(o: FObject, f: Field) {
    0 <= f.index < |o.vals|
    && if o.vals[f.index].Null? then Fields.IsNullable(f)
       else Ranges.DomainValidate(f.domain, o.vals[f.index], Some([])).Pass?
  }

  /** The exception a field that fails the check raises. */
  function FieldError(o: FObject, f: Field): Error
    requires !FieldOk(o, f)
  {
    if !(0 <= f.index < |o.vals|) then NumText.OutOfBounds(f.index, |o.vals|)
    else if o.vals[f.index].Null? then Error(NullPointer, o.typeName + ": Field " + f.name + " cannot be null!")
    else Ranges.DomainValidate(f.domain, o.vals[f.index], Some([])).error
  }

  /** The loop of `prepForIwrStateChange` over `fs`: the first field that
      fails decides the exception. */
  function CheckFields(o: FObject, fs: seq<Field>): (r: Outcome)
    ensures r.Pass? <==> forall i :: 0 <= i < |fs| ==> FieldOk(o, fs[i])
    ensures r.Fail? ==> exists i :: 0 <= i < |fs| && !FieldOk(o, fs[i])
                                    && (forall j :: 0 <= j < i ==> FieldOk(o, fs[j]))
                                    && r.error == FieldError(o, fs[i])
  {
    if |fs| == 0 then Pass
    else if !FieldOk(o, fs[0]) then Fail(FieldError(o, fs[0]))
    else
      var r := CheckFields(o, fs[1..]);
      assert forall i :: 1 <= i < |fs| ==> fs[i] == fs[1..][i - 1];
      if r.Fail? then
        var i :| 0 <= i < |fs[1..]| && !FieldOk(o, fs[1..][i])
                 && (forall j :: 0 <= j < i ==> FieldOk(o, fs[1..][j]))
                 && r.error == FieldError(o, fs[1..][i]);
        assert fs[i + 1] == fs[1..][i];
        r
      else r
  }

  /** The object's hook: the same check whatever the next state. */
  function Hook(o: FObject): (h: Iwr.Hook)
    ensures forall next :: h(next) == CheckFields(o, CheckedFields(o))
  {
    (next: Iwr.IwrState) => CheckFields(o, CheckedFields(o))
  }

  /** Whether the object's hook lets a transition through. */
  predicate Valid(o: FObject) {
    CheckFields(o, CheckedFields(o)).Pass?
  }

  /** `doneInit` of an object. */
  function DoneInit(o: FObject): (r: Result<FObject>)
    ensures r.Ok? <==> o.state == Iwr.Init && Valid(o)
    ensures r.Ok? ==> r.value == o.(state := Iwr.Write)
  {
    var s :- Iwr.DoneInit(o.state, Hook(o));
    Ok(o.(state := s))
  }

  /** `doneWrite` of an object. */
  function DoneWrite(o: FObject): (r: Result<FObject>)
    ensures r.Ok? <==> o.state != Iwr.Read && Valid(o)
    ensures r.Ok? ==> r.value == o.(state := Iwr.Read)
    ensures r.Err? && o.state != Iwr.Read ==> r.error == CheckFields(o, CheckedFields(o)).error
  {
    var s :- Iwr.DoneWrite(o.state, Hook(o));
    Ok(o.(state := s))
  }

  /** `clone(wantedState)` of an object: a copy of its values in the wanted
      state, reached by the lifecycle's own rules. */
  function Clone(o: FObject, wanted: Iwr.IwrState): (r: Result<FObject>)
    ensures r.Ok? ==> r.value == o.(state := wanted)
    ensures Iwr.Rank(wanted) <= Iwr.Rank(o.state) ==> r.Ok?
    ensures Iwr.Rank(o.state) < Iwr.Rank(wanted) ==> (r.Ok? <==> Valid(o))
  {
    var c :- Iwr.Clone(o.state, wanted, Hook(o));
    Ok(o.(state := c.state))
  }

  /** `make()`: a new INIT object, not a key instance, holding each field's
      default in schema order. */
  function Make(t: Fusion.FobType): (o: FObject)
    ensures o.typeName == t.name && o.schema == t.schema && o.state == Iwr.Init && !o.isKey
    ensures |o.vals| == |t.schema.fields|
    ensures forall i :: 0 <= i < |o.vals| ==> o.vals[i] == Fields.DefaultValue(t.schema.fields[i])
  {
    FObject(t.name, t.schema, false, Iwr.Init,
            seq(|t.schema.fields|, i requires 0 <= i < |t.schema.fields| => Fields.DefaultValue(t.schema.fields[i])))
  }

  /** `makeKey()`: refused for a type without key fields; otherwise a new
      object flagged as a key instance. */
  function MakeKey(t: Fusion.FobType): (r: Result<FObject>)
    ensures r.Ok? <==> |t.schema.keyFields| > 0
    ensures r.Ok? ==> r.value == Make(t).(isKey := true)
    ensures r.Err? ==> r.error == Error(Unsupported, "Fob-type has no key fields: " + t.schema.id)
  {
    if |t.schema.keyFields| == 0 then Fails(Unsupported, "Fob-type has no key fields: " + t.schema.id)
    else Ok(Make(t).(isKey := true))
  }

  /** A key instance is checked on its key fields only: whatever its other
      fields hold, it passes when its key fields do. */
  lemma KeyInstanceChecksKeysOnly(o: FObject, vals: seq<Value>)
    requires o.isKey && |vals| == |o.vals|
    requires forall f :: f in o.schema.keyFields ==> 0 <= f.index < |o.vals| && vals[f.index] == o.vals[f.index]
    ensures Valid(o) <==> Valid(o.(vals := vals))
  {
    var p := o.(vals := vals);
    assert forall f :: f in o.schema.keyFields ==> (FieldOk(o, f) <==> FieldOk(p, f));
  }

  /** A fresh object of a well-formed type passes the check exactly when
      every field with no default is nullable and every default lies in
      its field's range. */
  lemma MadeObjectValid(t: Fusion.FobType)
    requires Indexed(t.schema)
    ensures Valid(Make(t)) <==>
              forall i :: 0 <= i < |t.schema.fields| ==>
                (if Fields.DefaultValue(t.schema.fields[i]).Null? then Fields.IsNullable(t.schema.fields[i])
                 else Ranges.DomainValidate(t.schema.fields[i].domain, Fields.DefaultValue(t.schema.fields[i]), Some([])).Pass?)
  {
    var o := Make(t);
    assert forall i :: 0 <= i < |t.schema.fields| ==> t.schema.fields[i].index == i;
  }
}

=== FILE: objects.dfy ===
/** The field-level side of `FusionObjectBase` and `FusionObject`: setting
    a field (with the lifecycle, key-instance, readonly and nullable rules
    in front of the domain's `from`), resetting fields, the `asMap` view,
    paths through nested objects, and hashing.
 */
module Objects {
  import opened Wrappers
  import opened Values
  import Iwr
  import Fields
  import Schemas
  import Coerce
  import Types
  import ValueOps
  import NoCase
  import NumText

  /** An exception `from` raises as an `IllegalArgumentException` (a
      validation failure is one too) comes back naming the field; any other
      passes through unchanged. */
  function Rewrapped(f: Field, e: Error): (r: Error)
    ensures IsIllegalArgument(e) ==> r == Error(IllegalArgument, "Invalid value for field " + f.name)
    ensures !IsIllegalArgument(e) ==> r == e
  {
    if IsIllegalArgument(e) then Error(IllegalArgument, "Invalid value for field " + f.name)
    else e
  }

  /** The checks `set(i, value)` makes before converting: READ refuses; a
      key instance takes key fields only; in WRITE a readonly field is
      frozen and Java's null goes only into a nullable field. */
  function SetGate(o: FObject, f: Field, x: Coerce.Input): (r: Outcome)
    ensures o.state == Iwr.Read ==> r == Fail(Iwr.NotWritable)
    ensures r.Pass? <==> o.state != Iwr.Read && (o.isKey ==> Fields.IsKey(f))
                         && (o.state == Iwr.Write ==> !Fields.IsReadonly(f) && (x == Coerce.Raw(Null) ==> Fields.IsNullable(f)))
  {
    if o.state == Iwr.Read then Fail(Iwr.NotWritable)
    else if o.isKey && !Fields.IsKey(f) then Fail(Error(IllegalState, "Field " + f.name + " is NOT a key!"))
    else if o.state == Iwr.Write && Fields.IsReadonly(f) then Fail(Error(IllegalState, "Field " + f.name + " is readonly!"))
    else if o.state == Iwr.Write && x == Coerce.Raw(Null) && !Fields.IsNullable(f) then
      Fail(Error(IllegalState, "Field " + f.name + " is not nullable!"))
    else Pass
  }

  /** What the field's domain makes of the value. */
  function Converted(env: Types.Env, f: Field, x: Coerce.Input): Result<Value> {
    Coerce.From(env, f.domain.kind, Some(f.domain), x)
  }

  /** `set(i, value)`: the gate, then the field domain's `from`, then the
      value is stored at `i`; a failure anywhere leaves the object as it
      was. */
  function SetAt(env: Types.Env, o: FObject, i: int, x: Coerce.Input): (r: Result<FObject>)
    ensures o.state == Iwr.Read ==> r == Err(Iwr.NotWritable)
    ensures r.Ok? <==> 0 <= i < |o.schema.fields| && 0 <= i < |o.vals|
                       && SetGate(o, o.schema.fields[i], x).Pass? && Converted(env, o.schema.fields[i], x).Ok?
    ensures r.Ok? ==> r.value == o.(vals := o.vals[i := Converted(env, o.schema.fields[i], x).value])
    ensures o.state != Iwr.Read && !(0 <= i < |o.schema.fields|) ==> r == Err(NumText.OutOfBounds(i, |o.schema.fields|))
    ensures r.Err? && o.state != Iwr.Read && 0 <= i < |o.schema.fields| && 0 <= i < |o.vals|
            && SetGate(o, o.schema.fields[i], x).Pass? ==>
              r.error == Rewrapped(o.schema.fields[i], Converted(env, o.schema.fields[i], x).error)
  {
    if o.state == Iwr.Read then Err(Iwr.NotWritable) else
    if !(0 <= i < |o.schema.fields|) then Err(NumText.OutOfBounds(i, |o.schema.fields|))
    else
      var f := o.schema.fields[i];
      :- SetGate(o, f, x);
      match Converted(env, f, x)
      case Err(e) => Err(Rewrapped(f, e))
      case Ok(v) =>
        if !(0 <= i < |o.vals|) then Err(NumText.OutOfBounds(i, |o.vals|))
        else Ok(o.(vals := o.vals[i := v]))
  }

  /** `indexOf(name)`: the index of the field named so ignoring case, or
      "No such field". */
  function IndexOf(o: FObject, name: string): (r: Result<int>)
    ensures r.Ok? <==> Schemas.FindField(o.schema, name).Some?
    ensures r.Ok? ==> r.value == Schemas.FindField(o.schema, name).value.index
  {
    var f :- Schemas.FieldNamed(o.schema, name);
    Ok(f.index)
  }

  /** `set(name, value)`. */
  function Set(env: Types.Env, o: FObject, name: string, x: Coerce.Input): (r: Result<FObject>)
    ensures r.Ok? ==> IndexOf(o, name).Ok? && r == SetAt(env, o, IndexOf(o, name).value, x)
    ensures IndexOf(o, name).Err? ==> r.Err? && r.error.kind == IllegalArgument
  {
    var i :- IndexOf(o, name);
    SetAt(env, o, i, x)
  }

  /** `getfv(name)`: the value of the field named so ignoring case. */
  function GetFv(o: FObject, name: string): (r: Result<Value>)
    ensures r.Ok? <==> IndexOf(o, name).Ok? && 0 <= IndexOf(o, name).value < |o.vals|
    ensures r.Ok? ==> r.value == o.vals[IndexOf(o, name).value]
  {
    var i :- IndexOf(o, name);
    if 0 <= i < |o.vals| then Ok(o.vals[i]) else Err(NumText.OutOfBounds(i, |o.vals|))
  }

  /** After a successful `set`, `getfv` of that field under any spelling
      sees the converted value and every other field is unchanged. */
  lemma SetThenGet(env: Types.Env, o: FObject, name: string, x: Coerce.Input, other: string)
    requires Indexed(o.schema) && Schemas.UniqueNames(o.schema.fields)
    requires Set(env, o, name, x).Ok?
    ensures GetFv(Set(env, o, name, x).value, name) == Converted(env, Schemas.FindField(o.schema, name).value, x)
    ensures IndexOf(o, other).Ok? && IndexOf(o, other).value != IndexOf(o, name).value ==>
              GetFv(Set(env, o, name, x).value, other) == GetFv(o, other)
  {
  }

  // ---------------------------------------------------------------------
  // Reset

  /** The fields `reset` touches: all of them in INIT, the non-readonly
      ones in WRITE. */
  predicate Resets(s: Iwr.IwrState, f: Field) {
    s == Iwr.Init || (s == Iwr.Write && !Fields.IsReadonly(f))
  }

  /** `reset()` (each reset field back to its default) and `resetRaw()`
      (each reset field to NULL). The state switch picks the fields before
      the writable check, so READ ends in the switch's `AssertionError`. */
  function Reset(o: FObject, raw: bool): (r: Result<FObject>)
    requires Indexed(o.schema) && |o.vals| == |o.schema.fields|
    ensures o.state == Iwr.Read ==> r.Err? && r.error.kind == Assertion
    ensures r.Ok? <==> o.state != Iwr.Read
    ensures r.Ok? ==> r.value.state == o.state && |r.value.vals| == |o.vals|
    ensures r.Ok? ==> forall i :: 0 <= i < |o.vals| ==>
                        r.value.vals[i] == (if !Resets(o.state, o.schema.fields[i]) then o.vals[i]
                                            else if raw then Null else Fields.DefaultValue(o.schema.fields[i]))
  {
    if o.state == Iwr.Read then Fails(Assertion, "")
    else
      var fs := o.schema.fields;
      Ok(o.(vals := seq(|o.vals|, i requires 0 <= i < |o.vals| =>
                          if !Resets(o.state, fs[i]) then o.vals[i]
                          else if raw then Null else Fields.DefaultValue(fs[i]))))
  }

  /** `reset()` in INIT gives back the object `make()` would build. */
  lemma ResetInInitIsFresh(o: FObject)
    requires Indexed(o.schema) && |o.vals| == |o.schema.fields| && o.state == Iwr.Init
    ensures Reset(o, false).Ok?
    ensures forall i :: 0 <= i < |o.vals| ==> Reset(o, false).value.vals[i] == Fields.DefaultValue(o.schema.fields[i])
  {
  }

  /** `reset()` is idempotent, and a readonly field keeps its value
      through it in WRITE. */
  lemma ResetIdempotent(o: FObject, raw: bool)
    requires Indexed(o.schema) && |o.vals| == |o.schema.fields| && o.state != Iwr.Read
    ensures Reset(Reset(o, raw).value, raw) == Reset(o, raw)
    ensures o.state == Iwr.Write ==>
              forall i :: 0 <= i < |o.vals| && Fields.IsReadonly(o.schema.fields[i]) ==> Reset(o, raw).value.vals[i] == o.vals[i]
  {
    var r := Reset(o, raw).value;
    assert Reset(r, raw).value.vals == r.vals;
  }

  // ---------------------------------------------------------------------
  // The asMap view

  /** `asMap().put(key, value)`: the field's previous value and the object
      after `set`, with every `set` rule applied. */
  function MapPut(env: Types.Env, o: FObject, name: string, v: Value): (r: Result<(FObject, Value)>)
    ensures r.Ok? <==> GetFv(o, name).Ok? && SetAt(env, o, IndexOf(o, name).value, Coerce.Fv(v)).Ok?
    ensures r.Ok? ==> r.value == (SetAt(env, o, IndexOf(o, name).value, Coerce.Fv(v)).value, GetFv(o, name).value)
  {
    var was :- GetFv(o, name);
    var i := IndexOf(o, name).value;
    var p :- SetAt(env, o, i, Coerce.Fv(v));
    Ok((p, was))
  }

  /** `asMap().remove(key)`: a `put` of NULL. The value is the NULL fusion
      value rather than Java's null, so the nullable check of WRITE does
      not fire. */
  function MapRemove(env: Types.Env, o: FObject, name: string): (r: Result<(FObject, Value)>)
    ensures r == MapPut(env, o, name, Null)
  {
    MapPut(env, o, name, Null)
  }

  /** `asMap().clear()`: refused in READ; otherwise every value becomes
      NULL, past the key, readonly and nullable rules. */
  function MapClear(o: FObject): (r: Result<FObject>)
    ensures r.Ok? <==> o.state != Iwr.Read
    ensures r.Ok? ==> r.value.state == o.state && |r.value.vals| == |o.vals|
                      && forall i :: 0 <= i < |o.vals| ==> r.value.vals[i].Null?
  {
    if o.state == Iwr.Read then Err(Iwr.NotWritable) else
    Ok(o.(vals := seq(|o.vals|, i => Null)))
  }

  /** `asMap().entrySet()`: one entry per field in schema order, named by
      the field. */
  function MapEntries(o: FObject): (es: seq<Entry>)
    requires |o.vals| <= |o.schema.fields|
    ensures |es| == |o.vals|
    ensures forall i :: 0 <= i < |es| ==> es[i].key == o.schema.fields[i].name && es[i].value == o.vals[i]
  {
    seq(|o.vals|, i requires 0 <= i < |o.vals| => Entry(o.schema.fields[i].name, o.vals[i]))
  }

  /** `asMap().containsKey(key)`: the schema has a field of that name. */
  function MapContainsKey(o: FObject, name: string): (r: bool)
    ensures r <==> exists i :: 0 <= i < |o.schema.fields| && NoCase.CompareIgnoreCase(o.schema.fields[i].name, name) == 0
  {
    Schemas.FindField(o.schema, name).Some?
  }

  /** The map view and the object agree: the entry under each field's name
      is `getfv` of that name. */
  lemma MapEntriesAgree(o: FObject, i: int)
    requires Indexed(o.schema) && Schemas.UniqueNames(o.schema.fields)
    requires |o.vals| == |o.schema.fields| && 0 <= i < |o.vals|
    ensures MapContainsKey(o, MapEntries(o)[i].key)
    ensures GetFv(o, MapEntries(o)[i].key) == Ok(MapEntries(o)[i].value)
  {
    NoCase.CompareIgnoreCaseZeroIff(o.schema.fields[i].name, o.schema.fields[i].name);
    Schemas.FieldNamedIndex(o.schema, i, o.schema.fields[i].name);
  }

  // ---------------------------------------------------------------------
  // Paths

  /** `set(path, value)`: one name sets that field; a longer path goes into
      the OBJECT the first name holds, which is set in its turn and put
      back. */
  function SetPath(env: Types.Env, o: FObject, path: seq<string>, x: Coerce.Input): (r: Result<FObject>)
    requires |path| > 0
    ensures o.state == Iwr.Read ==> r == Err(Iwr.NotWritable)
    ensures |path| == 1 ==> r == (if o.state == Iwr.Read then Err(Iwr.NotWritable) else Set(env, o, path[0], x))
    ensures |path| > 1 && GetFv(o, path[0]).Ok? && GetFv(o, path[0]).value.Null? && o.state != Iwr.Read ==>
              r == Fails(IllegalArgument, "Null object encountered in set-path!")
    ensures |path| > 1 && GetFv(o, path[0]).Ok? && GetFv(o, path[0]).value.ListVal? && o.state != Iwr.Read ==>
              r == Fails(Unsupported, "TODO: Cannot path-into lists yet!")
    ensures r.Ok? ==> r.value.state == o.state && r.value.schema == o.schema && |r.value.vals| == |o.vals|
    decreases |path|
  {
    if o.state == Iwr.Read then Err(Iwr.NotWritable) else
    if |path| == 1 then Set(env, o, path[0], x)
    else
      var cur :- GetFv(o, path[0]);
      var i := IndexOf(o, path[0]).value;
      match cur
      case Null => Fails(IllegalArgument, "Null object encountered in set-path!")
      case ObjVal(inner) =>
        var changed :- SetPath(env, inner, path[1..], x);
        Ok(o.(vals := o.vals[i := ObjVal(changed)]))
      case ListVal(_) => Fails(Unsupported, "TODO: Cannot path-into lists yet!")
      case _ => Fails(IllegalArgument, "Bad path")
  }

  /** `get(path)`: NULL as soon as a name holds NULL, the value at the last
      name, and the nested object's own `get` in between. */
  function GetPath(o: FObject, path: seq<string>): (r: Result<Value>)
    requires |path| > 0
    ensures GetFv(o, path[0]).Err? ==> r.Err?
    ensures GetFv(o, path[0]).Ok? && GetFv(o, path[0]).value.Null? ==> r == Ok(Null)
    ensures |path| == 1 ==> r == GetFv(o, path[0])
    decreases |path|
  {
    var fv :- GetFv(o, path[0]);
    if fv.Null? then Ok(Null)
    else if |path| == 1 then Ok(fv)
    else
      match fv
      case ObjVal(inner) => GetPath(inner, path[1..])
      case ListVal(_) => Fails(Unsupported, "TODO: Cannot path-into lists yet!")
      case _ => Fails(IllegalArgument, "Bad path")
  }

  /** Objects whose schemas, at every depth along a path, have unique names
      and dense indexes. */
  predicate Tidy(o: FObject) {
    Indexed(o.schema) && Schemas.UniqueNames(o.schema.fields)
  }

  /** After `set(path, value)`, `get(path)` sees what the last field's
      domain made of the value. */
  lemma {:induction false} SetPathThenGet(env: Types.Env, o: FObject, path: seq<string>, x: Coerce.Input)
    requires |path| > 0 && Tidy(o) && SetPath(env, o, path, x).Ok?
    requires forall k :: 1 <= k < |path| ==> PathTidy(o, path[..k])
    ensures var v := Converted(env, LastField(o, path), x);
            v.Ok? && GetPath(SetPath(env, o, path, x).value, path) == (if v.value.Null? then Ok(Null) else v)
    decreases |path|
  {
    var r := SetPath(env, o, path, x).value;
    if |path| == 1 {
      SetThenGet(env, o, path[0], x, path[0]);
    } else {
      hide *;
      SetPathStep(env, o, path, x);
      var inner := GetFv(o, path[0]).value.obj;
      PathTidyTail(o, path);
      SetPathThenGet(env, inner, path[1..], x);
      GetPathStep(r, path);
      LastFieldStep(o, path);
    }
  }

  /** Tidiness along a path carries over to the rest of the path inside
      the first object. */
  lemma PathTidyTail(o: FObject, path: seq<string>)
    requires |path| > 1 && forall k :: 1 <= k < |path| ==> PathTidy(o, path[..k])
    ensures GetFv(o, path[0]).Ok? && GetFv(o, path[0]).value.ObjVal?
    ensures Tidy(GetFv(o, path[0]).value.obj)
    ensures forall k :: 1 <= k < |path[1..]| ==> PathTidy(GetFv(o, path[0]).value.obj, path[1..][..k])
  {
    assert PathTidy(o, path[..1]);
    var inner := GetFv(o, path[0]).value.obj;
    forall k | 1 <= k < |path[1..]| ensures PathTidy(inner, path[1..][..k]) {
      assert PathTidy(o, path[..k + 1]);
      assert path[..k + 1][1..] == path[1..][..k];
    }
  }

  /** A longer path sets the nested object and puts it back in place. */
  lemma SetPathStep(env: Types.Env, o: FObject, path: seq<string>, x: Coerce.Input)
    requires |path| > 1 && SetPath(env, o, path, x).Ok?
    ensures GetFv(o, path[0]).Ok? && GetFv(o, path[0]).value.ObjVal?
    ensures var inner := GetFv(o, path[0]).value.obj;
            SetPath(env, inner, path[1..], x).Ok?
            && GetFv(SetPath(env, o, path, x).value, path[0]) == Ok(ObjVal(SetPath(env, inner, path[1..], x).value))
  {
  }

  /** A longer path through an object is that object's own path. */
  lemma GetPathStep(o: FObject, path: seq<string>)
    requires |path| > 1 && GetFv(o, path[0]).Ok? && GetFv(o, path[0]).value.ObjVal?
    ensures GetPath(o, path) == GetPath(GetFv(o, path[0]).value.obj, path[1..])
  {
  }

  lemma LastFieldStep(o: FObject, path: seq<string>)
    requires |path| > 1 && GetFv(o, path[0]).Ok? && GetFv(o, path[0]).value.ObjVal?
    ensures LastField(o, path) == LastField(GetFv(o, path[0]).value.obj, path[1..])
  {
  }

  /** Along `path`, every name but the last names a field holding a tidy
      object. */
  predicate PathTidy(o: FObject, prefix: seq<string>)
    decreases |prefix|
  {
    |prefix| == 0
    || (GetFv(o, prefix[0]).Ok? && GetFv(o, prefix[0]).value.ObjVal?
        && Tidy(GetFv(o, prefix[0]).value.obj)
        && PathTidy(GetFv(o, prefix[0]).value.obj, prefix[1..]))
  }

  /** The field the last name of a path names, in the object the rest of
      the path leads to. */
  function LastField(o: FObject, path: seq<string>): Field
    requires |path| > 0
    decreases |path|
  {
    if |path| == 1 then
      match Schemas.FindField(o.schema, path[0])
      case Some(f) => f
      case None => Field("", Domain(Any, None, Null, None, None, None), 0, None, 0)
    else
      match GetFv(o, path[0])
      case Ok(ObjVal(inner)) => LastField(inner, path[1..])
      case _ => Field("", Domain(Any, None, Null, None, None, None), 0, None, 0)
  }

  // ---------------------------------------------------------------------
  // Hashing

  /** `hashCode()` as written: the first key field's value hash, and
      otherwise `Object.hashCode`, an identity hash, given here as
      `identity`. */
  function HashAsWritten(o: FObject, identity: int): (r: Result<int>)
    ensures |o.schema.keyFields| > 0 ==> r == ValueOps.Hash(ObjVal(o))
    ensures |o.schema.keyFields| == 0 ==> r == Ok(identity)
  {
    if |o.schema.keyFields| == 0 then Ok(identity) else ValueOps.Hash(ObjVal(o))
  }

  /** Two distinct but equal objects of a type without key fields: their
      identity hashes differ, so the source's `hashCode` breaks the
      contract `equals` relies on. */
  lemma KeylessHashBreaksEquals()
    ensures var s := Schema("T", [], []);
            var a := FObject("T", s, false, Iwr.Read, []);
            ValueOps.Equal(ObjVal(a), ObjVal(a))
            && HashAsWritten(a, 1) != HashAsWritten(a, 2)
  {
  }

  /** The intended `hashCode`: the class hash when there are no key fields.
      Objects `equals` considers equal then hash alike. */
  lemma EqualObjectsHashAlike(a: FObject, b: FObject)
    requires WellFormed(ObjVal(a))
    requires ValueOps.Equal(ObjVal(a), ObjVal(b))
    requires ValueOps.Hash(ObjVal(a)).Ok? && ValueOps.Hash(ObjVal(b)).Ok?
    ensures ValueOps.Hash(ObjVal(a)).value == ValueOps.Hash(ObjVal(b)).value
  {
    ValueOps.EqualSameHash(ObjVal(a), ObjVal(b));
  }

  // ---------------------------------------------------------------------
  // Comparison without a schema

  /** `compareTo` of objects without a schema: over this object's fields
      that the other also has, in this object's order, the first non-zero
      comparison; no field in common is refused. */
  function CompareCommon(xs: seq<Entry>, ys: seq<Entry>): (r: Result<int>)
    ensures r.Ok? && r.value != 0 ==> exists i :: 0 <= i < |xs| && Lookup(ys, xs[i].key).Some?
    ensures (forall i :: 0 <= i < |xs| ==> Lookup(ys, xs[i].key).None?) ==>
              r == Fails(IllegalArgument, "Cannot compare schema-less FO that have 0 fields in common!")
  {
    var p :- CompareFrom(xs, ys, 0, 0);
    if p.1 == 0 then Fails(IllegalArgument, "Cannot compare schema-less FO that have 0 fields in common!")
    else Ok(p.0)
  }

  /** The loop from position `k` with `count` fields in common so far:
      the verdict and the final count. */
  function CompareFrom(xs: seq<Entry>, ys: seq<Entry>, k: nat, count: nat): (r: Result<(int, nat)>)
    requires k <= |xs|
    ensures r.Ok? ==> r.value.1 >= count
    ensures r.Ok? && r.value.1 > count ==> exists i :: k <= i < |xs| && Lookup(ys, xs[i].key).Some?
    ensures r.Ok? && r.value.0 != 0 ==> r.value.1 > count
    ensures (forall i :: k <= i < |xs| ==> Lookup(ys, xs[i].key).None?) ==> r == Ok((0, count))
    decreases |xs| - k
  {
    if k == |xs| then Ok((0, count))
    else
      match Lookup(ys, xs[k].key)
      case None => CompareFrom(xs, ys, k + 1, count)
      case Some(other) =>
        var c :- ValueOps.Compare(xs[k].value, other);
        if c != 0 then Ok((c, count + 1)) else CompareFrom(xs, ys, k + 1, count + 1)
  }
}

=== FILE: objtypes.dfy ===
/** `FusionObjectTypeBase`: the checks a fusion-object type makes of its
    schema, and how one schema field is derived from an accessor of the
    data class and its `@FoField` annotation.

    The accessor is described abstractly: whether it returns a
    `FusionValue`, the qualified type its return class maps to, whether
    that class is primitive, and the annotation if there is one. Reading the
    annotation's range and default text is the JSON reader's job; here the
    two reads are parameters.
 */
module ObjectTypes {
  import opened Wrappers
  import opened Values
  import Fields
  import Domains
  import Types
  import Zeros
  import Fusion
  import Idents
  import JsonRead
  import JsonLex
  import Lists

  /** `validateFieldName`: a name starts with a letter; `charAt(0)` of an
      empty name is out of bounds. */
  function ValidateFieldName(name: string): (r: Outcome)
    ensures r.Pass? <==> |name| > 0 && Idents.IsLetter(name[0])
    ensures |name| > 0 && !Idents.IsLetter(name[0]) ==> r == Fail(Error(IllegalArgument, "Invalid field name: " + name))
    ensures |name| == 0 ==> r.Fail? && r.error.kind == IndexOutOfBounds
  {
    if |name| == 0 then Fail(Error(IndexOutOfBounds, "index 0, length 0"))
    else if !Idents.IsLetter(name[0]) then Fail(Error(IllegalArgument, "Invalid field name: " + name))
    else Pass
  }

  /** The constructor's loop over the fields: the first bad name raises. */
  function ValidateNames(fs: seq<Field>): (r: Outcome)
    ensures r.Pass? <==> forall i :: 0 <= i < |fs| ==> ValidateFieldName(fs[i].name).Pass?
    ensures r.Fail? ==> exists i :: 0 <= i < |fs| && r == ValidateFieldName(fs[i].name)
                                    && forall j :: 0 <= j < i ==> ValidateFieldName(fs[j].name).Pass?
  {
    if |fs| == 0 then Pass
    else if ValidateFieldName(fs[0].name).Fail? then ValidateFieldName(fs[0].name)
    else
      var r := ValidateNames(fs[1..]);
      assert forall i :: 1 <= i < |fs| ==> fs[i] == fs[1..][i - 1];
      if r.Fail? then
        var i :| 0 <= i < |fs[1..]| && r == ValidateFieldName(fs[1..][i].name)
                 && forall j :: 0 <= j < i ==> ValidateFieldName(fs[1..][j].name).Pass?;
        assert fs[i + 1] == fs[1..][i];
        r
      else r
  }

  /** The type constructor: every field name is checked before the type
      exists. */
  function NewType(name: string, schema: Schema): (r: Result<Fusion.FobType>)
    ensures r.Ok? <==> forall f :: f in schema.fields ==> |f.name| > 0 && Idents.IsLetter(f.name[0])
    ensures r.Ok? ==> r.value == Fusion.FobType(name, schema)
  {
    var t := Fusion.FobType(name, schema);
    :- ValidateNames(schema.fields);
    Ok(t)
  }

  /** `@FoField`: the flags, the item type of a collection (absent for
      `Object.class`), and the range and default texts ("" for none). */
  datatype FoField = FoField(isKey: bool, isNullable: bool, isReadonly: bool,
                             itemType: Option<QualifiedType>, range: string, defval: string)

  /** What the type derives a field from. */
  datatype Accessor = Accessor(returnsFusionValue: bool, valueType: QualifiedType, primitive: bool,
                               annotation: Option<FoField>)

  /** The two reads: a list read of `[` + range + `]`, and `readJson` of a
      default in the field's domain. */
  datatype Readers = Readers(list: string -> Result<Value>, json: (Domain, string) -> Result<Value>)

  /** The library's own two reads: `LIST.read` of the text with no domain,
      and `readJson` of the default in the field's domain. */
  function LibraryReaders(env: Types.Env, cfg: JsonRead.Config): (rd: Readers)
    ensures forall s :: rd.list(s) == (match JsonRead.Read(env, cfg, s, 0, List, None)
                                       case Ok(x) => Ok(x.val) case Err(e) => Err(e))
    ensures forall d: Domain, s :: rd.json(d, s).Ok? ==>
              JsonRead.ReadJson(env, cfg, Some(s), d.kind, Some(d)) == Ok(Some(rd.json(d, s).value))
    ensures forall d: Domain, s :: rd.json(d, s).Err? ==>
              JsonRead.ReadJson(env, cfg, Some(s), d.kind, Some(d)) == Err(rd.json(d, s).error)
  {
    Readers(s => match JsonRead.Read(env, cfg, s, 0, List, None)
                 case Ok(x) => Ok(x.val)
                 case Err(e) => Err(e),
            (d: Domain, s) => match JsonRead.ReadJson(env, cfg, Some(s), d.kind, Some(d))
                              case Ok(v) => (if v.Some? then Ok(v.value) else Ok(Null))
                              case Err(e) => Err(e))
  }

  /** With the library's reader, `@FoField(range = "\"a")` leaves a string
      unterminated; the EOFException is an IOException, so the range is
      refused as "Invalid range". */
  lemma UnterminatedRangeInvalid(env: Types.Env, cfg: JsonRead.Config)
    ensures ReadRange(LibraryReaders(env, cfg), "\"a") == Fails(IllegalArgument, "Invalid range: \"a")
  {
    var t := "[\"a]";
    assert "[" + "\"a" + "]" == t;
    UnterminatedListEof(env, cfg, t);
    hide JsonRead.Read;
  }

  /** The list read of `["a]` ends in the EOFException of its unterminated
      item. */
  lemma UnterminatedListEof(env: Types.Env, cfg: JsonRead.Config, t: string)
    requires t == "[\"a]"
    ensures JsonRead.Read(env, cfg, t, 0, List, None).Err?
    ensures JsonRead.Read(env, cfg, t, 0, List, None).error.kind == Eof
  {
    var l := Lists.New(JsonRead.ListAny).value;
    UnterminatedItemEof(env, cfg, t, l);
    hide JsonRead.ReadItems;
    assert JsonLex.SkipWs(t, 1) == 1;
    assert JsonRead.ReadList(env, cfg, t, 0, None).error.kind == Eof;
  }

  /** The first item, `"a]`, is a string without its closing quote. */
  lemma UnterminatedItemEof(env: Types.Env, cfg: JsonRead.Config, t: string, l: FList)
    requires t == "[\"a]" && l == Lists.New(JsonRead.ListAny).value
    ensures JsonRead.ReadItems(env, cfg, t, 1, l).Err?
    ensures JsonRead.ReadItems(env, cfg, t, 1, l).error.kind == Eof
  {
    JsonLex.UnclosedStringBody(t, 2);
    assert JsonLex.ReadString(t, 1) == JsonLex.StringBody(t, 2);
    assert JsonRead.Read(env, cfg, t, 1, Any, Some(Domains.AnyDomain)) == JsonRead.ReadAny(env, cfg, t, 1);
  }

  /** The flags of a field: KEY|READONLY for a key, the annotated
      NULLABLE/READONLY otherwise, NULLABLE alone without an annotation;
      a primitive accessor is never nullable. */
  function Flags(a: Option<FoField>, primitive: bool): (flags: bv32)
    ensures Fields.KeyRule(flags)
    ensures a.Some? && a.value.isKey ==> flags == Fields.KeyFlag | Fields.ReadonlyFlag
    ensures a.None? ==> flags == (if primitive then 0 else Fields.NullableFlag)
    ensures a.Some? && !a.value.isKey ==>
              !Fields.IsFlagSet(flags, Fields.KeyFlag)
              && (Fields.IsFlagSet(flags, Fields.NullableFlag) <==> a.value.isNullable && !primitive)
              && (Fields.IsFlagSet(flags, Fields.ReadonlyFlag) <==> a.value.isReadonly)
  {
    var annotated: bv32 :=
      if a.None? then Fields.NullableFlag
      else if a.value.isKey then Fields.KeyFlag | Fields.ReadonlyFlag
      else (if a.value.isNullable then Fields.NullableFlag else 0) | (if a.value.isReadonly then Fields.ReadonlyFlag else 0);
    if primitive then Fields.UnsetFlag(annotated, Fields.NullableFlag) else annotated
  }

  /** The annotated range, read as a list; an IOException of the read,
      the EOFException among them, becomes "Invalid range", and any other
      failure passes through. */
  function ReadRange(rd: Readers, text: string): (r: Result<Value>)
    ensures rd.list("[" + text + "]").Ok? ==> r == rd.list("[" + text + "]")
    ensures rd.list("[" + text + "]").Err? ==> r.Err?
    ensures rd.list("[" + text + "]").Err? && rd.list("[" + text + "]").error.kind in {Io, Eof} ==>
              r == Fails(IllegalArgument, "Invalid range: " + text)
    ensures rd.list("[" + text + "]").Err? && rd.list("[" + text + "]").error.kind !in {Io, Eof} ==>
              r == rd.list("[" + text + "]")
  {
    match rd.list("[" + text + "]")
    case Ok(v) => Ok(v)
    case Err(e) => if e.kind == Io || e.kind == Eof then Fails(IllegalArgument, "Invalid range: " + text) else Err(e)
  }

  /** The accessor's qualified type, with the annotated item type as the
      qualifier of a LIST or MAP. */
  function FieldType(acc: Accessor): (qt: QualifiedType)
    ensures qt.kind == acc.valueType.kind
    ensures !(acc.annotation.Some? && acc.annotation.value.itemType.Some? && IsCollection(acc.valueType.kind)) ==>
              qt == acc.valueType
  {
    match acc.annotation
    case Some(a) =>
      if IsCollection(acc.valueType.kind) && a.itemType.Some? then
        QualifiedType(acc.valueType.kind, Some(Types.QtText(a.itemType.value)))
      else acc.valueType
    case None => acc.valueType
  }

  /** The field's domain: ANY without a range for a `FusionValue`
      accessor, otherwise built from the field type and the annotated
      range. */
  function FieldDomain(env: Types.Env, acc: Accessor, rd: Readers): (r: Result<Domain>)
    ensures acc.returnsFusionValue ==> r == Ok(Domains.AnyDomain)
    ensures r.Ok? ==> r.value.kind == (if acc.returnsFusionValue then Any else acc.valueType.kind)
    ensures !acc.returnsFusionValue && (acc.annotation.None? || |acc.annotation.value.range| == 0) ==>
              r == Domains.MakeDomain(env, FieldType(acc).kind, FieldType(acc).qualifier, Null)
  {
    if acc.returnsFusionValue then
      Domains.AnyDomainsBuilt(env);
      Domains.MakeDomain(env, Any, None, Null)
    else
      var qt := FieldType(acc);
      var range :- if acc.annotation.Some? && |acc.annotation.value.range| > 0 then ReadRange(rd, acc.annotation.value.range)
                   else Ok(Null);
      Domains.MakeDomain(env, qt.kind, qt.qualifier, range)
  }

  /** The field's default: the domain's zero for a primitive accessor,
      none otherwise, and the annotated default read in the domain when
      there is one. The zero is computed before the override. */
  function FieldDefault(env: Types.Env, acc: Accessor, d: Domain, rd: Readers): (r: Result<Option<Value>>)
    ensures acc.primitive && Zeros.Zero(env, d).Err? ==> r.Err?
    ensures (acc.annotation.None? || |acc.annotation.value.defval| == 0) ==>
              r == (if acc.primitive then (if Zeros.Zero(env, d).Ok? then Ok(Some(Zeros.Zero(env, d).value)) else Err(Zeros.Zero(env, d).error))
                    else Ok(None))
    ensures r.Ok? && acc.annotation.Some? && |acc.annotation.value.defval| > 0 ==>
              r.value.Some? && rd.json(d, acc.annotation.value.defval) == Ok(r.value.value)
    ensures acc.annotation.Some? && |acc.annotation.value.defval| > 0 && (!acc.primitive || Zeros.Zero(env, d).Ok?)
            && rd.json(d, acc.annotation.value.defval).Err? && IsIllegalArgument(rd.json(d, acc.annotation.value.defval).error) ==>
              r == Fails(IllegalArgument, "Invalid defval: " + acc.annotation.value.defval)
  {
    var base :- if acc.primitive then var z :- Zeros.Zero(env, d); Ok(Some(z)) else Ok(None);
    if acc.annotation.Some? && |acc.annotation.value.defval| > 0 then
      match rd.json(d, acc.annotation.value.defval)
      case Ok(v) => Ok(Some(v))
      case Err(e) =>
        if IsIllegalArgument(e) then Fails(IllegalArgument, "Invalid defval: " + acc.annotation.value.defval)
        else Err(e)
    else Ok(base)
  }

  /** `makeSchemaField`: domain, flags, default, then the field
      constructor's own checks. */
  function MakeSchemaField(env: Types.Env, name: string, acc: Accessor, index: int, rd: Readers): (r: Result<Field>)
    ensures r.Ok? ==> Fields.ValidField(r.value) && r.value.name == name && r.value.index == index
    ensures r.Ok? ==> r.value.flags == Flags(acc.annotation, acc.primitive)
    ensures r.Ok? && acc.returnsFusionValue ==> r.value.domain == Domains.AnyDomain
    ensures r.Ok? && acc.primitive ==> !Fields.IsNullable(r.value)
    ensures r.Ok? && acc.annotation.None? ==> !Fields.IsKey(r.value) && !Fields.IsReadonly(r.value)
    ensures r.Ok? && acc.annotation.Some? && acc.annotation.value.isKey ==>
              Fields.IsKey(r.value) && Fields.IsReadonly(r.value) && !Fields.IsNullable(r.value)
    ensures r.Ok? && !acc.primitive && (acc.annotation.None? || |acc.annotation.value.defval| == 0) ==>
              r.value.defval.None? && Fields.DefaultValue(r.value).Null?
  {
    hide FieldDomain, FieldDefault, Fields.MakeField;
    var d :- FieldDomain(env, acc, rd);
    var flags := Flags(acc.annotation, acc.primitive);
    var dv :- FieldDefault(env, acc, d, rd);
    Fields.MakeField(name, d, flags, dv, index)
  }

  /** The flags never make the field constructor fail: a derived field is
      refused only for its domain, its default, or a default that does not
      fit the domain. */
  lemma OnlyDefaultsRefused(env: Types.Env, name: string, acc: Accessor, index: int, rd: Readers)
    requires FieldDomain(env, acc, rd).Ok?
    requires FieldDefault(env, acc, FieldDomain(env, acc, rd).value, rd).Ok?
    ensures MakeSchemaField(env, name, acc, index, rd).Ok? <==>
              Fields.DefaultFits(FieldDomain(env, acc, rd).value, FieldDefault(env, acc, FieldDomain(env, acc, rd).value, rd).value)
  {
  }

  /** A reference-typed accessor without an annotation gives a nullable,
      non-key, writable field with no default in the domain of its
      return type. */
  lemma PlainAccessorField(env: Types.Env, name: string, qt: QualifiedType, index: int, rd: Readers)
    requires Domains.MakeDomain(env, qt.kind, qt.qualifier, Null).Ok?
    ensures var r := MakeSchemaField(env, name, Accessor(false, qt, false, None), index, rd);
            r == Ok(Field(name, Domains.MakeDomain(env, qt.kind, qt.qualifier, Null).value, Fields.NullableFlag, None, index))
  {
  }
}

=== FILE: ranges.dfy ===
/** Range compilation and validation (`FusionValueType.compileRange`,
    `compileNumberRange`, `compileLengthRange`, the lexical `compileRange`
    and `validateRange`).

    A range is given as a LIST value: its first item is the minimum and its
    second, if any, the maximum, either of which may be null. It is compiled
    once, when a domain is built, into `Bounds` of the domain's payload
    class; a value is then checked against the compiled bounds. Strings,
    lists, maps and blobs are ranged by their length, the temporal kinds by
    bounds given as text, and the numeric kinds by numbers converted to the
    qualifier's class.
 */
module Ranges {
  import opened Wrappers
  import opened Values
  import opened NumText
  import Convert
  import ValueOps
  import Types
  import Validation
  import Iwr

  /** `(List) range.get()`: the payloads of a range list. */
  function RangeItems(range: Value): (r: Result<seq<Value>>)
    ensures r.Ok? <==> range.ListVal?
    ensures r.Ok? ==> r.value == range.list.items
  {
    if range.ListVal? then Ok(range.list.items)
    else Fails(ClassCast, "range payload cannot be cast to class java.util.List")
  }

  /** A compiled bound from a payload: null is no bound. */
  function Bound(v: Value): Option<Value> {
    if v.Null? then None else Some(v)
  }

  predicate IsNumber(v: Value) {
    v.IntVal? || v.DecVal?
  }

  /** The two bounds of a number range before conversion: the first item,
      and the second when there is one; each must be null or a `Number`. */
  function NumberPair(range: Value): (r: Result<(Value, Value)>)
    ensures r.Ok? <==> (range.ListVal? && |range.list.items| > 0
                        && (range.list.items[0].Null? || IsNumber(range.list.items[0]))
                        && (|range.list.items| > 1 ==> range.list.items[1].Null? || IsNumber(range.list.items[1])))
    ensures r.Ok? ==> r.value.0 == range.list.items[0]
    ensures r.Ok? ==> r.value.1 == if |range.list.items| > 1 then range.list.items[1] else Null
  {
    var items :- RangeItems(range);
    if |items| == 0 then Err(OutOfBounds(0, 0))
    else
      var min := items[0];
      var max := if |items| > 1 then items[1] else Null;
      if !(min.Null? || IsNumber(min)) || !(max.Null? || IsNumber(max)) then
        Fails(ClassCast, "range bound cannot be cast to class java.lang.Number")
      else Ok((min, max))
  }

  /** `convert(bound, numberClass)` of the kind that owns the class, as the
      source calls it: always, even when the bound already has that class. */
  function ConvertBoundAsWritten(v: Value, cls: JClass): (r: Result<Value>)
    requires IsNumber(v)
    ensures cls.IntC? ==> r == Convert.ConvertInteger(v, cls.width)
    ensures cls.DecC? ==> r == Convert.ConvertDecimal(v, cls.dwidth)
  {
    if cls.IntC? then Convert.ConvertInteger(v, cls.width)
    else if cls.DecC? then Convert.ConvertDecimal(v, cls.dwidth)
    else Fails(Assertion, "")
  }

  /** The conversion a bound evidently needs: none when it already has the
      class, as `_from` does for values. */
  function ConvertBound(v: Value, cls: JClass): (r: Result<Value>)
    requires IsNumber(v)
    ensures (v.IntVal? && cls == IntC(v.width)) || (v.DecVal? && cls == DecC(v.dwidth)) ==> r == Ok(v)
    ensures !((v.IntVal? && cls == IntC(v.width)) || (v.DecVal? && cls == DecC(v.dwidth))) ==>
      r == ConvertBoundAsWritten(v, cls)
  {
    if (v.IntVal? && cls == IntC(v.width)) || (v.DecVal? && cls == DecC(v.dwidth)) then Ok(v)
    else ConvertBoundAsWritten(v, cls)
  }

  /** `compileNumberRange` as written. */
  function CompileNumberRangeAsWritten(range: Value, cls: JClass): (r: Result<Bounds>)
    ensures r.Ok? ==> NumberPair(range).Ok?
    ensures r.Ok? ==> (r.value.min.None? <==> NumberPair(range).value.0.Null?)
    ensures r.Ok? ==> (r.value.max.None? <==> NumberPair(range).value.1.Null?)
  {
    var (min, max) :- NumberPair(range);
    var lo :- if min.Null? then Ok(Null) else ConvertBoundAsWritten(min, cls);
    var hi :- if max.Null? then Ok(Null) else ConvertBoundAsWritten(max, cls);
    Ok(Bounds(Bound(lo), Bound(hi)))
  }

  /** `compileNumberRange` with each bound kept when it already has the
      class: bounds of the class compile to themselves. */
  function CompileNumberRange(range: Value, cls: JClass): (r: Result<Bounds>)
    ensures r.Ok? ==> NumberPair(range).Ok?
    ensures NumberPair(range).Ok? ==> var (min, max) := NumberPair(range).value;
      (min.Null? || PayloadClass(min) == cls) && (max.Null? || PayloadClass(max) == cls)
      ==> r == Ok(Bounds(Bound(min), Bound(max)))
  {
    var (min, max) :- NumberPair(range);
    var lo :- if min.Null? then Ok(Null) else ConvertBound(min, cls);
    var hi :- if max.Null? then Ok(Null) else ConvertBound(max, cls);
    Ok(Bounds(Bound(lo), Bound(hi)))
  }

  /** For the integer classes the source's conversion already keeps a
      bound of the right class, so the two versions agree. */
  lemma IntegerRangesAgree(range: Value, w: IntWidth)
    ensures CompileNumberRangeAsWritten(range, IntC(w)) == CompileNumberRange(range, IntC(w))
  {
  }

  /** A `BigDecimal` range from 1.5 to 2.5 compiles, as written, to 1 to 2:
      the bounds lose their fractions. */
  lemma DecimalRangeTruncated()
    ensures var range := ListVal(FList(
              Domain(List, None, Null, None, Some(ListC), None), Iwr.Read,
              [DecVal(JBigDecimal, 15, 1), DecVal(JBigDecimal, 25, 1)]));
      && CompileNumberRangeAsWritten(range, DecC(JBigDecimal))
           == Ok(Bounds(Some(DecVal(JBigDecimal, 1, 0)), Some(DecVal(JBigDecimal, 2, 0))))
      && CompileNumberRange(range, DecC(JBigDecimal))
           == Ok(Bounds(Some(DecVal(JBigDecimal, 15, 1)), Some(DecVal(JBigDecimal, 25, 1))))
  {
    assert Convert.Pow10(1) == 10;
  }

  /** The bounds a length range may have: non-negative `Integer` minimum,
      positive `Integer` maximum, the maximum not below the minimum. */
  predicate LengthBounds(b: Bounds) {
    (b.min.Some? ==> b.min.value.IntVal? && b.min.value.width == JInt && b.min.value.n >= 0)
    && (b.max.Some? ==> b.max.value.IntVal? && b.max.value.width == JInt && b.max.value.n > 0)
    && (b.min.Some? && b.max.Some? ==> b.min.value.n <= b.max.value.n)
  }

  /** `compileLengthRange`: an `Integer` number range, then the checks on
      its bounds. */
  function CompileLengthRange(range: Value): (r: Result<Bounds>)
    ensures r.Ok? <==> CompileNumberRange(range, IntC(JInt)).Ok? && LengthBounds(CompileNumberRange(range, IntC(JInt)).value)
    ensures r.Ok? ==> r.value == CompileNumberRange(range, IntC(JInt)).value
    ensures r.Err? && CompileNumberRange(range, IntC(JInt)).Ok? ==> r.error.kind == IllegalArgument
  {
    var b :- CompileNumberRange(range, IntC(JInt));
    assert b.min.Some? ==> b.min.value.IntVal? && b.min.value.width == JInt;
    assert b.max.Some? ==> b.max.value.IntVal? && b.max.value.width == JInt;
    if b.min.Some? && b.min.value.n < 0 then Fails(IllegalArgument, "Invalid min: " + Types.Show(b.min.value))
    else if b.max.Some? && b.max.value.n <= 0 then Fails(IllegalArgument, "Invalid max: " + Types.Show(b.max.value))
    else if b.min.Some? && b.max.Some? && b.max.value.n < b.min.value.n then
      Fails(IllegalArgument, "Invalid size range: max < min")
    else Ok(b)
  }

  /** `(String) list.get(i)`: a plain string bound or null. */
  function TextBound(items: seq<Value>, i: nat): (r: Result<Option<string>>)
    ensures r.Ok? <==> i < |items| && (items[i].Null? || (items[i].StrVal? && items[i].sub.None?))
    ensures r.Ok? ==> (r.value.None? <==> items[i].Null?)
    ensures r.Ok? && r.value.Some? ==> r.value.value == items[i].text
  {
    if i >= |items| then Err(OutOfBounds(i, |items|))
    else if items[i].Null? then Ok(None)
    else if items[i].StrVal? && items[i].sub.None? then Ok(Some(items[i].text))
    else Fails(ClassCast, "range bound cannot be cast to class java.lang.String")
  }

  function ParseBound(env: Types.Env, k: TimeKind, t: Option<string>): (r: Result<Option<Value>>)
    ensures r.Ok? && r.value.Some? ==> r.value.value.TimeVal? && r.value.value.tkind == k
    ensures t.None? ==> r == Ok(None)
  {
    if t.None? then Ok(None)
    else
      var ticks :- env.parseTime(k, t.value);
      Ok(Some(TimeVal(k, ticks)))
  }

  /** The lexical `compileRange` of the temporal kinds: two text bounds,
      each parsed when present, the maximum not before the minimum. */
  function CompileLexical(env: Types.Env, k: TimeKind, range: Value): (r: Result<Bounds>)
    ensures r.Ok? ==> range.ListVal? && |range.list.items| >= 2
    ensures r.Ok? ==> (r.value.min.None? <==> range.list.items[0].Null?)
    ensures r.Ok? ==> (r.value.max.None? <==> range.list.items[1].Null?)
    ensures r.Ok? ==> r.value.min.Some? ==> r.value.min.value.TimeVal? && r.value.min.value.tkind == k
    ensures r.Ok? ==> r.value.max.Some? ==> r.value.max.value.TimeVal? && r.value.max.value.tkind == k
    ensures r.Ok? && r.value.min.Some? && r.value.max.Some? ==> r.value.min.value.ticks <= r.value.max.value.ticks
  {
    var items :- RangeItems(range);
    var lo :- TextBound(items, 0);
    var hi :- TextBound(items, 1);
    var min :- ParseBound(env, k, lo);
    var max :- ParseBound(env, k, hi);
    if min.Some? && max.Some? && max.value.ticks < min.value.ticks then
      Fails(IllegalArgument, "Max-value is less than min!")
    else Ok(Bounds(min, max))
  }

  /** `compileRange(range, qualifier)` of each kind. */
  function CompileRange(env: Types.Env, k: Kind, q: Option<string>, range: Value): (r: Result<Bounds>)
    ensures k in {Str, List, Map, Blob} ==> r == CompileLengthRange(range)
    ensures k in {Any, Bool, Object, Enum} ==> r == Fails(IllegalArgument, KindName(k) + " type does not support range!")
    ensures r.Ok? && k == Integer ==> Types.JavaDataClass(env, k, q).Ok?
  {
    match k
    case Integer =>
      var cls :- Types.JavaDataClass(env, k, q);
      CompileNumberRange(range, cls.value)
    case Decimal =>
      var cls :- Types.JavaDataClass(env, k, q);
      CompileNumberRange(range, cls.value)
    case Str => CompileLengthRange(range)
    case List => CompileLengthRange(range)
    case Map => CompileLengthRange(range)
    case Blob => CompileLengthRange(range)
    case Date => CompileLexical(env, k, range)
    case Time => CompileLexical(env, k, range)
    case DateTime => CompileLexical(env, k, range)
    case Instant => CompileLexical(env, k, range)
    case Duration => CompileLexical(env, k, range)
    case _ => Fails(IllegalArgument, KindName(k) + " type does not support range!")
  }

  // ---------------------------------------------------------------------
  // Validation

  /** `min.compareTo(value) <= 0` for a present minimum. */
  predicate AtLeast(min: Option<Value>, v: Value) {
    min.None? || (ValueOps.Compare(min.value, v).Ok? && ValueOps.Compare(min.value, v).value <= 0)
  }

  /** `max.compareTo(value) >= 0` for a present maximum. */
  predicate AtMost(max: Option<Value>, v: Value) {
    max.None? || (ValueOps.Compare(max.value, v).Ok? && ValueOps.Compare(max.value, v).value >= 0)
  }

  /** `validateRange(compiledRange, value, errpfx)`: the minimum is checked,
      then the maximum; a value outside is a ValidationException naming
      the bound and the value. */
  function CheckBounds(b: Bounds, v: Value, pfx: string): (r: Outcome)
    ensures r.Pass? <==> AtLeast(b.min, v) && AtMost(b.max, v)
    ensures r.Fail? && !AtLeast(b.min, v) && ValueOps.Compare(b.min.value, v).Ok? ==>
      r.error == Error(Validation, pfx + " less than " + Types.Show(b.min.value) + ": " + Types.Show(v))
    ensures r.Fail? && AtLeast(b.min, v) && ValueOps.Compare(b.max.value, v).Ok? ==>
      r.error == Error(Validation, pfx + " greater than " + Types.Show(b.max.value) + ": " + Types.Show(v))
  {
    if b.min.Some? && ValueOps.Compare(b.min.value, v).Err? then Fail(ValueOps.Compare(b.min.value, v).error)
    else if b.min.Some? && ValueOps.Compare(b.min.value, v).value > 0 then
      Fail(Error(Validation, pfx + " less than " + Types.Show(b.min.value) + ": " + Types.Show(v)))
    else if b.max.Some? && ValueOps.Compare(b.max.value, v).Err? then Fail(ValueOps.Compare(b.max.value, v).error)
    else if b.max.Some? && ValueOps.Compare(b.max.value, v).value < 0 then
      Fail(Error(Validation, pfx + " greater than " + Types.Show(b.max.value) + ": " + Types.Show(v)))
    else Pass
  }

  /** `validateLengthRange`: the length is checked as an `Integer`. */
  function CheckLength(b: Bounds, n: nat): (r: Outcome)
    ensures LengthBounds(b) ==>
      (r.Pass? <==> (b.min.None? || b.min.value.n <= n) && (b.max.None? || n <= b.max.value.n))
    ensures r.Fail? && LengthBounds(b) ==> r.error.kind == Validation
  {
    CheckBounds(b, IntVal(JInt, n), "length")
  }

  /** The length a length-ranged payload is measured by. */
  function Length(v: Value): (n: Option<nat>)
    ensures n.Some? <==> v.StrVal? || v.ListVal? || v.MapVal? || v.BlobVal?
  {
    match v
    case StrVal(_, t) => Some(|t|)
    case ListVal(l) => Some(|l.items|)
    case MapVal(m) => Some(|m.entries|)
    case BlobVal(b) => Some(|b.bytes|)
    case _ => None
  }

  /** `validateRange(compiledRange, value)` of each kind, as written: STRING
      casts the payload to `String`, so a subtype payload cannot be checked. */
  function ValidateRangeAsWritten(k: Kind, b: Bounds, v: Value): (r: Outcome)
    ensures k == Str && v.StrVal? && v.sub.Some? ==> r.Fail? && r.error.kind == ClassCast
    ensures k == Str && v.StrVal? && v.sub.None? ==> r == ValidateRange(k, b, v)
    ensures k != Str ==> r == ValidateRange(k, b, v)
  {
    if k == Str && !(v.StrVal? && v.sub.None?) then
      Fail(Error(ClassCast, "payload cannot be cast to class java.lang.String"))
    else ValidateRange(k, b, v)
  }

  /** `validateRange(compiledRange, value)` of each kind, a string subtype
      measured by the length of its text: the length-ranged kinds check the
      payload's length, the others the payload itself. */
  function ValidateRange(k: Kind, b: Bounds, v: Value): (r: Outcome)
    ensures k in {Str, List, Map, Blob} && Length(v).Some? && KindOf(v) == k ==> r == CheckLength(b, Length(v).value)
    ensures !(k in {Str, List, Map, Blob}) ==> r == CheckBounds(b, v, "value")
  {
    if k in {Str, List, Map, Blob} then
      if KindOf(v) == k && Length(v).Some? then CheckLength(b, Length(v).value)
      else Fail(Error(ClassCast, "payload of the wrong class for " + KindName(k)))
    else CheckBounds(b, v, "value")
  }

  /** A subtype string of the right length passes the evident check but
      not the source's: "ab" as a `nocase` string in the length range 1 to 5. */
  lemma SubtypeLengthRejected()
    ensures var b := Bounds(Some(IntVal(JInt, 1)), Some(IntVal(JInt, 5)));
      && ValidateRangeAsWritten(Str, b, StrVal(Some("nocase"), "ab")).Fail?
      && ValidateRange(Str, b, StrVal(Some("nocase"), "ab")).Pass?
  {
  }

  /** `FusionValueDomain.validateRange(fv, collect)`: nothing to check without
      a compiled range, otherwise the kind's check. The collection list is
      accepted and ignored: a failure is always thrown. */
  function DomainValidate(d: Domain, v: Value, collect: Option<seq<string>>): (r: Outcome)
    ensures d.compiled.None? ==> r.Pass?
    ensures d.compiled.Some? ==> r == ValidateRange(d.kind, d.compiled.value, v)
  {
    if d.compiled.None? then Pass else ValidateRange(d.kind, d.compiled.value, v)
  }

  /** Whatever the collection list, the outcome is the same. */
  lemma CollectIgnored(d: Domain, v: Value, c1: Option<seq<string>>, c2: Option<seq<string>>)
    ensures DomainValidate(d, v, c1) == DomainValidate(d, v, c2)
  {
  }
}

=== FILE: records.dfy ===
/** Fusion objects backed by Java records.

    A record type's persistent components are its leading components: a
    component whose name starts with '_' is hidden, and once one component
    is hidden every later one must be too. A record object copies a
    record's persistent components into its fields, and hands back a record
    built from its fields on `extract`, remembering that record once the
    object is readonly.

    The generated code that copies a record into an object's fields and
    builds a record from them is given to this module as the two functions
    of a `RecordType`; the record's hash is given as `hash`.
 */
module Records {
  import opened Wrappers
  import opened Values
  import Iwr
  import ObjectCore
  import Fusion

  // ---------------------------------------------------------------------
  // Persistent components

  /** A component whose name starts with '_' is not persistent. */
  predicate Hidden(name: string) {
    |name| > 0 && name[0] == '_'
  }

  /** The position of the first hidden component, or the count of
      components when none is hidden. */
  function FirstHidden(names: seq<string>): (k: nat)
    ensures k <= |names|
    ensures forall i :: 0 <= i < k ==> !Hidden(names[i])
    ensures k < |names| ==> Hidden(names[k])
  {
    if |names| == 0 || Hidden(names[0]) then 0
    else
      var k := FirstHidden(names[1..]);
      assert forall i :: 1 <= i < k + 1 ==> names[i] == names[1..][i - 1];
      1 + k
  }

  /** Every component from the first hidden one on is hidden too. */
  predicate HiddenSuffix(names: seq<string>) {
    forall i :: FirstHidden(names) <= i < |names| ==> Hidden(names[i])
  }

  function VisibleAfterHidden(name: string): Error {
    Error(IllegalArgument, "Visible component comes after hidden one(s): " + name)
  }

  function NoPersistent(recordClass: string): Error {
    Error(IllegalArgument, "Record has 0 persistent components: " + recordClass)
  }

  /** `persistentComponents`, over the component names of `recordClass` in
      declaration order. A visible component after a hidden one is refused,
      naming the first such component; otherwise the persistent components
      are the ones before the first hidden one, and there must be at least
      one. */
  method PersistentComponents(recordClass: string, names: seq<string>) returns (r: Result<seq<string>>)
    ensures r.Ok? <==> HiddenSuffix(names) && FirstHidden(names) > 0
    ensures r.Ok? ==> r.value == names[..FirstHidden(names)]
    ensures !HiddenSuffix(names) ==>
              exists j :: FirstHidden(names) < j < |names| && !Hidden(names[j])
                          && (forall m :: FirstHidden(names) <= m < j ==> Hidden(names[m]))
                          && r == Err(VisibleAfterHidden(names[j]))
    ensures HiddenSuffix(names) && FirstHidden(names) == 0 ==> r == Err(NoPersistent(recordClass))
  {
    var k := FirstHidden(names);
    var underi: Option<nat> := None;
    var i := 0;
    while i < |names|
      invariant 0 <= i <= |names|
      invariant underi.None? ==> i <= k
      invariant underi.Some? ==> underi.value == k < i
      invariant forall m :: k <= m < i ==> Hidden(names[m])
    {
      if Hidden(names[i]) {
        if underi.None? {
          underi := Some(i);
        }
      } else if underi.Some? {
        return Err(VisibleAfterHidden(names[i]));
      }
      i := i + 1;
    }
    var result := if underi.None? then names else names[..underi.value];
    assert result == names[..k];
    if |result| == 0 {
      return Err(NoPersistent(recordClass));
    }
    return Ok(result);
  }

  /** The persistent components and the hidden ones partition the
      components: the persistent prefix is all visible, the rest all
      hidden. */
  lemma PersistentPartition(names: seq<string>)
    requires HiddenSuffix(names)
    ensures var p := names[..FirstHidden(names)];
            names == p + names[|p|..]
            && (forall i :: 0 <= i < |p| ==> !Hidden(p[i]))
            && (forall i :: |p| <= i < |names| ==> Hidden(names[i]))
  {
  }

  /** Whether the components can back a record type at all. */
  lemma PersistentAccepted(names: seq<string>)
    ensures HiddenSuffix(names) && FirstHidden(names) > 0 <==>
              |names| > 0 && !Hidden(names[0])
              && forall i, j :: 0 <= i < j < |names| && Hidden(names[i]) ==> Hidden(names[j])
  {
    var k := FirstHidden(names);
    if HiddenSuffix(names) {
      forall i, j | 0 <= i < j < |names| && Hidden(names[i])
        ensures Hidden(names[j])
      {
        assert k <= i;
      }
    }
    if forall i, j :: 0 <= i < j < |names| && Hidden(names[i]) ==> Hidden(names[j]) {
      if k < |names| {
        forall m | k <= m < |names|
          ensures Hidden(names[m])
        {
          if k < m {
            assert Hidden(names[k]);
          }
        }
      }
    }
  }

  // ---------------------------------------------------------------------
  // Record types

  /** A record: its class and the values of its components. */
  datatype Rec = Rec(recordClass: string, vals: seq<Value>)

  /** A record object type: its fusion type, its record class, and the two
      generated members, `_setRecord` copying a record's persistent
      components into an object's fields and `_extractRecord` building a
      record from an object's fields; and, for the name of any fusion-object
      type, the text that type prints as. No object type overrides
      `toString`, so that text is a class name and an identity hash, which
      are outside the model. */
  datatype RecordType = RecordType(fob: Fusion.FobType, recordClass: string,
                                   setFields: (FObject, Rec) -> Result<FObject>,
                                   extractRecord: FObject -> Rec,
                                   typeText: string -> string)

  /** `Class.toString` of a class (records are classes, never interfaces). */
  function ClassText(name: string): string {
    "class " + name
  }

  /** `setRecord`: an object of another type and a record of another class
      are refused before the generated copy runs; each message ends with
      the text of the offending type or class. */
  function SetRecord(rt: RecordType, o: FObject, rec: Rec): (r: Result<FObject>)
    ensures o.typeName != rt.fob.name ==>
              r == Err(Error(IllegalArgument, "Wrong fo-type: " + rt.typeText(o.typeName)))
    ensures o.typeName == rt.fob.name && rec.recordClass != rt.recordClass ==>
              r == Err(Error(IllegalArgument, "Wrong record class: " + ClassText(rec.recordClass)))
    ensures r.Ok? ==> o.typeName == rt.fob.name && rec.recordClass == rt.recordClass
                      && r == rt.setFields(o, rec)
  {
    if o.typeName != rt.fob.name then Fails(IllegalArgument, "Wrong fo-type: " + rt.typeText(o.typeName))
    else if rec.recordClass != rt.recordClass then Fails(IllegalArgument, "Wrong record class: " + ClassText(rec.recordClass))
    else rt.setFields(o, rec)
  }

  // ---------------------------------------------------------------------
  // Record objects

  /** A record object: the fusion object and the record it remembers. */
  datatype RecordObject = RecordObject(obj: FObject, cached: Option<Rec>)

  /** A record is remembered only by a readonly object. */
  predicate Valid(ro: RecordObject) {
    ro.cached.Some? ==> ro.obj.state == Iwr.Read
  }

  /** `make()` of a record type: a fresh object remembering nothing. */
  function Make(rt: RecordType): (ro: RecordObject)
    ensures Valid(ro) && ro.cached.None?
    ensures ro.obj.state == Iwr.Init && ro.obj.typeName == rt.fob.name
  {
    RecordObject(ObjectCore.Make(rt.fob), None)
  }

  /** `set(rec)`: refused on a readonly object; otherwise the record is
      copied through `setRecord`, and what the object remembers is left
      alone. */
  function Set(rt: RecordType, ro: RecordObject, rec: Rec): (r: Result<RecordObject>)
    ensures ro.obj.state == Iwr.Read ==> r == Err(Iwr.NotWritable)
    ensures ro.obj.state != Iwr.Read ==>
              (r.Ok? <==> SetRecord(rt, ro.obj, rec).Ok?)
              && (r.Err? ==> r.error == SetRecord(rt, ro.obj, rec).error)
    ensures r.Ok? ==> r.value.obj == rt.setFields(ro.obj, rec).value && r.value.cached == ro.cached
    ensures Valid(ro) && r.Ok? ==> r.value.cached.None?
  {
    if ro.obj.state == Iwr.Read then Err(Iwr.NotWritable)
    else
      var o :- SetRecord(rt, ro.obj, rec);
      Ok(ro.(obj := o))
  }

  /** `from(rec)`: a fresh object of the record's type with the record set
      into it; it remembers nothing. */
  function From(rt: RecordType, rec: Rec): (r: Result<RecordObject>)
    ensures r.Ok? <==> rec.recordClass == rt.recordClass && rt.setFields(ObjectCore.Make(rt.fob), rec).Ok?
    ensures r.Ok? ==> r.value == RecordObject(rt.setFields(ObjectCore.Make(rt.fob), rec).value, None)
  {
    Set(rt, Make(rt), rec)
  }

  /** A record object's `doneWrite`: its state-change hook is empty, so
      none of the field checks a plain object runs before a state change
      takes place, and only the lifecycle decides. */
  function DoneWrite(o: FObject): (r: Result<FObject>)
    ensures r.Ok? <==> o.state != Iwr.Read
    ensures r.Ok? ==> r.value == o.(state := Iwr.Read)
    ensures r.Err? ==> r.error == Iwr.NotWritable
  {
    var s :- Iwr.DoneWrite(o.state, _ => Pass);
    Ok(o.(state := s))
  }

  /** An object whose fields fail the checks (a null key field, say) is
      refused by a plain object's `doneWrite` and still made readonly by a
      record object's. */
  lemma RecordSkipsFieldChecks(o: FObject)
    requires o.state != Iwr.Read && !ObjectCore.Valid(o)
    ensures ObjectCore.DoneWrite(o).Err?
    ensures DoneWrite(o) == Ok(o.(state := Iwr.Read))
  {
  }

  /** The record-taking constructor: a fresh object remembering the given
      record, with the record set into it, then made readonly without any
      field check. */
  function New(rt: RecordType, rec: Rec): (r: Result<RecordObject>)
    ensures r.Ok? <==> rec.recordClass == rt.recordClass
                       && rt.setFields(ObjectCore.Make(rt.fob), rec).Ok?
                       && rt.setFields(ObjectCore.Make(rt.fob), rec).value.state != Iwr.Read
    ensures r.Ok? ==> Valid(r.value) && r.value.obj.state == Iwr.Read && r.value.cached == Some(rec)
    ensures r.Ok? ==> r.value.obj == rt.setFields(ObjectCore.Make(rt.fob), rec).value.(state := Iwr.Read)
  {
    var o :- SetRecord(rt, ObjectCore.Make(rt.fob), rec);
    var d :- DoneWrite(o);
    Ok(RecordObject(d, Some(rec)))
  }

  /** `extract()`: a readonly object builds its record at most once and
      then hands back the remembered one; any other object builds a new
      record on every call and remembers nothing. The object's fields are
      never touched. */
  function Extract(rt: RecordType, ro: RecordObject): (r: (Rec, RecordObject))
    ensures r.1.obj == ro.obj
    ensures Valid(ro) ==> Valid(r.1)
    ensures ro.obj.state != Iwr.Read ==> r.1 == ro && r.0 == rt.extractRecord(ro.obj)
    ensures ro.obj.state == Iwr.Read ==> r.1.cached == Some(r.0)
    ensures Valid(ro) && ro.cached.Some? ==> r == (ro.cached.value, ro)
  {
    if ro.obj.state == Iwr.Read then
      if ro.cached.None? then
        var rec := rt.extractRecord(ro.obj);
        (rec, ro.(cached := Some(rec)))
      else (ro.cached.value, ro)
    else (rt.extractRecord(ro.obj), ro)
  }

  /** Once readonly, extracting again changes nothing and hands back the
      same record. */
  lemma ExtractOnce(rt: RecordType, ro: RecordObject)
    requires ro.obj.state == Iwr.Read
    ensures var (a, ro1) := Extract(rt, ro);
            Extract(rt, ro1) == (a, ro1)
  {
  }

  /** Before readonly, every extract reflects the fields as they are, so a
      `set` in between shows through. */
  lemma ExtractSeesSet(rt: RecordType, ro: RecordObject, rec: Rec)
    requires Valid(ro) && ro.obj.state != Iwr.Read
    requires Set(rt, ro, rec).Ok?
    requires Set(rt, ro, rec).value.obj.state != Iwr.Read
    ensures Extract(rt, Set(rt, ro, rec).value).0 == rt.extractRecord(rt.setFields(ro.obj, rec).value)
  {
  }

  /** The record-taking constructor's object hands back the very record it
      was made from, without rebuilding it from the fields. */
  lemma NewExtractsGiven(rt: RecordType, rec: Rec)
    requires New(rt, rec).Ok?
    ensures Extract(rt, New(rt, rec).value) == (rec, New(rt, rec).value)
  {
  }

  // ---------------------------------------------------------------------
  // Hashing

  /** `hashCode()` as written: the hash of the remembered record, and
      `Objects.hashCode(null)`, zero, while nothing is remembered. */
  function HashAsWritten(ro: RecordObject, hash: Rec -> int): (h: int)
    ensures ro.cached.None? ==> h == 0
    ensures ro.cached.Some? ==> h == hash(ro.cached.value)
  {
    if ro.cached.None? then 0 else hash(ro.cached.value)
  }

  /** A readonly object made by `from(rec)` hashes to zero until its first
      `extract`, and to its record's hash afterwards: its hash changes
      though its fields, which `equals` compares, do not. */
  lemma HashChangesOnExtract(rt: RecordType, rec: Rec, hash: Rec -> int)
    requires From(rt, rec).Ok?
    requires DoneWrite(From(rt, rec).value.obj).Ok?
    requires hash(rt.extractRecord(From(rt, rec).value.obj.(state := Iwr.Read))) != 0
    ensures var ro := From(rt, rec).value.(obj := From(rt, rec).value.obj.(state := Iwr.Read));
            Valid(ro) && Extract(rt, ro).1.obj == ro.obj
            && HashAsWritten(ro, hash) != HashAsWritten(Extract(rt, ro).1, hash)
  {
    var ro := From(rt, rec).value.(obj := From(rt, rec).value.obj.(state := Iwr.Read));
    assert ro.cached.None?;
    assert Extract(rt, ro).1.cached == Some(rt.extractRecord(ro.obj));
  }

  /** The record an object stands for: the remembered one, and otherwise
      the one its fields build. */
  function Current(rt: RecordType, ro: RecordObject): (rec: Rec)
    ensures ro.cached.Some? ==> rec == ro.cached.value
    ensures ro.obj.state == Iwr.Read ==> rec == Extract(rt, ro).0
  {
    if ro.cached.Some? then ro.cached.value else rt.extractRecord(ro.obj)
  }

  /** The intended `hashCode`: the hash of the record the object stands
      for, whether or not it has been extracted yet. */
  function Hash(rt: RecordType, ro: RecordObject, hash: Rec -> int): (h: int)
    ensures ro.cached.Some? ==> h == HashAsWritten(ro, hash)
  {
    hash(Current(rt, ro))
  }

  /** The intended hash does not change when an object is extracted, and
      objects with the same fields that remember nothing hash alike. */
  lemma HashStable(rt: RecordType, ro: RecordObject, other: RecordObject, hash: Rec -> int)
    requires other.obj == ro.obj && ro.cached.None? && other.cached.None?
    ensures Hash(rt, Extract(rt, ro).1, hash) == Hash(rt, ro, hash)
    ensures Hash(rt, ro, hash) == Hash(rt, other, hash)
  {
  }
}

=== FILE: schemas.dfy ===
/** `FusionObjectSchema`: the constructor that re-indexes the fields densely,
    rejects two fields whose names are equal ignoring case, and picks out
    the key fields in order; and the field lookups by name.
 */
module Schemas {
  import opened Wrappers
  import opened Values
  import opened NoCase
  import Fields

  /** No two fields have names equal ignoring case. */
  predicate UniqueNames(fs: seq<Field>) {
    forall i, j :: 0 <= i < j < |fs| ==> CompareIgnoreCase(fs[i].name, fs[j].name) != 0
  }

  /** Field `i` carries index `i`. */
  predicate DenselyIndexed(fs: seq<Field>) {
    forall i :: 0 <= i < |fs| ==> fs[i].index == i
  }

  /** The copies the constructor makes, field `i` re-indexed to `i`. */
  function Reindex(fs: seq<Field>): (r: seq<Field>)
    ensures |r| == |fs| && DenselyIndexed(r)
    ensures forall i :: 0 <= i < |fs| ==> r[i] == Fields.WithIndex(fs[i], i)
  {
    seq(|fs|, i requires 0 <= i < |fs| => Fields.WithIndex(fs[i], i))
  }

  /** The key fields, in their order among the fields. */
  function KeyFields(fs: seq<Field>): (r: seq<Field>)
    ensures forall f :: f in r ==> f in fs && Fields.IsKey(f)
    ensures |r| <= |fs|
  {
    if |fs| == 0 then []
    else (if Fields.IsKey(fs[0]) then [fs[0]] else []) + KeyFields(fs[1..])
  }

  /** Every key field is kept. */
  lemma {:induction false} KeyFieldsComplete(fs: seq<Field>, i: int)
    requires 0 <= i < |fs| && Fields.IsKey(fs[i])
    ensures fs[i] in KeyFields(fs)
    decreases |fs|
  {
    if i > 0 {
      KeyFieldsComplete(fs[1..], i - 1);
    }
  }

  /** The filter keeps relative order: the key fields of a concatenation are
      the key fields of each part, in turn. */
  lemma {:induction false} KeyFieldsAppend(a: seq<Field>, b: seq<Field>)
    ensures KeyFields(a + b) == KeyFields(a) + KeyFields(b)
    decreases |a|
  {
    if |a| == 0 {
      assert a + b == b;
    } else {
      var head := if Fields.IsKey(a[0]) then [a[0]] else [];
      assert (a + b)[0] == a[0] && (a + b)[1..] == a[1..] + b;
      assert KeyFields(a + b) == head + KeyFields(a[1..] + b);
      KeyFieldsAppend(a[1..], b);
      assert head + (KeyFields(a[1..]) + KeyFields(b)) == (head + KeyFields(a[1..])) + KeyFields(b);
    }
  }

  /** The first field whose name repeats an earlier one ignoring case: the
      field the `LinkedHashMap` insertion reports. */
  function FirstRepeat(fs: seq<Field>): (r: Option<int>)
    ensures r.None? <==> UniqueNames(fs)
    ensures r.Some? ==> 0 <= r.value < |fs|
    ensures r.Some? ==> exists j :: 0 <= j < r.value && CompareIgnoreCase(fs[j].name, fs[r.value].name) == 0
    ensures r.Some? ==> forall a, b :: 0 <= a < b < r.value ==> CompareIgnoreCase(fs[a].name, fs[b].name) != 0
  {
    if |fs| == 0 then None
    else
      var p := fs[..|fs| - 1];
      var last := fs[|fs| - 1];
      assert fs == p + [last];
      var earlier := FirstRepeat(p);
      if earlier.Some? then
        RepeatKept(p, last, earlier.value);
        Some(earlier.value)
      else if exists j :: 0 <= j < |p| && CompareIgnoreCase(p[j].name, last.name) == 0 then
        LastRepeats(p, last);
        Some(|fs| - 1)
      else
        UniqueNamesSnoc(p, last);
        None
  }

  /** A repeat found among the earlier fields stays the first one when a
      field is appended. */
  lemma RepeatKept(p: seq<Field>, last: Field, k: int)
    requires 0 <= k < |p|
    requires exists j :: 0 <= j < k && CompareIgnoreCase(p[j].name, p[k].name) == 0
    requires forall a, b :: 0 <= a < b < k ==> CompareIgnoreCase(p[a].name, p[b].name) != 0
    ensures !UniqueNames(p + [last])
    ensures exists j :: 0 <= j < k && CompareIgnoreCase((p + [last])[j].name, (p + [last])[k].name) == 0
    ensures forall a, b :: 0 <= a < b < k ==> CompareIgnoreCase((p + [last])[a].name, (p + [last])[b].name) != 0
  {
    var j :| 0 <= j < k && CompareIgnoreCase(p[j].name, p[k].name) == 0;
    assert (p + [last])[j] == p[j] && (p + [last])[k] == p[k];
    forall a, b | 0 <= a < b < k
      ensures CompareIgnoreCase((p + [last])[a].name, (p + [last])[b].name) != 0
    {
      assert (p + [last])[a] == p[a] && (p + [last])[b] == p[b];
    }
  }

  /** With unique earlier names, an appended field that repeats one of them
      is the first repeat. */
  lemma LastRepeats(p: seq<Field>, last: Field)
    requires UniqueNames(p)
    requires exists j :: 0 <= j < |p| && CompareIgnoreCase(p[j].name, last.name) == 0
    ensures !UniqueNames(p + [last])
    ensures exists j :: 0 <= j < |p| && CompareIgnoreCase((p + [last])[j].name, (p + [last])[|p|].name) == 0
    ensures forall a, b :: 0 <= a < b < |p| ==> CompareIgnoreCase((p + [last])[a].name, (p + [last])[b].name) != 0
  {
    var j :| 0 <= j < |p| && CompareIgnoreCase(p[j].name, last.name) == 0;
    assert (p + [last])[j] == p[j] && (p + [last])[|p|] == last;
    forall a, b | 0 <= a < b < |p|
      ensures CompareIgnoreCase((p + [last])[a].name, (p + [last])[b].name) != 0
    {
      assert (p + [last])[a] == p[a] && (p + [last])[b] == p[b];
    }
  }

  /** Appending a field whose name differs from every earlier one keeps the
      names unique. */
  lemma UniqueNamesSnoc(p: seq<Field>, last: Field)
    requires UniqueNames(p)
    requires forall j :: 0 <= j < |p| ==> CompareIgnoreCase(p[j].name, last.name) != 0
    ensures UniqueNames(p + [last])
  {
    var fs := p + [last];
    forall i, j | 0 <= i < j < |fs|
      ensures CompareIgnoreCase(fs[i].name, fs[j].name) != 0
    {
      if j < |p| {
        assert fs[i] == p[i] && fs[j] == p[j];
      } else {
        assert fs[i] == p[i] && fs[j] == last;
      }
    }
  }

  /** The canonical constructor. A null id or field list is a
      NullPointerException, and the derived field map and key list must not
      be supplied; they are passed here only as whether they were. */
  function MakeSchema(id: Option<string>, fields: Option<seq<Field>>, givenMap: bool, givenKeys: bool): (r: Result<Schema>)
    ensures id.None? ==> r.Err? && r.error.kind == NullPointer
    ensures id.Some? && fields.None? ==> r.Err? && r.error.kind == NullPointer
    ensures id.Some? && fields.Some? && givenMap ==> r == Fails(IllegalArgument, "Specified field-map MUST be null!")
    ensures id.Some? && fields.Some? && !givenMap && givenKeys ==>
              r == Fails(IllegalArgument, "Specified key-fields MUST be null!")
    ensures r.Ok? <==> id.Some? && fields.Some? && !givenMap && !givenKeys && UniqueNames(fields.value)
    ensures r.Ok? ==> r.value.id == id.value && r.value.fields == Reindex(fields.value)
    ensures r.Ok? ==> r.value.keyFields == KeyFields(r.value.fields)
    ensures r.Ok? && |fields.value| == 0 ==> r.value.fields == [] && r.value.keyFields == []
    ensures id.Some? && fields.Some? && !givenMap && !givenKeys && !UniqueNames(fields.value) ==>
              r.Err? && r.error.kind == IllegalArgument
  {
    if id.None? then Fails(NullPointer, "id")
    else if fields.None? then Fails(NullPointer, "fields")
    else if givenMap then Fails(IllegalArgument, "Specified field-map MUST be null!")
    else if givenKeys then Fails(IllegalArgument, "Specified key-fields MUST be null!")
    else if |fields.value| == 0 then Ok(Schema(id.value, [], []))
    else
      var indexed := Reindex(fields.value);
      assert forall i :: 0 <= i < |indexed| ==> indexed[i].name == fields.value[i].name;
      match FirstRepeat(indexed)
      case Some(i) => Fails(IllegalArgument, "More than one field with name: " + indexed[i].name)
      case None => Ok(Schema(id.value, indexed, KeyFields(indexed)))
  }

  /** What the constructor builds satisfies `Values.Indexed`: positions and
      indexes agree, and the key fields are fields of the schema. */
  lemma MadeSchemaIsIndexed(id: Option<string>, fields: Option<seq<Field>>)
    requires MakeSchema(id, fields, false, false).Ok?
    ensures Indexed(MakeSchema(id, fields, false, false).value)
    ensures UniqueNames(MakeSchema(id, fields, false, false).value.fields)
  {
    var s := MakeSchema(id, fields, false, false).value;
    assert forall i :: 0 <= i < |s.fields| ==> s.fields[i].name == fields.value[i].name;
  }

  /** `findField`: the field whose name equals `name` ignoring case, or null. */
  function FindField(s: Schema, name: string): (r: Option<Field>)
    ensures r.Some? <==> exists i :: 0 <= i < |s.fields| && CompareIgnoreCase(s.fields[i].name, name) == 0
    ensures r.Some? ==> r.value in s.fields && CompareIgnoreCase(r.value.name, name) == 0
  {
    FindIn(s.fields, name)
  }

  function FindIn(fs: seq<Field>, name: string): (r: Option<Field>)
    ensures r.Some? <==> exists i :: 0 <= i < |fs| && CompareIgnoreCase(fs[i].name, name) == 0
    ensures r.Some? ==> r.value in fs && CompareIgnoreCase(r.value.name, name) == 0
  {
    if |fs| == 0 then None
    else if CompareIgnoreCase(fs[0].name, name) == 0 then Some(fs[0])
    else
      var r := FindIn(fs[1..], name);
      assert forall i :: 1 <= i < |fs| ==> fs[i] == fs[1..][i - 1];
      r
  }

  /** With unique names the lookup finds each field by its own name, or by
      any spelling of it that differs only in case. */
  lemma {:induction false} FindInUnique(fs: seq<Field>, i: int, name: string)
    requires UniqueNames(fs) && 0 <= i < |fs|
    requires CompareIgnoreCase(fs[i].name, name) == 0
    ensures FindIn(fs, name) == Some(fs[i])
    decreases |fs|
  {
    if i == 0 {
    } else {
      if CompareIgnoreCase(fs[0].name, name) == 0 {
        CompareIgnoreCaseZeroIff(fs[0].name, name);
        CompareIgnoreCaseZeroIff(fs[i].name, name);
        CompareIgnoreCaseZeroIff(fs[0].name, fs[i].name);
        assert false;
      }
      assert UniqueNames(fs[1..]) by {
        forall a, b | 0 <= a < b < |fs[1..]|
          ensures CompareIgnoreCase(fs[1..][a].name, fs[1..][b].name) != 0
        {
          assert fs[1..][a] == fs[a + 1] && fs[1..][b] == fs[b + 1];
        }
      }
      assert fs[1..][i - 1] == fs[i];
      FindInUnique(fs[1..], i - 1, name);
    }
  }

  /** `field(name)`: the field, or "No such field". */
  function FieldNamed(s: Schema, name: string): (r: Result<Field>)
    ensures r.Ok? <==> FindField(s, name).Some?
    ensures r.Ok? ==> Some(r.value) == FindField(s, name)
    ensures r.Err? ==> r.error == Error(IllegalArgument, "No such field: " + name)
  {
    match FindField(s, name)
    case Some(f) => Ok(f)
    case None => Fails(IllegalArgument, "No such field: " + name)
  }

  /** In a constructed schema the field found under a name sits at its own
      index, which is what `indexOf(name)` returns. */
  lemma FieldNamedIndex(s: Schema, i: int, name: string)
    requires UniqueNames(s.fields) && DenselyIndexed(s.fields) && 0 <= i < |s.fields|
    requires CompareIgnoreCase(s.fields[i].name, name) == 0
    ensures FieldNamed(s, name) == Ok(s.fields[i]) && FieldNamed(s, name).value.index == i
  {
    FindInUnique(s.fields, i, name);
  }
}

=== FILE: types.dfy ===
/** The static side of `FusionValueType`: the text form of a qualified type,
    the registry that maps Java classes to qualified types and names to
    string subtypes, the Java data class a kind and qualifier select, and
    the parsers and zero values of the built-in string subtypes.
 */
module Types {
  import opened Wrappers
  import opened Values
  import opened NumText
  import Convert
  import Idents
  import Fusion

  /** What the library looks things up in while it types values: the
      registered object types, the enum classes that can be loaded (each
      with its constant names in declaration order), the parser of each
      temporal kind's text (`LocalDate::parse` and the like), and the
      verdict of `Path.of`, `new URI` and `new URL` on the text of the
      subtype `path`, `uri` or `url` (the error each one raises on text it
      refuses); those parsers are outside the model. */
  datatype Env = Env(
    fobs: Fusion.Registry,
    enums: map<string, seq<string>>,
    parseTime: (TimeKind, string) -> Result<int>,
    parseLink: (string, string) -> Outcome)

  // ---------------------------------------------------------------------
  // Qualified types as text

  /** `QualifiedType.toString`: the kind's name, then `.qualifier` if any. */
  function QtText(qt: QualifiedType): string {
    KindName(qt.kind) + (if qt.qualifier.Some? then "." + qt.qualifier.value else "")
  }

  /** Index of the first '.' in `s`, or -1. */
  function FirstDot(s: string): (i: int)
    ensures -1 <= i < |s|
    ensures i >= 0 ==> s[i] == '.'
    ensures forall k :: 0 <= k < |s| && (i == -1 || k < i) ==> s[k] != '.'
  {
    if |s| == 0 then -1
    else if s[0] == '.' then 0
    else
      var j := FirstDot(s[1..]);
      if j == -1 then -1 else j + 1
  }

  /** `QualifiedType.fromString`: the kind named before the first '.', and
      the rest, if there is a dot, as the qualifier. */
  function QtFromString(s: string): (r: Result<QualifiedType>)
    ensures r.Ok? ==> QtText(r.value) == s
    ensures r.Err? ==> r.error.kind == IllegalArgument
  {
    hide KindFromName, KindName, FirstDot;
    var i := FirstDot(s);
    if i == -1 then
      var k :- KindFromName(s);
      Ok(QualifiedType(k, None))
    else
      var k :- KindFromName(s[..i]);
      SplitAtDot(s, i);
      Ok(QualifiedType(k, Some(s[i + 1..])))
  }

  /** A text is what comes before a dot, the dot, and what follows it. */
  lemma SplitAtDot(s: string, i: int)
    requires 0 <= i < |s| && s[i] == '.'
    ensures s == s[..i] + ("." + s[i + 1..])
  {
    assert s == s[..i] + [s[i]] + s[i + 1..];
  }

  lemma KindNameHasNoDot(k: Kind)
    ensures FirstDot(KindName(k)) == -1
  {
  }

  /** `fromString` reads back what `toString` writes, whatever the
      qualifier (dots included). */
  lemma {:induction false} QtRoundTrip(qt: QualifiedType)
    ensures QtFromString(QtText(qt)) == Ok(qt)
  {
    var n := KindName(qt.kind);
    KindNameHasNoDot(qt.kind);
    KindNameRoundTrip(qt.kind);
    if qt.qualifier.Some? {
      var s := n + ("." + qt.qualifier.value);
      assert QtText(qt) == s;
      FirstDotAfter(n, "." + qt.qualifier.value);
      assert s[..|n|] == n;
      assert s[|n| + 1..] == qt.qualifier.value;
    } else {
      assert QtText(qt) == n;
    }
  }

  /** The first dot of `a + b` is that of `b` when `a` has none. */
  lemma {:induction false} FirstDotAfter(a: string, b: string)
    requires FirstDot(a) == -1
    requires |b| > 0 && b[0] == '.'
    ensures FirstDot(a + b) == |a|
    decreases |a|
  {
    if |a| == 0 {
      assert a + b == b;
    } else {
      assert (a + b)[1..] == a[1..] + b;
      FirstDotAfter(a[1..], b);
    }
  }

  // ---------------------------------------------------------------------
  // Java class names

  /** `Class.getName()` of the classes of the model. */
  function ClassText(c: JClass): string {
    match c
    case BooleanC => "java.lang.Boolean"
    case IntC(w) => Convert.WidthClassName(w)
    case DecC(d) => Convert.DecClassName(d)
    case StringC => "java.lang.String"
    case SubtypeC(n) =>
      (match n
       case "nocase" => "zer0g.fusion.data.NoCaseString"
       case "path" => "java.nio.file.Path"
       case "uri" => "java.net.URI"
       case "url" => "java.net.URL"
       case "char" => "java.lang.Character"
       case "dotident" => "zer0g.fusion.data.Ident"
       case "ident" => "zer0g.fusion.data.Ident$Simple"
       case _ => n)
    case TimeC(k) =>
      (match k
       case Date => "java.time.LocalDate"
       case Time => "java.time.LocalTime"
       case DateTime => "java.time.LocalDateTime"
       case Instant => "java.time.Instant"
       case _ => "java.time.Duration")
    case FusionObjectC => "zer0g.fusion.data.FusionObject"
    case ObjectC(n) => n
    case ListC => "java.util.List"
    case FusionListC => "zer0g.fusion.data.FusionList"
    case MapC => "java.util.Map"
    case FusionMapC => "zer0g.fusion.data.FusionMap"
    case EnumBaseC => "java.lang.Enum"
    case EnumC(n) => n
    case BlobC => "zer0g.fusion.data.Blob"
  }

  /** The `toString` of a payload, as it appears in messages. Numbers and
      strings are exact; other payloads are shown by a stand-in. */
  function Show(v: Value): string {
    match v
    case Null => "null"
    case BoolVal(b) => if b then "true" else "false"
    case IntVal(_, n) => IntText(n)
    case DecVal(_, u, s) => DecimalText(u, s)
    case StrVal(_, t) => t
    case TimeVal(k, t) => KindName(k) + "@" + IntText(t)
    case ObjVal(o) => o.typeName
    case ListVal(l) => "[" + IntText(|l.items|) + " items]"
    case MapVal(m) => "{" + IntText(|m.entries|) + " entries}"
    case EnumVal(_, n, _) => n
    case BlobVal(b) => "Blob[" + IntText(|b.bytes|) + "]"
  }

  // ---------------------------------------------------------------------
  // The class and subtype registry

  /** A string subtype: its name, its Java class, and the text of its zero
      payload (absent when the subtype's zero value is NULL). */
  datatype Subtype = Subtype(name: string, cls: JClass, zero: Option<string>)

  /** `_classToQtMap` and `_stringSubtypeMap`. */
  datatype TypeRegistry = TypeRegistry(classes: map<JClass, QualifiedType>, subtypes: map<string, Subtype>)

  /** `registerQualifier(type, qualifier, javaClass)`: a class maps to one
      qualified type only; a second mapping is refused and the first kept. */
  function RegisterClass(reg: TypeRegistry, cls: JClass, qt: QualifiedType): (r: Result<TypeRegistry>)
    ensures r.Ok? <==> cls !in reg.classes
    ensures r.Ok? ==> cls in r.value.classes && r.value.classes[cls] == qt
    ensures r.Ok? ==> r.value.classes.Keys == reg.classes.Keys + {cls}
    ensures r.Ok? ==> forall c :: c in reg.classes ==> r.value.classes[c] == reg.classes[c]
    ensures r.Ok? ==> r.value.subtypes == reg.subtypes
    ensures r.Err? ==> r.error.kind == IllegalArgument
  {
    if cls in reg.classes then
      Fails(IllegalArgument, "Attempt to map class " + ClassText(cls) + " to " + QtText(qt)
                             + " AND " + QtText(reg.classes[cls]) + "!")
    else Ok(reg.(classes := reg.classes[cls := qt]))
  }

  predicate ClassHasSubtype(reg: TypeRegistry, cls: JClass) {
    exists n :: n in reg.subtypes && reg.subtypes[n].cls == cls
  }

  /** `registerStringSubtype`: the name and the class must both be new, and
      the class is then mapped to `STRING.name`. */
  function RegisterStringSubtype(reg: TypeRegistry, st: Subtype): (r: Result<TypeRegistry>)
    ensures r.Ok? <==> st.name !in reg.subtypes && !ClassHasSubtype(reg, st.cls) && st.cls !in reg.classes
    ensures r.Ok? ==> r.value.subtypes == reg.subtypes[st.name := st]
    ensures r.Ok? ==> r.value.classes == reg.classes[st.cls := QualifiedType(Str, Some(st.name))]
    ensures st.name in reg.subtypes ==> r == Fails(IllegalArgument, "String subtype already registered: " + st.name)
    ensures r.Err? ==> r.error.kind == IllegalArgument
  {
    if st.name in reg.subtypes then
      Fails(IllegalArgument, "String subtype already registered: " + st.name)
    else if ClassHasSubtype(reg, st.cls) then
      Fails(IllegalArgument, "String subtype for " + ClassText(st.cls) + " already registered!")
    else
      var r1 :- RegisterClass(reg, st.cls, QualifiedType(Str, Some(st.name)));
      Ok(r1.(subtypes := r1.subtypes[st.name := st]))
  }

  /** A refused registration changes nothing, because a refusal is an error
      rather than a registry. Registering the same subtype twice is refused. */
  lemma RegisterSubtypeTwice(reg: TypeRegistry, st: Subtype)
    requires RegisterStringSubtype(reg, st).Ok?
    ensures RegisterStringSubtype(RegisterStringSubtype(reg, st).value, st).Err?
  {
  }

  /** The names of the string subtypes the library registers at start-up:
      five in `FusionValueType`'s static block and two in `Ident`'s. */
  const BuiltinSubtypeNames: set<string> := {"nocase", "path", "uri", "url", "char", "dotident", "ident"}

  /** The subtypes whose parser is a JDK class: `Path`, `URI`, `URL`. */
  predicate IsLink(name: string) {
    name == "path" || name == "uri" || name == "url"
  }

  /** The zero payload text of a built-in subtype: the empty `NoCaseString`,
      the character 0; the others have none. */
  function BuiltinZero(name: string): Option<string> {
    if name == "nocase" then Some("")
    else if name == "char" then Some([0 as char])
    else None
  }

  // ---------------------------------------------------------------------
  // Data classes

  function BadQualifier(k: Kind, q: string): (e: Error)
    ensures e.kind == IllegalArgument
  {
    Error(IllegalArgument, "Bad qualifier for " + KindName(k) + ": " + q)
  }

  /** `javaDataClass()`: the class of a kind's payloads when no qualifier is
      given; ANY has none. */
  function DefaultClass(k: Kind): (c: Option<JClass>)
    ensures c.None? <==> k == Any
  {
    match k
    case Any => None
    case Bool => Some(BooleanC)
    case Integer => Some(IntC(JInt))
    case Decimal => Some(DecC(JBigDecimal))
    case Str => Some(StringC)
    case Object => Some(FusionObjectC)
    case List => Some(ListC)
    case Map => Some(MapC)
    case Enum => Some(EnumBaseC)
    case Blob => Some(BlobC)
    case _ => Some(TimeC(k))
  }

  /** `javaDataClass(qualifier)` of each kind: INTEGER and DECIMAL know their
      width qualifiers, STRING its registered subtypes, OBJECT the
      registered object types, ENUM the loadable enum classes; LIST and MAP
      ignore the qualifier; every other kind accepts only none. */
  function JavaDataClass(env: Env, k: Kind, q: Option<string>): (r: Result<Option<JClass>>)
    ensures q.None? ==> r == Ok(DefaultClass(k))
    ensures r.Ok? && r.value.Some? ==> ClassType(r.value.value).Ok? ==> ClassType(r.value.value).value.kind == k
    ensures r.Err? ==> r.error.kind == IllegalArgument
    ensures r.Ok? && k != Any ==> r.value.Some?
    ensures r.Ok? && r.value == Some(FusionObjectC) ==> k == Object
  {
    if q.None? then DefaultClassType(k); Ok(DefaultClass(k))
    else
      hide *;
      QualifiedClass(env, k, q.value)
  }

  /** The default class of a kind is registered under that kind. */
  lemma DefaultClassType(k: Kind)
    ensures DefaultClass(k).Some? && ClassType(DefaultClass(k).value).Ok? ==> ClassType(DefaultClass(k).value).value.kind == k
    ensures DefaultClass(k) == Some(FusionObjectC) ==> k == Object
  {
    match k
    case Any =>
    case Bool =>
    case Integer =>
    case Decimal =>
    case Str =>
    case Object =>
    case List =>
    case Map =>
    case Enum =>
    case Blob =>
    case Date =>
    case Time =>
    case DateTime =>
    case Instant =>
    case Duration =>
  }

  /** `javaDataClass(qualifier)` of a kind given a qualifier `n`. */
  function QualifiedClass(env: Env, k: Kind, n: string): (r: Result<Option<JClass>>)
    ensures r.Ok? ==> r.value.Some? && r.value.value != FusionObjectC && ClassType(r.value.value).value.kind == k
    ensures r.Err? ==> r.error.kind == IllegalArgument
    ensures k == List || k == Map ==> r.Ok?
  {
    hide *;
    if k == Integer || k == Decimal || k == Str then ScalarClass(k, n) else ContainerClass(env, k, n)
  }

  /** The qualifiers of INTEGER, DECIMAL and STRING. */
  function ScalarClass(k: Kind, n: string): (r: Result<Option<JClass>>)
    requires k == Integer || k == Decimal || k == Str
    ensures r.Ok? ==> r.value.Some? && r.value.value != FusionObjectC && ClassType(r.value.value).value.kind == k
    ensures r.Err? ==> r.error.kind == IllegalArgument
  {
    hide BadQualifier, KindName, SubtypeClass;
    if k == Integer then
      var w :- IntQualifier(n);
      Ok(Some(IntC(w)))
    else if k == Decimal then
      var w :- DecQualifier(n);
      Ok(Some(DecC(w)))
    else SubtypeClass(n)
  }

  /** The qualifiers of OBJECT and ENUM, which name registered classes; LIST
      and MAP ignore theirs and the other kinds take none. */
  function ContainerClass(env: Env, k: Kind, n: string): (r: Result<Option<JClass>>)
    requires k != Integer && k != Decimal && k != Str
    ensures r.Ok? ==> r.value.Some? && r.value.value != FusionObjectC && ClassType(r.value.value).value.kind == k
    ensures r.Err? ==> r.error.kind == IllegalArgument
    ensures k == List || k == Map ==> r.Ok?
  {
    hide BadQualifier, KindName;
    if k == Object then
      if n in env.fobs then Ok(Some(ObjectC(n))) else Fails(IllegalArgument, n)
    else if k == List then Ok(Some(ListC))
    else if k == Map then Ok(Some(MapC))
    else if k == Enum then
      if n in env.enums then Ok(Some(EnumC(n))) else Err(BadQualifier(k, n))
    else Err(BadQualifier(k, n))
  }

  /** The STRING qualifiers: the names of the built-in subtypes. */
  function SubtypeClass(n: string): (r: Result<Option<JClass>>)
    ensures r.Ok? <==> n in BuiltinSubtypeNames
    ensures r.Ok? ==> r.value == Some(SubtypeC(n))
    ensures r.Err? ==> r.error == BadQualifier(Str, n)
  {
    if n in BuiltinSubtypeNames then Ok(Some(SubtypeC(n))) else Err(BadQualifier(Str, n))
  }

  /** The width qualifiers of INTEGER; `int` is the unqualified default. */
  function IntQualifier(n: string): (r: Result<IntWidth>)
    ensures r.Err? ==> r.error == BadQualifier(Integer, n)
    ensures r.Ok? ==> r.value != JInt
  {
    if n == "byte" then Ok(JByte)
    else if n == "short" then Ok(JShort)
    else if n == "long" then Ok(JLong)
    else if n == "big" then Ok(JBig)
    else Err(BadQualifier(Integer, n))
  }

  /** The width qualifiers of DECIMAL; `BigDecimal` is the unqualified
      default. */
  function DecQualifier(n: string): (r: Result<DecWidth>)
    ensures r.Err? ==> r.error == BadQualifier(Decimal, n)
    ensures r.Ok? ==> r.value != JBigDecimal
  {
    if n == "float" then Ok(JFloat)
    else if n == "double" then Ok(JDouble)
    else Err(BadQualifier(Decimal, n))
  }

  // ---------------------------------------------------------------------
  // The built-in string subtypes

  /** `StringSubtype.valueOf` of the built-in subtypes. `char` takes at most
      one character (none means the character 0); `dotident` and `ident`
      take valid identifiers, `ident` a single part; `path`, `uri` and
      `url` take the text their Java parser accepts and raise its error
      otherwise; `nocase` takes any text. */
  function SubtypeParse(env: Env, name: string, s: string): (r: Result<Value>)
    ensures r.Ok? ==> r.value.StrVal? && r.value.sub == Some(name)
    ensures r.Ok? && name == "char" ==> |r.value.text| == 1
    ensures name == "char" ==> (r.Ok? <==> |s| <= 1)
    ensures name == "dotident" ==> (r.Ok? <==> Idents.IsValid(s))
    ensures name == "ident" ==> (r.Ok? <==> Idents.IsSimple(s))
    ensures IsLink(name) ==> (r.Ok? <==> env.parseLink(name, s).Pass?)
    ensures IsLink(name) && r.Err? ==> r.error == env.parseLink(name, s).error
    ensures name == "nocase" ==> r.Ok?
    ensures r.Ok? && name != "char" ==> r.value.text == s
  {
    match name
    case "char" =>
      if |s| == 0 then Ok(StrVal(Some(name), [0 as char]))
      else if |s| == 1 then Ok(StrVal(Some(name), s))
      else Fails(IllegalArgument, "String size is more than 1!")
    case "dotident" =>
      var _ :- Idents.MakeIdent(s);
      Ok(StrVal(Some(name), s))
    case "ident" =>
      var _ :- Idents.MakeSimple(s);
      Ok(StrVal(Some(name), s))
    case _ =>
      if IsLink(name) then
        match env.parseLink(name, s)
        case Pass => Ok(StrVal(Some(name), s))
        case Fail(e) => Err(e)
      else
      if name in BuiltinSubtypeNames then Ok(StrVal(Some(name), s))
      else Fails(NullPointer, "no subtype " + name)
  }

  /** `StringSubtype.valueOf` as written: `ident` goes through the `Simple`
      constructor, which checks the dotted pattern, so it accepts every
      valid identifier, dotted ones included. The other subtypes parse as
      `SubtypeParse` does, which the rest of the model uses. */
  function SubtypeParseAsWritten(env: Env, name: string, s: string): (r: Result<Value>)
    ensures name == "ident" ==> (r.Ok? <==> Idents.IsValid(s))
    ensures name == "ident" && r.Ok? ==> r.value == StrVal(Some(name), s)
    ensures name != "ident" ==> r == SubtypeParse(env, name, s)
  {
    if name == "ident" then
      var _ :- Idents.MakeSimpleAsWritten(s);
      Ok(StrVal(Some(name), s))
    else SubtypeParse(env, name, s)
  }

  /** As written, the `ident` subtype takes `a.b`, which the one-part
      check refuses. */
  lemma IdentSubtypeAcceptsDots(env: Env)
    ensures SubtypeParseAsWritten(env, "ident", "a.b").Ok?
    ensures SubtypeParse(env, "ident", "a.b").Err?
  {
    Idents.MakeSimpleAsWrittenAcceptsDots();
  }

  /** A parsed subtype value parses back to itself from its text. */
  lemma SubtypeParseIdempotent(env: Env, name: string, s: string)
    requires SubtypeParse(env, name, s).Ok?
    ensures SubtypeParse(env, name, SubtypeParse(env, name, s).value.text) == SubtypeParse(env, name, s)
  {
  }

  /** The zero of a subtype: the value of its zero payload, or NULL. */
  function SubtypeZero(name: string): (v: Value)
    ensures v.Null? <==> BuiltinZero(name).None?
    ensures !v.Null? ==> v == StrVal(Some(name), BuiltinZero(name).value)
  {
    match BuiltinZero(name)
    case None => Null
    case Some(z) => StrVal(Some(name), z)
  }

  /** Each built-in zero is itself a value its subtype's parser accepts. */
  lemma SubtypeZeroParses(env: Env, name: string)
    requires name in BuiltinSubtypeNames
    requires !SubtypeZero(name).Null?
    ensures SubtypeParse(env, name, SubtypeZero(name).text) == Ok(SubtypeZero(name))
  {
  }
}

=== FILE: validation.dfy ===
/** `FusionDataType`'s validation reporting: a failure is either appended to
    a caller's collection list or thrown as a `ValidationException`, whose
    message is its single error or a count of its errors.
 */
module Validation {
  import opened Wrappers
  import NumText

  /** `ValidationException.getMessage()` for the given error list. */
  function ExceptionMessage(errors: seq<string>): (m: string)
    ensures |errors| == 1 ==> m == errors[0]
    ensures |errors| != 1 ==> m == NumText.IntText(|errors|) + " validation errors!"
  {
    if |errors| == 1 then errors[0] else NumText.IntText(|errors|) + " validation errors!"
  }

  /** The exception a list of errors is thrown as. */
  function Exception(errors: seq<string>): (e: Error)
    ensures e.kind == Validation && IsIllegalArgument(e)
  {
    Error(Validation, ExceptionMessage(errors))
  }

  /** `validationFailed(err, collect)` (and `Validator.failed`, which is the
      same): with a collection list the error is appended and nothing is
      thrown; without one the error is thrown alone. */
  function Failed(err: string, collect: Option<seq<string>>): (r: Result<Option<seq<string>>>)
    ensures r.Ok? <==> collect.Some?
    ensures r.Ok? ==> r.value.Some? && |r.value.value| == |collect.value| + 1
    ensures r.Ok? ==> r.value.value[..|collect.value|] == collect.value && r.value.value[|collect.value|] == err
    ensures r.Err? ==> r.error == Error(Validation, err)
  {
    if collect.Some? then Ok(Some(collect.value + [err])) else Err(Exception([err]))
  }

  /** A thrown single failure reports exactly its own message. */
  lemma FailedThrowsItsMessage(err: string)
    ensures Failed(err, None).Err? && Failed(err, None).error.msg == err
  {
  }

  /** `Validator.failedMsg`: the validator's name, then the error or
      "failed". */
  function FailedMsg(name: string, error: Option<string>): (m: string)
    ensures |m| >= |name| + 2
    ensures m[..|name| + 2] == name + ": "
    ensures m[|name| + 2..] == if error.Some? then error.value else "failed"
  {
    name + ": " + (if error.Some? then error.value else "failed")
  }
}

=== FILE: valueops.dfy ===
/** Equality, ordering and hashing of fusion values (`FusionValue.equals`,
    `compareTo`, `hashCode`) and of the payloads they delegate to: the
    objects, lists and maps of the library and the Java classes of the
    scalar payloads.

    Where a Java hash or order depends on object identity or on a library
    algorithm outside the model (an enum constant's identity hash, the order
    of two `LocalDate`s), the model uses a stand-in that respects the same
    equality; the README lists each one.
 */
module ValueOps {
  import opened Wrappers
  import opened Iwr
  import opened NoCase
  import opened Values
  import Convert
  import NumText

  /** The string subtypes whose classes (`Ident` and its subclass `Simple`)
      compare with each other. */
  predicate IsIdentSub(sub: Option<string>) {
    sub == Some("dotident") || sub == Some("ident")
  }

  /** The subtypes whose classes compare and hash their text ignoring case. */
  predicate IsCaseBlind(sub: Option<string>) {
    sub == Some("nocase") || IsIdentSub(sub)
  }

  /** `equals` between two string payloads of the given subtypes. */
  predicate StrEqual(s1: Option<string>, t1: string, s2: Option<string>, t2: string) {
    if IsIdentSub(s1) && IsIdentSub(s2) then CompareIgnoreCase(t1, t2) == 0
    else s1 == s2 && (if s1 == Some("nocase") then CompareIgnoreCase(t1, t2) == 0 else t1 == t2)
  }

  /** `FusionValue.equals`: values of different kinds are unequal, NULL
      equals only NULL, and otherwise the payloads decide. An object equals
      another of the same type on its key fields when either is a key
      instance and on all fields otherwise; lists compare size, item kind and
      items in order; maps compare size, item kind and the value under every
      key. */
  function Equal(a: Value, b: Value): (r: bool)
    ensures r ==> KindOf(a) == KindOf(b)
    ensures a.Null? || b.Null? ==> (r <==> a.Null? && b.Null?)
    decreases a
  {
    KindOf(a) == KindOf(b)
    && match a
       case Null => true
       case StrVal(s, t) => b.StrVal? && StrEqual(s, t, b.sub, b.text)
       case EnumVal(c, n, _) => b.EnumVal? && c == b.cls && n == b.name
       case ObjVal(x) =>
         b.ObjVal? && x.typeName == b.obj.typeName && x.schema == b.obj.schema
         && var y := b.obj;
            var fs := if x.isKey || y.isKey then x.schema.keyFields else x.schema.fields;
            forall f :: f in fs ==>
              0 <= f.index < |x.vals| && 0 <= f.index < |y.vals| && Equal(x.vals[f.index], y.vals[f.index])
       case ListVal(x) =>
         b.ListVal? && |x.items| == |b.list.items| && ItemKind(x.domain) == ItemKind(b.list.domain)
         && forall i :: 0 <= i < |x.items| ==> Equal(x.items[i], b.list.items[i])
       case MapVal(x) =>
         b.MapVal? && |x.entries| == |b.fmap.entries| && ItemKind(x.domain) == ItemKind(b.fmap.domain)
         && forall i :: 0 <= i < |x.entries| ==>
              var other := Lookup(b.fmap.entries, x.entries[i].key);
              other.Some? && Equal(x.entries[i].value, other.value)
       case _ => a == b
  }

  /** A stand-in for the identity hash of a `FusionValueType` constant. */
  function KindHash(k: Kind): int {
    match k
    case Any => 0 case Bool => 1 case Integer => 2 case Decimal => 3 case Str => 4
    case Date => 5 case Time => 6 case DateTime => 7 case Instant => 8 case Duration => 9
    case Object => 10 case List => 11 case Map => 12 case Enum => 13 case Blob => 14
  }

  /** `hashCode` of the Java integer classes: the value itself for the
      classes up to `int`; `(int) (v ^ (v >>> 32))` for `long`. */
  function IntHash(w: IntWidth, n: int): (h: int)
    ensures -0x8000_0000 <= h < 0x8000_0000
    ensures w != JLong && w != JBig && Fits(w, n) ==> h == n
  {
    match w
    case JLong =>
      var u := (n % 0x1_0000_0000_0000_0000) as bv64;
      Int32((u ^ (u >> 32)) as int)
    case JBig => Int32(n)
    case _ => Int32(n)
  }

  /** `hashCode` of a string payload: `String.hashCode` of the text, of the
      lower-cased text for the case-blind classes, and the character itself
      for `Character`. */
  function StrHash(sub: Option<string>, t: string): int {
    if IsCaseBlind(sub) then JavaHash(LowerStr(t))
    else if sub == Some("char") && |t| == 1 then t[0] as int
    else JavaHash(t)
  }

  /** A stand-in for the identity hash of an object's class. */
  function ClassHash(typeName: string): int {
    JavaHash(typeName)
  }

  /** `FusionValue.hashCode`, the hash of the payload. An object hashes as its
      first key field's value, or as its class when it has no key fields;
      a list or map refuses to hash until it is readonly. */
  function Hash(v: Value): (r: Result<int>)
    ensures r.Ok? ==> -0x8000_0000 <= r.value < 0x8000_0000
    ensures v.ListVal? ==> (r.Ok? <==> v.list.state == Read)
    ensures v.MapVal? ==> (r.Ok? <==> v.fmap.state == Read)
    decreases v
  {
    match v
    case Null => Ok(0)
    case BoolVal(x) => Ok(if x then 1231 else 1237)
    case IntVal(w, n) => Ok(IntHash(w, n))
    case DecVal(_, u, s) => Ok(Int32(31 * u + s))
    case StrVal(sub, t) => Ok(StrHash(sub, t))
    case TimeVal(_, t) => Ok(Int32(t))
    case ObjVal(o) =>
      if |o.schema.keyFields| == 0 then Ok(ClassHash(o.typeName))
      else
        var i := o.schema.keyFields[0].index;
        if 0 <= i < |o.vals| then Hash(o.vals[i]) else Err(NumText.OutOfBounds(i, |o.vals|))
    case ListVal(l) =>
      if l.state != Read then Err(Error(IllegalState, "Not readonly!"))
      else Ok(Int32(31 * (31 + KindHash(ItemKind(l.domain))) + |l.items|))
    case MapVal(m) =>
      if m.state != Read then Err(Error(IllegalState, "Not readonly!"))
      else Ok(Int32(31 * (31 + KindHash(ItemKind(m.domain))) + |m.entries|))
    case EnumVal(c, n, _) => Ok(JavaHash(c + "." + n))
    case BlobVal(b) => Ok(Int32(|b.bytes|))
  }

  function Sign(x: int): (s: int)
    ensures s == -1 || s == 0 || s == 1
    ensures s < 0 <==> x < 0
    ensures s > 0 <==> x > 0
  {
    if x < 0 then -1 else if x > 0 then 1 else 0
  }

  /** `BigDecimal.compareTo`: the numeric order of `u1 * 10^-s1` and
      `u2 * 10^-s2`, whatever their scales. */
  function DecCompare(u1: int, s1: int, u2: int, s2: int): int {
    var top := if s1 < s2 then s2 else s1;
    Sign(u1 * Convert.Pow10(top - s1) - u2 * Convert.Pow10(top - s2))
  }

  function NotComparable(a: string, b: string): Error {
    Error(ClassCast, a + " not-comparable with " + b)
  }

  /** `compareTo` between two string payloads of the given subtypes:
      `String` and `Character` compare by code unit, the case-blind classes
      ignoring case; `URL` is not `Comparable`, and payloads of different
      classes cannot be compared. */
  function StrCompare(s1: Option<string>, t1: string, s2: Option<string>, t2: string): (r: Result<int>)
    ensures r.Ok? <==> (IsIdentSub(s1) && IsIdentSub(s2)) || (s1 == s2 && s1 != Some("url"))
    ensures r.Ok? && IsCaseBlind(s1) ==> (r.value == 0 <==> LowerStr(t1) == LowerStr(t2))
    ensures r.Ok? && !IsCaseBlind(s1) ==> (r.value == 0 <==> t1 == t2)
  {
    CompareIgnoreCaseZeroIff(t1, t2);
    JavaCompareZeroIff(t1, t2);
    if IsIdentSub(s1) && IsIdentSub(s2) then Ok(CompareIgnoreCase(t1, t2))
    else if s1 != s2 then Err(Error(ClassCast, "string subtypes not-comparable"))
    else if s1 == Some("url") then Err(Error(ClassCast, "class java.net.URL cannot be cast to class java.lang.Comparable"))
    else if s1 == Some("nocase") then Ok(CompareIgnoreCase(t1, t2))
    else Ok(JavaCompare(t1, t2))
  }

  /** `FusionValue.compareTo` with NULL ordered first: NULL equals NULL and
      precedes every other value; other values of different kinds cannot be
      compared; otherwise the payloads' own `compareTo` decides. Lists, maps
      and blobs are not `Comparable`. */
  function Compare(a: Value, b: Value): (r: Result<int>)
    ensures a.Null? ==> r == Ok(if b.Null? then 0 else -1)
    ensures !a.Null? && b.Null? ==> r == Ok(1)
    ensures !a.Null? && !b.Null? && KindOf(a) != KindOf(b) ==> r.Err? && r.error.kind == ClassCast
    ensures !b.Null? && (a.ListVal? || a.MapVal? || a.BlobVal?) ==> r.Err?
    decreases a, 1
  {
    if a.Null? || b.Null? then
      Ok(if a.Null? && b.Null? then 0 else if a.Null? then -1 else 1)
    else if KindOf(a) != KindOf(b) then
      Err(NotComparable(KindName(KindOf(a)), KindName(KindOf(b))))
    else
      match a
      case BoolVal(x) => Ok(if x == b.b then 0 else if x then 1 else -1)
      case IntVal(w, n) =>
        if w != b.width then Err(NotComparable(KindName(Integer), KindName(Integer)))
        else if w == JByte || w == JShort then Ok(n - b.n)
        else Ok(Sign(n - b.n))
      case DecVal(d, u, s) =>
        if d != b.dwidth then Err(NotComparable(KindName(Decimal), KindName(Decimal)))
        else Ok(DecCompare(u, s, b.unscaled, b.scale))
      case StrVal(s, t) => StrCompare(s, t, b.sub, b.text)
      case TimeVal(_, t) => Ok(Sign(t - b.ticks))
      case EnumVal(c, _, o) =>
        if c != b.cls then Err(NotComparable(c, b.cls)) else Ok(o - b.ordinal)
      case ObjVal(x) => CompareObjects(x, b.obj)
      case _ => Err(Error(ClassCast, KindName(KindOf(a)) + " payload is not Comparable"))
  }

  /** `FusionObject.compareTo` for objects with a schema: both must be of the
      same type and schema, the schema must have key fields, and the order is
      lexicographic over the key fields. */
  function CompareObjects(x: FObject, y: FObject): (r: Result<int>)
    ensures r.Ok? ==> x.typeName == y.typeName && x.schema == y.schema && |x.schema.keyFields| > 0
    ensures x.typeName == y.typeName && x.schema == y.schema && |x.schema.keyFields| == 0
            ==> r.Err? && r.error.kind == Unsupported
    decreases x, 1
  {
    if x.typeName != y.typeName then Err(NotComparable(x.typeName, y.typeName))
    else if x.schema != y.schema then Err(NotComparable(y.schema.id, x.schema.id))
    else if |x.schema.keyFields| == 0 then
      Fails(Unsupported, "Fusion-object of schema without key-fields cannot be compared: " + x.typeName)
    else CompareOn(x, y, x.schema.keyFields)
  }

  /** Both objects hold a value for `f`, and those values compare as `c`. */
  predicate FieldComparesTo(x: FObject, y: FObject, f: Field, c: int)
    decreases x, 0, 0
  {
    0 <= f.index < |x.vals| && 0 <= f.index < |y.vals| && Compare(x.vals[f.index], y.vals[f.index]) == Ok(c)
  }

  /** The first non-zero comparison of the two objects' values on `fs`. */
  function CompareOn(x: FObject, y: FObject, fs: seq<Field>): (r: Result<int>)
    ensures r == Ok(0) ==> forall k :: 0 <= k < |fs| ==> FieldComparesTo(x, y, fs[k], 0)
    ensures r.Ok? && r.value != 0 ==>
              exists k :: 0 <= k < |fs| && FieldComparesTo(x, y, fs[k], r.value)
                          && forall j :: 0 <= j < k ==> FieldComparesTo(x, y, fs[j], 0)
    decreases x, 0, |fs|
  {
    if |fs| == 0 then Ok(0)
    else
      var i := fs[0].index;
      if !(0 <= i < |x.vals| && 0 <= i < |y.vals|) then Err(NumText.OutOfBounds(i, if 0 <= i < |x.vals| then |y.vals| else |x.vals|))
      else
        var c :- Compare(x.vals[i], y.vals[i]);
        if c != 0 then Ok(c) else CompareOn(x, y, fs[1..])
  }

  /** `compareTo` as written: the kind check comes first, so NULL against
      any other value fails instead of ordering first; then two values
      holding the very same payload object (`same`) are equal without
      looking further; otherwise the NULL-first order decides. */
  function CompareAsWritten(a: Value, b: Value, same: bool): (r: Result<int>)
    requires same ==> a == b
    ensures r.Ok? ==> KindOf(a) == KindOf(b)
    ensures KindOf(a) != KindOf(b) ==> r.Err? && r.error.kind == ClassCast
    ensures a.Null? != b.Null? ==> r.Err? && r.error.kind == ClassCast
    ensures same ==> r == Ok(0)
    ensures !same && KindOf(a) == KindOf(b) ==> r == Compare(a, b)
  {
    if KindOf(a) != KindOf(b) then Err(NotComparable(KindName(KindOf(a)), KindName(KindOf(b))))
    else if same then Ok(0)
    else Compare(a, b)
  }

  /** The identity shortcut is where the as-written order and `Compare`
      part: an object of a type without key fields compared with itself is
      equal as written, while comparing its contents is refused. */
  lemma SameObjectComparesEqual()
    ensures var v := ObjVal(FObject("T", Schema("T", [], []), false, Iwr.Read, []));
            CompareAsWritten(v, v, true) == Ok(0)
            && Compare(v, v).Err? && Compare(v, v).error.kind == Unsupported
  {
  }

  /** NULL against zero: the as-written order fails where NULL is evidently
      meant to come first. */
  lemma CompareAsWrittenRejectsNull()
    ensures CompareAsWritten(Null, IntVal(JInt, 0), false).Err?
    ensures CompareAsWritten(Null, IntVal(JInt, 0), false).error.kind == ClassCast
    ensures Compare(Null, IntVal(JInt, 0)) == Ok(-1)
  {
  }

  /** On a key field the two orders part too: objects whose only key field
      is NULL in one and 0 in the other compare as -1 with the NULL-first
      order `CompareObjects` uses, while the as-written `compareTo` of the
      two field values fails. */
  lemma KeyFieldNullOrders(x: FObject, y: FObject, f: Field)
    requires x.typeName == y.typeName && x.schema == y.schema && x.schema.keyFields == [f]
    requires 0 <= f.index < |x.vals| && f.index < |y.vals|
    requires x.vals[f.index].Null? && y.vals[f.index] == IntVal(JInt, 0)
    ensures CompareObjects(x, y) == Ok(-1)
    ensures CompareAsWritten(x.vals[f.index], y.vals[f.index], false).Err?
    ensures CompareAsWritten(x.vals[f.index], y.vals[f.index], false).error.kind == ClassCast
  {
  }

  /** Comparison is antisymmetric: swapping the operands succeeds or fails
      alike, and a result is negated exactly. */
  lemma {:induction false} CompareAntisymmetric(a: Value, b: Value)
    ensures Compare(a, b).Ok? <==> Compare(b, a).Ok?
    ensures Compare(a, b).Ok? ==> Compare(a, b).value == -Compare(b, a).value
    decreases a, 1
  {
    if a.Null? || b.Null? || KindOf(a) != KindOf(b) {
    } else {
      hide DecCompare, StrCompare, CompareObjects;
      match a
      case StrVal(s, t) =>
        StrCompareAntisymmetric(s, t, b.sub, b.text);
      case DecVal(_, u, sc) =>
        DecCompareAntisymmetric(u, sc, b.unscaled, b.scale);
      case ObjVal(x) =>
        CompareObjectsAntisymmetric(x, b.obj);
      case _ =>
    }
  }

  /** Decimal payloads compare antisymmetrically at any pair of scales. */
  lemma DecCompareAntisymmetric(u1: int, s1: int, u2: int, s2: int)
    ensures DecCompare(u1, s1, u2, s2) == -DecCompare(u2, s2, u1, s1)
  {
    var top := if s1 < s2 then s2 else s1;
    assert top == (if s2 < s1 then s1 else s2);
  }

  /** String payloads compare antisymmetrically whichever class holds them. */
  lemma StrCompareAntisymmetric(s1: Option<string>, t1: string, s2: Option<string>, t2: string)
    ensures StrCompare(s1, t1, s2, t2).Ok? <==> StrCompare(s2, t2, s1, t1).Ok?
    ensures StrCompare(s1, t1, s2, t2).Ok? ==> StrCompare(s1, t1, s2, t2).value == -StrCompare(s2, t2, s1, t1).value
  {
    CompareIgnoreCaseOrder(t1, t2, t1);
    JavaCompareAntisymmetric(t1, t2);
  }

  lemma {:induction false} CompareObjectsAntisymmetric(x: FObject, y: FObject)
    ensures CompareObjects(x, y).Ok? <==> CompareObjects(y, x).Ok?
    ensures CompareObjects(x, y).Ok? ==> CompareObjects(x, y).value == -CompareObjects(y, x).value
    decreases x, 1
  {
    if x.typeName == y.typeName && x.schema == y.schema && |x.schema.keyFields| > 0 {
      CompareOnAntisymmetric(x, y, x.schema.keyFields);
    }
  }

  lemma {:induction false} CompareOnAntisymmetric(x: FObject, y: FObject, fs: seq<Field>)
    ensures CompareOn(x, y, fs).Ok? <==> CompareOn(y, x, fs).Ok?
    ensures CompareOn(x, y, fs).Ok? ==> CompareOn(x, y, fs).value == -CompareOn(y, x, fs).value
    decreases x, 0, |fs|
  {
    if |fs| > 0 {
      var i := fs[0].index;
      if 0 <= i < |x.vals| && 0 <= i < |y.vals| {
        CompareAntisymmetric(x.vals[i], y.vals[i]);
        CompareOnAntisymmetric(x, y, fs[1..]);
      }
    }
  }

  /** Equal values hash alike (whenever both hash at all): the contract
      `hashCode` owes `equals`. */
  lemma {:induction false} EqualSameHash(a: Value, b: Value)
    requires WellFormed(a)
    requires Equal(a, b)
    requires Hash(a).Ok? && Hash(b).Ok?
    ensures Hash(a).value == Hash(b).value
    decreases a
  {
    match a
    case StrVal(s, t) =>
      CompareIgnoreCaseZeroIff(t, b.text);
    case ObjVal(x) =>
      var y := b.obj;
      if |x.schema.keyFields| > 0 {
        var k := x.schema.keyFields[0];
        assert k in x.schema.keyFields;
        assert k in x.schema.fields;
        EqualSameHash(x.vals[k.index], y.vals[k.index]);
      }
    case _ =>
  }
}

=== FILE: values.dfy ===
/** The data model of fusion values: the fifteen value kinds, the tagged
    value itself, and the entities a value can hold (objects, lists, maps,
    blobs) together with the descriptors that type them (domains, field
    schemas, object schemas).

    These types are mutually recursive, as in the library: a list holds
    values, a domain's range is a value, a field's default is a value, and an
    object's schema holds fields. An OBJECT domain names its object type by
    its qualifier only; the type itself is looked up by name where needed, so
    self-referencing object types need no infinite descriptor.

    Java payload classes are not modelled as classes: each Java payload is a
    constructor of `Value` (a `java.lang.Short` is `IntVal(JShort, n)`), and
    `JClass` names the classes the library compares payloads against.
 */
module Values {
  import opened Wrappers
  import opened Iwr
  import opened NoCase

  /** `FusionValueType`, in declaration order. */
  datatype Kind =
    | Any | Bool | Integer | Decimal | Str
    | Date | Time | DateTime | Instant | Duration
    | Object | List | Map | Enum | Blob

  /** `FusionValueType.name()`. */
  function KindName(k: Kind): string {
    match k
    case Any => "ANY"
    case Bool => "BOOL"
    case Integer => "INTEGER"
    case Decimal => "DECIMAL"
    case Str => "STRING"
    case Date => "DATE"
    case Time => "TIME"
    case DateTime => "DATETIME"
    case Instant => "INSTANT"
    case Duration => "DURATION"
    case Object => "OBJECT"
    case List => "LIST"
    case Map => "MAP"
    case Enum => "ENUM"
    case Blob => "BLOB"
  }

  /** `FusionValueType.valueOf`: the kind with exactly this name. */
  function KindFromName(s: string): (r: Result<Kind>)
    ensures r.Ok? ==> KindName(r.value) == s
    ensures r.Err? ==> r.error.kind == IllegalArgument
  {
    match s
    case "ANY" => Ok(Any)
    case "BOOL" => Ok(Bool)
    case "INTEGER" => Ok(Integer)
    case "DECIMAL" => Ok(Decimal)
    case "STRING" => Ok(Str)
    case "DATE" => Ok(Date)
    case "TIME" => Ok(Time)
    case "DATETIME" => Ok(DateTime)
    case "INSTANT" => Ok(Instant)
    case "DURATION" => Ok(Duration)
    case "OBJECT" => Ok(Object)
    case "LIST" => Ok(List)
    case "MAP" => Ok(Map)
    case "ENUM" => Ok(Enum)
    case "BLOB" => Ok(Blob)
    case _ => Fails(IllegalArgument, "No enum constant zer0g.fusion.data.FusionValueType." + s)
  }

  /** Every kind is found again by its name. */
  lemma KindNameRoundTrip(k: Kind)
    ensures KindFromName(KindName(k)) == Ok(k)
  {
  }

  predicate IsTemporal(k: Kind) {
    k == Date || k == Time || k == DateTime || k == Instant || k == Duration
  }

  /** The two kinds that hold other values and may not nest in each other. */
  predicate IsCollection(k: Kind) {
    k == List || k == Map
  }

  type TimeKind = k: Kind | IsTemporal(k) witness Date

  /** The Java classes of an INTEGER payload, narrowest first. */
  datatype IntWidth = JByte | JShort | JInt | JLong | JBig

  /** The Java classes of a DECIMAL payload. */
  datatype DecWidth = JFloat | JDouble | JBigDecimal

  /** Whether `n` is representable in the given Java integer class. */
  predicate Fits(w: IntWidth, n: int) {
    match w
    case JByte => -0x80 <= n < 0x80
    case JShort => -0x8000 <= n < 0x8000
    case JInt => -0x8000_0000 <= n < 0x8000_0000
    case JLong => -0x8000_0000_0000_0000 <= n < 0x8000_0000_0000_0000
    case JBig => true
  }

  /** The classes the library tests payloads against. */
  datatype JClass =
    | BooleanC
    | IntC(width: IntWidth)
    | DecC(dwidth: DecWidth)
    | StringC
    | SubtypeC(sub: string)       // the class registered for a string subtype
    | TimeC(tkind: TimeKind)
    | FusionObjectC               // the FusionObject interface
    | ObjectC(typeName: string)   // the data class of one fusion-object type
    | ListC | FusionListC
    | MapC | FusionMapC
    | EnumBaseC                   // java.lang.Enum
    | EnumC(cls: string)          // one enum class
    | BlobC

  /** `Class.isAssignableFrom` between the classes of the model. */
  predicate Assignable(to: JClass, from: JClass) {
    to == from
    || (to == FusionObjectC && from.ObjectC?)
    || (to == ListC && from == FusionListC)
    || (to == MapC && from == FusionMapC)
    || (to == EnumBaseC && from.EnumC?)
    || (to == SubtypeC("dotident") && from == SubtypeC("ident"))
  }

  /** A value kind with its optional qualifier, as in `"INTEGER.long"`. */
  datatype QualifiedType = QualifiedType(kind: Kind, qualifier: Option<string>)

  /** A tagged value. `Null` is the unique NULL value; every other
      constructor stands for a non-null Java payload, and the value's kind is
      determined by it. */
  datatype Value =
    | Null
    | BoolVal(b: bool)
    | IntVal(width: IntWidth, n: int)
    | DecVal(dwidth: DecWidth, unscaled: int, scale: int)  // unscaled * 10^-scale
    | StrVal(sub: Option<string>, text: string)            // sub: the string subtype, if any
    | TimeVal(tkind: TimeKind, ticks: int)                 // an opaque, ordered instant or span
    | ObjVal(obj: FObject)
    | ListVal(list: FList)
    | MapVal(fmap: FMap)
    | EnumVal(cls: string, name: string, ordinal: nat)
    | BlobVal(blob: BlobData)

  /** A fusion object: its type's name and schema, whether it is a key
      instance, its lifecycle state and one value per schema field. */
  datatype FObject = FObject(typeName: string, schema: Schema, isKey: bool, state: IwrState, vals: seq<Value>)

  /** A `FusionList`: a LIST domain, a state and the coerced items. */
  datatype FList = FList(domain: Domain, state: IwrState, items: seq<Value>)

  /** A `FusionMap`: a MAP domain, a state and its entries, kept ordered by
      case-insensitive key. */
  datatype FMap = FMap(domain: Domain, state: IwrState, entries: seq<Entry>)

  datatype Entry = Entry(key: string, value: Value)

  /** A `Blob`: a state, the byte buffer, and the writer slot. The slot is
      `None` when no writer is registered, otherwise the cursor of the
      registered writer stream (`-1` once that stream is closed). */
  datatype BlobData = BlobData(state: IwrState, bytes: seq<Byte>, writer: Option<int>)

  /** A Java `byte`, by its unsigned value (the bits are what matter to the
      buffer and to hexadecimal text). */
  newtype Byte = x: int | 0 <= x < 256

  /** A compiled range: each bound is absent or a value of the bound's type. */
  datatype Bounds = Bounds(min: Option<Value>, max: Option<Value>)

  /** `FusionValueDomain`: kind, qualifier, the range as given, and the parts
      the constructor derives from them: the compiled range, the Java data
      class (absent for ANY and OBJECT) and, for LIST and MAP, the item domain. */
  datatype Domain = Domain(
    kind: Kind,
    qualifier: Option<string>,
    range: Value,
    compiled: Option<Bounds>,
    dataClass: Option<JClass>,
    item: Option<Domain>)

  /** `FusionFieldSchema`: name, domain, flag bits, default and index. */
  datatype Field = Field(name: string, domain: Domain, flags: bv32, defval: Option<Value>, index: int)

  /** `FusionObjectSchema`: id, the fields in order, and the key fields. */
  datatype Schema = Schema(id: string, fields: seq<Field>, keyFields: seq<Field>)

  /** `FusionValue.type()`: ANY for NULL, otherwise the kind of the payload. */
  function KindOf(v: Value): (k: Kind)
    ensures k == Any <==> v.Null?
    ensures v.TimeVal? <==> IsTemporal(k)
  {
    match v
    case Null => Any
    case BoolVal(_) => Bool
    case IntVal(_, _) => Integer
    case DecVal(_, _, _) => Decimal
    case StrVal(_, _) => Str
    case TimeVal(k, _) => k
    case ObjVal(_) => Object
    case ListVal(_) => List
    case MapVal(_) => Map
    case EnumVal(_, _, _) => Enum
    case BlobVal(_) => Blob
  }

  /** `get().getClass()` of a non-null value. */
  function PayloadClass(v: Value): JClass
    requires !v.Null?
  {
    match v
    case BoolVal(_) => BooleanC
    case IntVal(w, _) => IntC(w)
    case DecVal(d, _, _) => DecC(d)
    case StrVal(sub, _) => if sub.Some? then SubtypeC(sub.value) else StringC
    case TimeVal(k, _) => TimeC(k)
    case ObjVal(o) => ObjectC(o.typeName)
    case ListVal(_) => FusionListC
    case MapVal(_) => FusionMapC
    case EnumVal(cls, _, _) => EnumC(cls)
    case BlobVal(_) => BlobC
  }

  /** `typeForJavaValueClass` restricted to the classes of the model: the
      qualified type a Java class is registered under. The `FusionObject`
      interface itself is looked up as an object type, which is never
      registered. */
  function ClassType(c: JClass): (r: Result<QualifiedType>)
    ensures r.Ok? ==> r.value.kind != Any
    ensures r.Err? <==> c == FusionObjectC
  {
    match c
    case BooleanC => Ok(QualifiedType(Bool, None))
    case IntC(w) =>
      Ok(QualifiedType(Integer, match w
        case JByte => Some("byte")
        case JShort => Some("short")
        case JInt => None
        case JLong => Some("long")
        case JBig => Some("big")))
    case DecC(d) =>
      Ok(QualifiedType(Decimal, match d
        case JFloat => Some("float")
        case JDouble => Some("double")
        case JBigDecimal => None))
    case StringC => Ok(QualifiedType(Str, None))
    case SubtypeC(s) => Ok(QualifiedType(Str, Some(s)))
    case TimeC(k) => Ok(QualifiedType(k, None))
    case FusionObjectC =>
      Fails(IllegalArgument, "zer0g.fusion.data.FusionObject")
    case ObjectC(n) => Ok(QualifiedType(Object, Some(n)))
    case ListC => Ok(QualifiedType(List, None))
    case FusionListC => Ok(QualifiedType(List, None))
    case MapC => Ok(QualifiedType(Map, None))
    case FusionMapC => Ok(QualifiedType(Map, None))
    case EnumBaseC => Ok(QualifiedType(Enum, None))
    case EnumC(n) => Ok(QualifiedType(Enum, Some(n)))
    case BlobC => Ok(QualifiedType(Blob, None))
  }

  /** `typeForJavaValue`: the qualified type of a non-null payload. */
  function TypeOfPayload(v: Value): (r: QualifiedType)
    requires !v.Null?
    ensures r.kind == KindOf(v)
  {
    ClassType(PayloadClass(v)).value
  }

  /** The shape of every schema the schema constructor builds: field `i`
      carries index `i`, and every key field is one of the fields. */
  predicate Indexed(s: Schema) {
    (forall i :: 0 <= i < |s.fields| ==> s.fields[i].index == i)
    && (forall k :: 0 <= k < |s.keyFields| ==> s.keyFields[k] in s.fields)
  }

  /** A value is well formed when each integer payload fits its class and
      each object, at any depth, has an indexed schema and one value per
      field. */
  predicate WellFormed(v: Value)
    decreases v
  {
    match v
    case IntVal(w, n) => Fits(w, n)
    case ObjVal(o) =>
      Indexed(o.schema) && |o.vals| == |o.schema.fields|
      && forall i :: 0 <= i < |o.vals| ==> WellFormed(o.vals[i])
    case ListVal(l) => forall i :: 0 <= i < |l.items| ==> WellFormed(l.items[i])
    case MapVal(m) => forall i :: 0 <= i < |m.entries| ==> WellFormed(m.entries[i].value)
    case _ => true
  }

  /** The kind of a collection's items (ANY when no item domain is set). */
  function ItemKind(d: Domain): Kind {
    if d.item.Some? then d.item.value.kind else Any
  }

  /** `TreeMap.get` under the case-insensitive key order: the value of the
      entry whose key equals `key` ignoring case. */
  function Lookup(entries: seq<Entry>, key: string): (r: Option<Value>)
    ensures r.Some? <==> exists i :: 0 <= i < |entries| && CompareIgnoreCase(entries[i].key, key) == 0
    ensures r.Some? ==> exists i :: 0 <= i < |entries| && CompareIgnoreCase(entries[i].key, key) == 0 && entries[i].value == r.value
  {
    if |entries| == 0 then None
    else if CompareIgnoreCase(entries[0].key, key) == 0 then Some(entries[0].value)
    else
      var r := Lookup(entries[1..], key);
      assert forall i :: 1 <= i < |entries| ==> entries[i] == entries[1..][i - 1];
      r
  }
}

=== FILE: wrappers.dfy ===
/** Failure-compatible wrappers used throughout the model.

    The Java library signals every failure with an exception. The model
    returns a `Result` instead, carrying the exception's class (as an
    `ErrorKind`) and its message, so that each error path of the source is a
    value the contracts can talk about.
 */
module Wrappers {

  /** A Java reference that may be `null`. */
  datatype Option<+T> = None | Some(value: T) {
    predicate IsFailure() { None? }

    function PropagateFailure<U>(): Option<U>
      requires None?
    {
      None
    }

    function Extract(): T
      requires Some?
    {
      value
    }
  }

  /** The class of the exception the source throws. */
  datatype ErrorKind =
    | IllegalState        // IllegalStateException
    | IllegalArgument     // IllegalArgumentException (and NumberFormatException)
    | Validation          // FusionDataType.ValidationException, an IllegalArgumentException
    | Unsupported         // UnsupportedOperationException
    | Arithmetic          // ArithmeticException
    | NullPointer         // NullPointerException
    | ClassCast           // ClassCastException
    | IndexOutOfBounds    // IndexOutOfBoundsException and its array/string variants
    | Io                  // IOException
    | Eof                 // EOFException
    | Assertion           // AssertionError
    | NegativeArraySize   // NegativeArraySizeException
    | Runtime             // any other RuntimeException, such as the "todo" stubs

  datatype Error = Error(kind: ErrorKind, msg: string)

  /** `new EOFException()`: every EOFException the source raises has no
      message, so its `msg` is empty and stands for Java's null. */
  const EndOfInput := Error(Eof, "")

  /** `getMessage()` as string concatenation prints it: "null" for the
      message-less EOFException, the message otherwise. */
  function MessageText(e: Error): (s: string)
    ensures e.kind == Eof ==> s == "null"
    ensures e.kind != Eof ==> s == e.msg
  {
    if e.kind == Eof then "null" else e.msg
  }

  /** Either the value an operation returns or the exception it throws. */
  datatype Result<+T> = Ok(value: T) | Err(error: Error) {
    predicate IsFailure() { Err? }

    function PropagateFailure<U>(): Result<U>
      requires Err?
    {
      Err(error)
    }

    function Extract(): T
      requires Ok?
    {
      value
    }
  }

  /** The result of a check that returns nothing but may throw. */
  datatype Outcome = Pass | Fail(error: Error) {
    predicate IsFailure() { Fail? }

    function PropagateFailure<U>(): Result<U>
      requires Fail?
    {
      Err(error)
    }
  }

  /** An IllegalArgumentException and a ValidationException are the two
      exception classes that `catch (IllegalArgumentException e)` sees. */
  predicate IsIllegalArgument(e: Error) {
    e.kind == IllegalArgument || e.kind == Validation
  }

  function Fails<T>(kind: ErrorKind, msg: string): Result<T> {
    Err(Error(kind, msg))
  }
}

=== FILE: zeros.dfy ===
/** `FusionValueType.zero(domain)`: the value each kind starts a field or
    an item with. Scalars get their Java zero, strings the empty string or
    their subtype's zero, the temporal kinds the epoch, objects a fresh
    object of their type, enums their first constant; lists and maps are
    filled with a number of item zeros and frozen.

    Two flavours share one definition, told apart by `fixed`: as
    written, a list or map takes its item count from the ITEM
    domain's range and a blob's zero is the INTEGER zero `BYTE_ZERO`; as
    intended, the count is the minimum of the collection's own length
    range and a blob's zero is the empty, readonly `BLOB_ZERO`.
 */
module Zeros {
  import opened Wrappers
  import opened Values
  import opened NumText
  import Types
  import Coerce
  import ObjectCore
  import Fusion
  import NoCaseMaps
  import NoCase
  import Ranges
  import Iwr

  /** `(int) itemdomain._compiledRange().min()`, as written: no item range
      means no items, a range without a minimum unboxes null, and only an
      `Integer` minimum survives the cast. */
  function ItemMinAsWritten(item: Domain): (r: Result<int>)
    ensures item.compiled.None? ==> r == Ok(0)
    ensures item.compiled.Some? ==>
              (r.Ok? <==> item.compiled.value.min.Some? && item.compiled.value.min.value.IntVal?
                          && item.compiled.value.min.value.width == JInt)
    ensures r.Ok? && item.compiled.Some? ==> r.value == item.compiled.value.min.value.n
  {
    if item.compiled.None? then Ok(0)
    else match item.compiled.value.min
      case None => Fails(NullPointer, "min")
      case Some(v) =>
        if v.IntVal? && v.width == JInt then Ok(v.n)
        else Fails(ClassCast, "range bound cannot be cast to class java.lang.Integer")
  }

  /** The smallest length the collection's own length range admits. */
  function LengthMin(d: Domain): (n: int)
    ensures d.compiled.Some? && Ranges.LengthBounds(d.compiled.value) ==>
              n >= 0 && Ranges.CheckLength(d.compiled.value, n).Pass?
                     && forall m: nat :: m < n ==> Ranges.CheckLength(d.compiled.value, m).Fail?
  {
    if d.compiled.Some? && d.compiled.value.min.Some? && d.compiled.value.min.value.IntVal? then
      d.compiled.value.min.value.n
    else 0
  }

  /** The key of the `i`th zero entry of a map. */
  function ZeroKey(i: nat): string {
    "key" + NatText(i)
  }

  /** `zero(domain)` of each kind, in the flavour `fixed` selects. */
  function ZeroWith(env: Types.Env, d: Domain, fixed: bool): (r: Result<Value>)
    ensures d.kind == Any ==> r.Err? && r.error.kind == Assertion
    ensures r.Ok? && !r.value.Null? && !(d.kind == Blob && !fixed) ==> KindOf(r.value) == d.kind
    ensures r.Ok? && r.value.Null? ==>
              d.kind == Str && d.qualifier.Some? && Types.BuiltinZero(d.qualifier.value).None?
    ensures r.Ok? ==> Scalar(r.value)
    ensures r.Ok? && d.kind == Object ==>
              d.qualifier.Some? && d.qualifier.value in env.fobs
              && r.value == ObjVal(ObjectCore.Make(env.fobs[d.qualifier.value]))
    ensures r.Ok? && d.kind == Enum ==>
              d.qualifier.Some? && d.qualifier.value in env.enums && |env.enums[d.qualifier.value]| > 0
              && r.value == EnumVal(d.qualifier.value, env.enums[d.qualifier.value][0], 0)
    ensures r.Ok? && d.kind == List ==> ListZero(env, d, fixed, r.value)
    ensures r.Ok? && d.kind == Map ==> MapZero(env, d, fixed, r.value)
    decreases d, 2
  {
    match d.kind
    case Any => Fails(Assertion, "")
    case Bool => Ok(BoolVal(false))
    case Integer =>
      if d.qualifier.None? then Ok(IntVal(JInt, 0))
      else
        var w :- Types.IntQualifier(d.qualifier.value);
        Ok(IntVal(w, 0))
    case Decimal =>
      if d.qualifier.None? then Ok(DecVal(JBigDecimal, 0, 0))
      else
        var w :- Types.DecQualifier(d.qualifier.value);
        Ok(DecVal(w, 0, 0))
    case Str =>
      if d.qualifier.None? then Ok(StrVal(None, ""))
      else if d.qualifier.value in Types.BuiltinSubtypeNames then Ok(Types.SubtypeZero(d.qualifier.value))
      else Err(Types.BadQualifier(Str, d.qualifier.value))
    case Date => Ok(TimeVal(Date, 0))
    case Time => Ok(TimeVal(Time, 0))
    case DateTime => Ok(TimeVal(DateTime, 0))
    case Instant => Ok(TimeVal(Instant, 0))
    case Duration => Ok(TimeVal(Duration, 0))
    case Object =>
      var t :- Fusion.FobTypeNamed(env.fobs, d.qualifier);
      Ok(ObjVal(ObjectCore.Make(t)))
    case List => CollectionZero(env, d, fixed)
    case Map => CollectionZero(env, d, fixed)
    case Enum =>
      if d.qualifier.None? then Fails(NullPointer, "getEnumConstants")
      else if d.qualifier.value !in env.enums then Err(Types.BadQualifier(Enum, d.qualifier.value))
      else if |env.enums[d.qualifier.value]| == 0 then Err(NumText.OutOfBounds(0, 0))
      else Ok(EnumVal(d.qualifier.value, env.enums[d.qualifier.value][0], 0))
    case Blob =>
      if fixed then Ok(BlobVal(BlobData(Iwr.Read, [], None))) else Ok(IntVal(JByte, 0))
  }

  /** A zero other than an object's is of the domain's Java data class,
      so the casts the source applies to it succeed. */
  lemma ZeroAssignable(env: Types.Env, d: Domain, fixed: bool)
    requires ZeroWith(env, d, fixed).Ok? && !ZeroWith(env, d, fixed).value.Null?
    requires d.kind != Object && !(d.kind == Blob && !fixed)
    requires Types.JavaDataClass(env, d.kind, d.qualifier).Ok?
    ensures Types.JavaDataClass(env, d.kind, d.qualifier).value.Some?
    ensures Assignable(Types.JavaDataClass(env, d.kind, d.qualifier).value.value, PayloadClass(ZeroWith(env, d, fixed).value))
  {
  }

  /** A list or map zero: the flavour's count of item zeros, frozen; a
      map's under the keys `key0`, `key1`, ... */
  function CollectionZero(env: Types.Env, d: Domain, fixed: bool): (r: Result<Value>)
    requires d.kind == List || d.kind == Map
    ensures d.item.None? ==> r == Fails(NullPointer, "itemDomain")
    ensures r.Ok? ==> Scalar(r.value) && KindOf(r.value) == d.kind
    ensures r.Ok? && d.kind == List ==> ListZero(env, d, fixed, r.value)
    ensures r.Ok? && d.kind == Map ==> MapZero(env, d, fixed, r.value)
    decreases d, 1
  {
    if d.item.None? then Fails(NullPointer, "itemDomain")
    else
      var n :- Count(d, fixed);
      var items :- Fill(env, d.item.value, n, fixed);
      if d.kind == List then Ok(ListVal(FList(d, Iwr.Read, items)))
      else Ok(MapVal(FMap(d, Iwr.Read, ZeroEntries(items))))
  }

  /** Every zero is a value of the model: the scalars hold zero, an empty
      text or the subtype's zero text, and a collection is READ. */
  predicate Scalar(v: Value) {
    match v
    case IntVal(_, n) => n == 0
    case DecVal(_, u, _) => u == 0
    case TimeVal(_, t) => t == 0
    case BoolVal(b) => !b
    case StrVal(sub, t) => if sub.None? then t == "" else Types.BuiltinZero(sub.value) == Some(t)
    case ListVal(l) => l.state == Iwr.Read
    case MapVal(m) => m.state == Iwr.Read
    case BlobVal(b) => b.state == Iwr.Read && |b.bytes| == 0 && b.writer.None?
    case _ => true
  }

  /** The number of items a collection zero gets. */
  function Count(d: Domain, fixed: bool): (r: Result<int>)
    requires d.item.Some?
    ensures fixed ==> r == Ok(LengthMin(d))
    ensures !fixed ==> r == ItemMinAsWritten(d.item.value)
  {
    if fixed then Ok(LengthMin(d)) else ItemMinAsWritten(d.item.value)
  }

  /** `n` items, each the item zero as `add` or `put` coerces it; the item
      zero is not asked for when no item is added. */
  function Fill(env: Types.Env, item: Domain, n: int, fixed: bool): (r: Result<seq<Value>>)
    ensures n <= 0 ==> r == Ok([])
    ensures r.Ok? ==> |r.value| == (if n <= 0 then 0 else n)
    ensures r.Ok? && n > 0 ==> ItemZero(env, item, fixed).Ok?
                               && forall i :: 0 <= i < n ==> r.value[i] == ItemZero(env, item, fixed).value
    decreases item, 4
  {
    if n <= 0 then Ok([])
    else
      var c :- ItemZero(env, item, fixed);
      Ok(seq(n, i => c))
  }

  /** The item domain's zero, coerced by the item domain as `add` and `put`
      coerce what they are given. */
  function ItemZero(env: Types.Env, item: Domain, fixed: bool): (r: Result<Value>)
    ensures r.Ok? && !r.value.Null? && item.kind != Any ==> KindOf(r.value) == item.kind
    decreases item, 3
  {
    var z :- ZeroWith(env, item, fixed);
    Coerce.From(env, item.kind, Some(item), Coerce.Fv(z))
  }

  /** The entries `key0`, `key1`, ... put in turn into an empty map. */
  function ZeroEntries(items: seq<Value>): (r: seq<Entry>)
    ensures NoCaseMaps.Sorted(r)
  {
    NoCaseMaps.PutAll([], KeyedEntries(items))
  }

  function KeyedEntries(items: seq<Value>): (r: seq<Entry>)
    ensures |r| == |items|
    ensures forall i :: 0 <= i < |items| ==> r[i] == Entry(ZeroKey(i), items[i])
  {
    seq(|items|, i requires 0 <= i < |items| => Entry(ZeroKey(i), items[i]))
  }

  /** A list zero: READ, of the domain, holding as many copies of the
      coerced item zero as the flavour's count asks for. */
  predicate ListZero(env: Types.Env, d: Domain, fixed: bool, v: Value)
    decreases d, 0
  {
    v.ListVal? && v.list.domain == d && v.list.state == Iwr.Read
    && d.item.Some? && Count(d, fixed).Ok?
    && |v.list.items| == (if Count(d, fixed).value <= 0 then 0 else Count(d, fixed).value)
    && forall i :: 0 <= i < |v.list.items| ==> ItemZero(env, d.item.value, fixed) == Ok(v.list.items[i])
  }

  /** A map zero: READ, of the domain, sorted, with the entries `key0` ...
      each holding the coerced item zero. */
  predicate MapZero(env: Types.Env, d: Domain, fixed: bool, v: Value)
    decreases d, 0
  {
    v.MapVal? && v.fmap.domain == d && v.fmap.state == Iwr.Read
    && d.item.Some? && Count(d, fixed).Ok?
    && NoCaseMaps.Sorted(v.fmap.entries)
    && Fill(env, d.item.value, Count(d, fixed).value, fixed).Ok?
    && v.fmap.entries == ZeroEntries(Fill(env, d.item.value, Count(d, fixed).value, fixed).value)
  }

  /** `zero(domain)` as written. */
  function ZeroAsWritten(env: Types.Env, d: Domain): (r: Result<Value>)
    ensures r == ZeroWith(env, d, false)
  {
    ZeroWith(env, d, false)
  }

  /** `zero(domain)` as intended. */
  function Zero(env: Types.Env, d: Domain): (r: Result<Value>)
    ensures r == ZeroWith(env, d, true)
  {
    ZeroWith(env, d, true)
  }

  // ---------------------------------------------------------------------
  // Properties

  /** The zero keys of a map are lower-case already. */
  lemma ZeroKeyLower(i: nat)
    ensures NoCase.LowerStr(ZeroKey(i)) == ZeroKey(i)
  {
    var k := ZeroKey(i);
    assert forall c :: 0 <= c < |k| ==> !('A' <= k[c] <= 'Z') by {
      forall c | 0 <= c < |k| ensures !('A' <= k[c] <= 'Z') {
        if c >= 3 {
          assert k[c] == NatText(i)[c - 3];
        }
      }
    }
  }

  /** Different positions give keys that differ even ignoring case. */
  lemma ZeroKeysDistinct(i: nat, j: nat)
    requires i != j
    ensures NoCase.CompareIgnoreCase(ZeroKey(i), ZeroKey(j)) != 0
  {
    NoCase.CompareIgnoreCaseZeroIff(ZeroKey(i), ZeroKey(j));
    ZeroKeyLower(i);
    ZeroKeyLower(j);
    if ZeroKey(i) == ZeroKey(j) {
      assert NatText(i) == ZeroKey(i)[3..] == ZeroKey(j)[3..] == NatText(j);
      NatTextValue(i);
      NatTextValue(j);
    }
  }

  /** A map zero has one entry per item, under the keys `key0` ... */
  lemma ZeroEntriesCount(items: seq<Value>)
    ensures |ZeroEntries(items)| == |items|
    ensures forall i :: 0 <= i < |items| ==> Lookup(ZeroEntries(items), ZeroKey(i)).Some?
  {
    var from := KeyedEntries(items);
    forall a, b | 0 <= a < b < |from| ensures NoCase.CompareIgnoreCase(from[a].key, from[b].key) != 0 {
      ZeroKeysDistinct(a, b);
    }
    NoCaseMaps.PutAllSize([], from);
    forall i | 0 <= i < |items| ensures Lookup(ZeroEntries(items), ZeroKey(i)).Some? {
      NoCaseMaps.PutAllHasKeys([], from, i);
    }
  }

  /** The intended zero of a list or map satisfies the collection's own
      length range: it is exactly as long as the range's minimum. */
  lemma ZeroWithinLength(env: Types.Env, d: Domain)
    requires d.kind == List || d.kind == Map
    requires d.compiled.Some? && Ranges.LengthBounds(d.compiled.value)
    requires Zero(env, d).Ok?
    ensures Ranges.Length(Zero(env, d).value) == Some(LengthMin(d) as nat)
    ensures Ranges.ValidateRange(d.kind, d.compiled.value, Zero(env, d).value).Pass?
  {
    var z := Zero(env, d).value;
    if d.kind == Map {
      ZeroEntriesCount(Fill(env, d.item.value, LengthMin(d), true).value);
    }
  }

  /** A LIST of INTEGER whose length range is 2 to 5. */
  function ShortListDomain(): Domain {
    var intItem := Domain(Integer, None, Null, None, Some(IntC(JInt)), None);
    var range := ListVal(FList(Domain(List, None, Null, None, Some(ListC), None), Iwr.Read, [IntVal(JInt, 2), IntVal(JInt, 5)]));
    Domain(List, Some("INTEGER"), range, Some(Bounds(Some(IntVal(JInt, 2)), Some(IntVal(JInt, 5)))), Some(ListC), Some(intItem))
  }

  /** The source's list zero of `ShortListDomain` reads the item
      domain's range, which is absent, so it is empty. */
  lemma ShortZeroAsWritten(env: Types.Env)
    ensures ZeroAsWritten(env, ShortListDomain()) == Ok(ListVal(FList(ShortListDomain(), Iwr.Read, [])))
  {
  }

  /** LIST's `from` refuses an empty list for `ShortListDomain`: it is
      shorter than the minimum length 2. */
  lemma ShortEmptyRefused(env: Types.Env)
    ensures Coerce.From(env, List, Some(ShortListDomain()), Coerce.Fv(ListVal(FList(ShortListDomain(), Iwr.Read, [])))).Err?
  {
    hide Coerce.FromPayload, Coerce.Validated, Coerce.FromCollection;
    var d := ShortListDomain();
    var v := ListVal(FList(d, Iwr.Read, []));
    assert Coerce.Fixed(env, List, Some(d), v);
    Coerce.FixedPassesUnchanged(env, List, Some(d), v, Iwr.Read);
    ShortEmptyOutOfRange();
  }

  /** An empty list is outside the length range of `ShortListDomain`. */
  lemma ShortEmptyOutOfRange()
    ensures Coerce.Validated(List, Some(ShortListDomain()), ListVal(FList(ShortListDomain(), Iwr.Read, []))).Err?
  {
  }

  /** The source's list zero reads the item domain's range, which the
      items have none of here, so it is empty, and `from` refuses it for
      its own domain. */
  lemma ListZeroTooShort(env: Types.Env)
    ensures ZeroAsWritten(env, ShortListDomain()) == Ok(ListVal(FList(ShortListDomain(), Iwr.Read, [])))
    ensures Coerce.From(env, List, Some(ShortListDomain()), Coerce.Fv(ZeroAsWritten(env, ShortListDomain()).value)).Err?
  {
    hide *;
    ShortZeroAsWritten(env);
    ShortEmptyRefused(env);
  }

  /** The intended list zero of `ShortListDomain` holds two `int` zeros. */
  lemma ShortZeroFilled(env: Types.Env)
    ensures Zero(env, ShortListDomain()) == Ok(ListVal(FList(ShortListDomain(), Iwr.Read, [IntVal(JInt, 0), IntVal(JInt, 0)])))
  {
    hide ItemZero, Fill;
    var d := ShortListDomain();
    assert LengthMin(d) == 2;
    ShortFill(env);
  }

  /** The item zero of `ShortListDomain` is the `int` zero. */
  lemma ShortItemZero(env: Types.Env)
    ensures ItemZero(env, ShortListDomain().item.value, true) == Ok(IntVal(JInt, 0))
  {
  }

  /** Two item zeros fill the intended list zero of `ShortListDomain`. */
  lemma ShortFill(env: Types.Env)
    ensures Fill(env, ShortListDomain().item.value, 2, true) == Ok([IntVal(JInt, 0), IntVal(JInt, 0)])
  {
    hide ItemZero;
    ShortItemZero(env);
    var r := Fill(env, ShortListDomain().item.value, 2, true);
    assert r.value == [IntVal(JInt, 0), IntVal(JInt, 0)];
  }

  /** The intended list zero holds as many zeros as the list's own
      minimum length, two here, and `from` accepts it unchanged. */
  lemma ListZeroFilled(env: Types.Env)
    ensures Zero(env, ShortListDomain()) == Ok(ListVal(FList(ShortListDomain(), Iwr.Read, [IntVal(JInt, 0), IntVal(JInt, 0)])))
    ensures Coerce.From(env, List, Some(ShortListDomain()), Coerce.Fv(Zero(env, ShortListDomain()).value))
            == Zero(env, ShortListDomain())
  {
    var d := ShortListDomain();
    var z := ListVal(FList(d, Iwr.Read, [IntVal(JInt, 0), IntVal(JInt, 0)]));
    ShortZeroFilled(env);
    ShortZeroPasses(env, z);
    hide Zero, Coerce.FromPayload, Coerce.Validated;
    assert Coerce.From(env, List, Some(d), Coerce.Fv(z)) == Coerce.FromValue(env, List, Some(d), true, z, Iwr.Read);
  }

  /** The filled list zero is fixed for its own domain and within its
      range, so `_from` and the range check both hand it back. */
  lemma ShortZeroPasses(env: Types.Env, z: Value)
    requires z == ListVal(FList(ShortListDomain(), Iwr.Read, [IntVal(JInt, 0), IntVal(JInt, 0)]))
    ensures Coerce.FromPayload(env, List, Some(ShortListDomain()), z, Iwr.Read) == Ok(z)
    ensures Coerce.Validated(List, Some(ShortListDomain()), z) == Ok(z)
  {
    Coerce.FixedPassesUnchanged(env, List, Some(ShortListDomain()), z, Iwr.Read);
  }

  /** BLOB with no range. */
  const BlobDomain := Domain(Blob, None, Null, None, Some(BlobC), None)

  /** The source's blob zero is the INTEGER value `BYTE_ZERO`, which `from`
      refuses for a blob. */
  lemma BlobZeroIsAnInteger(env: Types.Env)
    ensures ZeroAsWritten(env, BlobDomain) == Ok(IntVal(JByte, 0))
    ensures Coerce.From(env, Blob, Some(BlobDomain), Coerce.Fv(ZeroAsWritten(env, BlobDomain).value))
            == Err(Coerce.CannotAssign(Integer, Blob))
  {
    assert Coerce.FromInput(env, Blob, Some(BlobDomain), Coerce.Fv(IntVal(JByte, 0)), Iwr.Read)
           == Coerce.FromValue(env, Blob, Some(BlobDomain), true, IntVal(JByte, 0), Iwr.Read);
  }

  /** The intended `BLOB_ZERO` is an empty, readonly blob that `from` hands
      back as it is. */
  lemma BlobZeroIsEmptyBlob(env: Types.Env)
    ensures Zero(env, BlobDomain) == Ok(BlobVal(BlobData(Iwr.Read, [], None)))
    ensures Coerce.From(env, Blob, Some(BlobDomain), Coerce.Fv(Zero(env, BlobDomain).value)) == Zero(env, BlobDomain)
  {
    var b := BlobVal(BlobData(Iwr.Read, [], None));
    assert Coerce.Fixed(env, Blob, Some(BlobDomain), b);
    Coerce.FixedPassesUnchanged(env, Blob, Some(BlobDomain), b, Iwr.Read);
    assert Coerce.FromValue(env, Blob, Some(BlobDomain), true, b, Iwr.Read) == Ok(b);
  }
}
